=== FILE: README.md ===
# PolicyLens decision logic in Dafny

PolicyLens runs a piece of content or an ad past a panel of LLM "judges".
It reduces their verdicts to a distribution over five tiers of the
mitigation ladder (REMOVE, AGE_GATE, REDUCE_REACH, LABEL, ALLOW) and a
consensus badge. It also compares verdicts across model families and scores
ads for scam patterns. The browser front end aggregates, filters, exports
and displays those results.

This project models the pure decision logic on both sides as Dafny functions
and methods over immutable data, and proves what that logic promises.
Remote calls become inputs: LLM answers, scraper items, WHOIS answers and
HTTP fetch outcomes. Opaque primitives become function parameters: regular
expressions, hashing, URL quoting, base64 and date formatting.

Module layout, one module per source file or component:

- `Base`, `Sorting`, `Dedup`, `Records`: shared helpers.
  - `Option`/`Res`, filters, subsequences and ASCII string functions.
  - A stable descending insertion sort.
  - First-wins deduplication.
  - Insertion-ordered dictionaries, standing for Python dicts and JS objects.
- `Models`: the pydantic models and their defaults and bounds.
- `AdScanner`: the scam-pattern table, fingerprint detection, policy violations, the harm score, consensus categorisation and the sample-ad keyword filter.
- `Engine`: the jury run (judge-id override, keeping successful calls), the distribution, the badge, the crux fallback and the content preview.
- `MultiModel`: verdict collection across model families, the agreement level, escalation and the disagreement summary.
- `ApifyClient`: the shape of one scraped item and the precedence of its ad-text fields.
- `ApifyExtract`: field-precedence extraction of one scraped ad, limit-bounded signature dedup, and the Ad Library URL.
- `Enrichment`: the red/green flag scanner, the keyword risk label, the domain-age upgrade, and the domain rules of the WHOIS lookup.
- `Crawler`: landing-page skip rules, the crawl outcome, and the collection of several crawls.
- `ScanView`: the front end's types for scan results.
- `BatchResults`: batch aggregation, scam-type ranking and export truncation.
- `BatchPage`: query parsing, share-link encoding, the per-query status machine and the counters.
- `ScannerPage`: the result filters, the scam-type toggle and the available types.
- `CsvExport`: the CSV export, plus an RFC 4180 reader used to state what the export means.
- `JudgeSelection`: judge search, grouping, category order, toggling, presets, category select-all and submit.
- `JudgeNames`, `VerdictDistribution`, `DisagreementMatrix`, `VerdictSummary`: the distribution views and judge-name formatting.
- `AnalysisHistory`: the recent-analyses list.
- `ScanProgress`: the scan progress panel.

## Model

| member | source | states |
|---|---|---|
| Models.TiersEnumerated | backend/models.py:7-13 | Exactly five tiers, in the order REMOVE, AGE_GATE, REDUCE_REACH, LABEL, ALLOW; each name parses back to its tier |
| Models.ParseTier | backend/models.py:7-13 | A string is accepted iff it is the name of a tier, and then it maps to that tier |
| Models.NewJudgeVerdict | backend/models.py:16-24 | Validation succeeds iff the required fields are present, the tier parses and the confidence lies in [0,1]; mitigating factors and refusal_to_instruct may be left out, defaulting to empty and true, but a `null` for either fails validation |
| Models.BadgesEnumerated | backend/models.py:27-32 | Exactly four distinct consensus badges |
| Models.NewSynthesisResult | backend/models.py:35-50 | A synthesis result carries the fixed watermark |
| Models.NewRefereeDecision | backend/models.py:67-89 | A referee decision needs the required fields, confidence in [0,1] and a valid tier; decision difficulty and ambiguity factors may be left out, defaulting to MODERATE and empty, but a `null` for either fails validation; given values are kept |
| Models.AgreementLevelsEnumerated | backend/models.py:113-117 | Exactly three agreement levels with distinct names |
| Models.NewPolicyLensRequest | backend/models.py:243-264 | A request is accepted iff its content text is absent or at most 10000 characters and neither the judge list nor any deep-dive flag is `null`; a left-out judge list gives the three default ids; each deep-dive flag is on exactly when the body sets it to true |
| Models.DeepDivesOf | backend/models.py:255-264 | The flags validate iff none is `null`; each left-out flag defaults to off on its own, so a flag is on exactly when the body sets it to true |
| AdScanner.ScamPatternsWellFormed | backend/ad_scanner.py:59-247 | The table has eleven rows, one per scam type other than NONE, with distinct types |
| AdScanner.MatchedPatterns | backend/ad_scanner.py:258-266 | The matched patterns are exactly the table's patterns that match the text, in table order |
| AdScanner.ConfidenceFor | backend/ad_scanner.py:268 | Confidence is matched/3 below three matches and exactly 1.0 from three on |
| AdScanner.ConfidenceMonotone | backend/ad_scanner.py:268 | Confidence never decreases as the match count grows, by at most a third per match |
| AdScanner.DetectScamFingerprintsSpec | backend/ad_scanner.py:250-278 | A category is reported iff one of its patterns matches; at most one fingerprint per category, each with its table risk; sorted by risk, non-increasing |
| AdScanner.DetectInSpec | backend/ad_scanner.py:250-278 | For any table with distinct types, the sort is stable: fingerprints of equal risk keep table order |
| AdScanner.PolicyViolationsIn | backend/ad_scanner.py:281-293 | Violations are the table policies of the known fingerprint types, deduplicated by policy code with the first occurrence kept, never more than the fingerprints |
| AdScanner.ViolationsFromIsDedup | backend/ad_scanner.py:281-293 | The loop with a set of seen codes equals first-wins deduplication of the known policies |
| AdScanner.HarmScore | backend/ad_scanner.py:296-321 | The harm score is an integer in [1,100]; with no fingerprints and no votes it is 1 |
| AdScanner.HarmScoreUnclamped | backend/ad_scanner.py:308-321 | The score is max(1, fingerprint points + vote points); any fingerprint gives at least 5 |
| AdScanner.FingerprintPointsInt | backend/ad_scanner.py:308-312 | The float expression truncates to an integer between 5 and 50 |
| AdScanner.VotePointsInt | backend/ad_scanner.py:314-319 | In exact arithmetic the vote part equals 5·(10·REMOVE+7·AGE_GATE) div total and lies in [0,50]; the program's double arithmetic can give one less (see "## Left out") |
| AdScanner.VotePointsAllAgeGate | backend/ad_scanner.py:314-319 | Three AGE_GATE votes out of three give 35 vote points in exact arithmetic |
| AdScanner.HarmScoreCryptoExample | backend/ad_scanner.py:296-321 | Three crypto matches and no votes score 45 |
| AdScanner.Categorize | backend/ad_scanner.py:533-559 | VIOLATING iff restrictive votes exceed half; BENIGN iff not that and permissive votes exceed half; MIXED otherwise and with no votes |
| AdScanner.CategorizeReduceReach | backend/ad_scanner.py:533-559 | A panel voting only REDUCE_REACH yields MIXED |
| AdScanner.BuildAdLibraryUrl | backend/ad_scanner.py:324-326 | The ad id can be read back from the library URL |
| AdScanner.AdLibraryUrlRoundTrip | backend/ad_scanner.py:324-326 | Every library URL is rebuilt from the id read out of it |
| AdScanner.AdsByKeyword | backend/ad_scanner.py:515-530 | The keyword search that `GetSampleAdsByKeyword` runs over the demo ads: at most max_ads ads, in list order; if any ad matches the keyword the result is the first max_ads matching ads, otherwise a prefix of the list |
| AdScanner.AdsByKeywordMembers | backend/ad_scanner.py:515-530 | With room for every ad and some ad matching, an ad is returned exactly when it matches the lower-cased keyword |
| Engine.RunJudge | backend/engine.py:92-148 | A judge call succeeds iff the judge exists, the model answered and the fields validate; the verdict's judge id is always the requested one |
| Engine.ValidVerdicts | backend/engine.py:66-77 | Kept verdicts follow the selected-judge order and are never more than the judges |
| Engine.ValidVerdictsAllSucceed | backend/engine.py:66-77 | When every call succeeds, one verdict per selected judge, in order |
| Engine.ValidVerdictsAppend | backend/engine.py:66-77 | Results of disjoint judge lists concatenate, so a failed judge affects no other |
| Engine.Distribution | backend/engine.py:158-160 | Exactly the five tier keys in ladder order, each with its verdict count; the counts sum to the number of verdicts |
| Engine.TierCountsSum | backend/engine.py:158-160 | The five tier counts add up to the number of verdicts |
| Engine.BadgeFor | backend/engine.py:163-175 | UNANIMOUS iff max equals total; MAJORITY iff max ≥ 0.6·total; SPLIT iff max ≥ 0.4·total; CHAOS otherwise and with no verdicts |
| Engine.ConsensusUnanimous | backend/engine.py:163-175 | The badge is UNANIMOUS iff there are verdicts and they all share one tier |
| Engine.ConsensusMajorityExample | backend/engine.py:163-175 | REMOVE, REMOVE, ALLOW is MAJORITY |
| Engine.Crux | backend/engine.py:179-198 | A failed narrative call or absent text gives the processing-error narrative and "Unknown"; missing keys take their own defaults; a field holding anything but a string raises when the result record is built |
| Engine.SynthesizeNullRaises | backend/engine.py:179-198 | A `null` narrative or tension makes the synthesis raise, whatever the verdicts |
| Engine.SynthesizeCruxIndependent | backend/engine.py:179-191 | Badge and distribution do not depend on the narrative call |
| Engine.ContentPreview | backend/engine.py:83-87 | The text itself up to 200 characters, else its first 200 plus "..."; "[Image Only Content]" for absent or empty text; never over 203 |
| Engine.EvaluateContent | backend/engine.py:42-90 | It raises exactly when a non-empty image string fails to decode or the synthesis raises; otherwise the verdicts are the successful judge calls of the panel, in order, each judge known; the preview is the content preview; the synthesis is taken over exactly those verdicts; the distribution sums to the verdict count |
| Engine.EvaluateContentAllSucceed | backend/engine.py:42-90 | When the image (if any) decodes, every judge call succeeds and the synthesis validates, the evaluation succeeds and the response holds one verdict per selected judge, in panel order, and the distribution counts all of them |
| Engine.EvaluateContentBadImageRaises | backend/engine.py:48-49 | A non-empty image string that the base64 decoder rejects makes the evaluation raise, whatever the judges answer |
| Engine.DefaultPanelEmpty | backend/models.py:251-254 | The default judge ids are not in the judge table, so they yield no verdicts and, when the synthesis succeeds, a CHAOS badge |
| Engine.DefaultJudgeNotInTable | backend/judges.py:3355-3359 | No default judge id is a key of the judge table |
| MultiModel.Queued | backend/multi_model.py:283-311 | Families are queued in google, openai, anthropic order, exactly those with a configured client |
| MultiModel.CollectVerdicts | backend/multi_model.py:319-331 | Collected verdicts follow the queue order, dropping failures |
| MultiModel.CollectVerdictsAllValid | backend/multi_model.py:319-331 | When every family answers validly, one verdict per queued family |
| MultiModel.Classify | backend/multi_model.py:334-363 | Fewer than two verdicts: DISAGREEMENT with escalation and the insufficient summary; one tier: FULL, no escalation; two tiers: PARTIAL; three or more: DISAGREEMENT with escalation |
| MultiModel.ClassifyTwoTiers | backend/multi_model.py:346-359 | With two tiers, escalation iff they are more than one rung apart; adjacent tiers get the severity summary |
| MultiModel.EscalationIff | backend/multi_model.py:334-363 | No escalation iff at least two verdicts lie within one rung of each other |
| MultiModel.ThreeTiersApart | backend/multi_model.py:360-363 | Three distinct tiers can never lie within one rung |
| MultiModel.SummaryPartShape | backend/multi_model.py:372-377 | Each item reads "Family (model id): TIER", the lower-case family name capitalised |
| MultiModel.DisagreementSummaryTwo | backend/multi_model.py:372-377 | For two verdicts the summary is "Model disagreement: " and both items joined with " vs " |
| MultiModel.TitleFamilies | backend/multi_model.py:376 | The family names are shown as "Google" and "Openai" |
| MultiModel.RunCrossModel | backend/multi_model.py:265-369 | It succeeds iff some client is configured and no answer lacks a field; its verdicts are then the collected ones, in queue order, and level, escalation and summary are their classification; fewer than two verdicts give DISAGREEMENT with escalation |
| MultiModel.RunCrossModelAllValid | backend/multi_model.py:265-369 | When every queued family answers with valid fields there is one verdict per family, and escalation is skipped iff at least two answered within one rung of each other |
| ApifyClient.FirstTruthy | backend/apify_ads_client.py:266-308 | The `or` chain yields a non-empty value iff some candidate is non-empty |
| ApifyClient.FirstTruthyIsFirst | backend/apify_ads_client.py:266-308 | The value picked is the first non-empty candidate |
| ApifyClient.RawAdTextPrecedence | backend/apify_ads_client.py:266-308 | Title and body joined by a blank line when both exist; else the first of body, title, card texts, link description; else the page/CTA fallback |
| ApifyExtract.AdIdFor | backend/apify_ads_client.py:328-333 | The ad id is collation_id, else ad_id, else ad_archive_id, else the hash fallback |
| ApifyExtract.DatePart | backend/apify_ads_client.py:337-346 | A string start date keeps only the part before "T" |
| ApifyExtract.AdvertiserFor | backend/apify_ads_client.py:318-324 | The advertiser is the first non-empty name candidate or "Unknown Advertiser", cut to 100 characters |
| ApifyExtract.LandingPageFirst | backend/apify_ads_client.py:388-410 | The landing page is the first non-empty of the snapshot, ad, creative, card and CTA links |
| ApifyExtract.ImageUrlsMembers | backend/apify_ads_client.py:424-427 | A URL is collected iff some image's resized-or-original URL is that non-empty string |
| ApifyExtract.Thumbnails | backend/apify_ads_client.py:414-436 | Thumbnails hold every non-empty image URL once, in first-seen order, and are absent when there is none |
| ApifyExtract.ExtractAd | backend/apify_ads_client.py:244-484 | An ad is produced iff the item is readable, its stripped text has at least 5 characters and its `is_active` is not `null`; the ad is active unless `is_active` is false; text is 1..1500 characters, advertiser 1..100 |
| ApifyExtract.CollectUnique | backend/apify_ads_client.py:219-239 | The loop equals: drop items that fail to extract, keep the first ad per signature, take at most the limit |
| ApifyExtract.ParseApifyResponse | backend/apify_ads_client.py:210-242 | Raises iff the first item is not a dict; otherwise the limited first-wins dedup of the extracted ads |
| ApifyExtract.ParsedAdsBounds | backend/apify_ads_client.py:219-235 | At most limit ads, none for limit ≤ 0, in input order, with pairwise-distinct signatures |
| ApifyExtract.LibraryParams | backend/apify_ads_client.py:186-208 | Seven parameters in fixed order, active_status lower-cased and q the keyword |
| ApifyExtract.LibraryUrlQuery | backend/apify_ads_client.py:186-208 | The URL's query splits back into the seven name=value pairs in order |
| Enrichment.FlagText | backend/ad_enrichment.py:252-259 | A flag never starts with a bullet mark |
| Enrichment.ScanIsCollected | backend/ad_enrichment.py:247-275 | The line scanner collects exactly the bullet lines that follow a header before a closing line, each over 5 characters; the cap of five is applied afterwards by the response parser |
| Enrichment.SectionFlagsSpec | backend/ad_enrichment.py:247-275 | Flags are collected only when the lower-cased content mentions the section header |
| Enrichment.ParseResearchResponse | backend/ad_enrichment.py:234-306 | Red and green flags are the first five lines each section scanner collects; company info is the first 500 characters, absent when empty; sources are the first five citations; the whole content is the assessment; confidence is the keyword assessment adjusted by the flag counts, so 3+ flags on one side only force high confidence |
| Enrichment.RiskFromText | backend/ad_enrichment.py:349-358 | The first of likely_scam, suspicious, likely_legitimate found in the lower-cased text, else unclear |
| Enrichment.OverallRisk | backend/ad_enrichment.py:349-362 | Unknown iff there is no research text; a newly registered domain upgrades only unclear, to suspicious |
| Enrichment.DomainOnlyUpgradesUnclear | backend/ad_enrichment.py:360-362 | Domain information changes the risk only from unclear to suspicious |
| Enrichment.EnrichAd | backend/ad_enrichment.py:309-369 | Domain information is looked at only with a non-empty landing page; the risk is the overall rule |
| Enrichment.DomainName | backend/ad_enrichment.py:54-57 | One leading "www." is stripped from the host |
| Enrichment.GetDomainInfo | backend/ad_enrichment.py:48-110 | Newly registered iff the age is known and under 90 days; an error is reported iff no WHOIS record came back; an exception names the whole URL |
| Crawler.FirstSkip | backend/landing_page_crawler.py:39-53 | The skip pattern found is the first that matches; none iff no pattern matches |
| Crawler.CrawlLandingPage | backend/landing_page_crawler.py:23-93 | Exactly one of content or error; empty and skipped URLs fail without fetching; content iff status 200, HTML and more than 50 stripped characters, then its first 3000 |
| Crawler.CrawlErrors | backend/landing_page_crawler.py:71-93 | "HTTP <code>", "Timeout", "Connection failed", or "Error: " and at most 100 characters |
| Crawler.SkipsScheme | backend/landing_page_crawler.py:39-53 | Skip patterns ignore case and a trailing newline |
| Crawler.CrawlMultiplePages | backend/landing_page_crawler.py:199-237 | Result keys are non-empty input URLs |
| Crawler.CollectKeys | backend/landing_page_crawler.py:199-237 | A URL has a result iff one of its crawls completed |
| Crawler.CollectLastWins | backend/landing_page_crawler.py:199-237 | A duplicate URL keeps the result of its last completed crawl |
| Crawler.DuplicateLaterWins | backend/landing_page_crawler.py:199-237 | Two crawls of one URL keep the second result |
| BatchResults.AccumulateLists | frontend/src/components/BatchScanResults.tsx:51-80 | The violating, mixed and benign lists concatenate the statuses' results, tagged with their query; statuses without a result add nothing |
| BatchResults.AccumulateTotal | frontend/src/components/BatchScanResults.tsx:54 | totalAds is the sum of total_ads over statuses with a result |
| BatchResults.AccumulateCounts | frontend/src/components/BatchScanResults.tsx:58-79 | Harm total and count cover violating and mixed ads with a score; scam-type counts come from those ads only |
| BatchResults.AggregatedData | frontend/src/components/BatchScanResults.tsx:51-96 | Violating and mixed lists are stably sorted by harm, a missing score as 0, as permutations of the concatenation; the average is total/count, 0 for no count |
| BatchResults.AverageHarmBounds | frontend/src/components/BatchScanResults.tsx:94 | The average is 0 iff no counted ad has a score, and otherwise lies in [1,100] |
| BatchResults.TopScamTypes | frontend/src/components/BatchScanResults.tsx:101-103 | The first ten entries of the stable count-descending sort of the counts, so a sub-multiset of them, sorted by count, none left out with a higher count than one kept |
| BatchResults.ExportAd | frontend/src/components/BatchScanResults.tsx:131-139 | Exported text is a prefix of the ad text, exactly 500 characters when longer and the whole text otherwise; advertiser and library URL are copied; scam types are present iff fingerprints are, and are their types |
| BatchResults.ExportAdStable | frontend/src/components/BatchScanResults.tsx:131-139 | Exporting an ad whose text is already the exported cut gives the same record again |
| BatchPage.QueriesToRun | frontend/src/app/ad-scanner/batch/page.tsx:332-340 | Custom queries are the trimmed non-empty lines; an empty list starts no scan |
| BatchPage.QueryLinesRoundTrip | frontend/src/app/ad-scanner/batch/page.tsx:332-340 | Trimmed, non-empty queries joined by newlines parse back to themselves |
| BatchPage.DecodeShared | frontend/src/app/ad-scanner/batch/page.tsx:93-94 | Decoded queries are the non-blank "\|"-separated parts |
| BatchPage.SharedRoundTrip | frontend/src/app/ad-scanner/batch/page.tsx:93-94 | Encoding and decoding a list without "\|" gives it back |
| BatchPage.ShareAddress | frontend/src/app/ad-scanner/batch/page.tsx:145-153 | Queries are written to the URL only when it stays under 2000 characters |
| BatchPage.InitialStatuses | frontend/src/app/ad-scanner/batch/page.tsx:133-136 | One pending status per query, in query order |
| BatchPage.Settle | frontend/src/app/ad-scanner/batch/page.tsx:195-234 | Success completes with the result; an error mentioning NO_ADS_FOUND completes with "No ads found"; any other error fails with its message |
| BatchPage.ScanKeepsConsistent | frontend/src/app/ad-scanner/batch/page.tsx:159-234 | Running one scan keeps the query list and every status consistent |
| BatchPage.CountsPartition | frontend/src/app/ad-scanner/batch/page.tsx:353-358 | Completed (with failed), running and pending counts add up to the number of queries |
| BatchPage.TotalsAgree | frontend/src/app/ad-scanner/batch/page.tsx:353-358 | The page's totals equal those of the batch aggregation |
| ScannerPage.FilterAds | frontend/src/app/ad-scanner/page.tsx:98-112 | An ad survives iff it reaches the minimum harm (missing as 0) and shares a selected type, when any is selected; survivors keep their order |
| ScannerPage.FilteredResults | frontend/src/app/ad-scanner/page.tsx:96-121 | Each category list is that list passed through the ad filter; keyword, totals, timestamp and stats are unchanged |
| ScannerPage.FilterAdsIdempotent | frontend/src/app/ad-scanner/page.tsx:98-112 | Filtering a filtered list again with the same settings changes nothing |
| ScannerPage.FilteredResultsIdempotent | frontend/src/app/ad-scanner/page.tsx:96-121 | Applying the same filters twice is the same as once |
| ScannerPage.NoFilterIsIdentity | frontend/src/app/ad-scanner/page.tsx:96-121 | With minimum 0 and no types selected the filter changes nothing |
| ScannerPage.Toggle | frontend/src/app/ad-scanner/page.tsx:124-134 | Toggling flips exactly one type |
| ScannerPage.ToggleTwice | frontend/src/app/ad-scanner/page.tsx:124-134 | Toggling twice restores the selection |
| ScannerPage.AvailableScamTypes | frontend/src/app/ad-scanner/page.tsx:137-142 | Types sorted by count, non-increasing, as a stable permutation of the stats; empty without stats |
| CsvExport.CsvRow | frontend/src/components/AdScanResults.tsx:34-43 | The ten fields hold the ad's values; only the ad text and the narrative are quoted |
| CsvExport.ReadQuotedEscape | frontend/src/components/AdScanResults.tsx:41-42 | A quoted field with doubled inner quotes reads back as the original text |
| CsvExport.CsvReadsBack | frontend/src/components/AdScanResults.tsx:30-46 | When the unquoted fields hold no comma, quote or newline, a CSV reader gets back the header and one 10-field row per ad, violating then mixed then benign |
| CsvExport.CommaInAdvertiserAddsColumn | frontend/src/components/AdScanResults.tsx:35 | An advertiser name with a comma turns its row into 11 fields |
| CsvExport.QuotedCsvReadsBack | frontend/src/components/AdScanResults.tsx:30-46 | With every field quoted, the export always reads back as the header and one 10-field row per ad |
| JudgeSelection.FilterJudges | frontend/src/components/InputModule.tsx:278-284 | A blank search keeps every judge; otherwise exactly those whose name or description contains the query, ignoring case, in order |
| JudgeSelection.SearchNarrows | frontend/src/components/InputModule.tsx:278-284 | Typing more characters never brings back a judge |
| JudgeSelection.GroupKeysCorrect | frontend/src/components/InputModule.tsx:287-292 | Groups are the judges' categories in order of first appearance, an empty category counting as platform |
| JudgeSelection.GroupMembersCorrect | frontend/src/components/InputModule.tsx:287-292 | Each group holds its category's judges in list order |
| JudgeSelection.JudgeInOwnGroup | frontend/src/components/InputModule.tsx:287-292 | A judge is in a group iff it is that judge's category |
| JudgeSelection.SortedCategories | frontend/src/components/InputModule.tsx:294-298 | Categories are stably sorted by their order, 99 when unknown |
| JudgeSelection.ToggleJudge | frontend/src/components/InputModule.tsx:422-428 | A present id is removed everywhere, an absent one appended; nothing else changes |
| JudgeSelection.ToggleJudgeTwice | frontend/src/components/InputModule.tsx:422-428 | Toggling an absent id twice restores the list |
| JudgeSelection.Union | frontend/src/components/InputModule.tsx:308-315 | The union keeps the existing list as a prefix, adds the new ids, and has no duplicates |
| JudgeSelection.ApplyPreset | frontend/src/components/InputModule.tsx:301-315 | A preset adds its category's or its listed judges to the selection, with no duplicates |
| JudgeSelection.SelectCategoryJudges | frontend/src/components/InputModule.tsx:329-342 | When all of a category's judges are selected they are removed; otherwise all are added |
| JudgeSelection.SelectCategoryTwice | frontend/src/components/InputModule.tsx:329-342 | From a partial selection, two clicks leave the selection without the category's judges |
| JudgeSelection.HandleSubmit | frontend/src/components/InputModule.tsx:430-444 | A request is sent iff the text is not blank and at least two judges are selected; an empty context hint is sent as absent |
| JudgeSelection.ImageOnlySubmitIgnored | frontend/src/components/InputModule.tsx:430-444 | With only an image and two judges the button is enabled but nothing is sent |
| JudgeSelection.ImageOnlyExample | frontend/src/components/InputModule.tsx:915 | A concrete image-only form that is enabled and ignored |
| JudgeSelection.HandleSubmitFixed | frontend/src/components/InputModule.tsx:430-444 | A request is sent iff there is text or an image and at least two judges; blank text is sent as absent |
| JudgeSelection.EnabledSubmitSends | frontend/src/components/InputModule.tsx:915 | An enabled button with two judges always sends, and with text the request is as before |
| JudgeNames.WordsAsTitle | frontend/src/components/DisagreementMatrix.tsx:70 | Split on "_", capitalise each word and join with spaces is title casing character by character |
| JudgeNames.UnknownNameIsTitleCase | frontend/src/components/DisagreementMatrix.tsx:49-71 | An id outside the name map is shown title-cased, with the same length |
| VerdictDistribution.NormaliseItemsGet | frontend/src/components/DisagreementMatrix.tsx:39-44 | In the record built from the list form, each tier holds the count of its last item |
| VerdictDistribution.NormaliseRoundTrip | frontend/src/components/DisagreementMatrix.tsx:39-44 | A record with distinct tiers, listed as items, normalises back to itself |
| VerdictDistribution.MaxCount | frontend/src/components/DisagreementMatrix.tsx:46 | maxCount is at least 1 and every count, and equal to some count when above 1 |
| DisagreementMatrix.BarWidth | frontend/src/components/DisagreementMatrix.tsx:160-161 | Width 0 for no votes; otherwise the count's percentage of the largest count, raised to 10 when that percentage is below 10 |
| DisagreementMatrix.BarWidthMonotone | frontend/src/components/DisagreementMatrix.tsx:160-161 | More votes never give a shorter bar; the top tier fills the row |
| DisagreementMatrix.GroupedByTier | frontend/src/components/DisagreementMatrix.tsx:82-85 | One group per tier, in ladder order, each the verdicts of that tier |
| DisagreementMatrix.InTierMembers | frontend/src/components/DisagreementMatrix.tsx:82-85 | A verdict is in a tier's group iff it has that tier |
| DisagreementMatrix.GroupSizes | frontend/src/components/DisagreementMatrix.tsx:82-85 | The five group sizes add up to the number of verdicts |
| DisagreementMatrix.GroupCopies | frontend/src/components/DisagreementMatrix.tsx:82-85 | A group holds each verdict of its tier as often as the input does |
| DisagreementMatrix.PlatformSplit | frontend/src/components/DisagreementMatrix.tsx:88-89 | Platform and other verdicts partition the verdicts, by judge id |
| DisagreementMatrix.OutliersAgainstTop | frontend/src/components/DisagreementMatrix.tsx:92-93 | Outliers are the verdicts away from the first tier of maximal count in record order |
| DisagreementMatrix.OutliersWithoutCounts | frontend/src/components/DisagreementMatrix.tsx:92-93 | With no counts every verdict is an outlier |
| DisagreementMatrix.CategorizeJudge | frontend/src/components/DisagreementMatrix.tsx:74-79 | One of four labels, each iff the id is in its list, safety for any other id |
| DisagreementMatrix.DisplayName | frontend/src/components/DisagreementMatrix.tsx:49-71 | The long display name when mapped, else the title-cased id |
| VerdictSummary.TierCountsMeaning | frontend/src/components/VerdictSummary.tsx:43-47 | Each occurring tier once, in order of first appearance, with its verdict count; counts sum to the number of verdicts |
| VerdictSummary.MostCommonTier | frontend/src/components/VerdictSummary.tsx:50-51 | There is a most common tier iff there are verdicts |
| VerdictSummary.MostCommonTierIsFirstMax | frontend/src/components/VerdictSummary.tsx:50-51 | The most common tier has the highest count, and is the first such tier to appear |
| VerdictSummary.ShortName | frontend/src/components/VerdictSummary.tsx:14-36 | The short name when mapped, else the title-cased id |
| AnalysisHistory.ReduceMaxIsLastMax | frontend/src/components/AnalysisHistory.tsx:44 | The reduction picks the last item of maximal count |
| AnalysisHistory.MajorityTierTies | frontend/src/components/AnalysisHistory.tsx:40-50 | The list form picks the last maximal tier, the record form the first |
| AnalysisHistory.TieExample | frontend/src/components/AnalysisHistory.tsx:40-50 | With REMOVE and ALLOW tied the two forms record different tiers |
| AnalysisHistory.MakeEntry | frontend/src/components/AnalysisHistory.tsx:52-58 | The entry carries the request id, the time and the response; its preview is the first verdict's policy axis, or "Analysis"; its tier is the distribution's majority tier |
| AnalysisHistory.MakeEntryVerdictIsTop | frontend/src/components/AnalysisHistory.tsx:40-58 | A saved entry's tier has the highest count of the distribution, or is REMOVE when the distribution is empty |
| AnalysisHistory.AddEntry | frontend/src/components/AnalysisHistory.tsx:60-64 | The new entry comes first, no other entry shares its id, the rest keep their order, at most 10 entries, ids stay unique |
| AnalysisHistory.AddEntryIdempotent | frontend/src/components/AnalysisHistory.tsx:60-64 | Saving the same entry twice equals saving it once |
| AnalysisHistory.Clear | frontend/src/components/AnalysisHistory.tsx:76-79 | Clearing empties the history |
| ScanProgress.NextStage | frontend/src/components/ScanProgress.tsx:32-42 | Before 100 seconds the stage is the one whose window holds the elapsed time; afterwards the stage stays |
| ScanProgress.StagesAdvance | frontend/src/components/ScanProgress.tsx:10-16 | Stage windows follow each other: a later time never falls in an earlier stage |
| ScanProgress.Progress | frontend/src/components/ScanProgress.tsx:44-45 | Progress is min(elapsed seconds, 95): in [0,95], the elapsed seconds up to 95 and 95 from then on |
| ScanProgress.FormatTimeRoundTrip | frontend/src/components/ScanProgress.tsx:48-52 | The clock string reads back as the seconds it shows |
| ScanProgress.EstimatedTotal | frontend/src/components/ScanProgress.tsx:54 | At least 30 seconds and two per ad |
| ScanProgress.EstimatedRemaining | frontend/src/components/ScanProgress.tsx:55 | Remaining plus elapsed is the estimate until it runs out, then 0 |
| ScanProgress.RemainingShrinks | frontend/src/components/ScanProgress.tsx:55 | The remaining time never grows |

## Left out

- Network, SDK and database calls are inputs, not modelled. This covers the LLM judges, the narrative and analyst calls, the scraper, WHOIS, the web-research call, HTTP fetches, Supabase and local storage.
- Concurrency is not modelled. `asyncio.gather` and the batch queue are taken as sequential, order-preserving collections of outcomes.
- Regular expressions, hashing, URL quoting, base64 and date formatting are opaque parameters. For `evaluate_content` the base64 decoder is reduced to whether it accepts the image string; the decoded bytes only reach the judge calls, whose answers are inputs.
- The skip patterns of the crawler are written as prefix, suffix and infix rules rather than through a regex engine.
- HTML extraction is an opaque input.
- `lower()`, `upper()`, `strip()` and `trim()` act on ASCII letters and ASCII whitespace only. Unicode case mapping is not modelled.
- Floating-point rounding is not modelled. Python `int()` of a float is real arithmetic plus truncation, and JS division is real division.
- AdScanner.VotePointsInt: the vote part, and with it AdScanner.HarmScore, is computed in exact arithmetic, whereas `int(restrictive_ratio * 50)` runs in IEEE doubles where 0.7 is not exact. The program can truncate to one less than the model: three AGE_GATE votes out of three give 34 there and 35 here, and one AGE_GATE vote with four ALLOW gives 6 there and 7 here.
- `toFixed` formatting of numbers on screen is not modelled.
- Object key order for integer-like keys is not modelled. JS enumerates such keys in numeric order, and the model keeps insertion order, which is what tier names and scam types get.
- The judge prompts and persona texts of backend/judges.py are not modelled. Only the judge ids matter here.
- The legacy comma-separated form of shared batch links is not modelled; only the base64 form is.
- Presentation is not modelled: colours, emojis, layout, expand/collapse state, the clipboard and the one-second timer.
- Response fields that no modelled operation reads are not modelled.
- The deep-dive, debate and referee flows beyond their model defaults are not modelled.
- ApifyExtract.ExtractAd: a list or dict where text is expected counts as no text, whereas Python would use its `repr`.
- BatchResults.ExportAd: the 500-character cut counts code points, whereas JavaScript's `substring` counts UTF-16 code units, so a text with characters outside the Basic Multilingual Plane keeps fewer characters in the source and may be cut inside a surrogate pair.
- BatchPage.ShareAddress: `btoa` is a total parameter here, whereas the browser's `btoa` throws for characters above U+00FF; in the source that exception escapes after the statuses are set to pending and the run flag is set, so no scan starts.
- Crawler.CrawlMultiplePages: its own contract states only that keys are non-empty input URLs; which URLs get a result and which result wins are stated by Crawler.CollectKeys and Crawler.CollectLastWins.

## Findings

| source | as written | input that shows it | evidently intended | confidence | as-written member | corrected member |
|---|---|---|---|---|---|---|
| frontend/src/components/AdScanResults.tsx:35 | The advertiser name is written into the CSV without quotes | an advertiser named `Acme, Inc` | Quote every free-text field so each row keeps its ten columns | high, not executed | CsvExport.CommaInAdvertiserAddsColumn | CsvExport.QuotedCsvReadsBack |
| frontend/src/components/InputModule.tsx:431 | `handleSubmit` returns when the text is blank, although the button at line 915 is enabled for an image alone | no text, an attached image, judges `meta` and `youtube` | Send image-only content, which the backend accepts (backend/engine.py:83-87 previews it as "[Image Only Content]") | medium, not executed | JudgeSelection.ImageOnlySubmitIgnored | JudgeSelection.EnabledSubmitSends |

=== FILE: ad_scanner.dfy ===
/**
 * Scam fingerprinting and ad categorisation for the ad scanner: a table of
 * scam categories (each with its regular expressions, a risk score and the
 * advertising policy it breaks), the detector that matches an ad text
 * against the table, the policy-violation list, the composite harm score,
 * the VIOLATING / MIXED / BENIGN category and the demo sample ads.
 *
 * Regular-expression search is the parameter `matches(pattern, text)`:
 * the model does not interpret patterns, it only records which of them
 * were reported as matching.
 */
module AdScanner {
  import opened Base
  import opened Sorting
  import opened Dedup
  import opened Records
  import opened Models
  import Engine

  datatype AdCategory = VIOLATING | MIXED | BENIGN

  datatype ScamType =
    | CRYPTO_SCAM | FAKE_CELEBRITY | PHISHING | MLM_SCHEME | FAKE_WEIGHT_LOSS | ROMANCE_SCAM
    | FAKE_JOB | URGENCY_SCAM | FAKE_GIVEAWAY | HEALTH_MIRACLE | GET_RICH_QUICK | NONE

  datatype Severity = Critical | High | Medium | Low

  /** A clause of the advertising standards. */
  datatype PolicyViolation = PolicyViolation(
    policyCode: string,
    policyName: string,
    policySection: string,
    severity: Severity,
    metaPolicyUrl: string)

  /** A risk score, validated to lie in [1, 10]. */
  type Risk = r: int | 1 <= r <= 10 witness 1

  /** One row of the fingerprint table. */
  datatype ScamPattern = ScamPattern(
    scamType: ScamType,
    patterns: seq<string>,
    riskScore: Risk,
    policy: PolicyViolation)

  datatype ScamFingerprint = ScamFingerprint(
    scamType: ScamType,
    confidence: Confidence,
    matchedPatterns: seq<string>,
    riskScore: Risk)

  function TypeOf(e: ScamPattern): ScamType { e.scamType }
  function FingerprintType(fp: ScamFingerprint): ScamType { fp.scamType }
  function FingerprintRisk(fp: ScamFingerprint): int { fp.riskScore }
  function CodeOf(p: PolicyViolation): string { p.policyCode }

  const CryptoScamPatterns: seq<string> := [
    "(?i)crypto\\s*(giveaway|airdrop)",
    "(?i)send\\s*[\\d.]+\\s*(?:btc|eth|bitcoin|ethereum)",
    "(?i)double\\s*your\\s*(?:btc|crypto|bitcoin)",
    "(?i)bitcoin\\s*(?:investment|opportunity)",
    "(?i)guaranteed\\s*(?:returns?|profit)",
    "(?i)(?:10x|100x)\\s*(?:returns?|gains?)",
    "(?i)next\\s*(?:big|huge)\\s*crypto"]

  const CryptoScamPolicy: PolicyViolation :=
    PolicyViolation("\U{00A7}4.2", "Prohibited Financial Products and Services", "Financial Services", Critical,
      "https://www.facebook.com/policies/ads/prohibited_content/financial_products_and_services")

  const FakeCelebrityPatterns: seq<string> := [
    "(?i)elon\\s*musk\\s*(?:reveals?|announces?|says?|just)",
    "(?i)(?:breaking|urgent):\\s*(?:elon|trump|bezos|gates)",
    "(?i)celebrity\\s*(?:endorsed?|secret|reveals?)",
    "(?i)(?:billionaire|ceo)\\s*(?:reveals?|secret)",
    "(?i)(?:oprah|ellen|dr\\.?\\s*oz)\\s*(?:recommends?|uses?)"]

  const FakeCelebrityPolicy: PolicyViolation :=
    PolicyViolation("\U{00A7}3.2", "Misleading or False Content", "Deceptive Practices", Critical,
      "https://www.facebook.com/policies/ads/prohibited_content/misinformation")

  const PhishingPatterns: seq<string> := [
    "(?i)(?:verify|confirm)\\s*your\\s*(?:account|identity)",
    "(?i)(?:suspended|locked|limited)\\s*account",
    "(?i)click\\s*(?:here|now)\\s*(?:to\\s*)?(?:verify|unlock|confirm)",
    "(?i)(?:unusual|suspicious)\\s*(?:activity|login)",
    "(?i)pay\\s*(?:with|using)\\s*gift\\s*card"]

  const PhishingPolicy: PolicyViolation :=
    PolicyViolation("\U{00A7}1.1", "Illegal Products and Services", "Prohibited Content", Critical,
      "https://www.facebook.com/policies/ads/prohibited_content")

  const FakeWeightLossPatterns: seq<string> := [
    "(?i)lost?\\s*\\d+\\s*(?:lbs?|pounds?|kg)\\s*in\\s*\\d+\\s*(?:days?|weeks?)",
    "(?i)(?:without|no)\\s*(?:diet|exercise|working\\s*out)",
    "(?i)(?:burn|melt)\\s*(?:fat|belly)",
    "(?i)one\\s*(?:simple|weird)\\s*trick",
    "(?i)(?:before|after)\\s*(?:transformation|results?)"]

  const FakeWeightLossPolicy: PolicyViolation :=
    PolicyViolation("\U{00A7}5.1", "Health and Wellness Claims", "Restricted Content", High,
      "https://www.facebook.com/policies/ads/restricted_content/weight_loss")

  const HealthMiraclePatterns: seq<string> := [
    "(?i)doctors?\\s*(?:don'?t\\s*want|hate\\s*this|won'?t\\s*tell)",
    "(?i)big\\s*pharma\\s*(?:hides?|doesn'?t\\s*want)",
    "(?i)cure[sd]?\\s*(?:diabetes|cancer|covid|arthritis)",
    "(?i)(?:miracle|secret|ancient)\\s*(?:cure|remedy|treatment)",
    "(?i)fda\\s*(?:approved|banned)\\s*(?:this|secret)"]

  const HealthMiraclePolicy: PolicyViolation :=
    PolicyViolation("\U{00A7}5.2", "Unsubstantiated Health Claims", "Restricted Content", Critical,
      "https://www.facebook.com/policies/ads/restricted_content/health")

  const GetRichQuickPatterns: seq<string> := [
    "(?i)made?\\s*\\$[\\d,]+\\s*(?:in|within)\\s*\\d+\\s*(?:days?|hours?|weeks?)",
    "(?i)(?:free|secret)\\s*(?:money|cash|income)\\s*(?:method|system)",
    "(?i)(?:banks?|government)\\s*(?:don'?t\\s*want|hates?\\s*this)",
    "(?i)passive\\s*income\\s*(?:secret|system|method)",
    "(?i)(?:quit|leave)\\s*(?:your|my)\\s*(?:job|9.?5)",
    "(?i)dm\\s*(?:me|now)\\s*['\\\"']?(?:money|cash|info)"]

  const GetRichQuickPolicy: PolicyViolation :=
    PolicyViolation("\U{00A7}4.3", "Misleading Financial Claims", "Financial Services", High,
      "https://www.facebook.com/policies/ads/prohibited_content/misleading_claims")

  const UrgencyScamPatterns: seq<string> := [
    "(?i)(?:urgent|warning|alert)[:,]?\\s*(?:your|this)",
    "(?i)(?:expires?|ends?)\\s*(?:in\\s*)?\\d+\\s*(?:hours?|minutes?)",
    "(?i)(?:act|click|buy)\\s*(?:now|fast|immediately)",
    "(?i)(?:limited|last)\\s*(?:time|chance|spots?|offer)",
    "(?i)(?:before\\s*)?(?:they|it)\\s*(?:take[s]?\\s*(?:this|it)\\s*down|runs?\\s*out)"]

  const UrgencyScamPolicy: PolicyViolation :=
    PolicyViolation("\U{00A7}3.4", "Pressure Tactics", "Deceptive Practices", Medium,
      "https://www.facebook.com/policies/ads/prohibited_content/low_quality")

  const FakeGiveawayPatterns: seq<string> := [
    "(?i)(?:free|giving\\s*away)\\s*(?:iphone|macbook|tesla|ps5|xbox)",
    "(?i)(?:won|winner|selected)\\s*(?:for|of)\\s*(?:a|the)\\s*(?:prize|giveaway)",
    "(?i)(?:claim|collect)\\s*your\\s*(?:prize|reward|gift)",
    "(?i)congratulations[!,]?\\s*you'?(?:ve|re)"]

  const FakeGiveawayPolicy: PolicyViolation :=
    PolicyViolation("\U{00A7}3.1", "Deceptive Promotions", "Deceptive Practices", High,
      "https://www.facebook.com/policies/ads/prohibited_content/misleading_claims")

  const FakeJobPatterns: seq<string> := [
    "(?i)(?:no\\s*experience|anyone\\s*can)\\s*(?:needed|required|do\\s*this)",
    "(?i)\\$\\d+[-/]\\d+\\s*(?:per\\s*)?(?:hr|hour)",
    "(?i)(?:work|earn)\\s*(?:from\\s*)?home\\s*(?:today|now)",
    "(?i)(?:hiring|looking\\s*for)\\s*(?:immediately|now|today)",
    "(?i)(?:data\\s*entry|typing)\\s*(?:job|work|position)"]

  const FakeJobPolicy: PolicyViolation :=
    PolicyViolation("\U{00A7}6.1", "Employment Opportunities", "Restricted Content", Medium,
      "https://www.facebook.com/policies/ads/restricted_content/employment")

  const MlmSchemePatterns: seq<string> := [
    "(?i)(?:join\\s*my|become\\s*a)\\s*team",
    "(?i)(?:financial|time)\\s*freedom",
    "(?i)(?:boss|bossbabe|ceo)\\s*(?:babe|life|mode)",
    "(?i)residual\\s*(?:income|earnings?)",
    "(?i)(?:network|multi.?level)\\s*marketing"]

  const MlmSchemePolicy: PolicyViolation :=
    PolicyViolation("\U{00A7}4.4", "Multi-Level Marketing", "Financial Services", Medium,
      "https://www.facebook.com/policies/ads/restricted_content/mlm")

  const RomanceScamPatterns: seq<string> := [
    "(?i)(?:lonely|single)\\s*(?:ladies?|women|men|guys?)",
    "(?i)(?:hot|beautiful)\\s*(?:singles?|women|ladies?)\\s*(?:near|in)\\s*(?:your|my)\\s*area",
    "(?i)(?:meet|date|chat\\s*with)\\s*(?:local|hot|beautiful)"]

  const RomanceScamPolicy: PolicyViolation :=
    PolicyViolation("\U{00A7}2.3", "Adult Content and Dating", "Restricted Content", High,
      "https://www.facebook.com/policies/ads/restricted_content/dating")

  /** The fingerprint table, in the order in which the detector visits it. */
  const ScamPatterns: seq<ScamPattern> := [
    ScamPattern(CRYPTO_SCAM, CryptoScamPatterns, 9, CryptoScamPolicy),
    ScamPattern(FAKE_CELEBRITY, FakeCelebrityPatterns, 9, FakeCelebrityPolicy),
    ScamPattern(PHISHING, PhishingPatterns, 10, PhishingPolicy),
    ScamPattern(FAKE_WEIGHT_LOSS, FakeWeightLossPatterns, 7, FakeWeightLossPolicy),
    ScamPattern(HEALTH_MIRACLE, HealthMiraclePatterns, 9, HealthMiraclePolicy),
    ScamPattern(GET_RICH_QUICK, GetRichQuickPatterns, 8, GetRichQuickPolicy),
    ScamPattern(URGENCY_SCAM, UrgencyScamPatterns, 6, UrgencyScamPolicy),
    ScamPattern(FAKE_GIVEAWAY, FakeGiveawayPatterns, 8, FakeGiveawayPolicy),
    ScamPattern(FAKE_JOB, FakeJobPatterns, 5, FakeJobPolicy),
    ScamPattern(MLM_SCHEME, MlmSchemePatterns, 6, MlmSchemePolicy),
    ScamPattern(ROMANCE_SCAM, RomanceScamPatterns, 7, RomanceScamPolicy)
  ]

  /** The row of each category in the table; NONE has none. */
  function TableRow(t: ScamType): int {
    match t
    case CRYPTO_SCAM => 0
    case FAKE_CELEBRITY => 1
    case PHISHING => 2
    case FAKE_WEIGHT_LOSS => 3
    case HEALTH_MIRACLE => 4
    case GET_RICH_QUICK => 5
    case URGENCY_SCAM => 6
    case FAKE_GIVEAWAY => 7
    case FAKE_JOB => 8
    case MLM_SCHEME => 9
    case ROMANCE_SCAM => 10
    case NONE => -1
  }

  /** The rows follow the category order of `TableRow`. */
  lemma ScamTableRows()
    ensures |ScamPatterns| == 11
    ensures forall i :: 0 <= i < |ScamPatterns| ==> TableRow(ScamPatterns[i].scamType) == i
  {
  }

  lemma TableRowInjective(a: ScamType, b: ScamType)
    requires TableRow(a) == TableRow(b)
    ensures a == b
  {
  }

  /** Every category except NONE has exactly one row. */
  lemma ScamPatternsWellFormed()
    ensures |ScamPatterns| == 11
    ensures forall i :: 0 <= i < |ScamPatterns| ==> TableRow(ScamPatterns[i].scamType) == i
    ensures DistinctKeys(ScamPatterns, TypeOf)
    ensures forall i :: 0 <= i < |ScamPatterns| ==> ScamPatterns[i].scamType != NONE
    ensures forall t: ScamType :: t != NONE <==> t in Keys(ScamPatterns, TypeOf)
  {
    ScamTableRows();
    forall t: ScamType | t != NONE ensures t in Keys(ScamPatterns, TypeOf) {
      var i := TableRow(t);
      assert 0 <= i < 11;
      TableRowInjective(ScamPatterns[i].scamType, t);
      assert TypeOf(ScamPatterns[i]) == t;
    }
  }

  /** `SCAM_PATTERNS[t]` when `t` has a row. */
  function Lookup(table: seq<ScamPattern>, t: ScamType): (r: Option<ScamPattern>)
    ensures r.Some? <==> t in Keys(table, TypeOf)
    ensures r.Some? ==> r.value in table && r.value.scamType == t
    decreases |table|
  {
    if |table| == 0 then None
    else
      KeysCons(table, TypeOf);
      if table[0].scamType == t then Some(table[0]) else Lookup(table[1..], t)
  }

  /** The patterns of one row that the text matches, in table order. */
  function MatchedPatterns(ps: seq<string>, text: string, matches: (string, string) -> bool): (r: seq<string>)
    ensures IsSubseq(r, ps)
    ensures forall i :: 0 <= i < |r| ==> matches(r[i], text)
    ensures forall i :: 0 <= i < |ps| && matches(ps[i], text) ==> ps[i] in r
    ensures |r| > 0 <==> exists i :: 0 <= i < |ps| && matches(ps[i], text)
  {
    var r := Filter(ps, p => matches(p, text));
    assert |r| > 0 ==> r[0] in ps;
    r
  }

  /** `min(1.0, n / 3)`: three or more matching patterns give full confidence. */
  function ConfidenceFor(n: nat): (c: Confidence)
    ensures c == 1.0 <==> n >= 3
    ensures n < 3 ==> c * 3.0 == n as real
  {
    var ratio := n as real / 3.0;
    if 1.0 < ratio then 1.0 else ratio
  }

  lemma ConfidenceMonotone(m: nat, n: nat)
    requires m <= n
    ensures ConfidenceFor(m) <= ConfidenceFor(n)
    ensures ConfidenceFor(n) - ConfidenceFor(m) <= (n - m) as real / 3.0
  {
  }

  /** The fingerprint a row contributes, if any of its patterns matches. */
  function FingerprintFor(e: ScamPattern, text: string, matches: (string, string) -> bool): Option<ScamFingerprint> {
    var m := MatchedPatterns(e.patterns, text, matches);
    if |m| > 0 then Some(ScamFingerprint(e.scamType, ConfidenceFor(|m|), m, e.riskScore)) else None
  }

  /** The fingerprints of the rows that match, in table order. */
  function TableFingerprints(table: seq<ScamPattern>, text: string, matches: (string, string) -> bool): (r: seq<ScamFingerprint>)
    ensures |r| <= |table|
    decreases |table|
  {
    if |table| == 0 then []
    else
      var head := FingerprintFor(table[0], text, matches);
      (if head.Some? then [head.value] else []) + TableFingerprints(table[1..], text, matches)
  }

  /** Every fingerprint is the fingerprint of a row. */
  lemma {:induction false} TableFingerprintsFromRows(table: seq<ScamPattern>, text: string, matches: (string, string) -> bool)
    ensures forall fp :: fp in TableFingerprints(table, text, matches) ==>
      exists j :: 0 <= j < |table| && FingerprintFor(table[j], text, matches) == Some(fp)
    decreases |table|
  {
    if |table| > 0 {
      var t := table[1..];
      var rest := TableFingerprints(t, text, matches);
      TableFingerprintsFromRows(t, text, matches);
      forall fp | fp in TableFingerprints(table, text, matches)
        ensures exists j :: 0 <= j < |table| && FingerprintFor(table[j], text, matches) == Some(fp)
      {
        if fp in rest {
          var j :| 0 <= j < |t| && FingerprintFor(t[j], text, matches) == Some(fp);
          assert table[j + 1] == t[j];
        } else {
          assert FingerprintFor(table[0], text, matches) == Some(fp);
        }
      }
    }
  }

  /** Every row with a matching pattern contributes its fingerprint. */
  lemma {:induction false} TableFingerprintsComplete(table: seq<ScamPattern>, text: string, matches: (string, string) -> bool)
    ensures forall j :: 0 <= j < |table| && FingerprintFor(table[j], text, matches).Some? ==>
      FingerprintFor(table[j], text, matches).value in TableFingerprints(table, text, matches)
    decreases |table|
  {
    if |table| > 0 {
      var t := table[1..];
      TableFingerprintsComplete(t, text, matches);
      forall j | 0 < j < |table| ensures table[j] == t[j - 1] { }
    }
  }

  /** Rows with distinct categories give fingerprints with distinct categories. */
  lemma {:induction false} TableFingerprintsDistinct(table: seq<ScamPattern>, text: string, matches: (string, string) -> bool)
    requires DistinctKeys(table, TypeOf)
    ensures DistinctKeys(TableFingerprints(table, text, matches), FingerprintType)
    decreases |table|
  {
    if |table| > 0 {
      var t := table[1..];
      var rest := TableFingerprints(t, text, matches);
      assert DistinctKeys(t, TypeOf) by {
        forall i, j | 0 <= i < j < |t| ensures TypeOf(t[i]) != TypeOf(t[j]) {
          assert t[i] == table[i + 1] && t[j] == table[j + 1];
        }
      }
      TableFingerprintsDistinct(t, text, matches);
      var head := FingerprintFor(table[0], text, matches);
      if head.Some? {
        TableFingerprintsFromRows(t, text, matches);
        forall k | 0 <= k < |rest| ensures rest[k].scamType != table[0].scamType {
          assert rest[k] in rest;
          var j :| 0 <= j < |t| && FingerprintFor(t[j], text, matches) == Some(rest[k]);
          assert t[j] == table[j + 1];
          assert TypeOf(table[0]) != TypeOf(table[j + 1]);
        }
      }
    }
  }

  /** Fingerprints of the matching rows of `table`, stably sorted by risk, highest first. */
  function DetectIn(table: seq<ScamPattern>, text: string, matches: (string, string) -> bool): (r: seq<ScamFingerprint>)
    ensures |r| <= |table|
    ensures SortedDesc(r, FingerprintRisk)
  {
    var fps := TableFingerprints(table, text, matches);
    SortDescCorrect(fps, FingerprintRisk);
    SortDesc(fps, FingerprintRisk)
  }

  /** `detect_scam_fingerprints` */
  function DetectScamFingerprints(text: string, matches: (string, string) -> bool): seq<ScamFingerprint> {
    DetectIn(ScamPatterns, text, matches)
  }

  /** Some pattern of the row of `t` matches the text. */
  predicate CategoryMatches(table: seq<ScamPattern>, t: ScamType, text: string, matches: (string, string) -> bool) {
    exists j :: 0 <= j < |table| && table[j].scamType == t
      && exists k :: 0 <= k < |table[j].patterns| && matches(table[j].patterns[k], text)
  }

  /** The fingerprint of `fp`'s category is built from one row. */
  predicate FromRow(table: seq<ScamPattern>, fp: ScamFingerprint, text: string, matches: (string, string) -> bool) {
    exists j :: 0 <= j < |table|
      && fp.scamType == table[j].scamType
      && fp.riskScore == table[j].riskScore
      && fp.matchedPatterns == MatchedPatterns(table[j].patterns, text, matches)
      && fp.confidence == ConfidenceFor(|fp.matchedPatterns|)
  }

  /** Each detected fingerprint is its row's fingerprint. */
  lemma DetectInFromRows(table: seq<ScamPattern>, text: string, matches: (string, string) -> bool)
    ensures forall fp :: fp in DetectIn(table, text, matches) ==>
      exists j :: 0 <= j < |table| && FingerprintFor(table[j], text, matches) == Some(fp)
  {
    var fps := TableFingerprints(table, text, matches);
    TableFingerprintsFromRows(table, text, matches);
    SortDescCorrect(fps, FingerprintRisk);
    forall fp | fp in DetectIn(table, text, matches)
      ensures exists j :: 0 <= j < |table| && FingerprintFor(table[j], text, matches) == Some(fp)
    {
      assert fp in multiset(fps);
    }
  }

  /** Each row with a matching pattern is detected. */
  lemma DetectInComplete(table: seq<ScamPattern>, text: string, matches: (string, string) -> bool)
    ensures forall j :: 0 <= j < |table| && FingerprintFor(table[j], text, matches).Some? ==>
      FingerprintFor(table[j], text, matches).value in DetectIn(table, text, matches)
  {
    var fps := TableFingerprints(table, text, matches);
    TableFingerprintsComplete(table, text, matches);
    SortDescCorrect(fps, FingerprintRisk);
    forall j | 0 <= j < |table| && FingerprintFor(table[j], text, matches).Some?
      ensures FingerprintFor(table[j], text, matches).value in DetectIn(table, text, matches)
    {
      assert FingerprintFor(table[j], text, matches).value in multiset(fps);
    }
  }

  /** Every detected fingerprint is built from one row. */
  lemma DetectInRows(table: seq<ScamPattern>, text: string, matches: (string, string) -> bool)
    ensures var r := DetectIn(table, text, matches);
      forall i :: 0 <= i < |r| ==> FromRow(table, r[i], text, matches)
  {
    var r := DetectIn(table, text, matches);
    DetectInFromRows(table, text, matches);
    forall i | 0 <= i < |r| ensures FromRow(table, r[i], text, matches) {
      assert r[i] in r;
      var j :| 0 <= j < |table| && FingerprintFor(table[j], text, matches) == Some(r[i]);
    }
  }

  /** A reported category has a matching pattern. */
  lemma DetectInReportedMatches(table: seq<ScamPattern>, text: string, matches: (string, string) -> bool, t: ScamType)
    requires exists i :: 0 <= i < |DetectIn(table, text, matches)| && DetectIn(table, text, matches)[i].scamType == t
    ensures CategoryMatches(table, t, text, matches)
  {
    var r := DetectIn(table, text, matches);
    DetectInFromRows(table, text, matches);
    var i :| 0 <= i < |r| && r[i].scamType == t;
    assert r[i] in r;
    var j :| 0 <= j < |table| && FingerprintFor(table[j], text, matches) == Some(r[i]);
    assert |MatchedPatterns(table[j].patterns, text, matches)| > 0;
  }

  /** A category with a matching pattern is reported. */
  lemma DetectInMatchesReported(table: seq<ScamPattern>, text: string, matches: (string, string) -> bool, t: ScamType)
    requires CategoryMatches(table, t, text, matches)
    ensures exists i :: 0 <= i < |DetectIn(table, text, matches)| && DetectIn(table, text, matches)[i].scamType == t
  {
    var r := DetectIn(table, text, matches);
    DetectInComplete(table, text, matches);
    var j :| 0 <= j < |table| && table[j].scamType == t
      && exists k :: 0 <= k < |table[j].patterns| && matches(table[j].patterns[k], text);
    assert |MatchedPatterns(table[j].patterns, text, matches)| > 0;
    var fp := FingerprintFor(table[j], text, matches).value;
    assert fp in r;
    var i :| 0 <= i < |r| && r[i] == fp;
  }

  /**
   * For a table with one row per category: a category is reported iff one
   * of its patterns matches, at most once, with its row's risk score and
   * the row's matching patterns in table order; the sort keeps table order
   * among equal risks.
   */
  lemma DetectInSpec(table: seq<ScamPattern>, text: string, matches: (string, string) -> bool)
    requires DistinctKeys(table, TypeOf)
    ensures var r := DetectIn(table, text, matches);
      && DistinctKeys(r, FingerprintType)
      && (forall t: ScamType :: (exists i :: 0 <= i < |r| && r[i].scamType == t) <==> CategoryMatches(table, t, text, matches))
      && (forall i :: 0 <= i < |r| ==> FromRow(table, r[i], text, matches))
      && (forall k :: WithKey(r, FingerprintRisk, k) == WithKey(TableFingerprints(table, text, matches), FingerprintRisk, k))
  {
    var fps := TableFingerprints(table, text, matches);
    var r := DetectIn(table, text, matches);
    TableFingerprintsDistinct(table, text, matches);
    SortDescCorrect(fps, FingerprintRisk);
    PermDistinctKeys(fps, r, FingerprintType);
    DetectInRows(table, text, matches);
    DetectInCategories(table, text, matches);
  }

  /** A category is reported iff one of its patterns matches. */
  lemma DetectInCategories(table: seq<ScamPattern>, text: string, matches: (string, string) -> bool)
    ensures var r := DetectIn(table, text, matches);
      forall t: ScamType :: (exists i :: 0 <= i < |r| && r[i].scamType == t) <==> CategoryMatches(table, t, text, matches)
  {
    var r := DetectIn(table, text, matches);
    forall t: ScamType ensures (exists i :: 0 <= i < |r| && r[i].scamType == t) <==> CategoryMatches(table, t, text, matches) {
      if exists i :: 0 <= i < |r| && r[i].scamType == t {
        DetectInReportedMatches(table, text, matches, t);
      }
      if CategoryMatches(table, t, text, matches) {
        DetectInMatchesReported(table, text, matches, t);
      }
    }
  }

  /** A table without a NONE row never reports NONE. */
  lemma DetectInTyped(table: seq<ScamPattern>, text: string, matches: (string, string) -> bool)
    requires forall j :: 0 <= j < |table| ==> table[j].scamType != NONE
    ensures forall i :: 0 <= i < |DetectIn(table, text, matches)| ==> DetectIn(table, text, matches)[i].scamType != NONE
  {
    var r := DetectIn(table, text, matches);
    DetectInRows(table, text, matches);
    forall i | 0 <= i < |r| ensures r[i].scamType != NONE {
      assert FromRow(table, r[i], text, matches);
    }
  }

  /** The detector's contract, for the fingerprint table itself. */
  lemma DetectScamFingerprintsSpec(text: string, matches: (string, string) -> bool)
    ensures var r := DetectScamFingerprints(text, matches);
      && |r| <= 11
      && DistinctKeys(r, FingerprintType)
      && (forall t: ScamType :: (exists i :: 0 <= i < |r| && r[i].scamType == t) <==> CategoryMatches(ScamPatterns, t, text, matches))
      && (forall i :: 0 <= i < |r| ==> r[i].scamType != NONE && FromRow(ScamPatterns, r[i], text, matches))
      && SortedDesc(r, FingerprintRisk)
  {
    ScamPatternsWellFormed();
    DetectInSpec(ScamPatterns, text, matches);
    DetectInTyped(ScamPatterns, text, matches);
  }

  /** The policies of the fingerprints whose category has a row, in fingerprint order. */
  function KnownPolicies(table: seq<ScamPattern>, fps: seq<ScamFingerprint>): (r: seq<PolicyViolation>)
    ensures |r| <= |fps|
    ensures forall v :: v in r ==> exists e :: e in table && e.policy == v
    ensures (forall i :: 0 <= i < |fps| ==> fps[i].scamType !in Keys(table, TypeOf)) ==> r == []
    decreases |fps|
  {
    if |fps| == 0 then []
    else
      match Lookup(table, fps[0].scamType)
      case Some(e) => [e.policy] + KnownPolicies(table, fps[1..])
      case None => KnownPolicies(table, fps[1..])
  }

  /** The loop of `get_policy_violations`, with the set of codes already emitted. */
  function ViolationsFrom(table: seq<ScamPattern>, fps: seq<ScamFingerprint>, seen: set<string>): seq<PolicyViolation>
    decreases |fps|
  {
    if |fps| == 0 then []
    else
      match Lookup(table, fps[0].scamType)
      case None => ViolationsFrom(table, fps[1..], seen)
      case Some(e) =>
        if e.policy.policyCode in seen then ViolationsFrom(table, fps[1..], seen)
        else [e.policy] + ViolationsFrom(table, fps[1..], seen + {e.policy.policyCode})
  }

  lemma {:induction false} ViolationsFromIsDedup(table: seq<ScamPattern>, fps: seq<ScamFingerprint>, seen: set<string>)
    ensures ViolationsFrom(table, fps, seen) == DedupFrom(KnownPolicies(table, fps), CodeOf, seen)
    decreases |fps|
  {
    if |fps| > 0 {
      ViolationsFromIsDedup(table, fps[1..], seen);
      match Lookup(table, fps[0].scamType)
      case None =>
      case Some(e) =>
        ViolationsFromIsDedup(table, fps[1..], seen + {e.policy.policyCode});
        var k := KnownPolicies(table, fps);
        assert k[0] == e.policy && k[1..] == KnownPolicies(table, fps[1..]);
    }
  }

  /**
   * `get_policy_violations`: the policies of the fingerprints' categories,
   * skipping categories without a row, without repeated codes, the first
   * occurrence winning.
   */
  function PolicyViolationsIn(table: seq<ScamPattern>, fps: seq<ScamFingerprint>): (r: seq<PolicyViolation>)
    ensures r == DedupBy(KnownPolicies(table, fps), CodeOf)
    ensures DistinctKeys(r, CodeOf)
    ensures |r| <= |fps|
    ensures Keys(r, CodeOf) == Keys(KnownPolicies(table, fps), CodeOf)
    ensures forall v :: v in r ==> exists e :: e in table && e.policy == v
  {
    var known := KnownPolicies(table, fps);
    ViolationsFromIsDedup(table, fps, {});
    DedupByKeys(known, CodeOf);
    SubseqLength(DedupBy(known, CodeOf), known);
    SubseqMembers(DedupBy(known, CodeOf), known);
    ViolationsFrom(table, fps, {})
  }

  /** `get_policy_violations` over the fingerprint table. */
  function GetPolicyViolations(fps: seq<ScamFingerprint>): seq<PolicyViolation> {
    PolicyViolationsIn(ScamPatterns, fps)
  }

  // ---------------------------------------------------------------------------
  // Harm score
  // ---------------------------------------------------------------------------

  function MaxRisk(fps: seq<ScamFingerprint>): (m: int)
    requires |fps| > 0
    ensures 1 <= m <= 10
    ensures forall i :: 0 <= i < |fps| ==> fps[i].riskScore <= m
    ensures exists i :: 0 <= i < |fps| && fps[i].riskScore == m
    decreases |fps|
  {
    if |fps| == 1 then fps[0].riskScore
    else
      var m := MaxRisk(fps[1..]);
      assert forall i :: 1 <= i < |fps| ==> fps[i] == fps[1..][i - 1];
      Max(fps[0].riskScore, m)
  }

  function SumRisk(fps: seq<ScamFingerprint>): (s: int)
    ensures |fps| <= s <= 10 * |fps|
    decreases |fps|
  {
    if |fps| == 0 then 0 else fps[0].riskScore + SumRisk(fps[1..])
  }

  lemma {:induction false} SumRiskAtMost(fps: seq<ScamFingerprint>, m: int)
    requires forall i :: 0 <= i < |fps| ==> fps[i].riskScore <= m
    ensures SumRisk(fps) <= m * |fps|
    decreases |fps|
  {
    if |fps| > 0 {
      SumRiskAtMost(fps[1..], m);
      assert m * (|fps| - 1) + m == m * |fps|;
    }
  }

  /** Up to 50 points from the fingerprints: `int((max * 3 + avg * 2) / 5 * 5)`. */
  function FingerprintPoints(fps: seq<ScamFingerprint>): int {
    if |fps| == 0 then 0
    else
      var avg := SumRisk(fps) as real / |fps| as real;
      Trunc(((MaxRisk(fps) * 3) as real + avg * 2.0) / 5.0 * 5.0)
  }

  /** Up to 50 points from the votes: `int((REMOVE + 0.7 * AGE_GATE) / total * 50)`, in exact arithmetic. */
  function VotePoints(dist: Rec<string>): int {
    var total := SumValues(dist);
    if total > 0 then
      var remove := Get(dist, "REMOVE").GetOr(0);
      var ageGate := Get(dist, "AGE_GATE").GetOr(0);
      Trunc((remove as real + ageGate as real * 0.7) / total as real * 50.0)
    else 0
  }

  /** `calculate_harm_score` */
  function HarmScore(fps: seq<ScamFingerprint>, dist: Rec<string>): (r: int)
    ensures 1 <= r <= 100
    ensures |fps| == 0 && SumValues(dist) <= 0 ==> r == 1
  {
    Min(100, Max(1, FingerprintPoints(fps) + VotePoints(dist)))
  }

  /** `(3 * max + 2 * avg)` over `n` fingerprints with risk sum `s`, in integer arithmetic. */
  function RiskBlend(m: int, s: int, n: int): int
    requires n > 0
  {
    (3 * m * n + 2 * s) / n
  }

  /** The fingerprint points in integer arithmetic: between 5 and 50. */
  lemma FingerprintPointsInt(fps: seq<ScamFingerprint>)
    requires |fps| > 0
    ensures FingerprintPoints(fps) == RiskBlend(MaxRisk(fps), SumRisk(fps), |fps|)
    ensures 5 <= FingerprintPoints(fps) <= 50
  {
    var m, s, n := MaxRisk(fps), SumRisk(fps), |fps|;
    SumRiskAtMost(fps, m);
    FingerprintArith(m, s, n);
    assert FingerprintPoints(fps) == Trunc(((m * 3) as real + s as real / n as real * 2.0) / 5.0 * 5.0);
  }

  lemma RealRatio(x: int, s: int, n: int)
    requires n > 0
    ensures (x as real + s as real / n as real * 2.0) / 5.0 * 5.0 == (x * n + 2 * s) as real / n as real
  {
    var N := n as real;
    var q := s as real / N;
    assert q * N == s as real;
    assert (x * n) as real == x as real * N;
    assert (x as real + q * 2.0) * N == (x * n + 2 * s) as real;
  }

  /** The fingerprint points from the largest risk `m` and the risk sum `s` of `n` fingerprints. */
  lemma FingerprintArith(m: int, s: int, n: int)
    requires 1 <= m <= 10 && n >= 1 && n <= s <= m * n
    ensures Trunc(((m * 3) as real + s as real / n as real * 2.0) / 5.0 * 5.0) == RiskBlend(m, s, n)
    ensures 5 <= RiskBlend(m, s, n) <= 50
  {
    var a := 3 * m * n + 2 * s;
    RealRatio(3 * m, s, n);
    assert (m * 3) as real == (3 * m) as real;
    TruncDiv(a, n);
    MulMonoLe(m, 10, n);
    MulMonoLe(1, m, n);
    assert 3 * m * n == 3 * (m * n);
    DivBounds(a, n, 5, 50);
  }

  lemma VoteArith(rm: int, ag: int, t: int)
    requires 0 <= rm && 0 <= ag && rm + ag <= t && t > 0
    ensures Trunc((rm as real + ag as real * 0.7) / t as real * 50.0) == 5 * (10 * rm + 7 * ag) / t
    ensures 0 <= 5 * (10 * rm + 7 * ag) / t <= 50
  {
    var a := 5 * (10 * rm + 7 * ag);
    var T := t as real;
    var y := rm as real + ag as real * 0.7;
    assert y * 50.0 == a as real;
    assert (y / T) * T == y;
    assert (y / T) * 50.0 * T == a as real;
    assert (y / T) * 50.0 == a as real / T;
    TruncDiv(a, t);
    assert a <= 50 * t;
    DivBounds(a, t, 0, 50);
  }

  lemma {:induction false} TwoKeysAtMostSum(dist: Rec<string>, k1: string, k2: string)
    requires k1 != k2
    requires forall i :: 0 <= i < |dist| ==> dist[i].1 >= 0
    ensures 0 <= Get(dist, k1).GetOr(0) + Get(dist, k2).GetOr(0) <= SumValues(dist)
    decreases |dist|
  {
    if |dist| > 0 {
      TwoKeysAtMostSum(dist[1..], k1, k2);
      OneKeyAtMostSum(dist[1..], k1);
      OneKeyAtMostSum(dist[1..], k2);
    }
  }

  lemma {:induction false} OneKeyAtMostSum(dist: Rec<string>, k: string)
    requires forall i :: 0 <= i < |dist| ==> dist[i].1 >= 0
    ensures 0 <= Get(dist, k).GetOr(0) <= SumValues(dist)
    decreases |dist|
  {
    if |dist| > 0 {
      OneKeyAtMostSum(dist[1..], k);
    }
  }

  /** With non-negative counts the vote points, in integer arithmetic, lie in [0, 50]. */
  lemma VotePointsInt(dist: Rec<string>)
    requires forall i :: 0 <= i < |dist| ==> dist[i].1 >= 0
    requires SumValues(dist) > 0
    ensures VotePoints(dist) == 5 * (10 * Get(dist, "REMOVE").GetOr(0) + 7 * Get(dist, "AGE_GATE").GetOr(0)) / SumValues(dist)
    ensures 0 <= VotePoints(dist) <= 50
  {
    TwoKeysAtMostSum(dist, "REMOVE", "AGE_GATE");
    OneKeyAtMostSum(dist, "REMOVE");
    OneKeyAtMostSum(dist, "AGE_GATE");
    VoteArith(Get(dist, "REMOVE").GetOr(0), Get(dist, "AGE_GATE").GetOr(0), SumValues(dist));
  }

  /** Three AGE_GATE votes out of three: 0.7 of the 50 points, exactly 35. */
  lemma VotePointsAllAgeGate()
    ensures VotePoints([("AGE_GATE", 3)]) == 35
  {
    VotePointsInt([("AGE_GATE", 3)]);
  }

  /** With non-negative counts the upper clamp never bites: the score is the two parts' sum, at least 1. */
  lemma HarmScoreUnclamped(fps: seq<ScamFingerprint>, dist: Rec<string>)
    requires forall i :: 0 <= i < |dist| ==> dist[i].1 >= 0
    ensures HarmScore(fps, dist) == Max(1, FingerprintPoints(fps) + VotePoints(dist))
    ensures |fps| > 0 ==> HarmScore(fps, dist) >= 5
  {
    if |fps| > 0 {
      FingerprintPointsInt(fps);
    }
    if SumValues(dist) > 0 {
      VotePointsInt(dist);
    }
  }

  /** Three crypto patterns and no votes score 45. */
  lemma HarmScoreCryptoExample(patterns: seq<string>)
    requires |patterns| == 3
    ensures HarmScore([ScamFingerprint(CRYPTO_SCAM, ConfidenceFor(3), patterns, 9)], []) == 45
  {
    var fps := [ScamFingerprint(CRYPTO_SCAM, ConfidenceFor(3), patterns, 9)];
    FingerprintPointsInt(fps);
    assert MaxRisk(fps) == 9 && SumRisk(fps) == 9;
  }

  // ---------------------------------------------------------------------------
  // Category
  // ---------------------------------------------------------------------------

  /** `categorize_by_consensus`: the badge argument plays no part. */
  function Categorize(consensusBadge: string, dist: Rec<string>): (r: AdCategory)
    ensures var total := SumValues(dist);
      var restrictive := Get(dist, "REMOVE").GetOr(0) + Get(dist, "AGE_GATE").GetOr(0);
      var permissive := Get(dist, "ALLOW").GetOr(0) + Get(dist, "LABEL").GetOr(0);
      && (total == 0 ==> r == MIXED)
      && (r == VIOLATING <==> total != 0 && 2 * restrictive > total)
      && (r == BENIGN <==> total != 0 && 2 * restrictive <= total && 2 * permissive > total)
  {
    var total := SumValues(dist);
    if total == 0 then MIXED
    else
      var restrictive := Get(dist, "REMOVE").GetOr(0) + Get(dist, "AGE_GATE").GetOr(0);
      var permissive := Get(dist, "ALLOW").GetOr(0) + Get(dist, "LABEL").GetOr(0);
      if restrictive as real > total as real / 2.0 then VIOLATING
      else if permissive as real > total as real / 2.0 then BENIGN
      else MIXED
  }

  /**
   * A non-empty panel whose every verdict is REDUCE_REACH is neither
   * restrictive nor permissive by majority, so the ad is MIXED whatever
   * the badge.
   */
  lemma CategorizeReduceReach(badge: string, vs: seq<JudgeVerdict>)
    requires |vs| > 0 && forall i :: 0 <= i < |vs| ==> vs[i].verdictTier == REDUCE_REACH
    ensures Categorize(badge, Engine.Distribution(vs)) == MIXED
  {
    Engine.TierCountFull(vs, REDUCE_REACH);
    Engine.TierCountsSum(vs);
    Engine.DistributionGet(vs, REMOVE);
    Engine.DistributionGet(vs, AGE_GATE);
    Engine.DistributionGet(vs, LABEL);
    Engine.DistributionGet(vs, ALLOW);
  }

  // ---------------------------------------------------------------------------
  // Ads
  // ---------------------------------------------------------------------------

  /** An ad as listed in the ads library. */
  datatype MetaAd = MetaAd(
    adId: string,
    text: string,
    advertiserName: string,
    imageUrl: Option<string>,
    pageId: Option<string>,
    startDate: Option<string>,
    isActive: bool,
    adLibraryUrl: Option<string>,
    countryTargeting: Option<seq<string>>,
    spendRange: Option<string>,
    impressionsRange: Option<string>,
    landingPageUrl: Option<string>,
    landingPageContent: Option<string>,
    landingPageCrawlError: Option<string>,
    videoUrl: Option<string>,
    thumbnailUrls: Option<seq<string>>)

  /** A composite harm score, validated to lie in [1, 100]. */
  type HarmScoreValue = h: int | 1 <= h <= 100 witness 1

  /** The analysis of one ad; per-judge display rows are not modelled. */
  datatype AdAnalysisResult = AdAnalysisResult(
    ad: MetaAd,
    category: AdCategory,
    consensusBadge: string,
    verdictDistribution: Rec<string>,
    cruxNarrative: string,
    scamFingerprints: Option<seq<ScamFingerprint>>,
    policyViolations: Option<seq<PolicyViolation>>,
    harmScore: Option<HarmScoreValue>)

  const AdLibraryPrefix: string := "https://www.facebook.com/ads/library/?id="

  /** `build_ad_library_url` */
  function BuildAdLibraryUrl(adId: string): (url: string)
    ensures StartsWith(url, AdLibraryPrefix)
    ensures AdIdOfLibraryUrl(url) == Some(adId)
  {
    AdLibraryPrefix + adId
  }

  /** The id an ad-library link points at. */
  function AdIdOfLibraryUrl(url: string): Option<string> {
    if StartsWith(url, AdLibraryPrefix) then Some(url[|AdLibraryPrefix|..]) else None
  }

  lemma AdLibraryUrlRoundTrip(url: string)
    requires AdIdOfLibraryUrl(url).Some?
    ensures BuildAdLibraryUrl(AdIdOfLibraryUrl(url).value) == url
  {
    assert url == url[..|AdLibraryPrefix|] + url[|AdLibraryPrefix|..];
  }

  /** Case-insensitive match of a lower-cased keyword on an ad's text or advertiser. */
  predicate AdMatches(ad: MetaAd, keywordLower: string) {
    Contains(Lower(ad.text), keywordLower) || Contains(Lower(ad.advertiserName), keywordLower)
  }

  function KeywordMatch(keywordLower: string): MetaAd -> bool {
    (ad: MetaAd) => AdMatches(ad, keywordLower)
  }

  /**
   * The keyword search over a list of ads: the matching ads, or all of them
   * when none match, cut to `maxAds` the way a Python slice is.
   */
  function AdsByKeyword(ads: seq<MetaAd>, keyword: string, maxAds: int): (r: seq<MetaAd>)
    ensures maxAds >= 0 ==> |r| <= maxAds
    ensures IsSubseq(r, ads)
    ensures (exists i :: 0 <= i < |ads| && AdMatches(ads[i], Lower(keyword))) ==>
              forall i :: 0 <= i < |r| ==> AdMatches(r[i], Lower(keyword))
    ensures (exists i :: 0 <= i < |ads| && AdMatches(ads[i], Lower(keyword))) ==>
              r == PySliceTo(Filter(ads, KeywordMatch(Lower(keyword))), maxAds)
    ensures (forall i :: 0 <= i < |ads| ==> !AdMatches(ads[i], Lower(keyword))) ==>
              r == PySliceTo(ads, maxAds)
  {
    var kw := Lower(keyword);
    var matching := Filter(ads, KeywordMatch(kw));
    if |matching| == 0 then
      var r := PySliceTo(ads, maxAds);
      SubseqPrefix(ads, |r|);
      r
    else
      var r := PySliceTo(matching, maxAds);
      SubseqPrefix(matching, |r|);
      SubseqTrans(r, matching, ads);
      r
  }

  /**
   * With room for every ad and some ad matching, an ad of the list is
   * returned exactly when it matches the keyword.
   */
  lemma AdsByKeywordMembers(ads: seq<MetaAd>, keyword: string, maxAds: int)
    requires maxAds >= |ads|
    requires exists i :: 0 <= i < |ads| && AdMatches(ads[i], Lower(keyword))
    ensures forall i :: 0 <= i < |ads| ==> (ads[i] in AdsByKeyword(ads, keyword, maxAds) <==> AdMatches(ads[i], Lower(keyword)))
  {
    var m := Filter(ads, KeywordMatch(Lower(keyword)));
    assert PySliceTo(m, maxAds) == m;
    forall i | 0 <= i < |ads| && ads[i] in m ensures AdMatches(ads[i], Lower(keyword)) {
      var j :| 0 <= j < |m| && m[j] == ads[i];
    }
  }

  /** `get_sample_ads_by_keyword`: the keyword search over the demo ads. */
  function GetSampleAdsByKeyword(keyword: string, maxAds: int): seq<MetaAd> {
    AdsByKeyword(SampleAds, keyword, maxAds)
  }

  const StartDate: string := "December 2025"

  function SampleAd(id: string, text: string, advertiser: string): MetaAd {
    MetaAd(id, text, advertiser, None, None, Some(StartDate), true, None, None, None, None, None, None, None, None, None)
  }

  const Sample001: MetaAd := SampleAd("sample_001",
    "Here's why addicted children don't receive our love \U{2013} but using this new approach you can safely guide them to recovery (while regaining peace in your home and heart)... It's not because they don't want to get help... It's not because you're not giving them enough love or support....",
    "Barbara Decker")

  const Sample002: MetaAd := SampleAd("sample_002",
    "How moms of addicted adult children stop the strain on their marriages - and feel fully supported again (while finally feeling like good moms and partners). It's not because they don't want to get help... It's not because you're not giving them enough love or support...",
    "Barbara Decker")

  const Sample003: MetaAd := SampleAd("sample_003",
    "\U{1F680} I made $47,000 in just 3 days using this FREE secret method that banks don't want you to know about! No experience needed - anyone can do this from home. DM me 'MONEY' for the free guide!",
    "Crypto Wealth Secrets")

  const Sample004: MetaAd := SampleAd("sample_004",
    "\U{1F33F} DOCTORS HATE THIS! One weird trick discovered by a mom CURES diabetes in just 7 days. Big Pharma is trying to hide this natural remedy. Click before they take this down!",
    "Natural Health Secrets")

  const Sample005: MetaAd := SampleAd("sample_005",
    "I lost 50 lbs in 30 days without exercise or diet changes! This celebrity-endorsed supplement is finally available to the public. See my before/after transformation. Limited time: 70% off!",
    "SlimFast Solutions")

  const Sample006: MetaAd := SampleAd("sample_006",
    "Bad credit? No problem! Get approved for a $10,000 personal loan in 60 seconds - no credit check required. Funds in your account today. Apply now before this offer expires!",
    "QuickCash Loans")

  const Sample007: MetaAd := SampleAd("sample_007",
    "\U{2615} Start your morning right with our organic fair-trade coffee. Roasted fresh weekly, shipped directly to your door. Use code FIRST20 for 20% off your first order.",
    "Mountain Roasters Coffee Co.")

  const Sample008: MetaAd := SampleAd("sample_008",
    "Learn Spanish in 15 minutes a day! Our app uses proven spaced repetition to help you become conversational in just 3 months. Join 10 million learners worldwide. Free to start.",
    "LingoLearn App")

  const Sample009: MetaAd := SampleAd("sample_009",
    "Winter Sale: Up to 50% off on all outerwear. Premium quality jackets and coats for the whole family. Free shipping on orders over $75. Shop now at our website.",
    "NorthWear Clothing")

  const Sample010: MetaAd := SampleAd("sample_010",
    "Looking for remote work? Companies are hiring data entry specialists - work from home, flexible hours, $25-40/hr. No experience required, we provide training. Apply today!",
    "RemoteJobs Hub")

  const Sample011: MetaAd := SampleAd("sample_011",
    "\U{26A0}\U{FE0F} URGENT: Your package cannot be delivered! Click here to pay the $1.99 shipping fee with gift card to release your package. Offer expires in 24 hours or package will be returned!",
    "Delivery Updates")

  const Sample012: MetaAd := SampleAd("sample_012",
    "BREAKING: Elon Musk just announced a new crypto giveaway! Send 0.1 BTC and receive 1 BTC back instantly. This is 100% real - limited to first 1000 participants!",
    "Elon Musk Official")

  /** The demo ads. */
  const SampleAds: seq<MetaAd> := [Sample001, Sample002, Sample003, Sample004, Sample005, Sample006, Sample007, Sample008, Sample009, Sample010, Sample011, Sample012]
}

=== FILE: analysis_history.dfy ===
/**
 * The list of recent analyses kept in the browser: the entry made from a
 * response (its majority tier and preview), the bounded update that puts
 * it first, and clearing. Reading and writing local storage is left out;
 * the update is the pure part between the two.
 */
module AnalysisHistory {
  import opened Base
  import opened Records
  import opened Models
  import opened VerdictDistribution

  /** The parts of an analysis response the history reads. */
  datatype Response = Response(requestId: string, distribution: Distribution, verdicts: seq<JudgeVerdict>)

  datatype Entry = Entry(id: string, timestamp: int, contentPreview: string, verdict: string, response: Response)

  const MaxEntries := 10

  // ---------------------------------------------------------------------------
  // Majority tier
  // ---------------------------------------------------------------------------

  /** `dist.reduce((a, b) => (a.count > b.count) ? a : b)` on a non-empty list. */
  function ReduceMax(items: seq<(string, int)>): (top: (string, int))
    requires |items| > 0
    decreases |items|
  {
    if |items| == 1 then items[0]
    else
      var a := ReduceMax(items[..|items| - 1]);
      var b := items[|items| - 1];
      if a.1 > b.1 then a else b
  }

  /** The reduction picks the last item of maximal count. */
  lemma {:induction false} ReduceMaxIsLastMax(items: seq<(string, int)>) returns (i: nat)
    requires |items| > 0
    ensures i < |items| && ReduceMax(items) == items[i]
    ensures forall j :: 0 <= j < |items| ==> items[j].1 <= items[i].1
    ensures forall j :: i < j < |items| ==> items[j].1 < items[i].1
    decreases |items|
  {
    if |items| == 1 {
      i := 0;
    } else {
      var init := items[..|items| - 1];
      var k := ReduceMaxIsLastMax(init);
      var b := items[|items| - 1];
      assert forall j :: 0 <= j < |init| ==> items[j] == init[j];
      if init[k].1 > b.1 {
        i := k;
      } else {
        i := |items| - 1;
      }
    }
  }

  /**
   * The tier recorded with an entry: `REMOVE` by default; for the list
   * form the reduction's pick, for the record form the top key.
   */
  function MajorityTier(d: Distribution): (tier: string)
    ensures d.Items? && |d.items| == 0 ==> tier == "REMOVE"
    ensures d.Counts? && |d.record| == 0 ==> tier == "REMOVE"
  {
    match d
    case Items(items) => if |items| > 0 then ReduceMax(items).0 else "REMOVE"
    case Counts(r) => if |r| > 0 then TopKey(r).value else "REMOVE"
  }

  /**
   * On ties the two forms disagree: the list form takes the last item of
   * maximal count, the record form the first entry.
   */
  lemma MajorityTierTies(d: Distribution) returns (i: nat)
    requires (d.Items? && |d.items| > 0) || (d.Counts? && |d.record| > 0)
    ensures d.Items? ==>
              i < |d.items| && MajorityTier(d) == d.items[i].0
              && (forall j :: 0 <= j < |d.items| ==> d.items[j].1 <= d.items[i].1)
              && (forall j :: i < j < |d.items| ==> d.items[j].1 < d.items[i].1)
    ensures d.Counts? ==>
              i < |d.record| && MajorityTier(d) == d.record[i].0
              && (forall j :: 0 <= j < |d.record| ==> d.record[j].1 <= d.record[i].1)
              && (forall j :: 0 <= j < i ==> d.record[j].1 < d.record[i].1)
  {
    if d.Items? {
      i := ReduceMaxIsLastMax(d.items);
    } else {
      i := TopKeyFirstMax(d.record);
    }
  }

  /** A concrete tie: REMOVE and ALLOW both twice. */
  lemma TieExample()
    ensures MajorityTier(Items([("REMOVE", 2), ("ALLOW", 2)])) == "ALLOW"
    ensures MajorityTier(Counts([("REMOVE", 2), ("ALLOW", 2)])) == "REMOVE"
  {
    var i := MajorityTierTies(Counts([("REMOVE", 2), ("ALLOW", 2)]));
  }

  // ---------------------------------------------------------------------------
  // Entries and the update
  // ---------------------------------------------------------------------------

  /** `judge_verdicts[0]?.primary_policy_axis || 'Analysis'`. */
  function Preview(vs: seq<JudgeVerdict>): (p: string)
    ensures p != ""
    ensures |vs| > 0 && vs[0].primaryPolicyAxis != "" ==> p == vs[0].primaryPolicyAxis
  {
    if |vs| > 0 && vs[0].primaryPolicyAxis != "" then vs[0].primaryPolicyAxis else "Analysis"
  }

  /** The entry saved for a response, stamped with the current time `now`. */
  function MakeEntry(resp: Response, now: int): (e: Entry)
    ensures e.id == resp.requestId && e.timestamp == now && e.response == resp
    ensures e.contentPreview != ""
    ensures e.contentPreview == Preview(resp.verdicts)
    ensures e.verdict == MajorityTier(resp.distribution)
  {
    Entry(resp.requestId, now, Preview(resp.verdicts), MajorityTier(resp.distribution), resp)
  }

  /** A saved entry's tier is one of the distribution's tiers with the highest count, or `REMOVE` when it is empty. */
  lemma MakeEntryVerdictIsTop(resp: Response, now: int)
    ensures resp.distribution.Items? && |resp.distribution.items| > 0 ==>
              exists i :: 0 <= i < |resp.distribution.items|
                && MakeEntry(resp, now).verdict == resp.distribution.items[i].0
                && forall j :: 0 <= j < |resp.distribution.items| ==> resp.distribution.items[j].1 <= resp.distribution.items[i].1
    ensures resp.distribution.Counts? && |resp.distribution.record| > 0 ==>
              exists i :: 0 <= i < |resp.distribution.record|
                && MakeEntry(resp, now).verdict == resp.distribution.record[i].0
                && forall j :: 0 <= j < |resp.distribution.record| ==> resp.distribution.record[j].1 <= resp.distribution.record[i].1
    ensures ((resp.distribution.Items? && |resp.distribution.items| == 0)
             || (resp.distribution.Counts? && |resp.distribution.record| == 0))
            ==> MakeEntry(resp, now).verdict == "REMOVE"
  {
    var d := resp.distribution;
    if (d.Items? && |d.items| > 0) || (d.Counts? && |d.record| > 0) {
      var i := MajorityTierTies(d);
    }
  }

  function OtherId(id: string): Entry -> bool {
    (h: Entry) => h.id != id
  }

  predicate UniqueIds(h: seq<Entry>) {
    forall i, j :: 0 <= i < j < |h| ==> h[i].id != h[j].id
  }

  /** `[entry, ...prev.filter(h => h.id !== entry.id)].slice(0, 10)`. */
  function AddEntry(history: seq<Entry>, e: Entry): (r: seq<Entry>)
    ensures 1 <= |r| <= MaxEntries && r[0] == e
    ensures forall i :: 1 <= i < |r| ==> r[i].id != e.id
    ensures IsSubseq(r[1..], history)
    ensures UniqueIds(history) ==> UniqueIds(r)
  {
    var others := Filter(history, OtherId(e.id));
    var kept := Take(others, MaxEntries - 1);
    SubseqPrefix(others, |kept|);
    SubseqTrans(kept, others, history);
    if UniqueIds(history) then
      KeptUnique(history, kept);
      [e] + kept
    else
      [e] + kept
  }

  lemma {:induction false} KeptUnique(history: seq<Entry>, kept: seq<Entry>)
    requires UniqueIds(history) && IsSubseq(kept, history)
    ensures UniqueIds(kept)
    decreases |history|
  {
    if |kept| > 0 {
      if kept[0] == history[0] {
        KeptUnique(history[1..], kept[1..]);
        SubseqMembers(kept[1..], history[1..]);
        forall j | 0 < j < |kept| ensures kept[0].id != kept[j].id {
          assert kept[j] == kept[1..][j - 1];
          assert kept[j] in kept[1..];
          var m :| 0 <= m < |history[1..]| && history[1..][m] == kept[j];
          assert history[0].id != history[m + 1].id;
        }
        forall i, j | 0 < i < j < |kept| ensures kept[i].id != kept[j].id {
          assert kept[i] == kept[1..][i - 1] && kept[j] == kept[1..][j - 1];
        }
      } else {
        KeptUnique(history[1..], kept);
      }
    }
  }

  lemma AddEntryShape(history: seq<Entry>, e: Entry)
    ensures AddEntry(history, e) == [e] + Take(Filter(history, OtherId(e.id)), MaxEntries - 1)
  {
  }

  lemma FilterSkipsHead(e: Entry, rest: seq<Entry>)
    ensures Filter([e] + rest, OtherId(e.id)) == Filter(rest, OtherId(e.id))
  {
    assert ([e] + rest)[1..] == rest;
  }

  /** Saving the same response twice leaves the history as after saving it once. */
  lemma AddEntryIdempotent(history: seq<Entry>, e: Entry)
    ensures AddEntry(AddEntry(history, e), e) == AddEntry(history, e)
  {
    var once := AddEntry(history, e);
    var rest := once[1..];
    HeadSplit(once);
    forall x | x in rest ensures OtherId(e.id)(x) {
      var i :| 0 <= i < |rest| && rest[i] == x;
      assert once[i + 1] == x;
    }
    FilterAll(rest, OtherId(e.id));
    FilterSkipsHead(e, rest);
    AddEntryShape(once, e);
    assert Take(rest, MaxEntries - 1) == rest;
  }

  /**
   * Entries with other ids survive an update, in their order, while fewer
   * than ten of them are present.
   */
  lemma AddEntryKeepsOthers(history: seq<Entry>, e: Entry)
    requires |Filter(history, OtherId(e.id))| < MaxEntries
    ensures AddEntry(history, e) == [e] + Filter(history, OtherId(e.id))
    ensures forall h :: h in history && h.id != e.id ==> h in AddEntry(history, e)
  {
  }

  /** `handleClear`. */
  function Clear(history: seq<Entry>): (r: seq<Entry>)
    ensures |r| == 0
  {
    []
  }
}

=== FILE: apify_client.dfy ===
/**
 * Normalisation of the ads-library scraper's response: each scraped item
 * is a nested record (ad content, status, timing, metadata, images,
 * snapshot, videos) from which one `MetaAd` is extracted by a fixed
 * field precedence, and the extracted ads are deduplicated on
 * advertiser name plus the start of the text, first occurrence winning,
 * up to a limit.
 *
 * A JSON field that is absent or `null` is `None` where the source reads
 * it with `or`-chains or checks it for truth; a list that is absent is
 * empty. Where the source calls a string method on a value that may be
 * `null`, the item is `Unreadable` instead (see `Card`). This module holds the item's shape and the precedence of its
 * text fields; `ApifyExtract` builds the ad.
 */
module ApifyClient {
  import opened Base
  import opened Dedup
  import AdScanner

  // ---------------------------------------------------------------------------
  // The scraped item
  // ---------------------------------------------------------------------------

  datatype Image = Image(resizedImageUrl: Option<string>, originalImageUrl: Option<string>)

  datatype Video = Video(videoUrl: Option<string>, videoSdUrl: Option<string>, videoHdUrl: Option<string>)

  /**
   * A creative card. A card whose body or title is present but `null`
   * makes `.strip()` raise when the card texts are read, so an item with
   * such a card among the cards it reads is an `Unreadable` item, not a
   * `Card` with `None`.
   */
  datatype Card = Card(body: Option<string>, title: Option<string>, linkUrl: Option<string>, images: seq<Image>)

  datatype Creative = Creative(cards: seq<Card>, images: seq<Image>, linkUrl: Option<string>, videos: seq<Video>)

  datatype AdContent = AdContent(
    body: Option<string>,
    title: Option<string>,
    linkDescription: Option<string>,
    ctaText: Option<string>,
    currentPageName: Option<string>,
    linkUrl: Option<string>,
    ctaLink: Option<string>,
    creative: Creative,
    images: seq<Image>)

  /** Identifiers are held in their `str()` form. */
  datatype Status = Status(pageName: Option<string>, collationId: Option<string>, adId: Option<string>, isActive: Defaulted<bool>)

  datatype Metadata = Metadata(pageName: Option<string>, adArchiveId: Option<string>)

  /** `timing.start_date`: missing (or of another type), epoch seconds, or text. */
  datatype DateField = NoDate | EpochDate(seconds: int) | TextDate(text: string)

  datatype Snapshot = Snapshot(linkUrl: Option<string>, images: seq<Image>, videos: seq<Video>)

  /**
   * One element of the response list. `Unreadable` is a dictionary on
   * which extraction raises (a section or field of the wrong type);
   * `NotADict` is an element that is not a dictionary at all.
   */
  datatype ApifyItem =
    | Item(adContent: AdContent, status: Status, timing: DateField, metadata: Metadata,
           images: seq<Image>, snapshot: Snapshot, videos: seq<Video>)
    | Unreadable
    | NotADict

  // ---------------------------------------------------------------------------
  // Python truthiness and `or` on optional strings
  // ---------------------------------------------------------------------------

  predicate Truthy(o: Option<string>) {
    o.Some? && |o.value| > 0
  }

  /** Python `a or b`. */
  function Or(a: Option<string>, b: Option<string>): Option<string> {
    if Truthy(a) then a else b
  }

  /** The first truthy candidate, or `None`. */
  function FirstTruthy(cs: seq<Option<string>>): (r: Option<string>)
    ensures r.None? || Truthy(r)
    ensures r.None? <==> forall i :: 0 <= i < |cs| ==> !Truthy(cs[i])
  {
    if |cs| == 0 then None
    else if Truthy(cs[0]) then cs[0]
    else FirstTruthy(cs[1..])
  }

  /** A truthy result is a candidate, and no earlier candidate is truthy. */
  lemma {:induction false} FirstTruthyIsFirst(cs: seq<Option<string>>)
    requires FirstTruthy(cs).Some?
    ensures exists i :: 0 <= i < |cs| && cs[i] == FirstTruthy(cs) && forall j :: 0 <= j < i ==> !Truthy(cs[j])
    decreases |cs|
  {
    if !Truthy(cs[0]) {
      assert FirstTruthy(cs) == FirstTruthy(cs[1..]);
      FirstTruthyIsFirst(cs[1..]);
      var i :| 0 <= i < |cs[1..]| && cs[1..][i] == FirstTruthy(cs) && forall j :: 0 <= j < i ==> !Truthy(cs[1..][j]);
      assert cs[i + 1] == FirstTruthy(cs);
      forall j | 0 <= j < i + 1 ensures !Truthy(cs[j]) {
        if j > 0 { assert cs[j] == cs[1..][j - 1]; }
      }
      assert 0 <= i + 1 < |cs| && cs[i + 1] == FirstTruthy(cs) && forall j :: 0 <= j < i + 1 ==> !Truthy(cs[j]);
    } else {
      assert cs[0] == FirstTruthy(cs);
    }
  }

  lemma FirstTruthyOf3(a: Option<string>, b: Option<string>, c: Option<string>)
    ensures FirstTruthy([a, b, c]) == if Truthy(a) then a else if Truthy(b) then b else if Truthy(c) then c else None
  {
    assert [c][1..] == [];
    assert FirstTruthy([c]) == if Truthy(c) then c else None;
    assert [b, c][1..] == [c];
    assert FirstTruthy([b, c]) == if Truthy(b) then b else FirstTruthy([c]);
    assert [a, b, c][1..] == [b, c];
  }

  lemma FirstTruthyOf4(a: Option<string>, b: Option<string>, c: Option<string>, d: Option<string>)
    ensures FirstTruthy([a, b, c, d])
            == if Truthy(a) then a else if Truthy(b) then b else if Truthy(c) then c else if Truthy(d) then d else None
  {
    assert [a, b, c, d][1..] == [b, c, d];
    FirstTruthyOf3(b, c, d);
  }

  /**
   * A chain of `if not x: x = candidate` steps: the current value is kept
   * while it is truthy, and otherwise replaced by the next candidate.
   */
  function Chain(cur: Option<string>, cs: seq<Option<string>>): Option<string>
    decreases |cs|
  {
    if |cs| == 0 then cur
    else Chain(if Truthy(cur) then cur else cs[0], cs[1..])
  }

  /**
   * A chain started from a falsy value ends truthy exactly when some
   * candidate is truthy, and then it ends on the first truthy candidate.
   */
  lemma {:induction false} ChainFirstTruthy(cur: Option<string>, cs: seq<Option<string>>)
    requires !Truthy(cur)
    ensures Truthy(Chain(cur, cs)) <==> FirstTruthy(cs).Some?
    ensures Truthy(Chain(cur, cs)) ==> Chain(cur, cs) == FirstTruthy(cs)
    decreases |cs|
  {
    if |cs| > 0 {
      if Truthy(cs[0]) {
        ChainKeeps(cs[0], cs[1..]);
      } else {
        ChainFirstTruthy(cs[0], cs[1..]);
      }
    }
  }

  lemma {:induction false} ChainKeeps(cur: Option<string>, cs: seq<Option<string>>)
    requires Truthy(cur)
    ensures Chain(cur, cs) == cur
    decreases |cs|
  {
    if |cs| > 0 {
      ChainKeeps(cur, cs[1..]);
    }
  }

  // ---------------------------------------------------------------------------
  // Text
  // ---------------------------------------------------------------------------

  /** The text a carousel card contributes: its stripped body, else its stripped title. */
  function CardText(c: Card): Option<string> {
    var b := Strip(c.body.GetOr(""));
    var t := Strip(c.title.GetOr(""));
    if b != "" && b != " " then Some(b)
    else if t != "" then Some(t)
    else None
  }

  /** The texts of the first three cards that contribute one. */
  function CardTexts(cards: seq<Card>): (r: seq<string>)
    ensures |r| <= Min(3, |cards|)
    ensures forall i :: 0 <= i < |r| ==> |r[i]| > 0
  {
    CardTextsOf(Take(cards, 3))
  }

  function CardTextsOf(cards: seq<Card>): (r: seq<string>)
    ensures |r| <= |cards|
    ensures forall i :: 0 <= i < |r| ==> |r[i]| > 0
  {
    if |cards| == 0 then []
    else
      match CardText(cards[0])
      case Some(t) => [t] + CardTextsOf(cards[1..])
      case None => CardTextsOf(cards[1..])
  }

  function PageNameFor(ac: AdContent, md: Metadata): string {
    if Truthy(ac.currentPageName) then ac.currentPageName.value else md.pageName.GetOr("")
  }

  /** The text built from the page name and call to action when no text was found. */
  function FallbackText(ac: AdContent, md: Metadata): string {
    var page := PageNameFor(ac, md);
    var cta := ac.ctaText.GetOr("");
    if page != "" && cta != "" then page + " - " + cta
    else if page != "" then "Ad by " + page
    else ""
  }

  /** The ad text before stripping, following the source's sequence of assignments. */
  function RawAdText(ac: AdContent, md: Metadata): string {
    var t5 := RawAdTextBeforeFallback(ac);
    if t5 == "" || Strip(t5) == " " then FallbackText(ac, md) else t5
  }

  /** The text found in the ad content itself, or "". */
  function RawAdTextBeforeFallback(ac: AdContent): string {
    var cards := CardTexts(ac.creative.cards);
    var t1 := if Truthy(ac.body) then ac.body.value else "";
    var t2 := if t1 == "" && Truthy(ac.title) then ac.title.value else t1;
    var t3 := if t2 == "" && |cards| > 0 then Join(cards, " | ") else t2;
    var t4 := if t3 == "" && Truthy(ac.linkDescription) then ac.linkDescription.value else t3;
    if Truthy(ac.title) && Truthy(ac.body) then ac.title.value + "\n\n" + ac.body.value else t4
  }

  /** The card texts joined, as a candidate (`None` when no card contributes). */
  function CardCandidate(ac: AdContent): Option<string> {
    var cards := CardTexts(ac.creative.cards);
    if |cards| > 0 then Some(Join(cards, " | ")) else None
  }

  lemma JoinNonEmpty(parts: seq<string>, sep: string)
    requires |parts| > 0 && |parts[0]| > 0
    ensures |Join(parts, sep)| > 0
  {
  }

  /** The source's `ad_text.strip() == " "` test never holds. */
  lemma StripNotSpace(t: string)
    ensures Strip(t) != " "
  {
    var r := Strip(t);
    assert |r| > 0 ==> !IsSpace(r[0]);
    assert " "[0] == ' ';
  }

  lemma TextBeforeFallbackPrecedence(ac: AdContent)
    ensures Truthy(ac.title) && Truthy(ac.body) ==>
              RawAdTextBeforeFallback(ac) == ac.title.value + "\n\n" + ac.body.value
    ensures !(Truthy(ac.title) && Truthy(ac.body)) ==>
              var first := FirstTruthy([ac.body, ac.title, CardCandidate(ac), ac.linkDescription]);
              RawAdTextBeforeFallback(ac) == if first.Some? then first.value else ""
  {
    var cards := CardTexts(ac.creative.cards);
    if |cards| > 0 {
      JoinNonEmpty(cards, " | ");
    }
    FirstTruthyOf4(ac.body, ac.title, CardCandidate(ac), ac.linkDescription);
  }

  /**
   * The text precedence: title and body together when both are present;
   * otherwise the first non-empty of body, title, the joined card texts
   * and the link description; failing all of those, the page-name
   * fallback.
   */
  lemma RawAdTextPrecedence(ac: AdContent, md: Metadata)
    ensures Truthy(ac.title) && Truthy(ac.body) ==>
              RawAdText(ac, md) == ac.title.value + "\n\n" + ac.body.value
    ensures !(Truthy(ac.title) && Truthy(ac.body)) ==>
              var first := FirstTruthy([ac.body, ac.title, CardCandidate(ac), ac.linkDescription]);
              RawAdText(ac, md) == if first.Some? then first.value else FallbackText(ac, md)
  {
    TextBeforeFallbackPrecedence(ac);
    StripNotSpace(RawAdTextBeforeFallback(ac));
  }
}

=== FILE: apify_extract.dfy ===
/**
 * Extraction of one ad from a scraped item (date, identifier, advertiser,
 * media, landing page, thumbnails, text), the collection loop that
 * deduplicates the extracted ads up to a limit, and the ads-library search
 * URL. The item's shape and the text precedence are in `ApifyClient`.
 *
 * Python's per-process `hash` is the parameter `hash` and
 * `datetime.fromtimestamp(...).strftime(...)` is the parameter
 * `formatDate` (`None` when it raises).
 */
module ApifyExtract {
  import opened Base
  import opened Dedup
  import opened ApifyClient
  import AdScanner

  /** Python `s.split("T")[0] if "T" in s else s`. */
  function DatePart(s: string): (r: string)
    ensures 'T' !in r
    ensures StartsWith(s, r)
    ensures 'T' !in s ==> r == s
  {
    if 'T' in s then
      var parts := Split(s, 'T');
      SplitJoin(s, 'T');
      JoinHeadPrefix(parts, ['T']);
      parts[0]
    else
      SplitNoSep(s, 'T');
      s
  }

  lemma JoinHeadPrefix(parts: seq<string>, sep: string)
    requires |parts| >= 1
    ensures StartsWith(Join(parts, sep), parts[0])
  {
    if |parts| > 1 {
      assert Join(parts, sep) == parts[0] + (sep + Join(parts[1..], sep));
    }
  }

  function StartDateOf(d: DateField, formatDate: int -> Option<string>): Option<string> {
    match d
    case NoDate => None
    case EpochDate(n) => formatDate(n)
    case TextDate(s) => Some(DatePart(s))
  }

  // ---------------------------------------------------------------------------
  // Identifier and advertiser
  // ---------------------------------------------------------------------------

  const HashModulus: int := 1000000
  const UnknownAdvertiser: string := "Unknown Advertiser"
  const MaxTextLength: nat := 1500
  const MaxAdvertiserLength: nat := 100
  const MinTextLength: nat := 5

  /**
   * The ad id: the first truthy of collation id, ad id and archive id,
   * else "apify_" followed by the text's hash reduced modulo 1000000.
   */
  function AdIdFor(st: Status, md: Metadata, text: string, hash: string -> int): (r: string)
    ensures FirstTruthy([st.collationId, st.adId, md.adArchiveId]).Some? ==>
              r == FirstTruthy([st.collationId, st.adId, md.adArchiveId]).value
    ensures FirstTruthy([st.collationId, st.adId, md.adArchiveId]).None? ==>
              r == "apify_" + NatToString(hash(text) % HashModulus)
  {
    FirstTruthyOf3(st.collationId, st.adId, md.adArchiveId);
    if Truthy(st.collationId) then st.collationId.value
    else if Truthy(st.adId) then st.adId.value
    else if Truthy(md.adArchiveId) then md.adArchiveId.value
    else "apify_" + NatToString(hash(text) % HashModulus)
  }

  /** The advertiser: the first truthy page name or title, else a placeholder, cut to 100 characters. */
  function AdvertiserFor(ac: AdContent, st: Status, md: Metadata): (r: string)
    ensures 0 < |r| <= MaxAdvertiserLength
    ensures var first := FirstTruthy([md.pageName, ac.currentPageName, st.pageName, ac.title]);
            r == Take(if first.Some? then first.value else UnknownAdvertiser, MaxAdvertiserLength)
  {
    FirstTruthyOf4(md.pageName, ac.currentPageName, st.pageName, ac.title);
    var target :=
      if Truthy(md.pageName) then md.pageName.value
      else if Truthy(ac.currentPageName) then ac.currentPageName.value
      else if Truthy(st.pageName) then st.pageName.value
      else if Truthy(ac.title) then ac.title.value
      else UnknownAdvertiser;
    Take(target, MaxAdvertiserLength)
  }

  // ---------------------------------------------------------------------------
  // Media and landing page
  // ---------------------------------------------------------------------------

  /** `img.get("resized_image_url") or img.get("original_image_url")`. */
  function ImageUrl(img: Image): Option<string> {
    Or(img.resizedImageUrl, img.originalImageUrl)
  }

  /** The candidate a list contributes: the URL of its first image, if it has one. */
  function FirstImageCandidate(imgs: seq<Image>): seq<Option<string>> {
    if |imgs| > 0 then [ImageUrl(imgs[0])] else []
  }

  function FirstCardImages(cr: Creative): seq<Image> {
    if |cr.cards| > 0 then cr.cards[0].images else []
  }

  /** The five places searched for the main image, in order. */
  function ImageCandidates(ac: AdContent, images: seq<Image>, snap: Snapshot): seq<Option<string>> {
    FirstImageCandidate(images) + FirstImageCandidate(ac.creative.images)
    + FirstImageCandidate(FirstCardImages(ac.creative)) + FirstImageCandidate(ac.images)
    + FirstImageCandidate(snap.images)
  }

  /** The main image: a truthy URL is the first truthy candidate. */
  function MainImage(ac: AdContent, images: seq<Image>, snap: Snapshot): (r: Option<string>)
    ensures Truthy(r) <==> FirstTruthy(ImageCandidates(ac, images, snap)).Some?
    ensures Truthy(r) ==> r == FirstTruthy(ImageCandidates(ac, images, snap))
  {
    var r := Chain(None, ImageCandidates(ac, images, snap));
    ChainFirstTruthy(None, ImageCandidates(ac, images, snap));
    r
  }

  function VideoCandidates(videos: seq<Video>, cr: Creative, snap: Snapshot): seq<Option<string>> {
    (if |videos| > 0 then [Or(Or(videos[0].videoUrl, videos[0].videoSdUrl), videos[0].videoHdUrl)] else [])
    + (if |cr.videos| > 0 then [Or(cr.videos[0].videoUrl, cr.videos[0].videoSdUrl)] else [])
    + (if |snap.videos| > 0 then [Or(snap.videos[0].videoUrl, snap.videos[0].videoSdUrl)] else [])
  }

  function MainVideo(videos: seq<Video>, cr: Creative, snap: Snapshot): (r: Option<string>)
    ensures Truthy(r) <==> FirstTruthy(VideoCandidates(videos, cr, snap)).Some?
    ensures Truthy(r) ==> r == FirstTruthy(VideoCandidates(videos, cr, snap))
  {
    var r := Chain(None, VideoCandidates(videos, cr, snap));
    ChainFirstTruthy(None, VideoCandidates(videos, cr, snap));
    r
  }

  /** The link of the first card that has one. */
  function CardLink(cards: seq<Card>): Option<string> {
    if |cards| == 0 then None
    else if Truthy(cards[0].linkUrl) then cards[0].linkUrl
    else CardLink(cards[1..])
  }

  function CardLinks(cards: seq<Card>): (r: seq<Option<string>>)
    ensures |r| == |cards|
    ensures forall i :: 0 <= i < |cards| ==> r[i] == cards[i].linkUrl
  {
    if |cards| == 0 then [] else [cards[0].linkUrl] + CardLinks(cards[1..])
  }

  /** The landing page, following the source's sequence of assignments. */
  function LandingPage(ac: AdContent, snap: Snapshot): Option<string> {
    var l1 := if Truthy(snap.linkUrl) then snap.linkUrl else None;
    var l2 := if !Truthy(l1) && Truthy(ac.linkUrl) then ac.linkUrl else l1;
    var l3 :=
      if Truthy(l2) then l2
      else if Truthy(ac.creative.linkUrl) then ac.creative.linkUrl
      else if |ac.creative.cards| > 0 then CardLink(ac.creative.cards)
      else l2;
    if !Truthy(l3) && Truthy(ac.ctaLink) then ac.ctaLink else l3
  }

  lemma {:induction false} CardLinkFirst(cards: seq<Card>)
    ensures CardLink(cards) == FirstTruthy(CardLinks(cards))
    decreases |cards|
  {
    if |cards| > 0 {
      CardLinkFirst(cards[1..]);
      assert CardLinks(cards)[1..] == CardLinks(cards[1..]);
    }
  }

  lemma {:induction false} FirstTruthyAppend(a: seq<Option<string>>, b: seq<Option<string>>)
    ensures FirstTruthy(a + b) == if FirstTruthy(a).Some? then FirstTruthy(a) else FirstTruthy(b)
    decreases |a|
  {
    if |a| == 0 {
      assert a + b == b;
    } else {
      assert (a + b)[1..] == a[1..] + b;
      FirstTruthyAppend(a[1..], b);
    }
  }

  /**
   * The landing page is the first truthy link among the snapshot, the ad
   * content, the creative, the cards in order and the call-to-action link.
   */
  lemma LandingPageFirst(ac: AdContent, snap: Snapshot)
    ensures LandingPage(ac, snap)
            == FirstTruthy([snap.linkUrl, ac.linkUrl, ac.creative.linkUrl] + CardLinks(ac.creative.cards) + [ac.ctaLink])
  {
    var head := [snap.linkUrl, ac.linkUrl, ac.creative.linkUrl];
    var cards := CardLinks(ac.creative.cards);
    FirstTruthyOf3(snap.linkUrl, ac.linkUrl, ac.creative.linkUrl);
    CardLinkFirst(ac.creative.cards);
    FirstTruthyAppend(head, cards);
    FirstTruthyAppend(head + cards, [ac.ctaLink]);
    assert [ac.ctaLink][1..] == [];
    assert FirstTruthy([ac.ctaLink]) == if Truthy(ac.ctaLink) then ac.ctaLink else None;
  }

  /** Every image list searched for thumbnails, in the source's order. */
  function AllImages(ac: AdContent, images: seq<Image>, snap: Snapshot): seq<Image> {
    images + ac.creative.images + snap.images + ac.images + CardImages(ac.creative.cards)
  }

  function CardImages(cards: seq<Card>): seq<Image> {
    if |cards| == 0 then [] else cards[0].images + CardImages(cards[1..])
  }

  /** The truthy URLs of a list of images, in order. */
  function ImageUrls(imgs: seq<Image>): (r: seq<string>)
    ensures |r| <= |imgs|
    ensures forall i :: 0 <= i < |r| ==> |r[i]| > 0
    decreases |imgs|
  {
    if |imgs| == 0 then []
    else
      var rest := ImageUrls(imgs[1..]);
      if Truthy(ImageUrl(imgs[0])) then [ImageUrl(imgs[0]).value] + rest else rest
  }

  /** An image's URL is listed iff it is truthy. */
  predicate HasUrl(imgs: seq<Image>, u: string) {
    exists i :: 0 <= i < |imgs| && ImageUrl(imgs[i]) == Some(u) && |u| > 0
  }

  lemma HasUrlCons(imgs: seq<Image>, u: string)
    requires |imgs| > 0
    ensures HasUrl(imgs, u) <==> (ImageUrl(imgs[0]) == Some(u) && |u| > 0) || HasUrl(imgs[1..], u)
  {
    if HasUrl(imgs, u) {
      var i :| 0 <= i < |imgs| && ImageUrl(imgs[i]) == Some(u) && |u| > 0;
      if i > 0 {
        assert imgs[1..][i - 1] == imgs[i];
      }
    }
    if HasUrl(imgs[1..], u) {
      var i :| 0 <= i < |imgs[1..]| && ImageUrl(imgs[1..][i]) == Some(u) && |u| > 0;
      assert imgs[i + 1] == imgs[1..][i];
    }
  }

  /** The URLs listed are exactly the truthy URLs of the images. */
  lemma {:induction false} ImageUrlsMembers(imgs: seq<Image>)
    ensures forall u :: u in ImageUrls(imgs) <==> HasUrl(imgs, u)
    decreases |imgs|
  {
    if |imgs| > 0 {
      ImageUrlsMembers(imgs[1..]);
      forall u ensures u in ImageUrls(imgs) <==> HasUrl(imgs, u) {
        HasUrlCons(imgs, u);
      }
    }
  }

  /**
   * The thumbnails: every truthy image URL once, in first-seen order;
   * `None` when there is none.
   */
  function Thumbnails(ac: AdContent, images: seq<Image>, snap: Snapshot): (r: Option<seq<string>>)
    ensures r.Some? ==> |r.value| > 0 && Distinct(r.value)
    ensures r.Some? ==> IsSubseq(r.value, ImageUrls(AllImages(ac, images, snap)))
    ensures forall u :: u in ImageUrls(AllImages(ac, images, snap)) <==> r.Some? && u in r.value
  {
    var urls := ImageUrls(AllImages(ac, images, snap));
    var ts := DedupBy(urls, Identity);
    DedupByKeys(urls, Identity);
    assert forall u :: u in urls <==> u in Keys(urls, Identity);
    assert forall u :: u in ts <==> u in Keys(ts, Identity);
    if |ts| == 0 then None else Some(ts)
  }

  function Identity(u: string): string { u }

  // ---------------------------------------------------------------------------
  // Extraction of one ad
  // ---------------------------------------------------------------------------

  /** The stripped ad text of an item. */
  function AdText(ac: AdContent, md: Metadata): string {
    Strip(RawAdText(ac, md))
  }

  /**
   * `_extract_ad_from_item`: `None` for an item that raises, whose
   * stripped text is shorter than five characters, or whose `is_active`
   * the ad record cannot accept (building it raises inside the guarded
   * block); a left-out `is_active` means active.
   */
  function ExtractAd(item: ApifyItem, hash: string -> int, formatDate: int -> Option<string>): (r: Option<AdScanner.MetaAd>)
    ensures r.Some? <==> item.Item? && |AdText(item.adContent, item.metadata)| >= MinTextLength && !item.status.isActive.Null?
    ensures r.Some? ==> (r.value.isActive <==> item.status.isActive != Given(false))
    ensures r.Some? ==> 0 < |r.value.text| <= MaxTextLength
    ensures r.Some? ==> 0 < |r.value.advertiserName| <= MaxAdvertiserLength
    ensures r.Some? ==> r.value.thumbnailUrls.None? || (|r.value.thumbnailUrls.value| > 0 && Distinct(r.value.thumbnailUrls.value))
  {
    match item
    case Item(ac, st, timing, md, images, snap, videos) =>
      var text := AdText(ac, md);
      if |text| < MinTextLength || st.isActive.Null? then None
      else Some(BuildAd(item, text, hash, formatDate))
    case Unreadable => None
    case NotADict => None
  }

  /** The `MetaAd` of a readable item whose stripped text is long enough. */
  function BuildAd(item: ApifyItem, text: string, hash: string -> int, formatDate: int -> Option<string>): (ad: AdScanner.MetaAd)
    requires item.Item? && text == AdText(item.adContent, item.metadata)
    requires |text| >= MinTextLength && !item.status.isActive.Null?
    ensures ad.isActive <==> item.status.isActive != Given(false)
    ensures 0 < |ad.text| <= MaxTextLength
    ensures 0 < |ad.advertiserName| <= MaxAdvertiserLength
    ensures ad.thumbnailUrls.None? || (|ad.thumbnailUrls.value| > 0 && Distinct(ad.thumbnailUrls.value))
  {
    var Item(ac, st, timing, md, images, snap, videos) := item;
    var cut := Take(text, MaxTextLength);
    assert cut[0] == text[0];
    AdScanner.MetaAd(
      AdIdFor(st, md, text, hash),
      Strip(cut),
      AdvertiserFor(ac, st, md),
      MainImage(ac, images, snap),
      None,
      StartDateOf(timing, formatDate),
      st.isActive.Or(true),
      None, None, None, None,
      LandingPage(ac, snap),
      None, None,
      MainVideo(videos, ac.creative, snap),
      Thumbnails(ac, images, snap))
  }

  // ---------------------------------------------------------------------------
  // The response
  // ---------------------------------------------------------------------------

  /** The deduplication signature: advertiser, a colon, and the first 100 characters of text. */
  function Signature(ad: AdScanner.MetaAd): string {
    ad.advertiserName + ":" + Take(ad.text, 100)
  }

  function SignatureKey(hash: string -> int): AdScanner.MetaAd -> int {
    ad => hash(Signature(ad))
  }

  /** The present results of `f` over `xs`, in order. */
  function Present<T, U>(xs: seq<T>, f: T -> Option<U>): (r: seq<U>)
    ensures |r| <= |xs|
  {
    if |xs| == 0 then []
    else
      match f(xs[0])
      case Some(y) => [y] + Present(xs[1..], f)
      case None => Present(xs[1..], f)
  }

  lemma {:induction false} PresentAppend<T, U>(a: seq<T>, b: seq<T>, f: T -> Option<U>)
    ensures Present(a + b, f) == Present(a, f) + Present(b, f)
    decreases |a|
  {
    if |a| == 0 {
      assert a + b == b;
    } else {
      assert (a + b)[1..] == a[1..] + b;
      PresentAppend(a[1..], b, f);
    }
  }

  lemma PresentSnoc<T, U>(xs: seq<T>, i: nat, f: T -> Option<U>)
    requires i < |xs|
    ensures Present(xs[..i + 1], f) == Present(xs[..i], f) + (match f(xs[i]) case Some(y) => [y] case None => [])
  {
    assert xs[..i + 1] == xs[..i] + [xs[i]];
    PresentAppend(xs[..i], [xs[i]], f);
    assert [xs[i]][1..] == [];
  }

  /**
   * The collection loop of `_parse_apify_response`: stop once `limit`
   * results are held, skip items `extract` yields nothing for, and keep
   * a result only when its key has not been seen.
   */
  method CollectUnique(data: seq<ApifyItem>, limit: int, extract: ApifyItem -> Option<AdScanner.MetaAd>, key: AdScanner.MetaAd -> int)
    returns (ads: seq<AdScanner.MetaAd>)
    ensures ads == Take(DedupBy(Present(data, extract), key), Max(limit, 0))
  {
    ads := [];
    var seen: set<int> := {};
    var i := 0;
    while i < |data|
      invariant 0 <= i <= |data|
      invariant ads == DedupBy(Present(data[..i], extract), key)
      invariant seen == Keys(Present(data[..i], extract), key)
      invariant |ads| <= Max(limit, 0)
    {
      if |ads| >= limit {
        break;
      }
      PresentSnoc(data, i, extract);
      var extracted := extract(data[i]);
      if extracted.Some? {
        var ad := extracted.value;
        DedupBySnoc(Present(data[..i], extract), ad, key);
        if key(ad) !in seen {
          ads := ads + [ad];
        }
        seen := seen + {key(ad)};
      } else {
        assert Present(data[..i], extract) + [] == Present(data[..i], extract);
      }
      i := i + 1;
    }
    if i == |data| {
      assert data[..i] == data;
    } else {
      assert data == data[..i] + data[i..];
      PresentAppend(data[..i], data[i..], extract);
      DedupByPrefixStable(Present(data[..i], extract), Present(data[i..], extract), key, |ads|);
      assert |ads| == Max(limit, 0);
    }
  }

  function Extractor(hash: string -> int, formatDate: int -> Option<string>): ApifyItem -> Option<AdScanner.MetaAd> {
    item => ExtractAd(item, hash, formatDate)
  }

  /**
   * `_parse_apify_response`. It raises when the first element is not a
   * dictionary (the debug print of its keys happens outside the `try`).
   * Otherwise the result is the first `limit` ads of the first-wins
   * deduplication of the extracted ads; items yielding no ad do not count.
   */
  method ParseApifyResponse(data: seq<ApifyItem>, limit: int, hash: string -> int, formatDate: int -> Option<string>)
    returns (r: Res<seq<AdScanner.MetaAd>>)
    ensures r.Raise? <==> |data| > 0 && data[0].NotADict?
    ensures r.Ok? ==> r.value == Take(DedupBy(Present(data, Extractor(hash, formatDate)), SignatureKey(hash)), Max(limit, 0))
  {
    if |data| > 0 && data[0].NotADict? {
      return Raise;
    }
    var ads := CollectUnique(data, limit, Extractor(hash, formatDate), SignatureKey(hash));
    return Ok(ads);
  }

  /**
   * The parsed ads are at most `limit` (none when `limit <= 0`), are
   * drawn from the extracted ads in their order, and no two share a
   * signature.
   */
  lemma ParsedAdsBounds(data: seq<ApifyItem>, limit: int, extract: ApifyItem -> Option<AdScanner.MetaAd>, hash: string -> int)
    ensures var r := Take(DedupBy(Present(data, extract), SignatureKey(hash)), Max(limit, 0));
            |r| <= Max(limit, 0) && |r| <= |data|
            && IsSubseq(r, Present(data, extract))
            && forall i, j :: 0 <= i < j < |r| ==> Signature(r[i]) != Signature(r[j])
  {
    var all := Present(data, extract);
    var key := SignatureKey(hash);
    var d := DedupBy(all, key);
    var r := Take(d, Max(limit, 0));
    SubseqPrefix(d, |r|);
    SubseqTrans(r, d, all);
    SubseqLength(d, all);
    forall i, j | 0 <= i < j < |r| ensures Signature(r[i]) != Signature(r[j]) {
      assert r[i] == d[i] && r[j] == d[j];
      assert key(d[i]) != key(d[j]);
    }
  }

  // ---------------------------------------------------------------------------
  // Ads-library search URL
  // ---------------------------------------------------------------------------

  const LibraryBase: string := "https://www.facebook.com/ads/library/"

  /** The query parameters of a keyword search, in their fixed order. */
  function LibraryParams(keyword: string, country: string, activeStatus: string, adType: string, mediaType: string): (ps: seq<(string, string)>)
    ensures |ps| == 7
    ensures ps[0] == ("active_status", Lower(activeStatus)) && ps[5] == ("q", keyword)
  {
    [("active_status", Lower(activeStatus)),
     ("ad_type", adType),
     ("country", country),
     ("is_targeted_country", "false"),
     ("media_type", mediaType),
     ("q", keyword),
     ("search_type", "keyword_unordered")]
  }

  /** The default search parameters of `build_ads_library_url`. */
  function DefaultLibraryParams(keyword: string): seq<(string, string)> {
    LibraryParams(keyword, "ALL", "active", "all", "all")
  }

  /** `urlencode`: `key=quote(value)` pairs joined by "&". */
  function Urlencode(ps: seq<(string, string)>, quote: string -> string): string {
    Join(seq(|ps|, i requires 0 <= i < |ps| => ps[i].0 + "=" + quote(ps[i].1)), "&")
  }

  function BuildAdsLibraryUrl(keyword: string, country: string, activeStatus: string, adType: string, mediaType: string,
                              quote: string -> string): (url: string)
    ensures StartsWith(url, LibraryBase + "?")
  {
    LibraryBase + "?" + Urlencode(LibraryParams(keyword, country, activeStatus, adType, mediaType), quote)
  }

  /**
   * Given a quoting function that escapes "&" and "=" (as `quote_plus`
   * does), the query string of the search URL splits back into the seven
   * parameters in order, each value as quoted.
   */
  lemma LibraryUrlQuery(keyword: string, country: string, activeStatus: string, adType: string, mediaType: string,
                        quote: string -> string)
    requires forall v :: '&' !in quote(v) && '=' !in quote(v)
    ensures var url := BuildAdsLibraryUrl(keyword, country, activeStatus, adType, mediaType, quote);
            var ps := LibraryParams(keyword, country, activeStatus, adType, mediaType);
            var parts := Split(url[|LibraryBase| + 1..], '&');
            |parts| == 7 && forall i :: 0 <= i < 7 ==> Split(parts[i], '=') == [ps[i].0, quote(ps[i].1)]
  {
    var ps := LibraryParams(keyword, country, activeStatus, adType, mediaType);
    var items := seq(|ps|, i requires 0 <= i < |ps| => ps[i].0 + "=" + quote(ps[i].1));
    var url := BuildAdsLibraryUrl(keyword, country, activeStatus, adType, mediaType, quote);
    assert url[|LibraryBase| + 1..] == Join(items, "&");
    forall i | 0 <= i < 7 ensures '&' !in items[i] && Split(items[i], '=') == [ps[i].0, quote(ps[i].1)] {
      assert '&' !in ps[i].0 && '=' !in ps[i].0;
      JoinSplit([ps[i].0, quote(ps[i].1)], '=');
      assert Join([ps[i].0, quote(ps[i].1)], "=") == items[i];
    }
    JoinSplit(items, '&');
  }
}

=== FILE: base.dfy ===
/**
 * Shared vocabulary of the model: optional values, steps that may raise,
 * Python/JavaScript string operations restricted to ASCII case and
 * whitespace, sequence filtering and decimal formatting.
 */
module Base {

  /** Python `None` / JavaScript `undefined` next to a present value. */
  datatype Option<+T> = None | Some(value: T) {
    function GetOr(default: T): T {
      match this
      case Some(v) => v
      case None => default
    }
  }

  /**
   * A JSON field that has a default: left out, given a value the validator
   * cannot accept for the field's type (`null`, or a value of another
   * type), or given a usable value. Only a left-out field takes the
   * default; an unusable value fails validation.
   */
  datatype Defaulted<T> = Omitted | Null | Given(value: T) {
    function Or(default: T): T {
      if Given? then value else default
    }
  }

  /** The outcome of a Python step that may raise an exception. */
  datatype Res<+T> = Ok(value: T) | Raise {
    predicate IsFailure() {
      Raise?
    }

    function PropagateFailure<U>(): Res<U>
      requires Raise?
    {
      Raise
    }

    function Extract(): T
      requires Ok?
    {
      value
    }
  }

  function Min(a: int, b: int): int {
    if a <= b then a else b
  }

  function Max(a: int, b: int): int {
    if a >= b then a else b
  }

  /** Python's `int()` of a float and JavaScript's `Math.trunc`: rounding toward zero. */
  function Trunc(x: real): (r: int)
    ensures x >= 0.0 ==> r >= 0 && r as real <= x < r as real + 1.0
    ensures x < 0.0 ==> r <= 0 && r as real - 1.0 < x <= r as real
  {
    if x >= 0.0 then x.Floor else -((-x).Floor)
  }

  /** Real division of non-negative integers, truncated, is integer division. */
  lemma TruncDiv(a: int, n: int)
    requires a >= 0 && n > 0
    ensures Trunc(a as real / n as real) == a / n
  {
    var q := a / n;
    var r := a % n;
    assert a == q * n + r;
    assert (a as real) == (q as real) * (n as real) + (r as real);
    assert a as real / n as real == q as real + r as real / n as real;
    assert 0.0 <= r as real / n as real < 1.0;
  }

  lemma MulMonoLe(x: int, y: int, n: int)
    requires x <= y && n >= 0
    ensures x * n <= y * n
  {
  }

  lemma MulLeftCancel(x: int, y: int, n: int)
    requires n > 0 && x * n < y * n
    ensures x < y
  {
    assert (y - x) * n == y * n - x * n;
  }

  lemma MulLeftCancelLe(x: int, y: int, n: int)
    requires n > 0 && x * n <= y * n
    ensures x <= y
  {
    assert (y - x) * n == y * n - x * n;
  }

  lemma DivBounds(a: int, n: int, lo: int, hi: int)
    requires n > 0 && lo * n <= a <= hi * n
    ensures lo <= a / n <= hi
  {
    var q := a / n;
    var r := a % n;
    assert a == q * n + r && 0 <= r < n;
    assert (q + 1) * n == q * n + n;
    MulLeftCancel(lo, q + 1, n);
    MulLeftCancelLe(q, hi, n);
  }

  // ---------------------------------------------------------------------------
  // Sequences
  // ---------------------------------------------------------------------------

  /** Python `s[:n]` and JavaScript `s.substring(0, n)` / `xs.slice(0, n)` for n >= 0. */
  function Take<T>(s: seq<T>, n: nat): (r: seq<T>)
    ensures |r| == Min(n, |s|)
    ensures r == s[..|r|]
  {
    if n <= |s| then s[..n] else s
  }

  /** Python `s[:n]` for any integer `n`: a negative bound counts from the end. */
  function PySliceTo<T>(s: seq<T>, n: int): (r: seq<T>)
    ensures |r| <= |s| && r == s[..|r|]
    ensures n >= 0 ==> r == Take(s, n)
    ensures n < 0 ==> |r| == Max(0, |s| + n)
  {
    if n >= 0 then Take(s, n) else s[..Max(0, |s| + n)]
  }

  function Filter<T>(xs: seq<T>, p: T -> bool): (r: seq<T>)
    ensures |r| <= |xs|
    ensures forall i :: 0 <= i < |r| ==> r[i] in xs && p(r[i])
    ensures forall i :: 0 <= i < |xs| && p(xs[i]) ==> xs[i] in r
    ensures IsSubseq(r, xs)
  {
    if |xs| == 0 then []
    else if p(xs[0]) then
      var rest := Filter(xs[1..], p);
      SubseqCons(rest, xs[1..], xs[0]);
      [xs[0]] + rest
    else
      var rest := Filter(xs[1..], p);
      SubseqSkip(rest, xs[1..], xs[0]);
      rest
  }

  lemma {:induction false} FilterAppend<T>(a: seq<T>, b: seq<T>, p: T -> bool)
    ensures Filter(a + b, p) == Filter(a, p) + Filter(b, p)
    decreases |a|
  {
    if |a| == 0 {
      assert a + b == b;
    } else {
      assert (a + b)[1..] == a[1..] + b;
      FilterAppend(a[1..], b, p);
    }
  }

  /** A non-empty sequence is its first element followed by the rest. */
  lemma HeadSplit<T>(s: seq<T>)
    requires |s| > 0
    ensures s == [s[0]] + s[1..]
  {
  }

  /** A non-empty sequence is its front followed by its last element. */
  lemma LastSplit<T>(s: seq<T>)
    requires |s| > 0
    ensures s == s[..|s| - 1] + [s[|s| - 1]]
  {
  }

  lemma FilterSnoc<T>(init: seq<T>, last: T, p: T -> bool)
    ensures Filter(init + [last], p) == Filter(init, p) + (if p(last) then [last] else [])
  {
    FilterAppend(init, [last], p);
    assert [last][1..] == [];
  }

  lemma {:induction false} FilterAll<T>(xs: seq<T>, p: T -> bool)
    requires forall x :: x in xs ==> p(x)
    ensures Filter(xs, p) == xs
    decreases |xs|
  {
    if |xs| > 0 {
      FilterAll(xs[1..], p);
    }
  }

  /** Filtering by a stronger condition keeps a subsequence of what the weaker one keeps. */
  lemma {:induction false} FilterMono<T>(xs: seq<T>, strong: T -> bool, weak: T -> bool)
    requires forall x :: strong(x) ==> weak(x)
    ensures IsSubseq(Filter(xs, strong), Filter(xs, weak))
    decreases |xs|
  {
    if |xs| > 0 {
      FilterMono(xs[1..], strong, weak);
      if strong(xs[0]) {
        SubseqCons(Filter(xs[1..], strong), Filter(xs[1..], weak), xs[0]);
      } else if weak(xs[0]) {
        SubseqSkip(Filter(xs[1..], strong), Filter(xs[1..], weak), xs[0]);
      }
    }
  }

  /** `a` is `b` with some elements left out, order kept. */
  predicate IsSubseq<T(==)>(a: seq<T>, b: seq<T>)
    decreases |b|
  {
    |a| == 0 || (|b| > 0 && if a[0] == b[0] then IsSubseq(a[1..], b[1..]) else IsSubseq(a, b[1..]))
  }

  lemma {:induction false} SubseqCons<T>(a: seq<T>, b: seq<T>, x: T)
    requires IsSubseq(a, b)
    ensures IsSubseq([x] + a, [x] + b)
  {
    assert ([x] + a)[1..] == a;
    assert ([x] + b)[1..] == b;
  }

  lemma {:induction false} SubseqSkip<T>(a: seq<T>, b: seq<T>, x: T)
    requires IsSubseq(a, b)
    ensures IsSubseq(a, [x] + b)
    decreases |b|, 1
  {
    assert ([x] + b)[1..] == b;
    if |a| > 0 && a[0] == x {
      SubseqTail(a, b);
    }
  }

  lemma {:induction false} SubseqTail<T>(a: seq<T>, b: seq<T>)
    requires |a| > 0 && IsSubseq(a, b)
    ensures IsSubseq(a[1..], b)
    decreases |b|, 0
  {
    assert [b[0]] + b[1..] == b;
    if a[0] == b[0] {
      SubseqSkip(a[1..], b[1..], b[0]);
    } else {
      SubseqTail(a, b[1..]);
      SubseqSkip(a[1..], b[1..], b[0]);
    }
  }

  lemma {:induction false} SubseqMembers<T>(a: seq<T>, b: seq<T>)
    requires IsSubseq(a, b)
    ensures forall x :: x in a ==> x in b
    decreases |b|
  {
    if |a| > 0 {
      if a[0] == b[0] {
        SubseqMembers(a[1..], b[1..]);
        assert forall x :: x in a ==> x == a[0] || x in a[1..];
      } else {
        SubseqMembers(a, b[1..]);
      }
    }
  }

  lemma {:induction false} SubseqLength<T>(a: seq<T>, b: seq<T>)
    requires IsSubseq(a, b)
    ensures |a| <= |b|
    decreases |b|
  {
    if |a| > 0 {
      if a[0] == b[0] {
        SubseqLength(a[1..], b[1..]);
      } else {
        SubseqLength(a, b[1..]);
      }
    }
  }

  lemma {:induction false} SubseqTrans<T>(a: seq<T>, b: seq<T>, c: seq<T>)
    requires IsSubseq(a, b) && IsSubseq(b, c)
    ensures IsSubseq(a, c)
    decreases |c|
  {
    if |a| > 0 {
      if b[0] == c[0] {
        if a[0] == b[0] {
          SubseqTrans(a[1..], b[1..], c[1..]);
        } else {
          SubseqTrans(a, b[1..], c[1..]);
        }
      } else {
        SubseqTrans(a, b, c[1..]);
        if a[0] == c[0] {
          SubseqTail(a, c[1..]);
        }
      }
    }
  }

  lemma {:induction false} SubseqPrefix<T>(s: seq<T>, n: nat)
    requires n <= |s|
    ensures IsSubseq(s[..n], s)
    decreases n
  {
    if n > 0 {
      SubseqPrefix(s[1..], n - 1);
      assert s[1..][..n - 1] == s[..n][1..];
    }
  }

  function Count<T(==)>(xs: seq<T>, x: T): (r: nat)
    ensures r <= |xs|
    ensures r > 0 <==> x in xs
  {
    if |xs| == 0 then 0
    else (if xs[0] == x then 1 else 0) + Count(xs[1..], x)
  }

  lemma {:induction false} CountAppend<T>(a: seq<T>, b: seq<T>, x: T)
    ensures Count(a + b, x) == Count(a, x) + Count(b, x)
    decreases |a|
  {
    if |a| == 0 {
      assert a + b == b;
    } else {
      assert (a + b)[1..] == a[1..] + b;
      CountAppend(a[1..], b, x);
    }
  }

  function Sum(xs: seq<int>): int {
    if |xs| == 0 then 0 else xs[0] + Sum(xs[1..])
  }

  lemma {:induction false} SumAppend(a: seq<int>, b: seq<int>)
    ensures Sum(a + b) == Sum(a) + Sum(b)
    decreases |a|
  {
    if |a| == 0 {
      assert a + b == b;
    } else {
      assert (a + b)[1..] == a[1..] + b;
      SumAppend(a[1..], b);
    }
  }

  /** Every element lies in `[lo, hi]`, so the sum lies between `|xs|*lo` and `|xs|*hi`. */
  lemma {:induction false} SumBounds(xs: seq<int>, lo: int, hi: int)
    requires forall i :: 0 <= i < |xs| ==> lo <= xs[i] <= hi
    ensures |xs| * lo <= Sum(xs) <= |xs| * hi
    decreases |xs|
  {
    if |xs| > 0 {
      SumBounds(xs[1..], lo, hi);
    }
  }

  /** A real quotient of a sum by its count lies between the per-element bounds. */
  lemma RealDivBounds(s: real, c: real, lo: real, hi: real)
    requires c > 0.0 && c * lo <= s <= c * hi
    ensures lo <= s / c <= hi
  {
    var q := s / c;
    assert q * c == s;
  }

  /** JavaScript `xs.flatMap(f)`: the results of `f`, concatenated in order. */
  function FlatMap<T, U>(xs: seq<T>, f: T -> seq<U>): seq<U>
    decreases |xs|
  {
    if |xs| == 0 then [] else f(xs[0]) + FlatMap(xs[1..], f)
  }

  lemma {:induction false} FlatMapAppend<T, U>(a: seq<T>, b: seq<T>, f: T -> seq<U>)
    ensures FlatMap(a + b, f) == FlatMap(a, f) + FlatMap(b, f)
    decreases |a|
  {
    if |a| == 0 {
      assert a + b == b;
    } else {
      assert (a + b)[1..] == a[1..] + b;
      FlatMapAppend(a[1..], b, f);
    }
  }

  lemma FlatMapSnoc<T, U>(a: seq<T>, x: T, f: T -> seq<U>)
    ensures FlatMap(a + [x], f) == FlatMap(a, f) + f(x)
  {
    FlatMapAppend(a, [x], f);
    assert FlatMap([x], f) == f(x) + FlatMap([x][1..], f);
  }

  /** Every element of a flat map comes from some input element, and it is empty iff every part is. */
  lemma {:induction false} FlatMapMembers<T, U>(xs: seq<T>, f: T -> seq<U>)
    ensures forall y :: y in FlatMap(xs, f) ==> exists i :: 0 <= i < |xs| && y in f(xs[i])
    ensures FlatMap(xs, f) == [] <==> forall i :: 0 <= i < |xs| ==> f(xs[i]) == []
    decreases |xs|
  {
    if |xs| > 0 {
      FlatMapMembers(xs[1..], f);
      assert forall i :: 0 < i < |xs| ==> xs[1..][i - 1] == xs[i];
    }
  }

  predicate Distinct<T(==)>(xs: seq<T>) {
    forall i, j :: 0 <= i < j < |xs| ==> xs[i] != xs[j]
  }

  /** A subsequence of a list without repetitions has none either. */
  lemma {:induction false} SubseqDistinct<T>(a: seq<T>, b: seq<T>)
    requires IsSubseq(a, b) && Distinct(b)
    ensures Distinct(a)
    decreases |b|
  {
    if |a| > 0 {
      if a[0] == b[0] {
        SubseqDistinct(a[1..], b[1..]);
        SubseqMembers(a[1..], b[1..]);
        assert b[0] !in b[1..];
        forall i, j | 0 <= i < j < |a| ensures a[i] != a[j] {
          if i == 0 {
            assert a[j] == a[1..][j - 1];
          } else {
            assert a[i] == a[1..][i - 1] && a[j] == a[1..][j - 1];
          }
        }
      } else {
        assert Distinct(b[1..]);
        SubseqDistinct(a, b[1..]);
      }
    }
  }

  /** A condition and its negation split a list: together they keep every element exactly once. */
  lemma {:induction false} FilterSplit<T>(xs: seq<T>, p: T -> bool, q: T -> bool)
    requires forall x :: q(x) == !p(x)
    ensures multiset(Filter(xs, p)) + multiset(Filter(xs, q)) == multiset(xs)
    ensures |Filter(xs, p)| + |Filter(xs, q)| == |xs|
    decreases |xs|
  {
    if |xs| > 0 {
      FilterSplit(xs[1..], p, q);
      assert xs == [xs[0]] + xs[1..];
    }
  }

  lemma FilterMembers<T>(xs: seq<T>, p: T -> bool)
    ensures forall x :: x in Filter(xs, p) <==> x in xs && p(x)
  {
    var r := Filter(xs, p);
    forall x | x in xs && p(x) ensures x in r {
      var i :| 0 <= i < |xs| && xs[i] == x;
    }
  }

  lemma FilterDistinct<T>(xs: seq<T>, p: T -> bool)
    ensures Distinct(xs) ==> Distinct(Filter(xs, p))
  {
    if Distinct(xs) {
      SubseqDistinct(Filter(xs, p), xs);
    }
  }

  // ---------------------------------------------------------------------------
  // Characters and strings (ASCII case mapping and ASCII whitespace only)
  // ---------------------------------------------------------------------------

  /** Whitespace removed by Python `str.strip()` and JavaScript `trim()`, ASCII part. */
  predicate IsSpace(c: char) {
    c == ' ' || c == '\t' || c == '\n' || c == '\r' || c == '\U{000B}' || c == '\U{000C}'
  }

  function LowerChar(c: char): char {
    if 'A' <= c <= 'Z' then (c as int + 32) as char else c
  }

  function UpperChar(c: char): char {
    if 'a' <= c <= 'z' then (c as int - 32) as char else c
  }

  function Lower(s: string): (r: string)
    ensures |r| == |s|
    ensures forall i :: 0 <= i < |s| ==> r[i] == LowerChar(s[i])
  {
    seq(|s|, i requires 0 <= i < |s| => LowerChar(s[i]))
  }

  function Upper(s: string): (r: string)
    ensures |r| == |s|
    ensures forall i :: 0 <= i < |s| ==> r[i] == UpperChar(s[i])
  {
    seq(|s|, i requires 0 <= i < |s| => UpperChar(s[i]))
  }

  /** Python `s.lstrip(chars)`: drop the longest prefix of characters satisfying `drop`. */
  function LStripBy(s: string, drop: char -> bool): (r: string)
    ensures |r| <= |s| && r == s[|s| - |r|..]
    ensures |r| > 0 ==> !drop(r[0])
    ensures forall i :: 0 <= i < |s| - |r| ==> drop(s[i])
    decreases |s|
  {
    if |s| > 0 && drop(s[0]) then LStripBy(s[1..], drop) else s
  }

  function RStripBy(s: string, drop: char -> bool): (r: string)
    ensures |r| <= |s| && r == s[..|r|]
    ensures |r| > 0 ==> !drop(r[|r| - 1])
    ensures forall i :: |r| <= i < |s| ==> drop(s[i])
    decreases |s|
  {
    if |s| > 0 && drop(s[|s| - 1]) then RStripBy(s[..|s| - 1], drop) else s
  }

  /** Python `str.strip()` / JavaScript `String.prototype.trim()`. */
  function Strip(s: string): (r: string)
    ensures |r| <= |s|
    ensures |r| > 0 ==> !IsSpace(r[0]) && !IsSpace(r[|r| - 1])
    ensures |r| == 0 <==> forall i :: 0 <= i < |s| ==> IsSpace(s[i])
  {
    var l := LStripBy(s, IsSpace);
    var r := RStripBy(l, IsSpace);
    assert |r| == 0 ==> |l| == 0;
    r
  }

  lemma SliceOfSuffix<T>(s: seq<T>, k: nat, n: nat)
    requires k + n <= |s|
    ensures s[k..][..n] == s[k..k + n]
  {
  }

  /** A string with no space at either end is its own strip. */
  lemma StripNoop(r: string)
    requires |r| > 0 ==> !IsSpace(r[0]) && !IsSpace(r[|r| - 1])
    ensures Strip(r) == r
  {
    assert LStripBy(r, IsSpace) == r;
    assert RStripBy(r, IsSpace) == r;
  }

  lemma StripIsSlice(s: string) returns (k: nat)
    ensures k + |Strip(s)| <= |s| && Strip(s) == s[k..k + |Strip(s)|]
  {
    var l := LStripBy(s, IsSpace);
    k := |s| - |l|;
    SliceOfSuffix(s, k, |Strip(s)|);
  }

  /** Stripping keeps a contiguous piece of the string, and stripping again changes nothing. */
  lemma StripSlice(s: string) returns (k: nat)
    ensures k + |Strip(s)| <= |s| && Strip(s) == s[k..k + |Strip(s)|]
    ensures Strip(Strip(s)) == Strip(s)
  {
    k := StripIsSlice(s);
    StripNoop(Strip(s));
  }

  predicate StartsWith(s: string, prefix: string) {
    |prefix| <= |s| && s[..|prefix|] == prefix
  }

  predicate EndsWith(s: string, suffix: string) {
    |suffix| <= |s| && s[|s| - |suffix|..] == suffix
  }

  predicate OccursAt(s: string, sub: string, i: int) {
    0 <= i <= |s| - |sub| && s[i..i + |sub|] == sub
  }

  /** Python `sub in s` / JavaScript `s.includes(sub)`. */
  predicate Contains(s: string, sub: string) {
    exists i | 0 <= i <= |s| - |sub| :: OccursAt(s, sub, i)
  }

  lemma ContainsWitness(s: string, sub: string, i: int)
    requires OccursAt(s, sub, i)
    ensures Contains(s, sub)
  {
  }

  /** A string that contains `a + b` contains `a`. */
  lemma ContainsPrefix(s: string, a: string, b: string)
    requires Contains(s, a + b)
    ensures Contains(s, a)
  {
    var i :| 0 <= i <= |s| - |a + b| && OccursAt(s, a + b, i);
    assert s[i..i + |a|] == (a + b)[..|a|];
    assert OccursAt(s, a, i);
  }

  /** Python `s.split(sep)` / JavaScript `s.split(sep)` for a one-character separator. */
  function Split(s: string, sep: char): (parts: seq<string>)
    ensures |parts| >= 1
    ensures forall p :: p in parts ==> sep !in p
    decreases |s|
  {
    if |s| == 0 then [""]
    else
      var rest := Split(s[1..], sep);
      if s[0] == sep then [""] + rest
      else [[s[0]] + rest[0]] + rest[1..]
  }

  /** Python `sep.join(parts)` / JavaScript `parts.join(sep)`. */
  function Join(parts: seq<string>, sep: string): string {
    if |parts| == 0 then ""
    else if |parts| == 1 then parts[0]
    else parts[0] + sep + Join(parts[1..], sep)
  }

  lemma {:induction false} SplitJoin(s: string, sep: char)
    ensures Join(Split(s, sep), [sep]) == s
    decreases |s|
  {
    if |s| > 0 {
      var rest := Split(s[1..], sep);
      SplitJoin(s[1..], sep);
      if s[0] == sep {
        assert Join([""] + rest, [sep]) == "" + [sep] + Join(rest, [sep]);
      } else {
        var parts := [[s[0]] + rest[0]] + rest[1..];
        if |rest| == 1 {
          assert Join(parts, [sep]) == [s[0]] + rest[0];
        } else {
          assert Join(rest, [sep]) == rest[0] + [sep] + Join(rest[1..], [sep]);
          assert parts[1..] == rest[1..];
        }
      }
    }
  }

  lemma {:induction false} SplitNoSep(p: string, sep: char)
    requires sep !in p
    ensures Split(p, sep) == [p]
    decreases |p|
  {
    if |p| > 0 {
      assert sep !in p[1..];
      SplitNoSep(p[1..], sep);
      assert [p[0]] + p[1..] == p;
    }
  }

  lemma {:induction false} SplitPrefix(p: string, t: string, sep: char)
    requires sep !in p
    ensures Split(p + t, sep) == [p + Split(t, sep)[0]] + Split(t, sep)[1..]
    decreases |p|
  {
    if |p| > 0 {
      assert (p + t)[1..] == p[1..] + t;
      assert sep !in p[1..];
      SplitPrefix(p[1..], t, sep);
      assert [p[0]] + (p[1..] + Split(t, sep)[0]) == p + Split(t, sep)[0];
    } else {
      assert p + t == t;
      assert p + Split(t, sep)[0] == Split(t, sep)[0];
      assert [Split(t, sep)[0]] + Split(t, sep)[1..] == Split(t, sep);
    }
  }

  lemma {:induction false} JoinSplit(parts: seq<string>, sep: char)
    requires |parts| >= 1
    requires forall p :: p in parts ==> sep !in p
    ensures Split(Join(parts, [sep]), sep) == parts
    decreases |parts|
  {
    if |parts| == 1 {
      SplitNoSep(parts[0], sep);
    } else {
      var tail := Join(parts[1..], [sep]);
      JoinSplit(parts[1..], sep);
      assert Join(parts, [sep]) == parts[0] + ([sep] + tail);
      SplitPrefix(parts[0], [sep] + tail, sep);
      assert ([sep] + tail)[1..] == tail;
      assert Split([sep] + tail, sep) == [""] + parts[1..];
      assert parts[0] + "" == parts[0];
      assert [parts[0]] + parts[1..] == parts;
    }
  }

  // ---------------------------------------------------------------------------
  // Decimal formatting of integers (Python `str(n)`, JavaScript `String(n)`)
  // ---------------------------------------------------------------------------

  predicate IsDigit(c: char) {
    '0' <= c <= '9'
  }

  function DigitChar(d: nat): (c: char)
    requires d < 10
    ensures IsDigit(c) && c as int - '0' as int == d
  {
    (d + '0' as int) as char
  }

  function NatToString(n: nat): (r: string)
    ensures |r| >= 1
    ensures forall i :: 0 <= i < |r| ==> IsDigit(r[i])
    decreases n
  {
    if n < 10 then [DigitChar(n)] else NatToString(n / 10) + [DigitChar(n % 10)]
  }

  function IntToString(n: int): string {
    if n < 0 then "-" + NatToString(-n) else NatToString(n)
  }

  /** The value of a non-empty digit string. */
  function DigitsValue(s: string): nat
    requires |s| >= 1 && forall i :: 0 <= i < |s| ==> IsDigit(s[i])
    decreases |s|
  {
    assert IsDigit(s[|s| - 1]);
    var last: nat := s[|s| - 1] as int - '0' as int;
    if |s| == 1 then last else DigitsValue(s[..|s| - 1]) * 10 + last
  }

  function ParseNat(s: string): Option<nat> {
    if |s| >= 1 && forall i :: 0 <= i < |s| ==> IsDigit(s[i]) then Some(DigitsValue(s)) else None
  }

  lemma {:induction false} ParseNatToString(n: nat)
    ensures ParseNat(NatToString(n)) == Some(n)
    decreases n
  {
    if n >= 10 {
      ParseNatToString(n / 10);
      var s := NatToString(n);
      assert s[..|s| - 1] == NatToString(n / 10);
    }
  }
}

=== FILE: batch_page.dfy ===
/**
 * The batch scanner page: turning the typed query list or a shared link
 * into queries, the per-query status updates of a batch run, the link
 * written back to the address bar, and the page's counters.
 *
 * Base64 (`btoa`/`atob`) is a pair of functions given by the caller; the
 * network call of each scan is its outcome.
 */
module BatchPage {
  import opened Base
  import opened ScanView
  import BatchResults

  // ---------------------------------------------------------------------------
  // Queries
  // ---------------------------------------------------------------------------

  function TrimAll(xs: seq<string>): (r: seq<string>)
    ensures |r| == |xs| && forall i :: 0 <= i < |r| ==> r[i] == Strip(xs[i])
  {
    seq(|xs|, i requires 0 <= i < |xs| => Strip(xs[i]))
  }

  function NonEmpty(s: string): bool { s != "" }

  /** The lines of the query box, trimmed, blank ones dropped. */
  function QueryLines(text: string): (qs: seq<string>)
    ensures forall i :: 0 <= i < |qs| ==> qs[i] != "" && Strip(qs[i]) == qs[i] && '\n' !in qs[i]
  {
    var trimmed := TrimAll(Split(text, '\n'));
    TrimmedLines(Split(text, '\n'));
    Filter(trimmed, NonEmpty)
  }

  lemma TrimmedLines(lines: seq<string>)
    requires forall i :: 0 <= i < |lines| ==> '\n' !in lines[i]
    ensures forall i :: 0 <= i < |lines| ==> Strip(TrimAll(lines)[i]) == TrimAll(lines)[i] && '\n' !in TrimAll(lines)[i]
  {
    forall i | 0 <= i < |lines| ensures Strip(Strip(lines[i])) == Strip(lines[i]) && '\n' !in Strip(lines[i]) {
      var k := StripSlice(lines[i]);
    }
  }

  /**
   * `runBatchScan`: the typed queries when the box holds anything but
   * whitespace, else the randomly drawn ones; an empty list starts no
   * scan (None).
   */
  function QueriesToRun(text: string, random: seq<string>): (r: Option<seq<string>>)
    ensures Strip(text) != "" ==> (r.Some? <==> QueryLines(text) != []) && (r.Some? ==> r.value == QueryLines(text))
    ensures Strip(text) == "" ==> (r.Some? <==> random != []) && (r.Some? ==> r.value == random)
  {
    var queries := if Strip(text) != "" then QueryLines(text) else random;
    if |queries| == 0 then None else Some(queries)
  }

  /**
   * A list of trimmed, non-empty, single-line queries typed one per line
   * is read back exactly.
   */
  lemma QueryLinesRoundTrip(qs: seq<string>)
    requires |qs| >= 1
    requires forall i :: 0 <= i < |qs| ==> qs[i] != "" && Strip(qs[i]) == qs[i] && '\n' !in qs[i]
    ensures QueriesToRun(Join(qs, "\n"), []) == Some(qs)
  {
    QueryLinesOf(qs);
    JoinHead(qs, "\n");
    StripKeepsFirst(Join(qs, "\n"));
  }

  /** Clean queries joined by line feeds split back into themselves. */
  lemma QueryLinesOf(qs: seq<string>)
    requires |qs| >= 1
    requires forall i :: 0 <= i < |qs| ==> qs[i] != "" && Strip(qs[i]) == qs[i] && '\n' !in qs[i]
    ensures QueryLines(Join(qs, "\n")) == qs
  {
    forall x | x in qs ensures NonEmpty(x) && '\n' !in x {
      var i :| 0 <= i < |qs| && qs[i] == x;
    }
    JoinSplit(qs, '\n');
    assert Split(Join(qs, "\n"), '\n') == qs;
    assert TrimAll(qs) == qs;
    FilterAll(qs, NonEmpty);
  }

  lemma StripKeepsFirst(s: string)
    requires |s| > 0 && !IsSpace(s[0])
    ensures Strip(s) != ""
  {
  }

  lemma {:induction false} JoinHead(parts: seq<string>, sep: string)
    requires |parts| >= 1 && |parts[0]| >= 1
    ensures |Join(parts, sep)| >= 1 && Join(parts, sep)[0] == parts[0][0]
  {
  }

  /**
   * A shared link's query list: the decoded text split on "|", keeping
   * the parts that are not blank (the parts themselves are not trimmed).
   */
  function DecodeShared(decoded: string): (qs: seq<string>)
    ensures forall i :: 0 <= i < |qs| ==> Strip(qs[i]) != "" && '|' !in qs[i]
    ensures IsSubseq(qs, Split(decoded, '|'))
  {
    Filter(Split(decoded, '|'), NotBlank)
  }

  function NotBlank(s: string): bool { Strip(s) != "" }

  /**
   * Encoding a list for the link and decoding it again gives the list
   * back, when no query contains "|" or is blank and base64 decoding
   * inverts encoding on the joined text.
   */
  lemma SharedRoundTrip(qs: seq<string>, btoa: string -> string, atob: string -> string)
    requires |qs| >= 1
    requires forall i :: 0 <= i < |qs| ==> '|' !in qs[i] && Strip(qs[i]) != ""
    requires atob(btoa(Join(qs, "|"))) == Join(qs, "|")
    ensures DecodeShared(atob(btoa(Join(qs, "|")))) == qs
  {
    JoinSplit(qs, '|');
    FilterAll(qs, NotBlank);
  }

  const MaxUrlLength: nat := 2000

  /**
   * The address written after starting a batch: the encoded queries and
   * the per-query limit, or only the limit when that would reach 2000
   * characters.
   */
  function ShareAddress(encoded: string, maxAds: int): (url: string)
    ensures StartsWith(url, "?queries=") <==> |"?queries=" + encoded + "&max_ads=" + IntToString(maxAds)| < MaxUrlLength
    ensures StartsWith(url, "?queries=") ==> |url| < MaxUrlLength && url == "?queries=" + encoded + "&max_ads=" + IntToString(maxAds)
    ensures !StartsWith(url, "?queries=") ==> url == "?max_ads=" + IntToString(maxAds)
  {
    var full := "?queries=" + encoded + "&max_ads=" + IntToString(maxAds);
    assert full[..9] == "?queries=";
    if |full| < MaxUrlLength then full
    else
      var short := "?max_ads=" + IntToString(maxAds);
      assert short[1] == 'm';
      short
  }

  // ---------------------------------------------------------------------------
  // Per-query status
  // ---------------------------------------------------------------------------

  /** The fields each state allows: results and errors only once a query has finished. */
  predicate Consistent(qs: QueryStatus) {
    match qs.state
    case Pending => qs.result.None? && qs.error.None?
    case Running => qs.result.None? && qs.error.None?
    case Completed => qs.result.Some? != qs.error.Some?
    case Failed => qs.result.None? && qs.error.Some?
  }

  function Queries(statuses: seq<QueryStatus>): (qs: seq<string>)
    ensures |qs| == |statuses| && forall i :: 0 <= i < |qs| ==> qs[i] == statuses[i].query
  {
    seq(|statuses|, i requires 0 <= i < |statuses| => statuses[i].query)
  }

  /** One pending status per query, in query order. */
  function InitialStatuses(queries: seq<string>): (r: seq<QueryStatus>)
    ensures Queries(r) == queries
    ensures forall i :: 0 <= i < |r| ==> r[i].state == Pending && Consistent(r[i])
  {
    seq(|queries|, i requires 0 <= i < |queries| => QueryStatus(queries[i], Pending, None, None, None))
  }

  /** What a scan request ended with: the response, or the thrown error's message (None when the thrown value is not an Error). */
  datatype ScanOutcome = Scanned(data: ScanResponse, duration: int) | Threw(message: Option<string>, duration: int)

  function ErrorMessage(message: Option<string>): string {
    message.GetOr("Unknown error")
  }

  /** A thrown error mentioning NO_ADS_FOUND counts as a completed query with no ads. */
  function Settle(qs: QueryStatus, outcome: ScanOutcome): (r: QueryStatus)
    ensures r.query == qs.query && r.state in {Completed, Failed}
    ensures outcome.Scanned? ==> r.state == Completed && r.result == Some(outcome.data)
    ensures outcome.Threw? ==>
              r.result == qs.result
              && (Contains(ErrorMessage(outcome.message), "NO_ADS_FOUND") <==> r.state == Completed)
              && r.error == Some(if r.state == Completed then "No ads found" else ErrorMessage(outcome.message))
  {
    match outcome
    case Scanned(data, d) => qs.(state := Completed, result := Some(data), duration := Some(d))
    case Threw(message, d) =>
      var text := ErrorMessage(message);
      var noAds := Contains(text, "NO_ADS_FOUND");
      qs.(state := if noAds then Completed else Failed, error := Some(if noAds then "No ads found" else text), duration := Some(d))
  }

  /** `runScan`'s first update: the query at `index` is running. */
  function MarkRunning(statuses: seq<QueryStatus>, index: nat): (r: seq<QueryStatus>)
    requires index < |statuses|
    ensures |r| == |statuses| && r[index].state == Running
    ensures forall i :: 0 <= i < |r| && i != index ==> r[i] == statuses[i]
  {
    statuses[index := statuses[index].(state := Running)]
  }

  /** `runScan`'s last update: the query at `index` has settled. */
  function Finish(statuses: seq<QueryStatus>, index: nat, outcome: ScanOutcome): (r: seq<QueryStatus>)
    requires index < |statuses|
    ensures |r| == |statuses| && r[index].state in {Completed, Failed}
    ensures forall i :: 0 <= i < |r| && i != index ==> r[i] == statuses[i]
  {
    statuses[index := Settle(statuses[index], outcome)]
  }

  /**
   * Running and then settling a pending query keeps every status
   * consistent and leaves the query list alone.
   */
  lemma ScanKeepsConsistent(statuses: seq<QueryStatus>, index: nat, outcome: ScanOutcome)
    requires index < |statuses| && statuses[index].state == Pending
    requires forall i :: 0 <= i < |statuses| ==> Consistent(statuses[i])
    ensures var r := Finish(MarkRunning(statuses, index), index, outcome);
            Queries(r) == Queries(statuses) && forall i :: 0 <= i < |r| ==> Consistent(r[i])
  {
    var running := MarkRunning(statuses, index);
    assert Consistent(running[index]);
    var r := Finish(running, index, outcome);
    assert Consistent(r[index]);
  }

  // ---------------------------------------------------------------------------
  // Counters
  // ---------------------------------------------------------------------------

  predicate IsSettled(qs: QueryStatus) { qs.state == Completed || qs.state == Failed }
  predicate IsRunning(qs: QueryStatus) { qs.state == Running }
  predicate IsPending(qs: QueryStatus) { qs.state == Pending }

  /** `completedCount`: completed and failed queries alike. */
  function CompletedCount(statuses: seq<QueryStatus>): nat {
    |Filter(statuses, IsSettled)|
  }

  function RunningCount(statuses: seq<QueryStatus>): nat {
    |Filter(statuses, IsRunning)|
  }

  /** Every status is exactly one of pending, running or finished. */
  lemma {:induction false} CountsPartition(statuses: seq<QueryStatus>)
    ensures CompletedCount(statuses) + RunningCount(statuses) + |Filter(statuses, IsPending)| == |statuses|
    decreases |statuses|
  {
    if |statuses| > 0 {
      CountsPartition(statuses[1..]);
    }
  }

  /** `q.result?.total_ads || 0`, and the same for the three lists' lengths. */
  function AdsOf(qs: QueryStatus): int {
    if qs.result.Some? then qs.result.value.totalAds else 0
  }

  function ViolatingOf(qs: QueryStatus): int {
    if qs.result.Some? then |qs.result.value.violating| else 0
  }

  function TotalAdsScanned(statuses: seq<QueryStatus>): int
    decreases |statuses|
  {
    if |statuses| == 0 then 0 else AdsOf(statuses[0]) + TotalAdsScanned(statuses[1..])
  }

  function TotalViolating(statuses: seq<QueryStatus>): int
    decreases |statuses|
  {
    if |statuses| == 0 then 0 else ViolatingOf(statuses[0]) + TotalViolating(statuses[1..])
  }

  lemma {:induction false} TotalAdsFlat(statuses: seq<QueryStatus>)
    ensures TotalAdsScanned(statuses) == Sum(FlatMap(statuses, BatchResults.TotalOf))
    decreases |statuses|
  {
    if |statuses| > 0 {
      TotalAdsFlat(statuses[1..]);
      SumAppend(BatchResults.TotalOf(statuses[0]), FlatMap(statuses[1..], BatchResults.TotalOf));
    }
  }

  lemma {:induction false} TotalViolatingFlat(statuses: seq<QueryStatus>)
    ensures TotalViolating(statuses) == |FlatMap(statuses, BatchResults.ViolatingOf)|
    decreases |statuses|
  {
    if |statuses| > 0 {
      TotalViolatingFlat(statuses[1..]);
    }
  }

  /**
   * The page's running totals agree with the results view: the same ad
   * total, and as many violating ads as the view lists.
   */
  lemma TotalsAgree(statuses: seq<QueryStatus>)
    ensures TotalAdsScanned(statuses) == BatchResults.AggregatedData(statuses).totalAds
    ensures TotalViolating(statuses) == |BatchResults.AggregatedData(statuses).allViolating|
  {
    TotalAdsFlat(statuses);
    TotalViolatingFlat(statuses);
    var v := BatchResults.AggregatedData(statuses).allViolating;
    assert |v| == |multiset(v)|;
    assert |FlatMap(statuses, BatchResults.ViolatingOf)| == |multiset(FlatMap(statuses, BatchResults.ViolatingOf))|;
  }
}

=== FILE: batch_results.dfy ===
/**
 * The batch results view: the reduction of every query's scan result
 * into one set of lists, counts and averages, the scam-type ranking,
 * and the export of the violating ads.
 */
module BatchResults {
  import opened Base
  import opened Sorting
  import opened Records
  import opened ScanView

  /** An analysed ad together with the query whose scan found it. */
  datatype TaggedAd = TaggedAd(analysis: AdAnalysis, sourceQuery: string)

  function Tag(ads: seq<AdAnalysis>, query: string): (r: seq<TaggedAd>)
    ensures |r| == |ads|
    ensures forall i :: 0 <= i < |r| ==> r[i].analysis == ads[i] && r[i].sourceQuery == query
  {
    seq(|ads|, i requires 0 <= i < |ads| => TaggedAd(ads[i], query))
  }

  // ---------------------------------------------------------------------------
  // What each status contributes, read independently of the loop
  // ---------------------------------------------------------------------------

  function ViolatingOf(qs: QueryStatus): seq<TaggedAd> {
    if qs.result.Some? then Tag(qs.result.value.violating, qs.query) else []
  }

  function MixedOf(qs: QueryStatus): seq<TaggedAd> {
    if qs.result.Some? then Tag(qs.result.value.mixed, qs.query) else []
  }

  function BenignOf(qs: QueryStatus): seq<TaggedAd> {
    if qs.result.Some? then Tag(qs.result.value.benign, qs.query) else []
  }

  /** The ads whose harm and fingerprints are counted: violating and mixed, never benign. */
  function CountedOf(qs: QueryStatus): seq<AdAnalysis> {
    if qs.result.Some? then qs.result.value.violating + qs.result.value.mixed else []
  }

  function TotalOf(qs: QueryStatus): seq<int> {
    if qs.result.Some? then [qs.result.value.totalAds] else []
  }

  function HarmEntry(a: AdAnalysis): seq<int> {
    if HasHarm(a) then [a.harmScore.value] else []
  }

  function CountedAds(statuses: seq<QueryStatus>): seq<AdAnalysis> {
    FlatMap(statuses, CountedOf)
  }

  /** The truthy harm scores of the counted ads, in order. */
  function Harms(statuses: seq<QueryStatus>): seq<int> {
    FlatMap(CountedAds(statuses), HarmEntry)
  }

  // ---------------------------------------------------------------------------
  // The loop of the reduction
  // ---------------------------------------------------------------------------

  datatype Acc = Acc(
    violating: seq<TaggedAd>,
    mixed: seq<TaggedAd>,
    benign: seq<TaggedAd>,
    scamTypeCounts: Rec<string>,
    queryResults: seq<QueryStatus>,
    totalAds: int,
    totalHarm: int,
    harmCount: nat)

  const Start: Acc := Acc([], [], [], [], [], 0, 0, 0)

  /** One iteration over a status; the per-ad loops are written as flat maps. */
  function Absorb(acc: Acc, qs: QueryStatus): Acc {
    match qs.result
    case None => acc
    case Some(r) =>
      var counted := r.violating + r.mixed;
      var harms := FlatMap(counted, HarmEntry);
      Acc(acc.violating + Tag(r.violating, qs.query),
          acc.mixed + Tag(r.mixed, qs.query),
          acc.benign + Tag(r.benign, qs.query),
          TallyInto(acc.scamTypeCounts, FlatMap(counted, FingerprintTypes)),
          acc.queryResults + [qs],
          acc.totalAds + r.totalAds,
          acc.totalHarm + Sum(harms),
          acc.harmCount + |harms|)
  }

  function Accumulate(statuses: seq<QueryStatus>): Acc
    decreases |statuses|
  {
    if |statuses| == 0 then Start
    else Absorb(Accumulate(statuses[..|statuses| - 1]), statuses[|statuses| - 1])
  }

  /** What one iteration adds to each field, in terms of the per-status contributions. */
  lemma AbsorbFields(acc: Acc, qs: QueryStatus)
    ensures Absorb(acc, qs).violating == acc.violating + ViolatingOf(qs)
    ensures Absorb(acc, qs).mixed == acc.mixed + MixedOf(qs)
    ensures Absorb(acc, qs).benign == acc.benign + BenignOf(qs)
    ensures Absorb(acc, qs).queryResults == acc.queryResults + Filter([qs], HasResult)
    ensures Absorb(acc, qs).totalAds == acc.totalAds + Sum(TotalOf(qs))
    ensures Absorb(acc, qs).totalHarm == acc.totalHarm + Sum(FlatMap(CountedOf(qs), HarmEntry))
    ensures Absorb(acc, qs).harmCount == acc.harmCount + |FlatMap(CountedOf(qs), HarmEntry)|
    ensures Absorb(acc, qs).scamTypeCounts == TallyInto(acc.scamTypeCounts, FlatMap(CountedOf(qs), FingerprintTypes))
  {
    assert Filter([qs], HasResult) == if HasResult(qs) then [qs] else [];
    if qs.result.Some? {
      assert Sum(TotalOf(qs)) == qs.result.value.totalAds;
    }
  }

  /** The ad lists of the loop are the per-status lists concatenated in status order. */
  lemma {:induction false} AccumulateLists(statuses: seq<QueryStatus>)
    ensures Accumulate(statuses).violating == FlatMap(statuses, ViolatingOf)
    ensures Accumulate(statuses).mixed == FlatMap(statuses, MixedOf)
    ensures Accumulate(statuses).benign == FlatMap(statuses, BenignOf)
    ensures Accumulate(statuses).queryResults == Filter(statuses, HasResult)
    decreases |statuses|
  {
    if |statuses| > 0 {
      var n := |statuses| - 1;
      var init, last := statuses[..n], statuses[n];
      AccumulateLists(init);
      assert Accumulate(statuses) == Absorb(Accumulate(init), last);
      AbsorbFields(Accumulate(init), last);
      assert statuses == init + [last];
      FlatMapSnoc(init, last, ViolatingOf);
      FlatMapSnoc(init, last, MixedOf);
      FlatMapSnoc(init, last, BenignOf);
      FilterAppend(init, [last], HasResult);
    }
  }

  /** The number of ads the loop counts: the total of `total_ads` over the statuses with a result. */
  lemma {:induction false} AccumulateTotal(statuses: seq<QueryStatus>)
    ensures Accumulate(statuses).totalAds == Sum(FlatMap(statuses, TotalOf))
    decreases |statuses|
  {
    if |statuses| > 0 {
      var n := |statuses| - 1;
      var init, last := statuses[..n], statuses[n];
      AccumulateTotal(init);
      assert Accumulate(statuses) == Absorb(Accumulate(init), last);
      AbsorbFields(Accumulate(init), last);
      assert statuses == init + [last];
      FlatMapSnoc(init, last, TotalOf);
      SumAppend(FlatMap(init, TotalOf), TotalOf(last));
    }
  }

  /**
   * The harm and scam-type counters of the loop: the truthy harm scores
   * of the violating and mixed ads, and the tally of their fingerprint
   * types.
   */
  lemma {:induction false} AccumulateCounts(statuses: seq<QueryStatus>)
    ensures Accumulate(statuses).totalHarm == Sum(Harms(statuses))
    ensures Accumulate(statuses).harmCount == |Harms(statuses)|
    ensures Accumulate(statuses).scamTypeCounts == Tally(FlatMap(CountedAds(statuses), FingerprintTypes))
    decreases |statuses|
  {
    if |statuses| > 0 {
      var n := |statuses| - 1;
      var init, last := statuses[..n], statuses[n];
      AccumulateCounts(init);
      assert Accumulate(statuses) == Absorb(Accumulate(init), last);
      AbsorbFields(Accumulate(init), last);
      assert statuses == init + [last];
      FlatMapSnoc(init, last, CountedOf);
      var older, newer := CountedAds(init), CountedOf(last);
      assert CountedAds(statuses) == older + newer;
      FlatMapAppend(older, newer, HarmEntry);
      FlatMapAppend(older, newer, FingerprintTypes);
      SumAppend(Harms(init), FlatMap(newer, HarmEntry));
      TallyIntoTally(FlatMap(older, FingerprintTypes), FlatMap(newer, FingerprintTypes));
    }
  }

  // ---------------------------------------------------------------------------
  // The aggregated view
  // ---------------------------------------------------------------------------

  datatype BatchView = BatchView(
    allViolating: seq<TaggedAd>,
    allMixed: seq<TaggedAd>,
    allBenign: seq<TaggedAd>,
    scamTypeCounts: Rec<string>,
    queryResults: seq<QueryStatus>,
    totalAds: int,
    avgHarmScore: real)

  /** `(ad.harm_score || 0)`, the sort key of the violating and mixed lists. */
  function HarmKey(t: TaggedAd): int {
    HarmOrZero(t.analysis)
  }

  /** `count > 0 ? total / count : 0`. */
  function Average(total: int, count: nat): real {
    if count > 0 then total as real / count as real else 0.0
  }

  /**
   * `aggregatedData`: the violating and mixed lists are the concatenated
   * per-query lists stably sorted by harm, highest first; benign ads keep
   * their order; the counters are the ones the loop keeps.
   */
  function AggregatedData(statuses: seq<QueryStatus>): (v: BatchView)
    ensures SortedDesc(v.allViolating, HarmKey)
    ensures multiset(v.allViolating) == multiset(FlatMap(statuses, ViolatingOf))
    ensures forall k :: WithKey(v.allViolating, HarmKey, k) == WithKey(FlatMap(statuses, ViolatingOf), HarmKey, k)
    ensures SortedDesc(v.allMixed, HarmKey)
    ensures multiset(v.allMixed) == multiset(FlatMap(statuses, MixedOf))
    ensures forall k :: WithKey(v.allMixed, HarmKey, k) == WithKey(FlatMap(statuses, MixedOf), HarmKey, k)
    ensures v.allBenign == FlatMap(statuses, BenignOf)
    ensures v.queryResults == Filter(statuses, HasResult)
    ensures v.totalAds == Sum(FlatMap(statuses, TotalOf))
    ensures v.scamTypeCounts == Tally(FlatMap(CountedAds(statuses), FingerprintTypes))
    ensures v.avgHarmScore == Average(Sum(Harms(statuses)), |Harms(statuses)|)
  {
    var a := Accumulate(statuses);
    AccumulateLists(statuses);
    AccumulateTotal(statuses);
    AccumulateCounts(statuses);
    SortDescCorrect(a.violating, HarmKey);
    SortDescCorrect(a.mixed, HarmKey);
    BatchView(SortDesc(a.violating, HarmKey), SortDesc(a.mixed, HarmKey), a.benign, a.scamTypeCounts,
              a.queryResults, a.totalAds, Average(a.totalHarm, a.harmCount))
  }

  /**
   * The average harm is 0 exactly when no violating or mixed ad has a
   * truthy score, and otherwise lies within the backend's [1, 100] range
   * whenever every such score does.
   */
  lemma AverageHarmBounds(statuses: seq<QueryStatus>)
    requires forall a :: a in CountedAds(statuses) && HasHarm(a) ==> 1 <= a.harmScore.value <= 100
    ensures var avg := AggregatedData(statuses).avgHarmScore;
            (avg == 0.0 <==> forall i :: 0 <= i < |CountedAds(statuses)| ==> !HasHarm(CountedAds(statuses)[i]))
            && (avg != 0.0 ==> 1.0 <= avg <= 100.0)
  {
    var ads := CountedAds(statuses);
    var hs := Harms(statuses);
    HarmsWithin(ads);
    if |hs| > 0 {
      SumBounds(hs, 1, 100);
      RealDivBounds(Sum(hs) as real, |hs| as real, 1.0, 100.0);
    }
  }

  /** The truthy scores of some ads, when each lies in [1, 100]. */
  lemma HarmsWithin(ads: seq<AdAnalysis>)
    requires forall a :: a in ads && HasHarm(a) ==> 1 <= a.harmScore.value <= 100
    ensures forall i :: 0 <= i < |FlatMap(ads, HarmEntry)| ==> 1 <= FlatMap(ads, HarmEntry)[i] <= 100
    ensures FlatMap(ads, HarmEntry) == [] <==> forall i :: 0 <= i < |ads| ==> !HasHarm(ads[i])
  {
    var hs := FlatMap(ads, HarmEntry);
    FlatMapMembers(ads, HarmEntry);
    forall i | 0 <= i < |hs| ensures 1 <= hs[i] <= 100 {
      assert hs[i] in hs;
    }
    assert forall i :: 0 <= i < |ads| ==> (HarmEntry(ads[i]) == [] <==> !HasHarm(ads[i]));
  }

  // ---------------------------------------------------------------------------
  // Scam-type ranking and export
  // ---------------------------------------------------------------------------

  const MaxRankedTypes: nat := 10
  const MaxExportText: nat := 500

  function EntryCount(e: (string, int)): int {
    e.1
  }

  /**
   * `sortedScamTypes`: the ten most frequent scam types, most frequent
   * first; every type left out has a count no higher than any kept.
   */
  function TopScamTypes(counts: Rec<string>): (r: Rec<string>)
    ensures |r| == Min(MaxRankedTypes, |counts|)
    ensures SortedDesc(r, EntryCount)
    ensures forall i :: 0 <= i < |r| ==> r[i] in counts
    ensures forall e, i :: e in counts && e !in r && 0 <= i < |r| ==> EntryCount(r[i]) >= EntryCount(e)
    ensures multiset(r) <= multiset(counts)
    ensures r == Take(SortDesc(counts, EntryCount), MaxRankedTypes)
  {
    TopOfSorted(counts, EntryCount, MaxRankedTypes);
    var s := SortDesc(counts, EntryCount);
    SortDescCorrect(counts, EntryCount);
    var r := Take(s, MaxRankedTypes);
    PrefixMultiset(s, |r|);
    r
  }

  lemma PrefixMultiset<T>(s: seq<T>, n: nat)
    requires n <= |s|
    ensures multiset(s[..n]) <= multiset(s)
  {
    assert s == s[..n] + s[n..];
  }

  /** One exported violating ad. */
  datatype ExportedAd = ExportedAd(
    query: string,
    adId: string,
    advertiser: string,
    harmScore: Option<int>,
    scamTypes: Option<seq<string>>,
    adLibraryUrl: Option<string>,
    text: string)

  /** An ad of the export: its text is cut to 500 characters, everything else is copied. */
  function ExportAd(t: TaggedAd): (e: ExportedAd)
    ensures |e.text| <= MaxExportText && StartsWith(t.analysis.ad.text, e.text)
    ensures |t.analysis.ad.text| <= MaxExportText ==> e.text == t.analysis.ad.text
    ensures |t.analysis.ad.text| > MaxExportText ==> |e.text| == MaxExportText
    ensures e.query == t.sourceQuery && e.adId == t.analysis.ad.adId && e.harmScore == t.analysis.harmScore
    ensures e.advertiser == t.analysis.ad.advertiserName && e.adLibraryUrl == t.analysis.ad.adLibraryUrl
    ensures e.scamTypes.Some? <==> t.analysis.fingerprints.Some?
    ensures e.scamTypes.Some? ==> e.scamTypes.value == FingerprintTypes(t.analysis)
  {
    var a := t.analysis;
    ExportedAd(t.sourceQuery, a.ad.adId, a.ad.advertiserName, a.harmScore,
               if a.fingerprints.Some? then Some(FingerprintTypes(a)) else None,
               a.ad.adLibraryUrl, Take(a.ad.text, MaxExportText))
  }

  /** Exporting an ad whose text is already the exported cut gives the same record again. */
  lemma ExportAdStable(t: TaggedAd)
    ensures ExportAd(t.(analysis := t.analysis.(ad := t.analysis.ad.(text := ExportAd(t).text)))) == ExportAd(t)
  {
    var cut := ExportAd(t).text;
    assert Take(cut, MaxExportText) == cut;
  }
}

=== FILE: crawler.dfy ===
/**
 * Landing-page crawling: the decision that turns a URL and the outcome
 * of fetching it into either extracted content or an error message, and
 * the collection of several crawls into a map from URL to outcome.
 *
 * The HTTP request and the HTML-to-text extraction are one input, the
 * `FetchOutcome`; the skip patterns are regular expressions whose
 * meaning is written out here (an anchored prefix, an anchored suffix or
 * a plain substring, compared without regard to ASCII case).
 */
module Crawler {
  import opened Base

  const MaxContentLength: nat := 3000
  const MinMeaningfulLength: nat := 51
  const MaxErrorDetail: nat := 100

  // ---------------------------------------------------------------------------
  // Skip patterns
  // ---------------------------------------------------------------------------

  /** What a skip pattern's regular expression tests on the lower-cased URL. */
  datatype SkipRule = AnchoredPrefix(prefix: string) | AnchoredSuffix(suffix: string) | Anywhere(infix: string)

  /** A skip pattern: its regular-expression text (as reported) and its meaning. */
  datatype SkipPattern = SkipPattern(regex: string, rule: SkipRule)

  const SkipPatterns: seq<SkipPattern> := [
    SkipPattern("^javascript:", AnchoredPrefix("javascript:")),
    SkipPattern("^mailto:", AnchoredPrefix("mailto:")),
    SkipPattern("^tel:", AnchoredPrefix("tel:")),
    SkipPattern("^#", AnchoredPrefix("#")),
    SkipPattern("\\.pdf$", AnchoredSuffix(".pdf")),
    SkipPattern("\\.zip$", AnchoredSuffix(".zip")),
    SkipPattern("\\.exe$", AnchoredSuffix(".exe")),
    SkipPattern("play\\.google\\.com/store", Anywhere("play.google.com/store")),
    SkipPattern("apps\\.apple\\.com", Anywhere("apps.apple.com"))
  ]

  /**
   * `re.search(pattern, url, re.IGNORECASE)`. Python's `$` also matches
   * just before a final newline.
   */
  predicate RuleMatches(rule: SkipRule, url: string) {
    var u := Lower(url);
    match rule
    case AnchoredPrefix(p) => StartsWith(u, p)
    case AnchoredSuffix(s) => EndsWith(u, s) || EndsWith(u, s + "\n")
    case Anywhere(i) => Contains(u, i)
  }

  /** The first pattern that matches, in table order. */
  function FirstSkip(patterns: seq<SkipPattern>, url: string): (r: Option<SkipPattern>)
    ensures r.Some? ==> r.value in patterns && RuleMatches(r.value.rule, url)
    ensures r.None? <==> forall i :: 0 <= i < |patterns| ==> !RuleMatches(patterns[i].rule, url)
  {
    if |patterns| == 0 then None
    else if RuleMatches(patterns[0].rule, url) then Some(patterns[0])
    else FirstSkip(patterns[1..], url)
  }

  // ---------------------------------------------------------------------------
  // One page
  // ---------------------------------------------------------------------------

  /**
   * What fetching the page produced: a response (status, content type
   * and the text extracted from its HTML), or one of the exceptions the
   * crawler distinguishes.
   */
  datatype FetchOutcome =
    | Response(status: int, contentType: string, extracted: string)
    | TimedOut
    | ConnectFailed
    | Raised(message: string)

  /** The `(content, error)` pair. */
  datatype CrawlResult = CrawlResult(content: Option<string>, error: Option<string>)

  predicate WellFormed(r: CrawlResult) {
    (r.content.Some? && r.error.None?) || (r.content.None? && r.error.Some? && r.error.value != "")
  }

  predicate Skipped(url: string) {
    FirstSkip(SkipPatterns, url).Some?
  }

  /**
   * `crawl_landing_page`. The empty URL and skipped URLs are answered
   * before, and independently of, any fetch.
   */
  function CrawlLandingPage(url: string, fetch: FetchOutcome): (r: CrawlResult)
    ensures WellFormed(r)
    ensures url == "" ==> r == CrawlResult(None, Some("No URL provided"))
    ensures url != "" && Skipped(url) ==>
              r == CrawlResult(None, Some("Skipped URL type: " + FirstSkip(SkipPatterns, url).value.regex))
    ensures r.content.Some? <==>
              url != "" && !Skipped(url) && fetch.Response? && fetch.status == 200
              && Contains(Lower(fetch.contentType), "text/html") && |Strip(fetch.extracted)| >= MinMeaningfulLength
    ensures r.content.Some? ==>
              r.content.value == Take(fetch.extracted, MaxContentLength) && MinMeaningfulLength <= |r.content.value| <= MaxContentLength
  {
    if url == "" then CrawlResult(None, Some("No URL provided"))
    else
      match FirstSkip(SkipPatterns, url)
      case Some(p) => CrawlResult(None, Some("Skipped URL type: " + p.regex))
      case None =>
        match fetch
        case Response(status, contentType, extracted) =>
          if status != 200 then CrawlResult(None, Some("HTTP " + IntToString(status)))
          else if !Contains(Lower(contentType), "text/html") then CrawlResult(None, Some("Non-HTML content: " + contentType))
          else if extracted != "" && |Strip(extracted)| > 50 then CrawlResult(Some(Take(extracted, MaxContentLength)), None)
          else CrawlResult(None, Some("No meaningful content extracted"))
        case TimedOut => CrawlResult(None, Some("Timeout"))
        case ConnectFailed => CrawlResult(None, Some("Connection failed"))
        case Raised(message) => CrawlResult(None, Some("Error: " + Take(message, MaxErrorDetail)))
  }

  /** A failed fetch is reported by status code, exception kind, or a message cut to 100 characters. */
  lemma CrawlErrors(url: string, fetch: FetchOutcome)
    requires url != "" && !Skipped(url)
    ensures fetch.Response? && fetch.status != 200 ==>
              CrawlLandingPage(url, fetch).error == Some("HTTP " + IntToString(fetch.status))
    ensures fetch.TimedOut? ==> CrawlLandingPage(url, fetch).error == Some("Timeout")
    ensures fetch.ConnectFailed? ==> CrawlLandingPage(url, fetch).error == Some("Connection failed")
    ensures fetch.Raised? ==>
              var e := CrawlLandingPage(url, fetch).error.value;
              StartsWith(e, "Error: ") && |e| <= 7 + MaxErrorDetail
  {
  }

  /** Each scheme and file type the crawler refuses is skipped whatever its letter case. */
  lemma SkipsScheme(rest: string)
    ensures Skipped("mailto:" + rest) && Skipped("MAILTO:" + rest)
    ensures Skipped(rest + ".PDF") && Skipped(rest + ".zip\n")
  {
    var u1 := Lower("mailto:" + rest);
    assert u1[..7] == "mailto:";
    var u2 := Lower("MAILTO:" + rest);
    assert u2[..7] == "mailto:";
    var u3 := Lower(rest + ".PDF");
    assert u3[|u3| - 4..] == ".pdf";
    var u4 := Lower(rest + ".zip\n");
    assert u4[|u4| - 5..] == ".zip\n";
    assert RuleMatches(SkipPatterns[1].rule, "mailto:" + rest);
    assert RuleMatches(SkipPatterns[4].rule, rest + ".PDF");
    assert RuleMatches(SkipPatterns[5].rule, rest + ".zip\n");
  }

  // ---------------------------------------------------------------------------
  // Several pages
  // ---------------------------------------------------------------------------

  /** What a gathered crawl task produced: its crawl, or an exception gather returned in its place. */
  datatype TaskOutcome = Completed(fetch: FetchOutcome) | TaskRaised

  /**
   * The results map of `crawl_multiple_pages` built over the tasks, one
   * task per non-empty URL in input order; a later task for the same URL
   * overwrites an earlier one.
   */
  function CollectResults(urls: seq<string>, tasks: seq<TaskOutcome>): map<string, CrawlResult>
    requires |urls| == |tasks|
    decreases |urls|
  {
    if |urls| == 0 then map[]
    else
      var n := |urls| - 1;
      var m := CollectResults(urls[..n], tasks[..n]);
      match tasks[n]
      case Completed(f) => m[urls[n] := CrawlLandingPage(urls[n], f)]
      case TaskRaised => m
  }

  function NonEmpty(u: string): bool { u != "" }

  /** `crawl_multiple_pages`: tasks are created for the non-empty URLs only. */
  function CrawlMultiplePages(urls: seq<string>, tasks: seq<TaskOutcome>): (r: map<string, CrawlResult>)
    requires |tasks| == |Filter(urls, NonEmpty)|
    ensures forall u :: u in r ==> u in urls && u != ""
  {
    var targets := Filter(urls, NonEmpty);
    CollectKeys(targets, tasks);
    CollectResults(targets, tasks)
  }

  /**
   * A URL is a key exactly when one of its tasks completed, and its value
   * is the crawl of the last such task.
   */
  lemma {:induction false} CollectKeys(urls: seq<string>, tasks: seq<TaskOutcome>)
    requires |urls| == |tasks|
    ensures forall u :: u in CollectResults(urls, tasks) <==> exists i :: 0 <= i < |urls| && urls[i] == u && tasks[i].Completed?
    decreases |urls|
  {
    if |urls| > 0 {
      var n := |urls| - 1;
      CollectKeys(urls[..n], tasks[..n]);
      assert forall i :: 0 <= i < n ==> urls[..n][i] == urls[i] && tasks[..n][i] == tasks[i];
    }
  }

  lemma {:induction false} CollectLastWins(urls: seq<string>, tasks: seq<TaskOutcome>, j: nat)
    requires |urls| == |tasks| && j < |urls| && tasks[j].Completed?
    requires forall i :: j < i < |urls| && urls[i] == urls[j] ==> tasks[i].TaskRaised?
    ensures urls[j] in CollectResults(urls, tasks)
    ensures CollectResults(urls, tasks)[urls[j]] == CrawlLandingPage(urls[j], tasks[j].fetch)
    decreases |urls|
  {
    var n := |urls| - 1;
    if j < n {
      assert urls[..n][j] == urls[j] && tasks[..n][j] == tasks[j];
      CollectLastWins(urls[..n], tasks[..n], j);
    }
  }

  /** The crawl of a duplicated URL that completes twice is the later one. */
  lemma DuplicateLaterWins(u: string, f1: FetchOutcome, f2: FetchOutcome)
    requires u != ""
    ensures CrawlMultiplePages([u, u], [Completed(f1), Completed(f2)]) == map[u := CrawlLandingPage(u, f2)]
  {
    assert Filter([u, u], NonEmpty) == [u, u];
    assert [u, u][..1] == [u];
    assert [Completed(f1), Completed(f2)][..1] == [Completed(f1)];
    assert [u][..0] == [];
  }
}

=== FILE: csv_export.dfy ===
/**
 * The CSV export of a scan's results: a header line and one line per ad
 * (violating, then mixed, then benign). The ad text and the narrative are
 * quoted with inner quotes doubled, as section 2 of RFC 4180 describes
 * (rules 6 and 7); every other field is written as it is.
 *
 * A reader of RFC 4180 records is defined alongside, so that what the
 * export writes can be compared with what a CSV reader gets back.
 */
module CsvExport {
  import opened Base
  import opened ScanView

  // ---------------------------------------------------------------------------
  // Writing
  // ---------------------------------------------------------------------------

  /** A field as written: as it is, or quoted. */
  datatype Cell = Plain(text: string) | Quoted(text: string)

  /** `s.replace(/"/g, '""')`. */
  function Escape(s: string): (r: string)
    ensures |r| >= |s|
    decreases |s|
  {
    if |s| == 0 then ""
    else (if s[0] == '"' then "\"\"" else [s[0]]) + Escape(s[1..])
  }

  function Render(c: Cell): string {
    match c
    case Plain(t) => t
    case Quoted(t) => "\"" + Escape(t) + "\""
  }

  function RenderAll(cells: seq<Cell>): (r: seq<string>)
    ensures |r| == |cells| && forall i :: 0 <= i < |r| ==> r[i] == Render(cells[i])
  {
    seq(|cells|, i requires 0 <= i < |cells| => Render(cells[i]))
  }

  /** `row.join(',')`. */
  function RenderRow(cells: seq<Cell>): string {
    Join(RenderAll(cells), ",")
  }

  function RenderRows(rows: seq<seq<Cell>>): (r: seq<string>)
    ensures |r| == |rows| && forall i :: 0 <= i < |r| ==> r[i] == RenderRow(rows[i])
  {
    seq(|rows|, i requires 0 <= i < |rows| => RenderRow(rows[i]))
  }

  /** `lines.join('\n')`. */
  function RenderTable(rows: seq<seq<Cell>>): string {
    Join(RenderRows(rows), "\n")
  }

  function Texts(cells: seq<Cell>): (r: seq<string>)
    ensures |r| == |cells| && forall i :: 0 <= i < |r| ==> r[i] == cells[i].text
  {
    seq(|cells|, i requires 0 <= i < |cells| => cells[i].text)
  }

  // ---------------------------------------------------------------------------
  // Reading (RFC 4180 records, separated by line feeds)
  // ---------------------------------------------------------------------------

  /** An unquoted field: everything up to the next comma or line feed. */
  function ReadPlain(s: string): (r: (string, string))
    ensures r.0 + r.1 == s && ',' !in r.0 && '\n' !in r.0
    ensures r.1 == "" || r.1[0] == ',' || r.1[0] == '\n'
    decreases |s|
  {
    if |s| == 0 || s[0] == ',' || s[0] == '\n' then ("", s)
    else
      var p := ReadPlain(s[1..]);
      ([s[0]] + p.0, p.1)
  }

  /**
   * The inside of a quoted field, after its opening quote: a doubled
   * quote stands for one quote, a single quote closes the field. None
   * when the field is never closed.
   */
  function ReadQuoted(s: string): (r: Option<(string, string)>)
    ensures r.Some? ==> |r.value.1| < |s|
    decreases |s|
  {
    if |s| == 0 then None
    else if s[0] == '"' then
      if |s| >= 2 && s[1] == '"' then
        match ReadQuoted(s[2..])
        case None => None
        case Some(p) => Some(("\"" + p.0, p.1))
      else Some(("", s[1..]))
    else
      match ReadQuoted(s[1..])
      case None => None
      case Some(p) => Some(([s[0]] + p.0, p.1))
  }

  /** One field: its value and the text after it. */
  function ReadField(s: string): (r: Option<(string, string)>)
    ensures r.Some? ==> |r.value.1| <= |s|
  {
    if |s| > 0 && s[0] == '"' then ReadQuoted(s[1..]) else Some(ReadPlain(s))
  }

  /** One record: its field values and the text after it (empty, or starting with the line feed). */
  function ReadRecord(s: string): (r: Option<(seq<string>, string)>)
    ensures r.Some? ==> |r.value.0| >= 1 && |r.value.1| <= |s| && (r.value.1 == "" || r.value.1[0] == '\n')
    decreases |s|
  {
    match ReadField(s)
    case None => None
    case Some(p) =>
      if |p.1| > 0 && p.1[0] == ',' then
        match ReadRecord(p.1[1..])
        case None => None
        case Some(q) => Some(([p.0] + q.0, q.1))
      else if |p.1| == 0 || p.1[0] == '\n' then Some(([p.0], p.1))
      else None
  }

  /** Every record of a document, in order. */
  function ReadTable(s: string): (r: Option<seq<seq<string>>>)
    ensures r.Some? ==> |r.value| >= 1
    decreases |s|
  {
    match ReadRecord(s)
    case None => None
    case Some(q) =>
      if |q.1| == 0 then Some([q.0])
      else
        match ReadTable(q.1[1..])
        case None => None
        case Some(t) => Some([q.0] + t)
  }

  // ---------------------------------------------------------------------------
  // Writing then reading
  // ---------------------------------------------------------------------------

  /** A field the reader gets back: quoted, or free of commas, quotes and line feeds. */
  predicate Safe(c: Cell) {
    c.Plain? ==> ',' !in c.text && '"' !in c.text && '\n' !in c.text
  }

  /** What may follow a field. */
  predicate FieldEnd(rest: string) {
    rest == "" || rest[0] == ',' || rest[0] == '\n'
  }

  lemma ReadQuotedChar(c: char, tail: string, v: string, rest: string)
    requires c != '"' && ReadQuoted(tail) == Some((v, rest))
    ensures ReadQuoted([c] + tail) == Some(([c] + v, rest))
  {
    assert ([c] + tail)[1..] == tail;
  }

  lemma ReadQuotedDoubled(tail: string, v: string, rest: string)
    requires ReadQuoted(tail) == Some((v, rest))
    ensures ReadQuoted("\"\"" + tail) == Some(("\"" + v, rest))
  {
    assert ("\"\"" + tail)[2..] == tail;
  }

  lemma RegroupHead(a: string, b: string, c: string, d: string)
    ensures (a + b) + c + d == a + (b + c + d)
  {
  }

  lemma {:induction false} ReadQuotedEscape(x: string, rest: string)
    requires FieldEnd(rest)
    ensures ReadQuoted(Escape(x) + "\"" + rest) == Some((x, rest))
    decreases |x|
  {
    if |x| == 0 {
      assert Escape(x) + "\"" + rest == "\"" + rest;
    } else {
      ReadQuotedEscape(x[1..], rest);
      var tail := Escape(x[1..]) + "\"" + rest;
      var h := if x[0] == '"' then "\"\"" else [x[0]];
      assert Escape(x) == h + Escape(x[1..]);
      RegroupHead(h, Escape(x[1..]), "\"", rest);
      if x[0] == '"' {
        ReadQuotedDoubled(tail, x[1..], rest);
      } else {
        ReadQuotedChar(x[0], tail, x[1..], rest);
      }
      assert [x[0]] + x[1..] == x;
    }
  }

  lemma {:induction false} ReadPlainText(p: string, rest: string)
    requires ',' !in p && '\n' !in p
    requires FieldEnd(rest)
    ensures ReadPlain(p + rest) == (p, rest)
    decreases |p|
  {
    if |p| == 0 {
      assert p + rest == rest;
    } else {
      assert (p + rest)[1..] == p[1..] + rest;
      ReadPlainText(p[1..], rest);
      assert [p[0]] + p[1..] == p;
    }
  }

  lemma ReadCell(c: Cell, rest: string)
    requires Safe(c) && FieldEnd(rest)
    ensures ReadField(Render(c) + rest) == Some((c.text, rest))
  {
    match c
    case Plain(t) =>
      ReadPlainText(t, rest);
    case Quoted(t) =>
      ReadQuotedEscape(t, rest);
      assert (Render(c) + rest)[1..] == Escape(t) + "\"" + rest;
  }

  lemma JoinCons(parts: seq<string>, sep: string)
    requires |parts| >= 2
    ensures Join(parts, sep) == parts[0] + sep + Join(parts[1..], sep)
  {
  }

  lemma RenderRowCons(cells: seq<Cell>)
    requires |cells| >= 2
    ensures RenderRow(cells) == Render(cells[0]) + "," + RenderRow(cells[1..])
    ensures Texts(cells) == [cells[0].text] + Texts(cells[1..])
  {
    var parts := RenderAll(cells);
    assert parts[1..] == RenderAll(cells[1..]);
    JoinCons(parts, ",");
  }

  predicate SafeCells(cells: seq<Cell>) {
    forall i :: 0 <= i < |cells| ==> Safe(cells[i])
  }

  /** A row of safe fields reads back as its field values. */
  lemma {:induction false} ReadRow(cells: seq<Cell>, rest: string)
    requires |cells| >= 1 && SafeCells(cells)
    requires rest == "" || rest[0] == '\n'
    ensures ReadRecord(RenderRow(cells) + rest) == Some((Texts(cells), rest))
    decreases |cells|
  {
    assert Safe(cells[0]);
    if |cells| == 1 {
      assert RenderRow(cells) == Render(cells[0]);
      ReadCell(cells[0], rest);
      assert Texts(cells) == [cells[0].text];
    } else {
      assert SafeCells(cells[1..]) by {
        forall i | 0 <= i < |cells[1..]| ensures Safe(cells[1..][i]) {
          assert cells[1..][i] == cells[i + 1];
        }
      }
      ReadRow(cells[1..], rest);
      ReadRowStep(cells, rest);
    }
  }

  lemma ReadRowStep(cells: seq<Cell>, rest: string)
    requires |cells| >= 2 && Safe(cells[0]) && FieldEnd(rest)
    requires ReadRecord(RenderRow(cells[1..]) + rest) == Some((Texts(cells[1..]), rest))
    ensures ReadRecord(RenderRow(cells) + rest) == Some((Texts(cells), rest))
  {
    var more := RenderRow(cells[1..]) + rest;
    var s := RenderRow(cells) + rest;
    RenderRowCons(cells);
    Regroup(Render(cells[0]), ",", RenderRow(cells[1..]), rest);
    ReadCell(cells[0], "," + more);
    ReadRecordComma(s, cells[0].text, more, Texts(cells[1..]), rest);
  }

  lemma Regroup3(a: string, sep: string, b: string)
    ensures a + sep + b == a + (sep + b)
  {
  }

  lemma Regroup(a: string, sep: string, b: string, c: string)
    ensures a + sep + b + c == a + (sep + (b + c))
  {
  }

  /** A field followed by a comma: the record goes on after it. */
  lemma ReadRecordComma(s: string, v: string, more: string, vs: seq<string>, after: string)
    requires ReadField(s) == Some((v, "," + more))
    requires ReadRecord(more) == Some((vs, after))
    ensures ReadRecord(s) == Some(([v] + vs, after))
  {
    assert ("," + more)[1..] == more;
  }

  function TextRows(rows: seq<seq<Cell>>): (r: seq<seq<string>>)
    ensures |r| == |rows| && forall i :: 0 <= i < |r| ==> r[i] == Texts(rows[i])
  {
    seq(|rows|, i requires 0 <= i < |rows| => Texts(rows[i]))
  }

  lemma RenderTableCons(rows: seq<seq<Cell>>)
    requires |rows| >= 2
    ensures RenderTable(rows) == RenderRow(rows[0]) + "\n" + RenderTable(rows[1..])
    ensures TextRows(rows) == [Texts(rows[0])] + TextRows(rows[1..])
  {
    var lines := RenderRows(rows);
    assert lines[1..] == RenderRows(rows[1..]);
    JoinCons(lines, "\n");
  }

  /** A record ended by a line feed: the document goes on after it. */
  lemma ReadTableNewline(s: string, vs: seq<string>, more: string, t: seq<seq<string>>)
    requires ReadRecord(s) == Some((vs, "\n" + more))
    requires ReadTable(more) == Some(t)
    ensures ReadTable(s) == Some([vs] + t)
  {
    assert ("\n" + more)[1..] == more;
  }

  /** Rows that are each non-empty and made of safe fields. */
  predicate SafeRows(rows: seq<seq<Cell>>) {
    forall j :: 0 <= j < |rows| ==> |rows[j]| >= 1 && SafeCells(rows[j])
  }

  /** A document of non-empty rows of safe fields reads back row by row. */
  lemma {:induction false} ReadRows(rows: seq<seq<Cell>>)
    requires |rows| >= 1 && SafeRows(rows)
    ensures ReadTable(RenderTable(rows)) == Some(TextRows(rows))
    decreases |rows|
  {
    assert |rows[0]| >= 1 && SafeCells(rows[0]);
    if |rows| == 1 {
      assert RenderTable(rows) == RenderRow(rows[0]);
      ReadRow(rows[0], "");
      assert RenderRow(rows[0]) + "" == RenderRow(rows[0]);
      assert TextRows(rows) == [Texts(rows[0])];
    } else {
      assert SafeRows(rows[1..]) by {
        forall j | 0 <= j < |rows[1..]| ensures |rows[1..][j]| >= 1 && SafeCells(rows[1..][j]) {
          assert rows[1..][j] == rows[j + 1];
        }
      }
      ReadRows(rows[1..]);
      ReadRowsStep(rows);
    }
  }

  lemma ReadRowsStep(rows: seq<seq<Cell>>)
    requires |rows| >= 2 && |rows[0]| >= 1 && SafeCells(rows[0])
    requires ReadTable(RenderTable(rows[1..])) == Some(TextRows(rows[1..]))
    ensures ReadTable(RenderTable(rows)) == Some(TextRows(rows))
  {
    var more := RenderTable(rows[1..]);
    var s := RenderTable(rows);
    RenderTableCons(rows);
    Regroup3(RenderRow(rows[0]), "\n", more);
    ReadRow(rows[0], "\n" + more);
    ReadTableNewline(s, Texts(rows[0]), more, TextRows(rows[1..]));
  }

  // ---------------------------------------------------------------------------
  // generateCSV
  // ---------------------------------------------------------------------------

  const Headers: seq<string> := ["Ad ID", "Advertiser", "Category", "Harm Score", "Consensus", "Scam Types", "Policy Violations", "Ad Text", "Analysis", "Meta Link"]

  function PlainAll(xs: seq<string>): (r: seq<Cell>)
    ensures |r| == |xs| && forall i :: 0 <= i < |r| ==> r[i] == Plain(xs[i])
  {
    seq(|xs|, i requires 0 <= i < |xs| => Plain(xs[i]))
  }

  /** `a.harm_score || 'N/A'`: a missing or zero score is "N/A". */
  function HarmField(a: AdAnalysis): string {
    if HasHarm(a) then IntToString(a.harmScore.value) else "N/A"
  }

  /** `joined || 'None'`: nothing to list, or an empty joined text, is "None". */
  function OrNone(parts: Option<seq<string>>): (r: string)
    ensures r != ""
    ensures parts.Some? && Join(parts.value, "; ") != "" ==> r == Join(parts.value, "; ")
  {
    if parts.None? || Join(parts.value, "; ") == "" then "None" else Join(parts.value, "; ")
  }

  function ViolationText(v: Violation): string {
    v.policyCode + ": " + v.policyName
  }

  function ViolationTexts(a: AdAnalysis): Option<seq<string>> {
    match a.violations
    case None => None
    case Some(vs) => Some(seq(|vs|, i requires 0 <= i < |vs| => ViolationText(vs[i])))
  }

  function ScamTypeTexts(a: AdAnalysis): Option<seq<string>> {
    if a.fingerprints.None? then None else Some(FingerprintTypes(a))
  }

  /** The ten field values of an ad's line, in header order. */
  function RowValues(a: AdAnalysis): (r: seq<string>)
    ensures |r| == |Headers|
  {
    [a.ad.adId, a.ad.advertiserName, Upper(CategoryName(a.category)), HarmField(a), a.consensusBadge,
     OrNone(ScamTypeTexts(a)), OrNone(ViolationTexts(a)), a.ad.text, a.cruxNarrative, a.ad.adLibraryUrl.GetOr("")]
  }

  /** An ad's line as written: only the ad text and the narrative quoted. */
  function CsvRow(a: AdAnalysis): (r: seq<Cell>)
    ensures Texts(r) == RowValues(a)
    ensures forall i :: 0 <= i < |r| ==> (r[i].Quoted? <==> i == 7 || i == 8)
  {
    var v := RowValues(a);
    [Plain(v[0]), Plain(v[1]), Plain(v[2]), Plain(v[3]), Plain(v[4]), Plain(v[5]), Plain(v[6]),
     Quoted(v[7]), Quoted(v[8]), Plain(v[9])]
  }

  function AllAds(results: ScanResponse): seq<AdAnalysis> {
    results.violating + results.mixed + results.benign
  }

  function Rows(ads: seq<AdAnalysis>, row: AdAnalysis -> seq<Cell>): (r: seq<seq<Cell>>)
    ensures |r| == |ads| && forall i :: 0 <= i < |r| ==> r[i] == row(ads[i])
  {
    seq(|ads|, i requires 0 <= i < |ads| => row(ads[i]))
  }

  /** `generateCSV`: the header line, then one line per ad. */
  function GenerateCsv(results: ScanResponse): (csv: string)
    ensures StartsWith(csv, Join(Headers, ","))
  {
    var rows := [PlainAll(Headers)] + Rows(AllAds(results), CsvRow);
    assert RenderAll(PlainAll(Headers)) == Headers;
    assert RenderRows(rows)[0] == Join(Headers, ",");
    JoinStarts(RenderRows(rows), "\n");
    RenderTable(rows)
  }

  lemma JoinStarts(parts: seq<string>, sep: string)
    requires |parts| >= 1
    ensures StartsWith(Join(parts, sep), parts[0])
  {
    if |parts| > 1 {
      assert Join(parts, sep) == parts[0] + (sep + Join(parts[1..], sep));
    }
  }

  /** The fields written without quotes carry no comma, quote or line feed. */
  predicate PlainFieldsSafe(a: AdAnalysis) {
    forall i :: 0 <= i < |CsvRow(a)| ==> Safe(CsvRow(a)[i])
  }

  predicate SafeText(t: string) {
    forall i :: 0 <= i < |t| ==> t[i] != ',' && t[i] != '"' && t[i] != '\n'
  }

  lemma HeadersSafe()
    ensures forall i :: 0 <= i < |PlainAll(Headers)| ==> Safe(PlainAll(Headers)[i])
  {
    assert SafeText("Ad ID") && SafeText("Advertiser") && SafeText("Category") && SafeText("Harm Score");
    assert SafeText("Consensus") && SafeText("Scam Types") && SafeText("Policy Violations");
    assert SafeText("Ad Text") && SafeText("Analysis") && SafeText("Meta Link");
  }

  /** The header, then each ad's ten values, in export order. */
  function ExpectedTable(ads: seq<AdAnalysis>): (t: seq<seq<string>>)
    ensures |t| == |ads| + 1 && t[0] == Headers
    ensures forall i :: 0 <= i < |ads| ==> t[i + 1] == RowValues(ads[i])
  {
    [Headers] + seq(|ads|, i requires 0 <= i < |ads| => RowValues(ads[i]))
  }

  /** Writing rows that carry an ad's values in safe fields, then reading, gives the expected table. */
  lemma ReadsBackWith(ads: seq<AdAnalysis>, row: AdAnalysis -> seq<Cell>)
    requires forall a :: a in ads ==> Texts(row(a)) == RowValues(a)
    requires forall a, i :: a in ads && 0 <= i < |row(a)| ==> Safe(row(a)[i])
    ensures ReadTable(RenderTable([PlainAll(Headers)] + Rows(ads, row))) == Some(ExpectedTable(ads))
  {
    var rows := [PlainAll(Headers)] + Rows(ads, row);
    RowsSafe(ads, row);
    ReadRows(rows);
    RowsTexts(ads, row);
  }

  lemma RowsSafe(ads: seq<AdAnalysis>, row: AdAnalysis -> seq<Cell>)
    requires forall a :: a in ads ==> Texts(row(a)) == RowValues(a)
    requires forall a, i :: a in ads && 0 <= i < |row(a)| ==> Safe(row(a)[i])
    ensures SafeRows([PlainAll(Headers)] + Rows(ads, row))
  {
    var rows := [PlainAll(Headers)] + Rows(ads, row);
    HeadersSafe();
    forall j | 0 <= j < |rows| ensures |rows[j]| >= 1 && SafeCells(rows[j]) {
      if j > 0 {
        assert rows[j] == row(ads[j - 1]);
        assert ads[j - 1] in ads;
        assert |Texts(rows[j])| == |RowValues(ads[j - 1])|;
      }
    }
  }

  lemma RowsTexts(ads: seq<AdAnalysis>, row: AdAnalysis -> seq<Cell>)
    requires forall a :: a in ads ==> Texts(row(a)) == RowValues(a)
    ensures TextRows([PlainAll(Headers)] + Rows(ads, row)) == ExpectedTable(ads)
  {
    var rows := [PlainAll(Headers)] + Rows(ads, row);
    assert Texts(PlainAll(Headers)) == Headers;
    forall i | 0 <= i < |rows| ensures TextRows(rows)[i] == ExpectedTable(ads)[i] {
      if i > 0 {
        assert ads[i - 1] in ads;
      }
    }
  }

  /**
   * A CSV reader gets the header and then every ad's ten values back, in
   * export order, whatever the ad texts and narratives contain, provided
   * the unquoted fields carry no comma, quote or line feed.
   */
  lemma CsvReadsBack(results: ScanResponse)
    requires forall a :: a in AllAds(results) ==> PlainFieldsSafe(a)
    ensures ReadTable(GenerateCsv(results)) == Some(ExpectedTable(AllAds(results)))
  {
    ReadsBackWith(AllAds(results), CsvRow);
  }

  // ---------------------------------------------------------------------------
  // An advertiser name with a comma
  // ---------------------------------------------------------------------------

  /** Writing a comma inside a plain field looks the same as writing two fields. */
  lemma SplitRendersSame(row: seq<Cell>, first: string, second: string)
    requires |row| >= 2 && row[1] == Plain(first + "," + second)
    ensures RenderRow([row[0], Plain(first), Plain(second)] + row[2..]) == RenderRow(row)
  {
    var split := [row[0], Plain(first), Plain(second)] + row[2..];
    RenderRowCons(row);
    RenderRowCons(split);
    RenderRowCons(split[1..]);
    assert split[1..][1..] == split[2..];
    if |row| == 2 {
      assert RenderAll(row[1..]) == [first + "," + second];
      assert split[2..] == [Plain(second)];
      assert RenderAll(split[2..]) == [second];
      assert RenderRow(row[1..]) == first + "," + second;
      assert RenderRow(split[2..]) == second;
    } else {
      RenderRowCons(row[1..]);
      RenderRowCons(split[2..]);
      assert row[1..][1..] == row[2..] && split[2..][1..] == row[2..];
      RegroupCommas(first, second, RenderRow(row[2..]));
    }
  }

  /**
   * A plain second field holding a comma is read as two fields, so the
   * reader sees one value more than the row has cells.
   */
  lemma CommaSplitsField(row: seq<Cell>, first: string, second: string)
    requires |row| >= 2 && row[1] == Plain(first + "," + second)
    requires Safe(Plain(first)) && Safe(Plain(second))
    requires forall i :: 0 <= i < |row| && i != 1 ==> Safe(row[i])
    ensures ReadRecord(RenderRow(row)).Some?
    ensures |ReadRecord(RenderRow(row)).value.0| == |row| + 1
  {
    var split := [row[0], Plain(first), Plain(second)] + row[2..];
    SplitRendersSame(row, first, second);
    assert SafeCells(split) by {
      forall i | 0 <= i < |split| ensures Safe(split[i]) {
        if i >= 3 {
          assert split[i] == row[i - 1];
        }
      }
    }
    ReadRow(split, "");
    assert RenderRow(split) + "" == RenderRow(split);
  }

  lemma RegroupCommas(a: string, b: string, x: string)
    ensures (a + "," + b) + "," + x == a + "," + (b + "," + x)
  {
  }

  /**
   * The advertiser name is written unquoted, so a name with a comma
   * becomes two fields: the reader sees eleven values on that line.
   */
  lemma CommaInAdvertiserAddsColumn(a: AdAnalysis, first: string, second: string)
    requires a.ad.advertiserName == first + "," + second
    requires Safe(Plain(first)) && Safe(Plain(second))
    requires forall i :: 0 <= i < |CsvRow(a)| && i != 1 ==> Safe(CsvRow(a)[i])
    ensures ReadRecord(RenderRow(CsvRow(a))).Some?
    ensures |ReadRecord(RenderRow(CsvRow(a))).value.0| == |Headers| + 1
  {
    CommaSplitsField(CsvRow(a), first, second);
  }

  /** An ad's line with every field quoted. */
  function QuotedRow(a: AdAnalysis): (r: seq<Cell>)
    ensures Texts(r) == RowValues(a)
    ensures forall i :: 0 <= i < |r| ==> Safe(r[i])
  {
    var v := RowValues(a);
    seq(|v|, i requires 0 <= i < |v| => Quoted(v[i]))
  }

  /** The export with every field quoted. */
  function GenerateCsvQuoted(results: ScanResponse): string {
    RenderTable([PlainAll(Headers)] + Rows(AllAds(results), QuotedRow))
  }

  /** With every field quoted, a reader gets back the ten values of every ad, whatever they contain. */
  lemma QuotedCsvReadsBack(results: ScanResponse)
    ensures ReadTable(GenerateCsvQuoted(results)) == Some(ExpectedTable(AllAds(results)))
  {
    ReadsBackWith(AllAds(results), QuotedRow);
  }
}

=== FILE: dedup.dfy ===
/**
 * Removing duplicates by key, the first element with each key winning:
 * the `seen = set(); for x in xs: if k(x) not in seen: ...` loop of the
 * backend and `[...new Set(xs)]` of the frontend.
 */
module Dedup {
  import opened Base

  /** The keys of the elements of `xs`. */
  function Keys<T, K>(xs: seq<T>, key: T -> K): set<K> {
    set i | 0 <= i < |xs| :: key(xs[i])
  }

  predicate DistinctKeys<T, K(==)>(xs: seq<T>, key: T -> K) {
    forall i, j :: 0 <= i < j < |xs| ==> key(xs[i]) != key(xs[j])
  }

  /** Keep the elements whose key is neither in `seen` nor the key of an earlier element. */
  function DedupFrom<T, K(==)>(xs: seq<T>, key: T -> K, seen: set<K>): (r: seq<T>)
    ensures forall i :: 0 <= i < |r| ==> key(r[i]) !in seen
    ensures DistinctKeys(r, key)
    ensures IsSubseq(r, xs)
    decreases |xs|
  {
    if |xs| == 0 then []
    else if key(xs[0]) in seen then
      var r := DedupFrom(xs[1..], key, seen);
      SubseqSkip(r, xs[1..], xs[0]);
      assert [xs[0]] + xs[1..] == xs;
      r
    else
      var r := [xs[0]] + DedupFrom(xs[1..], key, seen + {key(xs[0])});
      SubseqCons(r[1..], xs[1..], xs[0]);
      assert [xs[0]] + xs[1..] == xs;
      r
  }

  function DedupBy<T, K(==)>(xs: seq<T>, key: T -> K): (r: seq<T>)
    ensures DistinctKeys(r, key)
    ensures IsSubseq(r, xs)
  {
    DedupFrom(xs, key, {})
  }

  lemma KeysCons<T, K>(xs: seq<T>, key: T -> K)
    requires |xs| > 0
    ensures Keys(xs, key) == {key(xs[0])} + Keys(xs[1..], key)
  {
    forall y | y in Keys(xs, key) ensures y in {key(xs[0])} + Keys(xs[1..], key) {
      var i :| 0 <= i < |xs| && key(xs[i]) == y;
      if i > 0 { assert key(xs[1..][i - 1]) == y; }
    }
    forall y | y in Keys(xs[1..], key) ensures y in Keys(xs, key) {
      var i :| 0 <= i < |xs[1..]| && key(xs[1..][i]) == y;
      assert key(xs[i + 1]) == y;
    }
  }

  lemma {:induction false} DedupFromKeys<T, K>(xs: seq<T>, key: T -> K, seen: set<K>)
    ensures Keys(DedupFrom(xs, key, seen), key) == Keys(xs, key) - seen
    decreases |xs|
  {
    if |xs| > 0 {
      var k := key(xs[0]);
      KeysCons(xs, key);
      if k in seen {
        DedupFromKeys(xs[1..], key, seen);
      } else {
        var rest := DedupFrom(xs[1..], key, seen + {k});
        DedupFromKeys(xs[1..], key, seen + {k});
        var r := [xs[0]] + rest;
        KeysCons(r, key);
        assert r[1..] == rest;
      }
    }
  }

  /** Every key of the input survives deduplication. */
  lemma DedupByKeys<T, K>(xs: seq<T>, key: T -> K)
    ensures Keys(DedupBy(xs, key), key) == Keys(xs, key)
  {
    DedupFromKeys(xs, key, {});
  }

  lemma {:induction false} DedupFromAppend<T, K>(a: seq<T>, b: seq<T>, key: T -> K, seen: set<K>)
    ensures DedupFrom(a + b, key, seen) == DedupFrom(a, key, seen) + DedupFrom(b, key, seen + Keys(a, key))
    decreases |a|
  {
    if |a| == 0 {
      assert a + b == b;
      assert Keys(a, key) == {};
      assert seen + Keys(a, key) == seen;
    } else {
      var k := key(a[0]);
      assert (a + b)[0] == a[0];
      assert (a + b)[1..] == a[1..] + b;
      KeysCons(a, key);
      if k in seen {
        DedupFromAppend(a[1..], b, key, seen);
        assert seen + Keys(a, key) == seen + Keys(a[1..], key);
      } else {
        DedupFromAppend(a[1..], b, key, seen + {k});
        assert seen + Keys(a, key) == seen + {k} + Keys(a[1..], key);
      }
    }
  }

  lemma KeysSnoc<T, K>(xs: seq<T>, x: T, key: T -> K)
    ensures Keys(xs + [x], key) == Keys(xs, key) + {key(x)}
  {
    forall k | k in Keys(xs + [x], key) ensures k in Keys(xs, key) + {key(x)} {
      var i :| 0 <= i < |xs + [x]| && key((xs + [x])[i]) == k;
      if i < |xs| {
        assert (xs + [x])[i] == xs[i];
      }
    }
    forall k | k in Keys(xs, key) ensures k in Keys(xs + [x], key) {
      var i :| 0 <= i < |xs| && key(xs[i]) == k;
      assert (xs + [x])[i] == xs[i];
    }
    assert (xs + [x])[|xs|] == x;
  }

  /** Appending one element keeps it exactly when its key is new. */
  lemma DedupBySnoc<T, K>(xs: seq<T>, x: T, key: T -> K)
    ensures DedupBy(xs + [x], key) == DedupBy(xs, key) + (if key(x) in Keys(xs, key) then [] else [x])
    ensures Keys(xs + [x], key) == Keys(xs, key) + {key(x)}
  {
    DedupFromAppend(xs, [x], key, {});
    assert {} + Keys(xs, key) == Keys(xs, key);
    KeysSnoc(xs, x, key);
  }

  /** Once the deduplication of a prefix has `n` elements, further input does not change the first `n`. */
  lemma DedupByPrefixStable<T, K>(a: seq<T>, b: seq<T>, key: T -> K, n: nat)
    requires |DedupBy(a, key)| == n
    ensures Take(DedupBy(a + b, key), n) == DedupBy(a, key)
  {
    DedupFromAppend(a, b, key, {});
  }

  /**
   * Reference definition read from the right: the last element is kept
   * exactly when no earlier element has its key.
   */
  function KeepFirst<T, K(==)>(xs: seq<T>, key: T -> K): seq<T>
    decreases |xs|
  {
    if |xs| == 0 then []
    else
      var init := xs[..|xs| - 1];
      var last := xs[|xs| - 1];
      KeepFirst(init, key) + (if key(last) in Keys(init, key) then [] else [last])
  }

  lemma {:induction false} DedupByIsKeepFirst<T, K>(xs: seq<T>, key: T -> K)
    ensures DedupBy(xs, key) == KeepFirst(xs, key)
    decreases |xs|
  {
    if |xs| > 0 {
      var init := xs[..|xs| - 1];
      var last := xs[|xs| - 1];
      assert xs == init + [last];
      DedupFromAppend(init, [last], key, {});
      DedupByIsKeepFirst(init, key);
      assert {} + Keys(init, key) == Keys(init, key);
    }
  }

  lemma {:induction false} DedupFromDistinct<T, K>(xs: seq<T>, key: T -> K, seen: set<K>)
    requires DistinctKeys(xs, key)
    requires forall i :: 0 <= i < |xs| ==> key(xs[i]) !in seen
    ensures DedupFrom(xs, key, seen) == xs
    decreases |xs|
  {
    if |xs| > 0 {
      DedupFromDistinct(xs[1..], key, seen + {key(xs[0])});
      assert xs == [xs[0]] + xs[1..];
    }
  }

  /** Deduplicating twice is deduplicating once. */
  lemma DedupByIdempotent<T, K>(xs: seq<T>, key: T -> K)
    ensures DedupBy(DedupBy(xs, key), key) == DedupBy(xs, key)
  {
    DedupFromDistinct(DedupBy(xs, key), key, {});
  }

  lemma TwoCopies<T>(s: seq<T>, i: nat, j: nat)
    requires i < j < |s| && s[i] == s[j]
    ensures multiset(s)[s[i]] >= 2
  {
    assert s == s[..j] + s[j..];
    assert s[i] == s[..j][i];
    assert s[j] == s[j..][0];
  }

  lemma CopiesTwo<T>(s: seq<T>, x: T)
    requires multiset(s)[x] >= 2
    ensures exists i, j :: 0 <= i < j < |s| && s[i] == x && s[j] == x
  {
    assert x in multiset(s);
    var i :| 0 <= i < |s| && s[i] == x;
    assert s == s[..i] + [x] + s[i + 1..];
    assert multiset(s)[x] == multiset(s[..i])[x] + 1 + multiset(s[i + 1..])[x];
    if x in s[..i] {
      var k :| 0 <= k < i && s[..i][k] == x;
      assert s[k] == x;
    } else {
      assert x in multiset(s[i + 1..]);
      var k :| 0 <= k < |s| - i - 1 && s[i + 1..][k] == x;
      assert s[i + 1 + k] == x;
    }
  }

  /** Reordering a sequence (a permutation) keeps its keys distinct. */
  lemma PermDistinctKeys<T, K>(xs: seq<T>, ys: seq<T>, key: T -> K)
    requires multiset(xs) == multiset(ys)
    requires DistinctKeys(xs, key)
    ensures DistinctKeys(ys, key)
  {
    forall i, j | 0 <= i < j < |ys| ensures key(ys[i]) != key(ys[j]) {
      if ys[i] == ys[j] {
        TwoCopies(ys, i, j);
        CopiesTwo(xs, ys[i]);
      } else {
        assert ys[i] in multiset(xs) && ys[j] in multiset(xs);
      }
    }
  }
}

=== FILE: disagreement_matrix.dfy ===
/**
 * The distribution panel of an analysis: the normalised tier counts and
 * their bar widths, the verdicts grouped by tier, the platform / other
 * split, the outliers against the top-count tier, and the judge labels.
 */
module DisagreementMatrix {
  import opened Base
  import opened Records
  import opened Models
  import opened JudgeNames
  import opened VerdictDistribution

  // ---------------------------------------------------------------------------
  // Bars
  // ---------------------------------------------------------------------------

  lemma GetEntry(r: Rec<string>, k: string) returns (i: nat)
    requires Get(r, k).Some?
    ensures i < |r| && r[i] == (k, Get(r, k).value)
    decreases |r|
  {
    if r[0].0 == k {
      i := 0;
    } else {
      var j := GetEntry(r[1..], k);
      i := j + 1;
    }
  }

  lemma GetAtMostMax(r: Rec<string>, k: string)
    ensures Get(r, k).Some? ==> Get(r, k).value <= MaxCount(r)
  {
    if Get(r, k).Some? {
      var i := GetEntry(r, k);
    }
  }

  /** `distributionRecord[tier] || 0`. */
  function TierCount(r: Rec<string>, t: VerdictTier): int {
    Get(r, TierName(t)).GetOr(0)
  }

  /** `count > 0 ? Math.max((count / maxCount) * 100, 10) : 0`, in percent. */
  function Bar(count: int, maxCount: int): (w: real)
    requires maxCount >= 1
    ensures count <= 0 ==> w == 0.0
    ensures 0 < count <= maxCount ==> 10.0 <= w <= 100.0
    ensures count > 0 && 10 * count >= maxCount ==> w * maxCount as real == 100.0 * count as real
    ensures 0 < count && 10 * count < maxCount ==> w == 10.0
  {
    if count > 0 then
      var share := count as real / maxCount as real * 100.0;
      ShareAtMostOne(count, maxCount);
      ShareScaled(count, maxCount);
      if share >= 10.0 then share else 10.0
    else 0.0
  }

  /** The percentage times the largest count gives back a hundred times the count. */
  lemma ShareScaled(count: int, maxCount: int)
    requires maxCount >= 1
    ensures (count as real / maxCount as real * 100.0) * maxCount as real == 100.0 * count as real
    ensures count as real / maxCount as real * 100.0 >= 10.0 <==> 10 * count >= maxCount
  {
    var q := count as real / maxCount as real;
    assert q * maxCount as real == count as real;
    assert (q * 100.0) * maxCount as real == 100.0 * (q * maxCount as real);
    if q * 100.0 >= 10.0 {
      assert (q * 100.0) * maxCount as real >= 10.0 * maxCount as real;
    } else {
      assert (q * 100.0) * maxCount as real < 10.0 * maxCount as real;
    }
  }

  lemma ShareAtMostOne(count: int, maxCount: int)
    requires 0 < count && maxCount >= 1
    ensures count <= maxCount ==> count as real / maxCount as real <= 1.0
  {
    if count <= maxCount {
      RealDivBounds(count as real, maxCount as real, 0.0, 1.0);
    }
  }

  /** The bar of a tier, scaled against the largest count of the record. */
  function BarWidth(r: Rec<string>, t: VerdictTier): (w: real)
    ensures TierCount(r, t) <= 0 ==> w == 0.0
    ensures TierCount(r, t) > 0 ==> 10.0 <= w <= 100.0
    ensures TierCount(r, t) > 0 && 10 * TierCount(r, t) >= MaxCount(r) ==>
              w * MaxCount(r) as real == 100.0 * TierCount(r, t) as real
    ensures 0 < TierCount(r, t) && 10 * TierCount(r, t) < MaxCount(r) ==> w == 10.0
  {
    GetAtMostMax(r, TierName(t));
    Bar(TierCount(r, t), MaxCount(r))
  }

  lemma BarMono(a: int, b: int, m: int)
    requires m >= 1 && a <= b
    ensures Bar(a, m) <= Bar(b, m)
  {
    if 0 < a {
      RealDivMono(a as real, b as real, m as real);
    }
  }

  lemma BarFull(m: int)
    requires m >= 1
    ensures Bar(m, m) == 100.0
  {
    assert m as real / m as real == 1.0;
  }

  /** A tier with more votes never gets a shorter bar, and the top tier fills the row. */
  lemma BarWidthMonotone(r: Rec<string>, t: VerdictTier, u: VerdictTier)
    ensures TierCount(r, t) <= TierCount(r, u) ==> BarWidth(r, t) <= BarWidth(r, u)
    ensures TierCount(r, t) == MaxCount(r) ==> BarWidth(r, t) == 100.0
  {
    if TierCount(r, t) <= TierCount(r, u) {
      BarMono(TierCount(r, t), TierCount(r, u), MaxCount(r));
    }
    BarFull(MaxCount(r));
  }

  lemma RealDivMono(a: real, b: real, m: real)
    requires m > 0.0 && a <= b
    ensures a / m <= b / m
  {
    var qa := a / m;
    var qb := b / m;
    assert qa * m == a && qb * m == b;
  }

  // ---------------------------------------------------------------------------
  // Grouping
  // ---------------------------------------------------------------------------

  function IsTier(t: VerdictTier): JudgeVerdict -> bool {
    (v: JudgeVerdict) => v.verdictTier == t
  }

  /** `verdicts.filter(v => v.verdict_tier === tier)`. */
  function InTier(vs: seq<JudgeVerdict>, t: VerdictTier): seq<JudgeVerdict> {
    Filter(vs, IsTier(t))
  }

  /** `groupedByTier`: one list per rung of the ladder, most severe first. */
  function GroupedByTier(vs: seq<JudgeVerdict>): (g: seq<seq<JudgeVerdict>>)
    ensures |g| == |AllTiers|
    ensures forall i :: 0 <= i < |g| ==> g[i] == InTier(vs, AllTiers[i])
  {
    seq(|AllTiers|, i requires 0 <= i < |AllTiers| => InTier(vs, AllTiers[i]))
  }

  /** Every verdict is in the group of its own tier and in no other. */
  lemma InTierMembers(vs: seq<JudgeVerdict>, v: JudgeVerdict, t: VerdictTier)
    ensures v in InTier(vs, t) <==> v in vs && v.verdictTier == t
  {
    FilterMembers(vs, IsTier(t));
  }

  /** The same group taken one verdict at a time, without the filter's contract. */
  function TierGroup(vs: seq<JudgeVerdict>, t: VerdictTier): seq<JudgeVerdict>
    decreases |vs|
  {
    if |vs| == 0 then []
    else (if vs[0].verdictTier == t then [vs[0]] else []) + TierGroup(vs[1..], t)
  }

  lemma {:induction false} TierGroupIsInTier(vs: seq<JudgeVerdict>, t: VerdictTier)
    ensures TierGroup(vs, t) == InTier(vs, t)
    decreases |vs|
  {
    if |vs| > 0 {
      TierGroupIsInTier(vs[1..], t);
    }
  }

  lemma {:induction false} TierGroupSizes(vs: seq<JudgeVerdict>)
    ensures |TierGroup(vs, REMOVE)| + |TierGroup(vs, AGE_GATE)| + |TierGroup(vs, REDUCE_REACH)|
            + |TierGroup(vs, LABEL)| + |TierGroup(vs, ALLOW)| == |vs|
    decreases |vs|
  {
    if |vs| > 0 {
      TierGroupSizes(vs[1..]);
    }
  }

  lemma {:induction false} TierGroupCopies(vs: seq<JudgeVerdict>, t: VerdictTier, v: JudgeVerdict)
    ensures multiset(TierGroup(vs, t))[v] == if v.verdictTier == t then multiset(vs)[v] else 0
    decreases |vs|
  {
    if |vs| > 0 {
      TierGroupCopies(vs[1..], t, v);
      assert vs == [vs[0]] + vs[1..];
    }
  }

  /** The sizes of the five groups add up to the number of verdicts. */
  lemma GroupSizes(vs: seq<JudgeVerdict>)
    ensures |InTier(vs, REMOVE)| + |InTier(vs, AGE_GATE)| + |InTier(vs, REDUCE_REACH)|
            + |InTier(vs, LABEL)| + |InTier(vs, ALLOW)| == |vs|
  {
    TierGroupSizes(vs);
    TierGroupIsInTier(vs, REMOVE);
    TierGroupIsInTier(vs, AGE_GATE);
    TierGroupIsInTier(vs, REDUCE_REACH);
    TierGroupIsInTier(vs, LABEL);
    TierGroupIsInTier(vs, ALLOW);
  }

  /** A group holds each verdict of its tier as often as the input does, and nothing else. */
  lemma GroupCopies(vs: seq<JudgeVerdict>, t: VerdictTier, v: JudgeVerdict)
    ensures multiset(InTier(vs, t))[v] == if v.verdictTier == t then multiset(vs)[v] else 0
  {
    TierGroupIsInTier(vs, t);
    TierGroupCopies(vs, t, v);
  }

  // ---------------------------------------------------------------------------
  // Platforms and outliers
  // ---------------------------------------------------------------------------

  const PlatformJudges: seq<string> := ["meta", "youtube", "tiktok", "x_twitter", "google_search"]

  predicate IsPlatform(v: JudgeVerdict) {
    v.judgeId in PlatformJudges
  }

  function PlatformVerdicts(vs: seq<JudgeVerdict>): seq<JudgeVerdict> {
    Filter(vs, IsPlatform)
  }

  function NonPlatformVerdicts(vs: seq<JudgeVerdict>): seq<JudgeVerdict> {
    Filter(vs, (v: JudgeVerdict) => !IsPlatform(v))
  }

  /** The platform and non-platform lists split the verdicts between them. */
  lemma PlatformSplit(vs: seq<JudgeVerdict>)
    ensures multiset(PlatformVerdicts(vs)) + multiset(NonPlatformVerdicts(vs)) == multiset(vs)
    ensures forall v :: v in PlatformVerdicts(vs) <==> v in vs && v.judgeId in PlatformJudges
    ensures forall v :: v in NonPlatformVerdicts(vs) <==> v in vs && v.judgeId !in PlatformJudges
  {
    FilterSplit(vs, IsPlatform, (v: JudgeVerdict) => !IsPlatform(v));
    FilterMembers(vs, IsPlatform);
    FilterMembers(vs, (v: JudgeVerdict) => !IsPlatform(v));
  }

  /** `majorityTier`: the tier name with the highest count. */
  function MajorityTier(d: Distribution): Option<string> {
    TopKey(Normalise(d))
  }

  function DiffersFrom(top: Option<string>): JudgeVerdict -> bool {
    (v: JudgeVerdict) => Some(TierName(v.verdictTier)) != top
  }

  /** `outliers`: the verdicts whose tier is not the majority tier. */
  function Outliers(vs: seq<JudgeVerdict>, d: Distribution): seq<JudgeVerdict> {
    Filter(vs, DiffersFrom(MajorityTier(d)))
  }

  /**
   * The outliers are the verdicts away from the first tier of maximal
   * count in record order; with no counts at all every verdict is one.
   */
  lemma OutliersAgainstTop(vs: seq<JudgeVerdict>, d: Distribution) returns (i: nat)
    requires |Normalise(d)| > 0
    ensures var r := Normalise(d);
            i < |r|
            && (forall j :: 0 <= j < |r| ==> r[j].1 <= r[i].1)
            && (forall j :: 0 <= j < i ==> r[j].1 < r[i].1)
            && (forall v :: v in Outliers(vs, d) <==> v in vs && TierName(v.verdictTier) != r[i].0)
  {
    i := TopKeyFirstMax(Normalise(d));
    FilterMembers(vs, DiffersFrom(MajorityTier(d)));
  }

  lemma OutliersWithoutCounts(vs: seq<JudgeVerdict>, d: Distribution)
    requires |Normalise(d)| == 0
    ensures Outliers(vs, d) == vs
  {
    FilterAll(vs, DiffersFrom(MajorityTier(d)));
  }

  // ---------------------------------------------------------------------------
  // Labels
  // ---------------------------------------------------------------------------

  const OversightJudges: seq<string> := ["eu_regulator", "human_rights_lawyer", "platform_legal_counsel"]

  const IdeologicalJudges: seq<string> :=
    ["civil_libertarian", "global_conservative", "global_progressive", "global_south_advocate"]

  /** `categorizeJudge`: the first list holding the id, `safety` for any other. */
  function CategorizeJudge(id: string): (c: string)
    ensures c in ["platform", "oversight", "ideological", "safety"]
    ensures c == "platform" <==> id in PlatformJudges
    ensures c == "oversight" <==> id in OversightJudges
    ensures c == "ideological" <==> id in IdeologicalJudges
    ensures c == "safety" <==> id !in PlatformJudges + OversightJudges + IdeologicalJudges
  {
    if id in PlatformJudges then "platform"
    else if id in OversightJudges then "oversight"
    else if id in IdeologicalJudges then "ideological"
    else "safety"
  }

  const FullNames: map<string, string> := map[
    "meta" := "Meta (FB/IG)",
    "youtube" := "YouTube",
    "tiktok" := "TikTok",
    "x_twitter" := "X (Twitter)",
    "google_search" := "Google Search",
    "civil_libertarian" := "Civil Libertarian",
    "global_conservative" := "Conservative",
    "global_progressive" := "Progressive",
    "eu_regulator" := "EU Regulator",
    "human_rights_lawyer" := "HR Lawyer",
    "journalist_press" := "Press Freedom",
    "child_safety_advocate" := "Child Safety",
    "counterterrorism_expert" := "CT Expert",
    "brand_safety_advertiser" := "Brand Safety",
    "academic_researcher" := "Academic",
    "global_south_advocate" := "Global South",
    "creator_economy" := "Creator Economy",
    "platform_legal_counsel" := "Legal Counsel"
  ]

  /** `formatJudgeName` of this panel: the long display names, else the title-cased id. */
  function DisplayName(id: string): (name: string)
    ensures id in FullNames ==> name == FullNames[id]
    ensures id !in FullNames ==> name == TitleCase(id) && |name| == |id|
  {
    UnknownNameIsTitleCase(FullNames, id);
    FormatJudgeName(FullNames, id)
  }
}

=== FILE: engine.dfy ===
/**
 * The judge engine: every selected judge is asked for a verdict, the
 * verdicts that came back are kept in panel order, and the meta-judge
 * reduces them to a five-tier distribution, a consensus badge and a
 * narrative. Each remote model call is an input (`ModelAnswer`,
 * `CruxAnswer`): what the model answered, or that the call failed.
 */
module Engine {
  import opened Base
  import opened Records
  import opened Models

  /** The ids of the judge table by category, in declaration order. */
  const PlatformJudgeIds: seq<string> := ["meta", "youtube", "tiktok", "x_twitter", "google_search"]
  const ScamJudgeIds: seq<string> := [
    "meta_scams_expert", "meta_ads_integrity", "youtube_scams_expert", "whatsapp_scams_expert",
    "tiktok_scams_expert", "x_scams_expert", "ftc_consumer_protection", "financial_crimes_expert",
    "social_engineering_expert", "elder_fraud_specialist", "crypto_investment_expert",
    "ecommerce_fraud_expert"]
  const IdeologicalJudgeIds: seq<string> := ["civil_libertarian", "global_conservative", "global_progressive"]
  const ExpertJudgeIds: seq<string> := [
    "eu_regulator", "human_rights_lawyer", "journalist_press", "child_safety_advocate",
    "counterterrorism_expert", "brand_safety_advertiser", "academic_researcher",
    "global_south_advocate", "creator_economy", "platform_legal_counsel"]
  const ParentJudgeIds: seq<string> := [
    "helicopter_parent", "traditional_family_parent", "mainstream_suburban_parent",
    "progressive_urban_parent", "free_range_parent", "digital_native_parent"]
  const RatingJudgeIds: seq<string> := [
    "mpaa_g_rater", "mpaa_pg_rater", "mpaa_pg13_rater", "mpaa_r_rater", "mpaa_nc17_rater",
    "tv_y_rater", "tv_pg_rater", "tv_14_rater", "tv_ma_rater", "esrb_rater", "common_sense_media"]
  const OversightJudgeIds: seq<string> := [
    "meta_oversight_board", "uk_ofcom", "australia_esafety", "singapore_imda", "gifct_reviewer",
    "eu_trusted_flagger", "un_special_rapporteur", "content_authenticity_expert"]

  /** The keys of the judge table, in declaration order. */
  const JudgeIds: seq<string> :=
    PlatformJudgeIds + ScamJudgeIds + IdeologicalJudgeIds + ExpertJudgeIds
    + ParentJudgeIds + RatingJudgeIds + OversightJudgeIds

  // ---------------------------------------------------------------------------
  // One judge
  // ---------------------------------------------------------------------------

  /** What the model call for one judge produced: the fields of its JSON answer, or a failure. */
  datatype ModelAnswer = Answered(fields: RawVerdict) | CallFailed

  /** The answer's fields are a valid verdict once a judge id is supplied. */
  predicate ValidVerdictFields(d: RawVerdict) {
    && d.verdictTier.Some? && ParseTier(d.verdictTier.value).Ok?
    && d.confidenceScore.Some? && 0.0 <= d.confidenceScore.value <= 1.0
    && d.primaryPolicyAxis.Some? && d.reasoningBullets.Some?
    && !d.mitigatingFactors.Null? && !d.refusalToInstruct.Null?
  }

  /**
   * `_run_judge_sync`: an unknown judge id raises before any call; the
   * model's answer is validated with its `judge_id` replaced by the
   * requested one, so the id the model emitted (if any) plays no part.
   */
  function RunJudge(known: seq<string>, judgeId: string, answer: ModelAnswer): (r: Res<JudgeVerdict>)
    ensures r.Ok? <==> judgeId in known && answer.Answered? && ValidVerdictFields(answer.fields)
    ensures r.Ok? ==>
      && r.value.judgeId == judgeId
      && Some(TierName(r.value.verdictTier)) == answer.fields.verdictTier
      && Some(r.value.confidenceScore as real) == answer.fields.confidenceScore
      && Some(r.value.primaryPolicyAxis) == answer.fields.primaryPolicyAxis
  {
    if judgeId !in known then Raise
    else
      match answer
      case CallFailed => Raise
      case Answered(fields) => NewJudgeVerdict(fields.(judgeId := Some(judgeId)))
  }

  // ---------------------------------------------------------------------------
  // The panel
  // ---------------------------------------------------------------------------

  function JudgeIdsOf(vs: seq<JudgeVerdict>): (ids: seq<string>)
    ensures |ids| == |vs| && forall i :: 0 <= i < |vs| ==> ids[i] == vs[i].judgeId
  {
    seq(|vs|, i requires 0 <= i < |vs| => vs[i].judgeId)
  }

  /**
   * The gathered results of the panel with the failures dropped: one
   * answer per selected judge, in panel order.
   */
  function ValidVerdicts(known: seq<string>, selected: seq<string>, answers: seq<ModelAnswer>): (r: seq<JudgeVerdict>)
    requires |answers| == |selected|
    ensures |r| <= |selected|
    ensures IsSubseq(JudgeIdsOf(r), selected)
    decreases |selected|
  {
    if |selected| == 0 then []
    else
      var rest := ValidVerdicts(known, selected[1..], answers[1..]);
      match RunJudge(known, selected[0], answers[0])
      case Ok(v) =>
        assert JudgeIdsOf([v] + rest) == [selected[0]] + JudgeIdsOf(rest);
        SubseqCons(JudgeIdsOf(rest), selected[1..], selected[0]);
        assert [selected[0]] + selected[1..] == selected;
        [v] + rest
      case Raise =>
        SubseqSkip(JudgeIdsOf(rest), selected[1..], selected[0]);
        assert [selected[0]] + selected[1..] == selected;
        rest
  }

  /** The panel splits: a judge's outcome affects only its own entry, so one failure never aborts the rest. */
  lemma {:induction false} ValidVerdictsAppend(known: seq<string>, s1: seq<string>, a1: seq<ModelAnswer>, s2: seq<string>, a2: seq<ModelAnswer>)
    requires |a1| == |s1| && |a2| == |s2|
    ensures ValidVerdicts(known, s1 + s2, a1 + a2) == ValidVerdicts(known, s1, a1) + ValidVerdicts(known, s2, a2)
    decreases |s1|
  {
    if |s1| == 0 {
      assert s1 + s2 == s2 && a1 + a2 == a2;
    } else {
      assert (s1 + s2)[1..] == s1[1..] + s2 && (a1 + a2)[1..] == a1[1..] + a2;
      ValidVerdictsAppend(known, s1[1..], a1[1..], s2, a2);
    }
  }

  /** One judge contributes its verdict exactly when its call succeeded. */
  lemma ValidVerdictsSingle(known: seq<string>, judgeId: string, answer: ModelAnswer)
    ensures ValidVerdicts(known, [judgeId], [answer]) ==
      (if RunJudge(known, judgeId, answer).Ok? then [RunJudge(known, judgeId, answer).value] else [])
  {
    assert [judgeId][1..] == [] && [answer][1..] == [];
  }

  lemma JudgeIdsCons(v: JudgeVerdict, vs: seq<JudgeVerdict>)
    ensures JudgeIdsOf([v] + vs) == [v.judgeId] + JudgeIdsOf(vs)
  {
  }

  /** When every call succeeds, there is one verdict per selected judge, carrying its id, in panel order. */
  lemma {:induction false} ValidVerdictsAllSucceed(known: seq<string>, selected: seq<string>, answers: seq<ModelAnswer>)
    requires |answers| == |selected|
    requires forall i :: 0 <= i < |selected| ==> RunJudge(known, selected[i], answers[i]).Ok?
    ensures JudgeIdsOf(ValidVerdicts(known, selected, answers)) == selected
    decreases |selected|
  {
    if |selected| > 0 {
      var s', a' := selected[1..], answers[1..];
      forall i | 0 <= i < |s'| ensures RunJudge(known, s'[i], a'[i]).Ok? {
        assert s'[i] == selected[i + 1] && a'[i] == answers[i + 1];
      }
      ValidVerdictsAllSucceed(known, s', a');
      var v := RunJudge(known, selected[0], answers[0]).value;
      var tail := ValidVerdicts(known, s', a');
      assert ValidVerdicts(known, selected, answers) == [v] + tail;
      JudgeIdsCons(v, tail);
      assert selected == [selected[0]] + s';
    }
  }

  /** Judges outside the table never produce a verdict. */
  lemma {:induction false} ValidVerdictsUnknown(known: seq<string>, selected: seq<string>, answers: seq<ModelAnswer>)
    requires |answers| == |selected|
    requires forall i :: 0 <= i < |selected| ==> selected[i] !in known
    ensures ValidVerdicts(known, selected, answers) == []
    decreases |selected|
  {
    if |selected| > 0 {
      assert forall i :: 1 <= i < |selected| ==> selected[1..][i - 1] == selected[i];
      ValidVerdictsUnknown(known, selected[1..], answers[1..]);
    }
  }

  // ---------------------------------------------------------------------------
  // Distribution
  // ---------------------------------------------------------------------------

  /** The number of verdicts on tier `t`. */
  function TierCount(vs: seq<JudgeVerdict>, t: VerdictTier): (n: nat)
    ensures n <= |vs|
    decreases |vs|
  {
    if |vs| == 0 then 0
    else (if vs[0].verdictTier == t then 1 else 0) + TierCount(vs[1..], t)
  }

  /** A distribution record with the five tier names in ladder order and the given counts. */
  function Dist(c: seq<int>): (d: Rec<string>)
    requires |c| == 5
    ensures |d| == 5 && forall i :: 0 <= i < 5 ==> d[i] == (TierName(AllTiers[i]), c[i])
  {
    seq(5, i requires 0 <= i < 5 => (TierName(AllTiers[i]), c[i]))
  }

  /** `{tier.value: 0 for tier in VerdictTier}` */
  const ZeroDistribution: Rec<string> := Dist([0, 0, 0, 0, 0])

  lemma DistUnique(c: seq<int>)
    requires |c| == 5
    ensures UniqueKeys(Dist(c))
  {
  }

  /** The tallying loop: `distribution[v.verdict_tier.value] += 1` for each verdict in turn. */
  function Tallied(d: Rec<string>, vs: seq<JudgeVerdict>): Rec<string>
    decreases |vs|
  {
    if |vs| == 0 then d
    else Tallied(Incr(d, TierName(vs[0].verdictTier)), vs[1..])
  }

  /** The counts `c` with the verdicts of `vs` added. */
  function CountsPlus(c: seq<int>, vs: seq<JudgeVerdict>): (r: seq<int>)
    requires |c| == 5
    ensures |r| == 5 && forall i :: 0 <= i < 5 ==> r[i] == c[i] + TierCount(vs, AllTiers[i])
  {
    seq(5, i requires 0 <= i < 5 => c[i] + TierCount(vs, AllTiers[i]))
  }

  /** Counting one verdict raises its own tier's entry by one. */
  lemma IncrDist(c: seq<int>, t: VerdictTier)
    requires |c| == 5
    ensures Incr(Dist(c), TierName(t)) == Dist(c[TierIndex(t) := c[TierIndex(t)] + 1])
  {
    var j := TierIndex(t);
    DistUnique(c);
    GetAt(Dist(c), j);
    PutAt(Dist(c), j, c[j] + 1);
  }

  lemma CountsPlusStep(c: seq<int>, vs: seq<JudgeVerdict>)
    requires |c| == 5 && |vs| > 0
    ensures var j := TierIndex(vs[0].verdictTier);
            CountsPlus(c[j := c[j] + 1], vs[1..]) == CountsPlus(c, vs)
  {
    var j := TierIndex(vs[0].verdictTier);
    forall i | 0 <= i < 5
      ensures CountsPlus(c[j := c[j] + 1], vs[1..])[i] == CountsPlus(c, vs)[i]
    {
      assert AllTiers[i] == vs[0].verdictTier <==> i == j;
    }
  }

  /** Tallying adds each tier's count to its own entry and touches nothing else. */
  lemma {:induction false} TalliedDist(c: seq<int>, vs: seq<JudgeVerdict>)
    requires |c| == 5
    ensures Tallied(Dist(c), vs) == Dist(CountsPlus(c, vs))
    decreases |vs|
  {
    if |vs| > 0 {
      var j := TierIndex(vs[0].verdictTier);
      IncrDist(c, vs[0].verdictTier);
      TalliedDist(c[j := c[j] + 1], vs[1..]);
      CountsPlusStep(c, vs);
    }
  }

  /** The five counts add up to the number of verdicts: every verdict has exactly one tier. */
  lemma {:induction false} TierCountsSum(vs: seq<JudgeVerdict>)
    ensures TierCount(vs, REMOVE) + TierCount(vs, AGE_GATE) + TierCount(vs, REDUCE_REACH)
            + TierCount(vs, LABEL) + TierCount(vs, ALLOW) == |vs|
    decreases |vs|
  {
    if |vs| > 0 {
      TierCountsSum(vs[1..]);
    }
  }

  /** A tier holding every verdict means all verdicts share that tier. */
  lemma {:induction false} TierCountFull(vs: seq<JudgeVerdict>, t: VerdictTier)
    ensures TierCount(vs, t) == |vs| <==> forall i :: 0 <= i < |vs| ==> vs[i].verdictTier == t
    decreases |vs|
  {
    if |vs| > 0 {
      TierCountFull(vs[1..], t);
      assert forall i :: 1 <= i < |vs| ==> vs[i] == vs[1..][i - 1];
    }
  }

  /**
   * The distribution `_synthesize` builds: exactly the five tier names, in
   * ladder order, each with its number of verdicts; the counts sum to the
   * number of verdicts.
   */
  function Distribution(vs: seq<JudgeVerdict>): (d: Rec<string>)
    ensures |d| == 5 && UniqueKeys(d)
    ensures forall i :: 0 <= i < 5 ==> d[i] == (TierName(AllTiers[i]), TierCount(vs, AllTiers[i]))
    ensures SumValues(d) == |vs|
  {
    TalliedDist([0, 0, 0, 0, 0], vs);
    var d := Tallied(ZeroDistribution, vs);
    var c := CountsPlus([0, 0, 0, 0, 0], vs);
    DistUnique(c);
    ZeroCounts(vs);
    DistSum(c);
    d
  }

  lemma ZeroCounts(vs: seq<JudgeVerdict>)
    ensures var c := CountsPlus([0, 0, 0, 0, 0], vs);
            c[0] + c[1] + c[2] + c[3] + c[4] == |vs|
            && forall i :: 0 <= i < 5 ==> c[i] == TierCount(vs, AllTiers[i])
  {
    TierCountsSum(vs);
  }

  lemma DistSum(c: seq<int>)
    requires |c| == 5
    ensures SumValues(Dist(c)) == c[0] + c[1] + c[2] + c[3] + c[4]
  {
    SumValuesFive(Dist(c));
  }

  lemma SumValuesFive(d: Rec<string>)
    requires |d| == 5
    ensures SumValues(d) == d[0].1 + d[1].1 + d[2].1 + d[3].1 + d[4].1
  {
    var d1 := d[1..];
    var d2 := d1[1..];
    var d3 := d2[1..];
    var d4 := d3[1..];
    assert d4[1..] == [];
    assert SumValues(d4) == d[4].1;
    assert SumValues(d3) == d[3].1 + SumValues(d4);
    assert SumValues(d2) == d[2].1 + SumValues(d3);
    assert SumValues(d1) == d[1].1 + SumValues(d2);
  }

  /** Every tier name is a key of the distribution, with that tier's count. */
  lemma DistributionGet(vs: seq<JudgeVerdict>, t: VerdictTier)
    ensures Get(Distribution(vs), TierName(t)) == Some(TierCount(vs, t))
  {
    var d := Distribution(vs);
    GetAt(d, TierIndex(t));
  }

  // ---------------------------------------------------------------------------
  // Consensus badge
  // ---------------------------------------------------------------------------

  /** The badge rule, with the thresholds 0.6 and 0.4 of the total in real arithmetic. */
  function BadgeFor(total: nat, maxCount: nat): (b: ConsensusBadge)
    ensures b == UNANIMOUS <==> total != 0 && maxCount == total
    ensures b == MAJORITY <==> total != 0 && maxCount != total && 5 * maxCount >= 3 * total
    ensures b == SPLIT <==> total != 0 && maxCount != total && 5 * maxCount < 3 * total && 5 * maxCount >= 2 * total
    ensures b == CHAOS <==> total == 0 || (maxCount != total && 5 * maxCount < 2 * total)
  {
    if total == 0 then CHAOS
    else if maxCount == total then UNANIMOUS
    else if maxCount as real >= total as real * 0.6 then MAJORITY
    else if maxCount as real >= total as real * 0.4 then SPLIT
    else CHAOS
  }

  /** The badge of a set of verdicts. */
  function Consensus(vs: seq<JudgeVerdict>): ConsensusBadge {
    BadgeFor(|vs|, MaxValue(Distribution(vs)))
  }

  /** The largest count is the count of some tier, and no count exceeds it. */
  lemma MaxTierCount(vs: seq<JudgeVerdict>)
    ensures forall t: VerdictTier :: TierCount(vs, t) <= MaxValue(Distribution(vs))
    ensures exists t: VerdictTier :: TierCount(vs, t) == MaxValue(Distribution(vs))
    ensures MaxValue(Distribution(vs)) <= |vs|
  {
    var d := Distribution(vs);
    forall t: VerdictTier ensures TierCount(vs, t) <= MaxValue(d) {
      assert d[TierIndex(t)].1 == TierCount(vs, t);
    }
    var i :| 0 <= i < |d| && d[i].1 == MaxValue(d);
    assert TierCount(vs, AllTiers[i]) == MaxValue(d);
  }

  /** The panel is unanimous exactly when there is a verdict and all verdicts share one tier. */
  lemma ConsensusUnanimous(vs: seq<JudgeVerdict>)
    ensures Consensus(vs) == UNANIMOUS <==>
      |vs| > 0 && forall i :: 0 <= i < |vs| ==> vs[i].verdictTier == vs[0].verdictTier
  {
    MaxTierCount(vs);
    if |vs| > 0 {
      var t0 := vs[0].verdictTier;
      if forall i :: 0 <= i < |vs| ==> vs[i].verdictTier == t0 {
        TierCountFull(vs, t0);
      }
      if Consensus(vs) == UNANIMOUS {
        var t :| TierCount(vs, t) == MaxValue(Distribution(vs));
        TierCountFull(vs, t);
      }
    }
  }

  /** No verdicts: no consensus. */
  lemma ConsensusEmpty()
    ensures Consensus([]) == CHAOS
  {
  }

  /** Two REMOVE verdicts and one ALLOW verdict make a majority. */
  lemma ConsensusMajorityExample(v1: JudgeVerdict, v2: JudgeVerdict, v3: JudgeVerdict)
    requires v1.verdictTier == REMOVE && v2.verdictTier == REMOVE && v3.verdictTier == ALLOW
    ensures Consensus([v1, v2, v3]) == MAJORITY
  {
    var vs := [v1, v2, v3];
    MaxTierCount(vs);
    assert vs[1..] == [v2, v3] && vs[1..][1..] == [v3] && vs[1..][1..][1..] == [];
    assert forall t :: TierCount([v3], t) == (if t == ALLOW then 1 else 0);
    assert forall t :: TierCount([v2, v3], t) == (if t == ALLOW then 1 else 0) + (if t == REMOVE then 1 else 0);
    assert TierCount(vs, REMOVE) == 2;
    assert TierCount(vs, AGE_GATE) == 0 && TierCount(vs, REDUCE_REACH) == 0 && TierCount(vs, LABEL) == 0;
    assert TierCount(vs, ALLOW) == 1;
  }

  // ---------------------------------------------------------------------------
  // Narrative
  // ---------------------------------------------------------------------------

  /**
   * What the narrative call produced: the two fields of a JSON object, or
   * a failure of any kind. A field may be left out, hold a string, or hold
   * something else (`null`, a number, a list), which the lookup passes on
   * unchanged.
   */
  datatype CruxAnswer = CruxObject(narrative: Defaulted<string>, tension: Defaulted<string>) | CruxFailed

  const SynthesisErrorNarrative: string := "Synthesis unavailable due to processing error."
  const MissingNarrative: string := "Unable to determine disagreement pattern."
  const UnknownTension: string := "Unknown"

  /**
   * The narrative and tension. The call slices the content text first, so
   * a missing text raises inside the guarded block just like a failed
   * call, and both fall back to the error placeholders; a key the answer
   * lacks takes its own default. A field holding something other than a
   * string survives the guarded block, and the result record built after
   * it rejects the value: that raises out of the synthesis.
   */
  function Crux(contentText: Option<string>, answer: CruxAnswer): (r: Res<(string, string)>)
    ensures r.Raise? <==> contentText.Some? && answer.CruxObject? && (answer.narrative.Null? || answer.tension.Null?)
    ensures contentText.None? || answer.CruxFailed? ==> r == Ok((SynthesisErrorNarrative, UnknownTension))
    ensures r.Ok? && contentText.Some? && answer.CruxObject? ==>
      && (answer.narrative.Given? ==> r.value.0 == answer.narrative.value)
      && (answer.narrative.Omitted? ==> r.value.0 == MissingNarrative)
      && (answer.tension.Given? ==> r.value.1 == answer.tension.value)
      && (answer.tension.Omitted? ==> r.value.1 == UnknownTension)
  {
    match (contentText, answer)
    case (Some(_), CruxObject(n, t)) =>
      if n.Null? || t.Null? then Raise else Ok((n.Or(MissingNarrative), t.Or(UnknownTension)))
    case _ => Ok((SynthesisErrorNarrative, UnknownTension))
  }

  /** `_synthesize` */
  function Synthesize(vs: seq<JudgeVerdict>, contentText: Option<string>, crux: CruxAnswer): (r: Res<SynthesisResult>)
    ensures r.Ok? <==> Crux(contentText, crux).Ok?
    ensures r.Ok? ==>
      && r.value.verdictDistribution == Distribution(vs)
      && SumValues(r.value.verdictDistribution) == |vs|
      && r.value.consensusBadge == Consensus(vs)
      && (r.value.cruxNarrative, r.value.primaryTension) == Crux(contentText, crux).value
      && r.value.watermark == Watermark
  {
    var (narrative, tension) :- Crux(contentText, crux);
    Ok(NewSynthesisResult(Consensus(vs), Distribution(vs), narrative, tension))
  }

  /** The narrative step cannot change the badge or the distribution. */
  lemma SynthesizeCruxIndependent(vs: seq<JudgeVerdict>, t1: Option<string>, c1: CruxAnswer, t2: Option<string>, c2: CruxAnswer)
    requires Synthesize(vs, t1, c1).Ok? && Synthesize(vs, t2, c2).Ok?
    ensures Synthesize(vs, t1, c1).value.consensusBadge == Synthesize(vs, t2, c2).value.consensusBadge
    ensures Synthesize(vs, t1, c1).value.verdictDistribution == Synthesize(vs, t2, c2).value.verdictDistribution
  {
  }

  /** A narrative answer with a `null` field makes the synthesis raise, whatever the verdicts. */
  lemma SynthesizeNullRaises(vs: seq<JudgeVerdict>, text: string, tension: Defaulted<string>)
    ensures Synthesize(vs, Some(text), CruxObject(Null, tension)).Raise?
    ensures Synthesize(vs, Some(text), CruxObject(Given("x"), Null)).Raise?
  {
  }

  // ---------------------------------------------------------------------------
  // Whole evaluation
  // ---------------------------------------------------------------------------

  const ImageOnlyPlaceholder: string := "[Image Only Content]"

  /** `safe_text[:200] + "..."` for long texts, the text itself otherwise. */
  function ContentPreview(contentText: Option<string>): (p: string)
    ensures |p| <= 203
    ensures contentText.None? || contentText == Some("") ==> p == ImageOnlyPlaceholder
    ensures contentText.Some? && 0 < |contentText.value| <= 200 ==> p == contentText.value
    ensures contentText.Some? && |contentText.value| > 200 ==>
      |p| == 203 && StartsWith(contentText.value, p[..200]) && EndsWith(p, "...")
  {
    var safe := if contentText.None? || contentText.value == "" then ImageOnlyPlaceholder else contentText.value;
    if |safe| > 200 then safe[..200] + "..." else safe
  }

  datatype PolicyLensResponse = PolicyLensResponse(
    requestId: string,
    contentPreview: string,
    judgeVerdicts: seq<JudgeVerdict>,
    synthesis: SynthesisResult)

  /** A truthy image string: `evaluate_content` decodes it before any judge runs. */
  predicate HasImage(image: Option<string>) {
    image.Some? && image.value != ""
  }

  /**
   * `evaluate_content`, deep dives aside: one model answer per selected
   * judge and the narrative answer are inputs, as is the fresh request id.
   * The base64 decoder is opaque: `imageDecodes` says whether it accepts
   * the request's image string; when it does not, the decode raises.
   */
  function EvaluateContent(known: seq<string>, request: PolicyLensRequest, imageDecodes: bool,
                           answers: seq<ModelAnswer>, crux: CruxAnswer, requestId: string): (r: Res<PolicyLensResponse>)
    requires |answers| == |request.selectedJudges|
    ensures r.Ok? <==> (HasImage(request.contentImageBase64) ==> imageDecodes) && Crux(request.contentText, crux).Ok?
    ensures r.Ok? ==>
      && |r.value.judgeVerdicts| <= |request.selectedJudges|
      && IsSubseq(JudgeIdsOf(r.value.judgeVerdicts), request.selectedJudges)
      && (forall i :: 0 <= i < |r.value.judgeVerdicts| ==> r.value.judgeVerdicts[i].judgeId in known)
      && SumValues(r.value.synthesis.verdictDistribution) == |r.value.judgeVerdicts|
      && |r.value.contentPreview| <= 203
      && r.value.requestId == requestId
    ensures r.Ok? ==>
      && r.value.judgeVerdicts == ValidVerdicts(known, request.selectedJudges, answers)
      && r.value.contentPreview == ContentPreview(request.contentText)
      && Ok(r.value.synthesis) == Synthesize(r.value.judgeVerdicts, request.contentText, crux)
  {
    if HasImage(request.contentImageBase64) && !imageDecodes then Raise
    else
      var vs := ValidVerdicts(known, request.selectedJudges, answers);
      ValidVerdictsKnown(known, request.selectedJudges, answers);
      var synthesis :- Synthesize(vs, request.contentText, crux);
      Ok(PolicyLensResponse(requestId, ContentPreview(request.contentText), vs, synthesis))
  }

  /**
   * A readable image, a panel whose every call succeeds and a narrative that
   * validates yield one verdict per selected judge, in panel order, and a
   * distribution that counts all of them.
   */
  lemma EvaluateContentAllSucceed(known: seq<string>, request: PolicyLensRequest, imageDecodes: bool,
                                  answers: seq<ModelAnswer>, crux: CruxAnswer, requestId: string)
    requires |answers| == |request.selectedJudges|
    requires HasImage(request.contentImageBase64) ==> imageDecodes
    requires forall i :: 0 <= i < |request.selectedJudges| ==> RunJudge(known, request.selectedJudges[i], answers[i]).Ok?
    requires Crux(request.contentText, crux).Ok?
    ensures EvaluateContent(known, request, imageDecodes, answers, crux, requestId).Ok?
    ensures JudgeIdsOf(EvaluateContent(known, request, imageDecodes, answers, crux, requestId).value.judgeVerdicts)
              == request.selectedJudges
    ensures SumValues(EvaluateContent(known, request, imageDecodes, answers, crux, requestId).value.synthesis.verdictDistribution)
              == |request.selectedJudges|
  {
    ValidVerdictsAllSucceed(known, request.selectedJudges, answers);
  }

  /** An image string the decoder rejects fails the whole evaluation, whatever the judges answer. */
  lemma EvaluateContentBadImageRaises(known: seq<string>, request: PolicyLensRequest, answers: seq<ModelAnswer>,
                                      crux: CruxAnswer, requestId: string)
    requires |answers| == |request.selectedJudges|
    requires HasImage(request.contentImageBase64)
    ensures EvaluateContent(known, request, false, answers, crux, requestId).Raise?
  {
  }

  /** Every verdict comes from a judge of the table. */
  lemma {:induction false} ValidVerdictsKnown(known: seq<string>, selected: seq<string>, answers: seq<ModelAnswer>)
    requires |answers| == |selected|
    ensures forall v :: v in ValidVerdicts(known, selected, answers) ==> v.judgeId in known
    decreases |selected|
  {
    if |selected| > 0 {
      ValidVerdictsKnown(known, selected[1..], answers[1..]);
    }
  }

  lemma DefaultJudgeNotInTable(s: string)
    requires s in DefaultJudges
    ensures s !in JudgeIds
  {
    assert s !in PlatformJudgeIds;
    assert s !in ScamJudgeIds;
    assert s !in IdeologicalJudgeIds;
    assert s !in ExpertJudgeIds;
    assert s !in ParentJudgeIds;
    assert s !in RatingJudgeIds;
    assert s !in OversightJudgeIds;
  }

  /** The default panel names no judge of the table: every call raises, no verdict survives, no consensus. */
  lemma DefaultPanelEmpty(answers: seq<ModelAnswer>, contentText: Option<string>, crux: CruxAnswer)
    requires |answers| == |DefaultJudges|
    ensures ValidVerdicts(JudgeIds, DefaultJudges, answers) == []
    ensures Synthesize([], contentText, crux).Ok? ==> Synthesize([], contentText, crux).value.consensusBadge == CHAOS
  {
    DefaultJudgeNotInTable("walled_garden");
    DefaultJudgeNotInTable("town_square");
    DefaultJudgeNotInTable("viral_stage");
    ValidVerdictsUnknown(JudgeIds, DefaultJudges, answers);
  }
}

=== FILE: enrichment.dfy ===
/**
 * Ad enrichment: the parser that turns a web-research answer into red
 * and green flags and a confidence level, the overall risk label that
 * combines research and domain age, and the domain rules of the WHOIS
 * lookup. The research call, the WHOIS call, `urlparse` and the date
 * arithmetic are inputs.
 */
module Enrichment {
  import opened Base

  // ---------------------------------------------------------------------------
  // Records
  // ---------------------------------------------------------------------------

  datatype ConfidenceLevel = Low | Medium | High

  function ConfidenceName(c: ConfidenceLevel): string {
    match c
    case Low => "low"
    case Medium => "medium"
    case High => "high"
  }

  datatype DomainInfo = DomainInfo(
    domain: string,
    registrationDate: Option<string>,
    registrar: Option<string>,
    country: Option<string>,
    ageDays: Option<int>,
    isNewlyRegistered: bool,
    sslValid: Option<bool>,
    error: Option<string>)

  datatype WebResearch = WebResearch(
    companyInfo: Option<string>,
    scamReports: Option<string>,
    legitimacyAssessment: Option<string>,
    redFlags: seq<string>,
    greenFlags: seq<string>,
    sources: seq<string>,
    confidence: ConfidenceLevel,
    error: Option<string>)

  datatype RiskLabel = LikelyScam | Suspicious | LikelyLegitimate | Unclear | Unknown

  function RiskName(r: RiskLabel): string {
    match r
    case LikelyScam => "likely_scam"
    case Suspicious => "suspicious"
    case LikelyLegitimate => "likely_legitimate"
    case Unclear => "unclear"
    case Unknown => "unknown"
  }

  datatype AdEnrichment = AdEnrichment(
    adId: string,
    domainInfo: Option<DomainInfo>,
    webResearch: Option<WebResearch>,
    overallRiskAssessment: RiskLabel,
    enrichedAt: string)

  // ---------------------------------------------------------------------------
  // Flag sections
  // ---------------------------------------------------------------------------

  /** Characters a bullet line may start with: "-", "•", "*" and the digits 1 to 5. */
  predicate IsBulletStart(c: char) {
    c == '-' || c == '\U{2022}' || c == '*' || ('1' <= c <= '5')
  }

  /** Characters stripped from the front of a bullet: "-", "•", "*", digits, "." and space. */
  predicate IsBulletMark(c: char) {
    c == '-' || c == '\U{2022}' || c == '*' || IsDigit(c) || c == '.' || c == ' '
  }

  predicate IsBullet(line: string) {
    var t := Strip(line);
    |t| > 0 && IsBulletStart(t[0])
  }

  /** The flag a bullet line carries: the stripped line without its leading bullet marks. */
  function FlagText(line: string): (f: string)
    ensures |f| > 0 ==> !IsBulletMark(f[0])
  {
    LStripBy(Strip(line), IsBulletMark)
  }

  predicate Mentions(line: string, word: string) {
    Contains(Lower(line), word)
  }

  /** A section opens at a line mentioning `header`; a non-bullet line mentioning a stop word closes it. */
  datatype FlagSection = FlagSection(header: string, stop1: string, stop2: string)

  const RedSection: FlagSection := FlagSection("red flag", "green flag", "assessment")
  const GreenSection: FlagSection := FlagSection("green flag", "assessment", "conclusion")

  predicate IsHeader(sec: FlagSection, line: string) {
    Mentions(line, sec.header)
  }

  predicate Closes(sec: FlagSection, line: string) {
    !IsBullet(line) && (Mentions(line, sec.stop1) || Mentions(line, sec.stop2))
  }

  const MinFlagLength: nat := 6
  const MaxFlags: nat := 5

  datatype ScanState = ScanState(inSection: bool, flags: seq<string>)

  /** One iteration of the line loop. */
  function ScanStep(sec: FlagSection, st: ScanState, line: string): ScanState {
    if IsHeader(sec, line) then ScanState(true, st.flags)
    else if st.inSection && IsBullet(line) then
      var f := FlagText(line);
      ScanState(true, if f != "" && |f| >= MinFlagLength then st.flags + [f] else st.flags)
    else if st.inSection && (Mentions(line, sec.stop1) || Mentions(line, sec.stop2)) then ScanState(false, st.flags)
    else st
  }

  /** The loop over all lines, from a closed section and no flags. */
  function Scan(sec: FlagSection, lines: seq<string>): ScanState
    decreases |lines|
  {
    if |lines| == 0 then ScanState(false, [])
    else ScanStep(sec, Scan(sec, lines[..|lines| - 1]), lines[|lines| - 1])
  }

  /**
   * Reference definition: a section is open when line `k` is read if
   * some earlier line is a header and no line between them is a header
   * or a closing line.
   */
  ghost predicate OpenAfterHeader(lines: seq<string>, k: nat, header: string -> bool, closes: string -> bool)
    requires k <= |lines|
  {
    exists h :: 0 <= h < k && header(lines[h])
                && forall m :: h < m < k ==> !header(lines[m]) && !closes(lines[m])
  }

  lemma OpenAfterHeaderStep(lines: seq<string>, k: nat, header: string -> bool, closes: string -> bool)
    requires 0 < k <= |lines|
    ensures OpenAfterHeader(lines, k, header, closes)
            <==> header(lines[k - 1]) || (OpenAfterHeader(lines, k - 1, header, closes) && !closes(lines[k - 1]))
  {
    if header(lines[k - 1]) || (OpenAfterHeader(lines, k - 1, header, closes) && !closes(lines[k - 1])) {
      OpenExtends(lines, k, header, closes);
    }
    if OpenAfterHeader(lines, k, header, closes) && !header(lines[k - 1]) {
      OpenShrinks(lines, k, header, closes);
    }
  }

  lemma OpenExtends(lines: seq<string>, k: nat, header: string -> bool, closes: string -> bool)
    requires 0 < k <= |lines|
    requires header(lines[k - 1]) || (OpenAfterHeader(lines, k - 1, header, closes) && !closes(lines[k - 1]))
    ensures OpenAfterHeader(lines, k, header, closes)
  {
    if !header(lines[k - 1]) {
      var h :| 0 <= h < k - 1 && header(lines[h])
               && forall m :: h < m < k - 1 ==> !header(lines[m]) && !closes(lines[m]);
      assert forall m :: h < m < k ==> !header(lines[m]) && !closes(lines[m]);
    }
  }

  lemma OpenShrinks(lines: seq<string>, k: nat, header: string -> bool, closes: string -> bool)
    requires 0 < k <= |lines|
    requires OpenAfterHeader(lines, k, header, closes) && !header(lines[k - 1])
    ensures OpenAfterHeader(lines, k - 1, header, closes) && !closes(lines[k - 1])
  {
    var h :| 0 <= h < k && header(lines[h])
             && forall m :: h < m < k ==> !header(lines[m]) && !closes(lines[m]);
    assert h != k - 1;
    assert forall m :: h < m < k - 1 ==> !header(lines[m]) && !closes(lines[m]);
  }

  function HeaderTest(sec: FlagSection): string -> bool {
    line => IsHeader(sec, line)
  }

  function CloseTest(sec: FlagSection): string -> bool {
    line => Closes(sec, line)
  }

  ghost predicate OpenAt(sec: FlagSection, lines: seq<string>, k: nat)
    requires k <= |lines|
  {
    OpenAfterHeader(lines, k, HeaderTest(sec), CloseTest(sec))
  }

  /** Line `k` yields a flag: a bullet, not a header, long enough, in an open section. */
  ghost predicate Collects(sec: FlagSection, lines: seq<string>, k: nat)
    requires k < |lines|
  {
    !IsHeader(sec, lines[k]) && IsBullet(lines[k]) && |FlagText(lines[k])| >= MinFlagLength && OpenAt(sec, lines, k)
  }

  /** The flags of the lines before `k` that yield one, in line order. */
  ghost function CollectedFlags(sec: FlagSection, lines: seq<string>, k: nat): seq<string>
    requires k <= |lines|
  {
    if k == 0 then []
    else CollectedFlags(sec, lines, k - 1) + (if Collects(sec, lines, k - 1) then [FlagText(lines[k - 1])] else [])
  }

  /** The loop agrees with the reference definition after every prefix of the lines. */
  lemma {:induction false} ScanIsCollected(sec: FlagSection, lines: seq<string>, k: nat)
    requires k <= |lines|
    ensures Scan(sec, lines[..k]).inSection <==> OpenAt(sec, lines, k)
    ensures Scan(sec, lines[..k]).flags == CollectedFlags(sec, lines, k)
    decreases k
  {
    if k > 0 {
      ScanIsCollected(sec, lines, k - 1);
      assert lines[..k][..k - 1] == lines[..k - 1];
      assert lines[..k][k - 1] == lines[k - 1];
      OpenAfterHeaderStep(lines, k, HeaderTest(sec), CloseTest(sec));
    }
  }

  /** A flag as the scanner keeps it: long enough, and not starting with a bullet mark. */
  predicate FlagShaped(f: string) {
    |f| >= MinFlagLength && !IsBulletMark(f[0])
  }

  /** Each line adds at most its own flag, and only a well-shaped one. */
  lemma CollectedFlagsStep(sec: FlagSection, lines: seq<string>, k: nat)
    requires 0 < k <= |lines|
    ensures || CollectedFlags(sec, lines, k) == CollectedFlags(sec, lines, k - 1)
            || (CollectedFlags(sec, lines, k) == CollectedFlags(sec, lines, k - 1) + [FlagText(lines[k - 1])]
                && FlagShaped(FlagText(lines[k - 1])))
  {
  }

  lemma AllShapedAppend(a: seq<string>, b: seq<string>)
    requires forall f :: f in a ==> FlagShaped(f)
    requires forall f :: f in b ==> FlagShaped(f)
    ensures forall f :: f in a + b ==> FlagShaped(f)
  {
  }

  /** Every collected flag is long enough and does not start with a bullet mark. */
  lemma {:induction false} CollectedFlagsShape(sec: FlagSection, lines: seq<string>, k: nat)
    requires k <= |lines|
    ensures forall f :: f in CollectedFlags(sec, lines, k) ==> FlagShaped(f)
    decreases k
  {
    if k > 0 {
      CollectedFlagsShape(sec, lines, k - 1);
      CollectedFlagsStep(sec, lines, k);
      var prev := CollectedFlags(sec, lines, k - 1);
      if CollectedFlags(sec, lines, k) != prev {
        AllShapedAppend(prev, [FlagText(lines[k - 1])]);
      }
    }
  }

  /** The flags of one section of `content`; none when no line can be a header. */
  function SectionFlags(sec: FlagSection, content: string): (r: seq<string>)
    ensures forall f :: f in r ==> |f| >= MinFlagLength && !IsBulletMark(f[0])
  {
    var lines := Split(content, '\n');
    if Contains(Lower(content), sec.header) then
      ScanIsCollected(sec, lines, |lines|);
      CollectedFlagsShape(sec, lines, |lines|);
      assert lines[..|lines|] == lines;
      Scan(sec, lines).flags
    else []
  }

  /** The section flags are exactly the reference flags of the content's lines. */
  lemma SectionFlagsSpec(sec: FlagSection, content: string)
    ensures var lines := Split(content, '\n');
            SectionFlags(sec, content) == if Contains(Lower(content), sec.header) then CollectedFlags(sec, lines, |lines|) else []
  {
    var lines := Split(content, '\n');
    ScanIsCollected(sec, lines, |lines|);
    assert lines[..|lines|] == lines;
  }

  // ---------------------------------------------------------------------------
  // Research parsing
  // ---------------------------------------------------------------------------

  /** The assessment label and confidence read from the lower-cased content. */
  function KeywordAssessment(lc: string): (RiskLabel, ConfidenceLevel) {
    if Contains(lc, "likely_scam") || Contains(lc, "likely scam") || Contains(lc, "almost certainly a scam") then (LikelyScam, High)
    else if Contains(lc, "suspicious") && (Contains(lc, "scam") || Contains(lc, "fraud")) then (Suspicious, Medium)
    else if Contains(lc, "likely_legitimate") || Contains(lc, "likely legitimate") || Contains(lc, "appears legitimate") then (LikelyLegitimate, Medium)
    else if Contains(lc, "unclear") || Contains(lc, "cannot determine") || Contains(lc, "insufficient") then (Unclear, Low)
    else (Unclear, Medium)
  }

  /** The adjustment by flag counts: one-sided evidence of three or more flags forces high confidence. */
  function AdjustByFlags(a: (RiskLabel, ConfidenceLevel), reds: nat, greens: nat): (RiskLabel, ConfidenceLevel) {
    if reds >= 3 && greens == 0 then (if a.0 == Unclear then Suspicious else a.0, High)
    else if greens >= 3 && reds == 0 then (a.0, High)
    else a
  }

  const MaxCompanyInfo: nat := 500
  const MaxSources: nat := 5

  /**
   * `parse_research_response`. The computed assessment label is not part
   * of the result; the whole content is the legitimacy assessment.
   */
  function ParseResearchResponse(content: string, citations: seq<string>): (r: WebResearch)
    ensures |r.redFlags| <= MaxFlags && |r.greenFlags| <= MaxFlags && |r.sources| <= MaxSources
    ensures forall f :: f in r.redFlags ==> |f| >= MinFlagLength
    ensures forall f :: f in r.greenFlags ==> |f| >= MinFlagLength
    ensures r.legitimacyAssessment == Some(content)
    ensures r.companyInfo.None? <==> content == ""
    ensures r.companyInfo.Some? ==> |r.companyInfo.value| <= MaxCompanyInfo && StartsWith(content, r.companyInfo.value)
    ensures |r.redFlags| >= 3 && |r.greenFlags| == 0 ==> r.confidence == High
    ensures |r.greenFlags| >= 3 && |r.redFlags| == 0 ==> r.confidence == High
    ensures r.companyInfo == (if content == "" then None else Some(Take(content, MaxCompanyInfo)))
    ensures r.sources == Take(citations, MaxSources)
    ensures r.redFlags == Take(SectionFlags(RedSection, content), MaxFlags)
    ensures r.greenFlags == Take(SectionFlags(GreenSection, content), MaxFlags)
    ensures r.confidence == AdjustByFlags(KeywordAssessment(Lower(content)),
                                          |SectionFlags(RedSection, content)|, |SectionFlags(GreenSection, content)|).1
  {
    ResearchFrom(content, citations, SectionFlags(RedSection, content), SectionFlags(GreenSection, content))
  }

  /** The research record built from the content, the citations and the two sections' flags. */
  function ResearchFrom(content: string, citations: seq<string>, red: seq<string>, green: seq<string>): (r: WebResearch)
    requires forall f :: f in red ==> |f| >= MinFlagLength
    requires forall f :: f in green ==> |f| >= MinFlagLength
    ensures |r.redFlags| <= MaxFlags && |r.greenFlags| <= MaxFlags && |r.sources| <= MaxSources
    ensures forall f :: f in r.redFlags ==> |f| >= MinFlagLength
    ensures forall f :: f in r.greenFlags ==> |f| >= MinFlagLength
    ensures r.legitimacyAssessment == Some(content)
    ensures r.companyInfo.None? <==> content == ""
    ensures r.companyInfo.Some? ==> |r.companyInfo.value| <= MaxCompanyInfo && StartsWith(content, r.companyInfo.value)
    ensures |r.redFlags| >= 3 && |r.greenFlags| == 0 ==> r.confidence == High
    ensures |r.greenFlags| >= 3 && |r.redFlags| == 0 ==> r.confidence == High
    ensures r.companyInfo == (if content == "" then None else Some(Take(content, MaxCompanyInfo)))
    ensures r.sources == Take(citations, MaxSources)
    ensures r.redFlags == Take(red, MaxFlags) && r.greenFlags == Take(green, MaxFlags)
    ensures r.confidence == AdjustByFlags(KeywordAssessment(Lower(content)), |red|, |green|).1
  {
    var assessed := AdjustByFlags(KeywordAssessment(Lower(content)), |red|, |green|);
    WebResearch(CompanyInfo(content), None, Some(content), KeptFlags(red), KeptFlags(green),
                Take(citations, MaxSources), assessed.1, None)
  }

  /** The company information: the first 500 characters, absent for empty content. */
  function CompanyInfo(content: string): (c: Option<string>)
    ensures c.None? <==> content == ""
    ensures c.Some? ==> |c.value| <= MaxCompanyInfo && StartsWith(content, c.value)
  {
    if content != "" then Some(Take(content, MaxCompanyInfo)) else None
  }

  /** `flags[:5]`: the kept flags come from the list, and the three-flag and no-flag tests see the same answer. */
  function KeptFlags(flags: seq<string>): (k: seq<string>)
    ensures |k| <= MaxFlags && forall f :: f in k ==> f in flags
    ensures |k| >= 3 <==> |flags| >= 3
    ensures |k| == 0 <==> |flags| == 0
  {
    Take(flags, MaxFlags)
  }

  // ---------------------------------------------------------------------------
  // Overall risk
  // ---------------------------------------------------------------------------

  /** The first of likely_scam, suspicious, likely_legitimate found in the lower-cased text, else unclear. */
  function RiskFromText(text: string): (r: RiskLabel)
    ensures var lc := Lower(text);
            && (r == LikelyScam <==> Contains(lc, "likely_scam"))
            && (r == Suspicious <==> !Contains(lc, "likely_scam") && Contains(lc, "suspicious"))
            && (r == LikelyLegitimate <==> !Contains(lc, "likely_scam") && !Contains(lc, "suspicious") && Contains(lc, "likely_legitimate"))
            && r != Unknown
  {
    var lc := Lower(text);
    if Contains(lc, "likely_scam") then LikelyScam
    else if Contains(lc, "suspicious") then Suspicious
    else if Contains(lc, "likely_legitimate") then LikelyLegitimate
    else Unclear
  }

  /** The risk before the domain rule: unknown without a non-empty research text. */
  function ResearchRisk(research: Option<WebResearch>): RiskLabel {
    if research.Some? && research.value.legitimacyAssessment.Some? && research.value.legitimacyAssessment.value != "" then
      RiskFromText(research.value.legitimacyAssessment.value)
    else Unknown
  }

  /** The risk decision of `enrich_ad`: a newly registered domain turns "unclear" into "suspicious". */
  function OverallRisk(research: Option<WebResearch>, domain: Option<DomainInfo>): (r: RiskLabel)
    ensures ResearchRisk(research) != Unclear ==> r == ResearchRisk(research)
    ensures ResearchRisk(research) == Unclear ==>
              (r == Suspicious <==> domain.Some? && domain.value.isNewlyRegistered)
    ensures r == Unknown <==> research.None? || research.value.legitimacyAssessment.None?
                              || research.value.legitimacyAssessment.value == ""
  {
    var risk := ResearchRisk(research);
    if domain.Some? && domain.value.isNewlyRegistered && risk == Unclear then Suspicious else risk
  }

  /** The domain rule changes nothing but "unclear", and never lowers a risk. */
  lemma DomainOnlyUpgradesUnclear(research: Option<WebResearch>, d: DomainInfo)
    ensures OverallRisk(research, Some(d)) != OverallRisk(research, None) ==>
              OverallRisk(research, None) == Unclear && OverallRisk(research, Some(d)) == Suspicious
  {
  }

  /**
   * For research parsed from `content`, the overall risk is read off the
   * content itself: unknown for empty content, otherwise the keyword
   * precedence on its lower-cased text.
   */
  lemma ParsedResearchRisk(content: string, citations: seq<string>)
    ensures OverallRisk(Some(ParseResearchResponse(content, citations)), None)
            == if content == "" then Unknown else RiskFromText(content)
  {
  }

  /**
   * `enrich_ad`: the domain lookup runs only when there is a landing-page
   * URL; a lookup or research call that raised is `None`.
   */
  function EnrichAd(adId: string, landingPageUrl: Option<string>, domainResult: Option<DomainInfo>,
                    researchResult: Option<WebResearch>, enrichedAt: string): (r: AdEnrichment)
    ensures r.adId == adId && r.webResearch == researchResult
    ensures r.domainInfo.Some? ==> landingPageUrl.Some? && landingPageUrl.value != ""
    ensures r.overallRiskAssessment == OverallRisk(researchResult, r.domainInfo)
  {
    var domain := if landingPageUrl.Some? && landingPageUrl.value != "" then domainResult else None;
    AdEnrichment(adId, domain, researchResult, OverallRisk(researchResult, domain), enrichedAt)
  }

  /** Without a landing page the domain age plays no part. */
  lemma NoLandingPageNoDomainRule(adId: string, domainResult: Option<DomainInfo>, research: Option<WebResearch>, at: string)
    ensures EnrichAd(adId, None, domainResult, research, at).overallRiskAssessment == ResearchRisk(research)
  {
  }

  // ---------------------------------------------------------------------------
  // Domain information
  // ---------------------------------------------------------------------------

  const NewDomainDays: int := 90
  const NoWhoisKeyError: string := "WHOIS API key not configured"

  /** The host of a URL (`netloc or path`) without one leading "www.". */
  function DomainName(netloc: string, path: string): (d: string)
    ensures var host := if netloc != "" then netloc else path;
            (StartsWith(host, "www.") ==> host == "www." + d) && (!StartsWith(host, "www.") ==> d == host)
  {
    var host := if netloc != "" then netloc else path;
    if StartsWith(host, "www.") then host[4..] else host
  }

  /** A single "www." is removed: "www.www.x" keeps its second "www.". */
  lemma DomainNameStripsOnce(rest: string)
    ensures DomainName("www." + rest, "") == rest
  {
    assert ("www." + rest)[4..] == rest;
  }

  /** The outcome of the WHOIS request; `WhoisRecord` is a 200 answer. */
  datatype WhoisOutcome =
    | NoApiKey
    | NonOkStatus(code: int)
    | WhoisRecord(createdDate: Option<string>, registrar: Option<string>, country: Option<string>, age: Option<int>)
    | LookupRaised(message: string)

  /**
   * `get_domain_info`. `age` is the age in days computed from the
   * creation date (`None` when the date cannot be parsed). A non-200
   * answer falls through to the no-key result; an exception reports the
   * whole URL as the domain.
   */
  function GetDomainInfo(url: string, netloc: string, path: string, whois: WhoisOutcome): (r: DomainInfo)
    ensures r.isNewlyRegistered <==> r.ageDays.Some? && r.ageDays.value < NewDomainDays
    ensures whois.LookupRaised? ==> r.domain == url && r.error == Some(whois.message)
    ensures !whois.LookupRaised? ==> r.domain == DomainName(netloc, path)
    ensures r.error.None? <==> whois.WhoisRecord?
  {
    match whois
    case LookupRaised(message) =>
      DomainInfo(url, None, None, None, None, false, None, Some(message))
    case WhoisRecord(created, registrar, country, age) =>
      var ageDays := if created.Some? && created.value != "" then age else None;
      DomainInfo(DomainName(netloc, path), created, registrar, country, ageDays,
                 ageDays.Some? && ageDays.value < NewDomainDays, None, None)
    case _ =>
      DomainInfo(DomainName(netloc, path), None, None, None, None, false, None, Some(NoWhoisKeyError))
  }
}

=== FILE: input_module.dfy ===
/**
 * The analysis form's judge picker: the search box, the grouping of the
 * judges by category and the order of the categories, the selection
 * toggles and presets, and the guard in front of the submit call.
 */
module JudgeSelection {
  import opened Base
  import opened Sorting
  import opened Dedup
  import opened Records

  /** A judge as `GET /api/judges` lists it. */
  datatype Judge = Judge(id: string, name: string, description: string, category: string)

  /** `judge.category || 'platform'`: judges without a category are shown as platforms. */
  function CategoryOf(j: Judge): (c: string)
    ensures c != ""
  {
    if j.category == "" then "platform" else j.category
  }

  function Ids(js: seq<Judge>): (ids: seq<string>)
    ensures |ids| == |js|
    ensures forall i :: 0 <= i < |js| ==> ids[i] == js[i].id
  {
    seq(|js|, i requires 0 <= i < |js| => js[i].id)
  }

  // ---------------------------------------------------------------------------
  // Search
  // ---------------------------------------------------------------------------

  /** The name or the description contains the query, ignoring ASCII case. */
  predicate Matches(j: Judge, query: string) {
    Contains(Lower(j.name), Lower(query)) || Contains(Lower(j.description), Lower(query))
  }

  function MatchesQuery(query: string): Judge -> bool {
    (j: Judge) => Matches(j, query)
  }

  /**
   * `filteredJudges`: a blank query shows every judge; otherwise the judges
   * that match the query as typed (it is trimmed only for the blank test).
   */
  function FilterJudges(judges: seq<Judge>, query: string): (r: seq<Judge>)
    ensures IsSubseq(r, judges)
    ensures Strip(query) == "" ==> r == judges
    ensures Strip(query) != "" ==> forall j :: j in r <==> j in judges && Matches(j, query)
  {
    if Strip(query) == "" then
      SubseqPrefix(judges, |judges|);
      assert judges[..|judges|] == judges;
      judges
    else
      FilterMembers(judges, MatchesQuery(query));
      Filter(judges, MatchesQuery(query))
  }

  lemma MatchesPrefix(j: Judge, query: string, more: string)
    requires Matches(j, query + more)
    ensures Matches(j, query)
  {
    assert Lower(query + more) == Lower(query) + Lower(more);
    if Contains(Lower(j.name), Lower(query + more)) {
      ContainsPrefix(Lower(j.name), Lower(query), Lower(more));
    } else {
      ContainsPrefix(Lower(j.description), Lower(query), Lower(more));
    }
  }

  lemma NotBlankAppend(query: string, more: string)
    requires Strip(query) != ""
    ensures Strip(query + more) != ""
  {
    var i :| 0 <= i < |query| && !IsSpace(query[i]);
    assert (query + more)[i] == query[i];
  }

  /** Typing more characters after a non-blank query can only narrow the list. */
  lemma SearchNarrows(judges: seq<Judge>, query: string, more: string)
    requires Strip(query) != ""
    ensures IsSubseq(FilterJudges(judges, query + more), FilterJudges(judges, query))
  {
    NotBlankAppend(query, more);
    forall j: Judge | MatchesQuery(query + more)(j) ensures MatchesQuery(query)(j) {
      MatchesPrefix(j, query, more);
    }
    FilterMono(judges, MatchesQuery(query + more), MatchesQuery(query));
  }

  // ---------------------------------------------------------------------------
  // Grouping by category
  // ---------------------------------------------------------------------------

  /** `Record<string, JudgeInfo[]>` in insertion order. */
  type Groups = seq<(string, seq<Judge>)>

  function GroupKeys(g: Groups): (ks: seq<string>)
    ensures |ks| == |g|
    ensures forall i :: 0 <= i < |g| ==> ks[i] == g[i].0
  {
    seq(|g|, i requires 0 <= i < |g| => g[i].0)
  }

  /** `judgesByCategory[k] || []`. */
  function Members(g: Groups, k: string): seq<Judge>
    decreases |g|
  {
    if |g| == 0 then []
    else if g[0].0 == k then g[0].1
    else Members(g[1..], k)
  }

  /** One step of the reduce: open the category if it is new, then push the judge. */
  function AddTo(g: Groups, k: string, j: Judge): Groups
    decreases |g|
  {
    if |g| == 0 then [(k, [j])]
    else if g[0].0 == k then [(k, g[0].1 + [j])] + g[1..]
    else [g[0]] + AddTo(g[1..], k, j)
  }

  /** `judgesByCategory`: the judges reduced into groups, in order. */
  function GroupByCategory(judges: seq<Judge>): Groups
    decreases |judges|
  {
    if |judges| == 0 then []
    else
      var j := judges[|judges| - 1];
      AddTo(GroupByCategory(judges[..|judges| - 1]), CategoryOf(j), j)
  }

  lemma {:induction false} AddToMembers(g: Groups, k: string, j: Judge, k': string)
    ensures Members(AddTo(g, k, j), k') == Members(g, k') + (if k' == k then [j] else [])
    decreases |g|
  {
    if |g| > 0 && g[0].0 != k {
      AddToMembers(g[1..], k, j, k');
      assert AddTo(g, k, j)[1..] == AddTo(g[1..], k, j);
    }
  }

  lemma {:induction false} AddToKeys(g: Groups, k: string, j: Judge)
    ensures GroupKeys(AddTo(g, k, j)) == GroupKeys(g) + (if k in GroupKeys(g) then [] else [k])
    decreases |g|
  {
    if |g| > 0 {
      HeadSplit(g);
      GroupKeysCons(g[0], g[1..]);
      if g[0].0 != k {
        AddToKeys(g[1..], k, j);
        GroupKeysCons(g[0], AddTo(g[1..], k, j));
        ConsAppend(g[0].0, GroupKeys(g[1..]), if k in GroupKeys(g[1..]) then [] else [k]);
      } else {
        GroupKeysCons((k, g[0].1 + [j]), g[1..]);
      }
    }
  }

  lemma GroupKeysCons(x: (string, seq<Judge>), g: Groups)
    ensures GroupKeys([x] + g) == [x.0] + GroupKeys(g)
  {
  }

  lemma ConsAppend<T>(a: T, s: seq<T>, t: seq<T>)
    ensures ([a] + s) + t == [a] + (s + t)
  {
  }

  /** The categories of the judges, one per judge. */
  function Categories(judges: seq<Judge>): (cs: seq<string>)
    ensures |cs| == |judges|
    ensures forall i :: 0 <= i < |judges| ==> cs[i] == CategoryOf(judges[i])
  {
    seq(|judges|, i requires 0 <= i < |judges| => CategoryOf(judges[i]))
  }

  function InCategory(k: string): Judge -> bool {
    (j: Judge) => CategoryOf(j) == k
  }

  /** Deduplicating a list of names keeps exactly the names it held. */
  lemma DedupNames(ks: seq<string>)
    ensures forall k :: k in DedupBy(ks, Id) <==> k in ks
  {
    var d := DedupBy(ks, Id);
    DedupByKeys(ks, Id);
    KeysId(ks);
    KeysId(d);
    forall k ensures k in d <==> k in ks {
      assert k in d <==> k in Keys(d, Id);
      assert k in ks <==> k in Keys(ks, Id);
    }
  }

  lemma CategoriesSnoc(init: seq<Judge>, last: Judge)
    ensures Categories(init + [last]) == Categories(init) + [CategoryOf(last)]
  {
  }

  /** The groups are the categories in order of first appearance. */
  lemma {:induction false} GroupKeysCorrect(judges: seq<Judge>)
    ensures GroupKeys(GroupByCategory(judges)) == DedupBy(Categories(judges), Id)
    decreases |judges|
  {
    if |judges| > 0 {
      var init := judges[..|judges| - 1];
      var last := judges[|judges| - 1];
      var c := CategoryOf(last);
      GroupKeysCorrect(init);
      assert judges == init + [last];
      CategoriesSnoc(init, last);
      DedupBySnoc(Categories(init), c, Id);
      DedupNames(Categories(init));
      KeysId(Categories(init));
      AddToKeys(GroupByCategory(init), c, last);
    }
  }

  lemma GroupBySnoc(init: seq<Judge>, last: Judge)
    ensures GroupByCategory(init + [last]) == AddTo(GroupByCategory(init), CategoryOf(last), last)
  {
    assert (init + [last])[..|init|] == init;
  }

  lemma GroupMembersSnoc(init: seq<Judge>, last: Judge, k: string)
    requires Members(GroupByCategory(init), k) == Filter(init, InCategory(k))
    ensures Members(GroupByCategory(init + [last]), k) == Filter(init + [last], InCategory(k))
  {
    GroupBySnoc(init, last);
    AddToMembers(GroupByCategory(init), CategoryOf(last), last, k);
    FilterSnoc(init, last, InCategory(k));
  }

  /** Each group holds exactly the judges of its category, in input order. */
  lemma {:induction false} GroupMembersCorrect(judges: seq<Judge>, k: string)
    ensures Members(GroupByCategory(judges), k) == Filter(judges, InCategory(k))
    decreases |judges|
  {
    if |judges| > 0 {
      var init := judges[..|judges| - 1];
      var last := judges[|judges| - 1];
      GroupMembersCorrect(init, k);
      GroupMembersSnoc(init, last, k);
      LastSplit(judges);
    }
  }

  /** Every judge is in the group of its own category and in no other. */
  lemma JudgeInOwnGroup(judges: seq<Judge>, j: Judge, k: string)
    requires j in judges
    ensures j in Members(GroupByCategory(judges), k) <==> k == CategoryOf(j)
  {
    GroupMembersCorrect(judges, k);
    var i :| 0 <= i < |judges| && judges[i] == j;
    assert InCategory(CategoryOf(j))(judges[i]);
  }

  /** No category is listed twice. */
  lemma GroupKeysDistinct(judges: seq<Judge>)
    ensures Distinct(GroupKeys(GroupByCategory(judges)))
  {
    GroupKeysCorrect(judges);
    var d := DedupBy(Categories(judges), Id);
    assert forall i, j :: 0 <= i < j < |d| ==> Id(d[i]) != Id(d[j]);
  }

  // ---------------------------------------------------------------------------
  // Category order
  // ---------------------------------------------------------------------------

  /** `categories[k]?.order ?? 99`. */
  function OrderOf(orders: map<string, int>, k: string): int {
    if k in orders then orders[k] else 99
  }

  /** Ascending order is descending order of the negated key. */
  function Rank(orders: map<string, int>): string -> int {
    (k: string) => -OrderOf(orders, k)
  }

  /**
   * `sortedCategories`: the category names by ascending order number; equal
   * numbers (and unknown categories, which all count as 99) keep their order.
   */
  function SortedCategories(keys: seq<string>, orders: map<string, int>): (r: seq<string>)
    ensures forall i, j :: 0 <= i < j < |r| ==> OrderOf(orders, r[i]) <= OrderOf(orders, r[j])
    ensures multiset(r) == multiset(keys)
    ensures forall n :: WithKey(r, Rank(orders), n) == WithKey(keys, Rank(orders), n)
  {
    SortDescCorrect(keys, Rank(orders));
    var r := SortDesc(keys, Rank(orders));
    assert forall i, j :: 0 <= i < j < |r| ==> Rank(orders)(r[i]) >= Rank(orders)(r[j]);
    r
  }

  // ---------------------------------------------------------------------------
  // Selection
  // ---------------------------------------------------------------------------

  /** `toggleJudge`: remove every copy of a selected id, or append an unselected one. */
  function ToggleJudge(selected: seq<string>, id: string): (r: seq<string>)
    ensures id in r <==> id !in selected
    ensures forall x :: x != id ==> (x in r <==> x in selected)
    ensures Distinct(selected) ==> Distinct(r)
  {
    if id in selected then
      FilterDistinct(selected, (x: string) => x != id);
      Filter(selected, (x: string) => x != id)
    else selected + [id]
  }

  /**
   * Toggling twice restores an unselected judge's selection; for a selected
   * judge it moves the judge to the end.
   */
  lemma ToggleJudgeTwice(selected: seq<string>, id: string)
    ensures id !in selected ==> ToggleJudge(ToggleJudge(selected, id), id) == selected
    ensures id in selected ==>
              ToggleJudge(ToggleJudge(selected, id), id) == Filter(selected, (x: string) => x != id) + [id]
  {
    var p := (x: string) => x != id;
    if id !in selected {
      FilterAppend(selected, [id], p);
      FilterAll(selected, p);
    }
  }

  /** `[...new Set([...prev, ...ids])]`. */
  function Union(prev: seq<string>, ids: seq<string>): (r: seq<string>)
    ensures Distinct(r)
    ensures forall x :: x in r <==> x in prev || x in ids
    ensures Distinct(prev) ==> |prev| <= |r| && r[..|prev|] == prev
  {
    UnionFacts(prev, ids);
    DedupBy(prev + ids, Id)
  }

  lemma UnionFacts(prev: seq<string>, ids: seq<string>)
    ensures Distinct(DedupBy(prev + ids, Id))
    ensures forall x :: x in DedupBy(prev + ids, Id) <==> x in prev || x in ids
    ensures Distinct(prev) ==> Take(DedupBy(prev + ids, Id), |prev|) == prev
  {
    var r := DedupBy(prev + ids, Id);
    assert forall i, j :: 0 <= i < j < |r| ==> Id(r[i]) != Id(r[j]);
    DedupNames(prev + ids);
    if Distinct(prev) {
      assert forall i, j :: 0 <= i < j < |prev| ==> Id(prev[i]) != Id(prev[j]);
      DedupFromDistinct(prev, Id, {});
      DedupByPrefixStable(prev, ids, Id, |prev|);
    }
  }

  /** A preset picks every judge of one category (compared exactly), or a fixed list. */
  datatype Preset = ByCategory(category: string) | ByIds(judgeIds: seq<string>)

  const MpaaIds: seq<string> := ["mpaa_g_rater", "mpaa_pg_rater", "mpaa_pg13_rater", "mpaa_r_rater", "mpaa_nc17_rater"]

  /** The four presets by identifier: platforms, parents, MPAA ratings, oversight bodies. */
  const Presets: seq<(string, Preset)> := [
    ("platforms", ByCategory("platform")),
    ("parents", ByCategory("parent")),
    ("mpaa", ByIds(MpaaIds)),
    ("oversight", ByCategory("oversight"))
  ]

  function PresetIds(p: Preset, judges: seq<Judge>): seq<string> {
    match p
    case ByCategory(c) => Ids(Filter(judges, (j: Judge) => j.category == c))
    case ByIds(ids) => ids
  }

  /**
   * `applyPreset`: add the preset's judges to the selection; what was
   * selected stays selected and keeps its place.
   */
  function ApplyPreset(p: Preset, judges: seq<Judge>, selected: seq<string>): (r: seq<string>)
    ensures Distinct(r)
    ensures forall x :: x in r <==> x in selected || x in PresetIds(p, judges)
    ensures p.ByCategory? ==>
              forall j :: j in judges && j.category == p.category ==> j.id in r
    ensures Distinct(selected) ==> |selected| <= |r| && r[..|selected|] == selected
  {
    PresetCovers(p, judges);
    Union(selected, PresetIds(p, judges))
  }

  lemma PresetCovers(p: Preset, judges: seq<Judge>)
    ensures p.ByCategory? ==>
              forall j :: j in judges && j.category == p.category ==> j.id in PresetIds(p, judges)
  {
    if p.ByCategory? {
      var inCat := Filter(judges, (j: Judge) => j.category == p.category);
      var ids := PresetIds(p, judges);
      forall j | j in judges && j.category == p.category ensures j.id in ids {
        var i :| 0 <= i < |inCat| && inCat[i] == j;
        assert ids[i] == j.id;
      }
    }
  }

  predicate AllIn(ids: seq<string>, selected: seq<string>) {
    forall i :: 0 <= i < |ids| ==> ids[i] in selected
  }

  /**
   * `selectCategoryJudges`: when every judge of the category is already
   * selected, deselect them all; otherwise add the missing ones.
   */
  function SelectCategoryJudges(g: Groups, category: string, selected: seq<string>): (r: seq<string>)
    ensures AllIn(Ids(Members(g, category)), selected) ==>
              forall x :: x in r <==> x in selected && x !in Ids(Members(g, category))
    ensures !AllIn(Ids(Members(g, category)), selected) ==>
              forall x :: x in r <==> x in selected || x in Ids(Members(g, category))
    ensures Distinct(selected) ==> Distinct(r)
  {
    var ids := Ids(Members(g, category));
    if AllIn(ids, selected) then
      FilterDistinct(selected, (x: string) => x !in ids);
      Filter(selected, (x: string) => x !in ids)
    else Union(selected, ids)
  }

  /**
   * Clicking a partly selected category twice leaves the selection as it
   * was minus that category's judges.
   */
  lemma SelectCategoryTwice(g: Groups, category: string, selected: seq<string>)
    requires Distinct(selected)
    requires !AllIn(Ids(Members(g, category)), selected)
    ensures SelectCategoryJudges(g, category, SelectCategoryJudges(g, category, selected))
            == Filter(selected, (x: string) => x !in Ids(Members(g, category)))
  {
    var ids := Ids(Members(g, category));
    var once := Union(selected, ids);
    assert AllIn(ids, once);
    var p := (x: string) => x !in ids;
    assert forall i, j :: 0 <= i < j < |selected| ==> Id(selected[i]) != Id(selected[j]);
    DedupFromAppend(selected, ids, Id, {});
    DedupFromDistinct(selected, Id, {});
    var rest := DedupFrom(ids, Id, {} + Keys(selected, Id));
    assert once == selected + rest;
    SubseqMembers(rest, ids);
    FilterAppend(selected, rest, p);
    assert Filter(rest, p) == [];
  }

  // ---------------------------------------------------------------------------
  // Submitting
  // ---------------------------------------------------------------------------

  /** What the form holds when the button is pressed. */
  datatype Form = Form(
    text: string,
    image: Option<string>,
    contextHint: string,
    selected: seq<string>,
    runDebate: bool,
    runCrossModel: bool,
    loading: bool)

  /** The body handed to `onAnalyze`. */
  datatype AnalyzeRequest = AnalyzeRequest(
    contentText: Option<string>,
    contentImageBase64: Option<string>,
    contextHint: Option<string>,
    selectedJudges: seq<string>,
    runDebate: bool,
    runCrossModel: bool)

  const MinJudges := 2

  /** `imageBase64` is set and not the empty string. */
  predicate HasImage(image: Option<string>) {
    image.Some? && image.value != ""
  }

  /** The submit button is enabled: not loading, some text or an image, some judge. */
  predicate ButtonEnabled(f: Form) {
    !f.loading && (Strip(f.text) != "" || HasImage(f.image)) && |f.selected| >= 1
  }

  /**
   * `handleSubmit` as written: nothing is sent without non-blank text, or
   * with fewer than two judges; an empty context hint is sent as absent.
   */
  function HandleSubmit(f: Form): (r: Option<AnalyzeRequest>)
    ensures r.Some? <==> Strip(f.text) != "" && |f.selected| >= MinJudges
    ensures r.Some? ==>
              r.value.contentText == Some(f.text) && r.value.contentImageBase64 == f.image
              && r.value.selectedJudges == f.selected
              && (r.value.contextHint.None? <==> f.contextHint == "")
              && (r.value.contextHint.Some? ==> r.value.contextHint.value == f.contextHint)
  {
    if Strip(f.text) == "" || |f.selected| < MinJudges then None
    else Some(AnalyzeRequest(Some(f.text), f.image, if f.contextHint == "" then None else Some(f.contextHint),
                             f.selected, f.runDebate, f.runCrossModel))
  }

  /**
   * With only an image and at least two judges the button is enabled, yet
   * pressing it sends nothing and says nothing.
   */
  lemma ImageOnlySubmitIgnored(f: Form)
    requires !f.loading && Strip(f.text) == "" && HasImage(f.image) && |f.selected| >= MinJudges
    ensures ButtonEnabled(f)
    ensures HandleSubmit(f) == None
  {
  }

  /** A concrete form that shows the discrepancy. */
  lemma ImageOnlyExample()
    ensures var f := Form("", Some("iVBORw0KGgo="), "", ["meta", "youtube"], false, false, false);
            ButtonEnabled(f) && HandleSubmit(f) == None
  {
    var f := Form("", Some("iVBORw0KGgo="), "", ["meta", "youtube"], false, false, false);
    ImageOnlySubmitIgnored(f);
  }

  /**
   * The submit guard matching the button: text or an image, and at least
   * two judges. Blank text is sent as absent, as the analysis endpoint
   * accepts image-only content.
   */
  function HandleSubmitFixed(f: Form): (r: Option<AnalyzeRequest>)
    ensures r.Some? <==> (Strip(f.text) != "" || HasImage(f.image)) && |f.selected| >= MinJudges
    ensures r.Some? ==>
              (r.value.contentText.Some? <==> Strip(f.text) != "")
              && (r.value.contentText.Some? ==> r.value.contentText.value == f.text)
              && r.value.contentImageBase64 == f.image && r.value.selectedJudges == f.selected
  {
    if (Strip(f.text) == "" && !HasImage(f.image)) || |f.selected| < MinJudges then None
    else Some(AnalyzeRequest(if Strip(f.text) == "" then None else Some(f.text), f.image,
                             if f.contextHint == "" then None else Some(f.contextHint),
                             f.selected, f.runDebate, f.runCrossModel))
  }

  /**
   * An enabled button with two or more judges always sends; the only
   * silent refusal left is the one-judge case, which the alert covers.
   */
  lemma EnabledSubmitSends(f: Form)
    requires ButtonEnabled(f) && |f.selected| >= MinJudges
    ensures HandleSubmitFixed(f).Some?
    ensures Strip(f.text) != "" ==> HandleSubmitFixed(f) == HandleSubmit(f)
  {
  }
}

=== FILE: judge_names.dfy ===
/**
 * Display names of judges: a fixed map of known identifiers, and for any
 * other identifier the words between underscores with their first letter
 * upper-cased, joined by spaces (`hate_speech_expert` becomes
 * `Hate Speech Expert`).
 */
module JudgeNames {
  import opened Base

  /** `w.charAt(0).toUpperCase() + w.slice(1)`. */
  function Capitalise(w: string): (r: string)
    ensures |r| == |w|
    ensures |w| > 0 ==> r[0] == UpperChar(w[0]) && r[1..] == w[1..]
  {
    if |w| == 0 then "" else [UpperChar(w[0])] + w[1..]
  }

  function CapitaliseAll(ws: seq<string>): (rs: seq<string>)
    ensures |rs| == |ws|
    ensures forall i :: 0 <= i < |ws| ==> rs[i] == Capitalise(ws[i])
  {
    seq(|ws|, i requires 0 <= i < |ws| => Capitalise(ws[i]))
  }

  /** `id.split('_').map(capitalise).join(' ')`. */
  function Words(id: string): string {
    Join(CapitaliseAll(Split(id, '_')), " ")
  }

  /**
   * `nameMap[id] || words(id)`: a known identifier with a non-empty
   * display name gets that name, any other identifier its words.
   */
  function FormatJudgeName(names: map<string, string>, id: string): (r: string)
    ensures id in names && names[id] != "" ==> r == names[id]
    ensures !(id in names && names[id] != "") ==> r == Words(id)
  {
    if id in names && names[id] != "" then names[id] else Words(id)
  }

  /**
   * Reference definition read character by character: an underscore
   * becomes a space, and a letter is upper-cased when it starts the
   * identifier or follows an underscore.
   */
  function TitleFrom(s: string, atStart: bool): (r: string)
    ensures |r| == |s|
    decreases |s|
  {
    if |s| == 0 then ""
    else if s[0] == '_' then " " + TitleFrom(s[1..], true)
    else [if atStart then UpperChar(s[0]) else s[0]] + TitleFrom(s[1..], false)
  }

  function TitleCase(s: string): string {
    TitleFrom(s, true)
  }

  lemma JoinCons(p: string, rest: seq<string>, sep: string)
    requires |rest| > 0
    ensures Join([p] + rest, sep) == p + sep + Join(rest, sep)
  {
    assert ([p] + rest)[1..] == rest;
  }

  /** Prepending text to the first part of a list prepends it to the joined string. */
  lemma JoinPrepend(c: string, p: string, rest: seq<string>, sep: string)
    ensures Join([c + p] + rest, sep) == c + Join([p] + rest, sep)
  {
    if |rest| > 0 {
      JoinCons(c + p, rest, sep);
      JoinCons(p, rest, sep);
    }
  }

  /**
   * The split-map-join of the source agrees with the character reading,
   * for the first word left as it is and for the first word capitalised.
   */
  lemma {:induction false} WordsAsTitle(s: string)
    ensures var parts := Split(s, '_');
            Join([parts[0]] + CapitaliseAll(parts[1..]), " ") == TitleFrom(s, false)
    ensures Join(CapitaliseAll(Split(s, '_')), " ") == TitleFrom(s, true)
    decreases |s|
  {
    var parts := Split(s, '_');
    if |s| == 0 {
      assert CapitaliseAll(parts) == [""];
      assert [parts[0]] + CapitaliseAll(parts[1..]) == [""];
    } else {
      WordsAsTitle(s[1..]);
      var rest := Split(s[1..], '_');
      if s[0] == '_' {
        assert parts == [""] + rest;
        assert parts[1..] == rest;
        JoinCons("", CapitaliseAll(rest), " ");
        assert CapitaliseAll(parts) == [""] + CapitaliseAll(rest);
      } else {
        assert parts == [[s[0]] + rest[0]] + rest[1..];
        assert parts[1..] == rest[1..];
        JoinPrepend([s[0]], rest[0], CapitaliseAll(rest[1..]), " ");
        assert CapitaliseAll(parts) == [[UpperChar(s[0])] + rest[0]] + CapitaliseAll(rest[1..]);
        JoinPrepend([UpperChar(s[0])], rest[0], CapitaliseAll(rest[1..]), " ");
      }
    }
  }

  /**
   * An identifier outside the map is shown with every underscore turned
   * into a space and each word's first letter upper-cased, keeping its length.
   */
  lemma UnknownNameIsTitleCase(names: map<string, string>, id: string)
    ensures !(id in names && names[id] != "") ==>
              FormatJudgeName(names, id) == TitleCase(id) && |FormatJudgeName(names, id)| == |id|
  {
    WordsAsTitle(id);
  }
}

=== FILE: models.dfy ===
/**
 * The core data model of the backend: the five-step mitigation ladder,
 * judge verdicts with bounded confidences and field defaults, consensus
 * badges, referee decisions, cross-model agreement levels and the analysis
 * request. Pydantic validation becomes a constructor returning `Res`: it
 * raises exactly when a required field is missing, an enumeration value is
 * unknown or a bound is violated, and fills in the declared defaults.
 */
module Models {
  import opened Base

  /** The mitigation ladder, most to least severe. */
  datatype VerdictTier = REMOVE | AGE_GATE | REDUCE_REACH | LABEL | ALLOW

  const AllTiers: seq<VerdictTier> := [REMOVE, AGE_GATE, REDUCE_REACH, LABEL, ALLOW]

  /** Position on the ladder, the order in which the enumeration declares its members. */
  function TierIndex(t: VerdictTier): (i: nat)
    ensures i < |AllTiers| && AllTiers[i] == t
  {
    match t
    case REMOVE => 0
    case AGE_GATE => 1
    case REDUCE_REACH => 2
    case LABEL => 3
    case ALLOW => 4
  }

  function TierName(t: VerdictTier): string {
    match t
    case REMOVE => "REMOVE"
    case AGE_GATE => "AGE_GATE"
    case REDUCE_REACH => "REDUCE_REACH"
    case LABEL => "LABEL"
    case ALLOW => "ALLOW"
  }

  /** `VerdictTier(s)`: a lookup by value that raises for an unknown value. */
  function ParseTier(s: string): (r: Res<VerdictTier>)
    ensures r.Ok? <==> exists t: VerdictTier :: TierName(t) == s
    ensures r.Ok? ==> TierName(r.value) == s
  {
    if s == "REMOVE" then assert TierName(REMOVE) == s; Ok(REMOVE)
    else if s == "AGE_GATE" then assert TierName(AGE_GATE) == s; Ok(AGE_GATE)
    else if s == "REDUCE_REACH" then assert TierName(REDUCE_REACH) == s; Ok(REDUCE_REACH)
    else if s == "LABEL" then assert TierName(LABEL) == s; Ok(LABEL)
    else if s == "ALLOW" then assert TierName(ALLOW) == s; Ok(ALLOW)
    else Raise
  }

  /** The ladder has exactly five distinct rungs, listed in declaration order. */
  lemma TiersEnumerated()
    ensures |AllTiers| == 5 && Distinct(AllTiers)
    ensures forall t: VerdictTier :: t in AllTiers && TierIndex(t) < 5
    ensures forall i :: 0 <= i < |AllTiers| ==> TierIndex(AllTiers[i]) == i
    ensures forall t: VerdictTier :: ParseTier(TierName(t)) == Ok(t)
  {
    forall t: VerdictTier ensures t in AllTiers {
      assert AllTiers[TierIndex(t)] == t;
    }
  }

  /** A confidence score, validated to lie in [0, 1]. */
  type Confidence = r: real | 0.0 <= r <= 1.0

  /** Structured verdict of one simulated judge. */
  datatype JudgeVerdict = JudgeVerdict(
    judgeId: string,
    verdictTier: VerdictTier,
    confidenceScore: Confidence,
    primaryPolicyAxis: string,
    reasoningBullets: seq<string>,
    mitigatingFactors: seq<string>,
    refusalToInstruct: bool)

  /**
   * The fields of a verdict as parsed from a model's JSON answer, before
   * validation. A required field is `None` whether it was left out or
   * given as `null`: validation rejects both alike.
   */
  datatype RawVerdict = RawVerdict(
    judgeId: Option<string>,
    verdictTier: Option<string>,
    confidenceScore: Option<real>,
    primaryPolicyAxis: Option<string>,
    reasoningBullets: Option<seq<string>>,
    mitigatingFactors: Defaulted<seq<string>>,
    refusalToInstruct: Defaulted<bool>)

  /** `JudgeVerdict(**data)` */
  function NewJudgeVerdict(d: RawVerdict): (r: Res<JudgeVerdict>)
    ensures r.Ok? <==>
      d.judgeId.Some? && d.verdictTier.Some? && ParseTier(d.verdictTier.value).Ok?
      && d.confidenceScore.Some? && 0.0 <= d.confidenceScore.value <= 1.0
      && d.primaryPolicyAxis.Some? && d.reasoningBullets.Some?
      && !d.mitigatingFactors.Null? && !d.refusalToInstruct.Null?
    ensures r.Ok? ==>
      && Some(r.value.judgeId) == d.judgeId
      && Some(TierName(r.value.verdictTier)) == d.verdictTier
      && Some(r.value.confidenceScore as real) == d.confidenceScore
      && Some(r.value.primaryPolicyAxis) == d.primaryPolicyAxis
      && Some(r.value.reasoningBullets) == d.reasoningBullets
      && r.value.mitigatingFactors == (if d.mitigatingFactors.Given? then d.mitigatingFactors.value else [])
      && r.value.refusalToInstruct == (d.refusalToInstruct != Given(false))
  {
    if d.judgeId.None? || d.verdictTier.None? || d.confidenceScore.None?
       || d.primaryPolicyAxis.None? || d.reasoningBullets.None?
       || d.mitigatingFactors.Null? || d.refusalToInstruct.Null? then
      Raise
    else
      var tier :- ParseTier(d.verdictTier.value);
      var c := d.confidenceScore.value;
      if !(0.0 <= c <= 1.0) then Raise
      else
        Ok(JudgeVerdict(d.judgeId.value, tier, c, d.primaryPolicyAxis.value,
                        d.reasoningBullets.value,
                        d.mitigatingFactors.Or([]),
                        d.refusalToInstruct.Or(true)))
  }

  /** How far the judges agree. */
  datatype ConsensusBadge = UNANIMOUS | MAJORITY | SPLIT | CHAOS

  const AllBadges: seq<ConsensusBadge> := [UNANIMOUS, MAJORITY, SPLIT, CHAOS]

  lemma BadgesEnumerated()
    ensures |AllBadges| == 4 && Distinct(AllBadges)
    ensures forall b: ConsensusBadge :: b in AllBadges
  {
    forall b: ConsensusBadge ensures b in AllBadges {
      match b
      case UNANIMOUS => assert AllBadges[0] == b;
      case MAJORITY => assert AllBadges[1] == b;
      case SPLIT => assert AllBadges[2] == b;
      case CHAOS => assert AllBadges[3] == b;
    }
  }

  /** The watermark every synthesis carries unless told otherwise. */
  const Watermark: string := "\U{26A0}\U{FE0F} Simulated AI Verdict - Not a binding policy decision"

  /** Output of the meta-judge: the distribution is a tier-name to count record. */
  datatype SynthesisResult = SynthesisResult(
    consensusBadge: ConsensusBadge,
    verdictDistribution: seq<(string, int)>,
    cruxNarrative: string,
    primaryTension: string,
    watermark: string)

  /** `SynthesisResult(...)` without an explicit watermark. */
  function NewSynthesisResult(badge: ConsensusBadge, dist: seq<(string, int)>, crux: string, tension: string): (r: SynthesisResult)
    ensures r.watermark == Watermark && |r.watermark| > 0
    ensures r.consensusBadge == badge && r.verdictDistribution == dist
    ensures r.cruxNarrative == crux && r.primaryTension == tension
  {
    SynthesisResult(badge, dist, crux, tension, Watermark)
  }

  datatype DecisionDifficulty = CLEAR | MODERATE | DIFFICULT | HIGHLY_AMBIGUOUS

  function DifficultyName(d: DecisionDifficulty): string {
    match d
    case CLEAR => "clear"
    case MODERATE => "moderate"
    case DIFFICULT => "difficult"
    case HIGHLY_AMBIGUOUS => "highly_ambiguous"
  }

  function ParseDifficulty(s: string): (r: Res<DecisionDifficulty>)
    ensures r.Ok? <==> exists d: DecisionDifficulty :: DifficultyName(d) == s
    ensures r.Ok? ==> DifficultyName(r.value) == s
  {
    if s == "clear" then assert DifficultyName(CLEAR) == s; Ok(CLEAR)
    else if s == "moderate" then assert DifficultyName(MODERATE) == s; Ok(MODERATE)
    else if s == "difficult" then assert DifficultyName(DIFFICULT) == s; Ok(DIFFICULT)
    else if s == "highly_ambiguous" then assert DifficultyName(HIGHLY_AMBIGUOUS) == s; Ok(HIGHLY_AMBIGUOUS)
    else Raise
  }

  /** The referee's verdict after the debate. */
  datatype RefereeDecision = RefereeDecision(
    winningSide: string,
    verdictTier: VerdictTier,
    confidenceScore: Confidence,
    reasoning: string,
    keyFactor: string,
    decisionDifficulty: DecisionDifficulty,
    ambiguityFactors: seq<string>)

  datatype RawReferee = RawReferee(
    winningSide: Option<string>,
    verdictTier: Option<string>,
    confidenceScore: Option<real>,
    reasoning: Option<string>,
    keyFactor: Option<string>,
    decisionDifficulty: Defaulted<string>,
    ambiguityFactors: Defaulted<seq<string>>)

  /** `RefereeDecision(**data)` */
  function NewRefereeDecision(d: RawReferee): (r: Res<RefereeDecision>)
    ensures r.Ok? <==>
      d.winningSide.Some? && d.verdictTier.Some? && ParseTier(d.verdictTier.value).Ok?
      && d.confidenceScore.Some? && 0.0 <= d.confidenceScore.value <= 1.0
      && d.reasoning.Some? && d.keyFactor.Some?
      && !d.decisionDifficulty.Null? && !d.ambiguityFactors.Null?
      && (d.decisionDifficulty.Given? ==> ParseDifficulty(d.decisionDifficulty.value).Ok?)
    ensures r.Ok? ==>
      && Some(r.value.confidenceScore as real) == d.confidenceScore
      && Some(TierName(r.value.verdictTier)) == d.verdictTier
      && (d.decisionDifficulty.Omitted? ==> r.value.decisionDifficulty == MODERATE)
      && (d.decisionDifficulty.Given? ==> DifficultyName(r.value.decisionDifficulty) == d.decisionDifficulty.value)
      && (d.ambiguityFactors.Omitted? ==> r.value.ambiguityFactors == [])
      && (d.ambiguityFactors.Given? ==> r.value.ambiguityFactors == d.ambiguityFactors.value)
  {
    if d.winningSide.None? || d.verdictTier.None? || d.confidenceScore.None?
       || d.reasoning.None? || d.keyFactor.None?
       || d.decisionDifficulty.Null? || d.ambiguityFactors.Null? then
      Raise
    else
      var tier :- ParseTier(d.verdictTier.value);
      var difficulty :- if d.decisionDifficulty.Given? then ParseDifficulty(d.decisionDifficulty.value) else Ok(MODERATE);
      var c := d.confidenceScore.value;
      if !(0.0 <= c <= 1.0) then Raise
      else
        Ok(RefereeDecision(d.winningSide.value, tier, c, d.reasoning.value, d.keyFactor.value,
                           difficulty, d.ambiguityFactors.Or([])))
  }

  /** Verdict of one model family in the cross-model check. */
  datatype ModelVerdict = ModelVerdict(
    modelFamily: string,
    modelId: string,
    verdictTier: VerdictTier,
    confidenceScore: Confidence,
    reasoningSummary: string,
    keyPolicyConcern: string)

  datatype AgreementLevel = FULL | PARTIAL | DISAGREEMENT

  const AllAgreementLevels: seq<AgreementLevel> := [FULL, PARTIAL, DISAGREEMENT]

  function AgreementName(a: AgreementLevel): string {
    match a
    case FULL => "full"
    case PARTIAL => "partial"
    case DISAGREEMENT => "disagreement"
  }

  lemma AgreementLevelsEnumerated()
    ensures |AllAgreementLevels| == 3 && Distinct(AllAgreementLevels)
    ensures forall a: AgreementLevel :: a in AllAgreementLevels
    ensures forall i, j :: 0 <= i < j < 3 ==> AgreementName(AllAgreementLevels[i]) != AgreementName(AllAgreementLevels[j])
  {
    forall a: AgreementLevel ensures a in AllAgreementLevels {
      match a
      case FULL => assert AllAgreementLevels[0] == a;
      case PARTIAL => assert AllAgreementLevels[1] == a;
      case DISAGREEMENT => assert AllAgreementLevels[2] == a;
    }
  }

  datatype CrossModelResult = CrossModelResult(
    verdicts: seq<ModelVerdict>,
    agreementLevel: AgreementLevel,
    escalationRecommended: bool,
    disagreementSummary: Option<string>)

  /** Which optional deep dives a request asks for. */
  datatype DeepDives = DeepDives(
    debate: bool, crossModel: bool, counterfactual: bool, redTeam: bool,
    consistency: bool, temporal: bool, appeal: bool, sycophancy: bool)

  const NoDeepDives := DeepDives(false, false, false, false, false, false, false, false)

  /**
   * The deep-dive flags of a request body: each may be left out on its
   * own and then defaults to off; a `null` flag fails validation.
   */
  datatype RawDeepDives = RawDeepDives(
    debate: Defaulted<bool>, crossModel: Defaulted<bool>, counterfactual: Defaulted<bool>, redTeam: Defaulted<bool>,
    consistency: Defaulted<bool>, temporal: Defaulted<bool>, appeal: Defaulted<bool>, sycophancy: Defaulted<bool>)

  const NoRawDeepDives := RawDeepDives(Omitted, Omitted, Omitted, Omitted, Omitted, Omitted, Omitted, Omitted)

  predicate NoNullFlag(d: RawDeepDives) {
    && !d.debate.Null? && !d.crossModel.Null? && !d.counterfactual.Null? && !d.redTeam.Null?
    && !d.consistency.Null? && !d.temporal.Null? && !d.appeal.Null? && !d.sycophancy.Null?
  }

  /** The flags validate unless one is `null`; each is then on exactly when the body sets it to true. */
  function DeepDivesOf(d: RawDeepDives): (r: Res<DeepDives>)
    ensures r.Ok? <==> NoNullFlag(d)
    ensures r.Ok? ==>
      && (r.value.debate <==> d.debate == Given(true))
      && (r.value.crossModel <==> d.crossModel == Given(true))
      && (r.value.counterfactual <==> d.counterfactual == Given(true))
      && (r.value.redTeam <==> d.redTeam == Given(true))
      && (r.value.consistency <==> d.consistency == Given(true))
      && (r.value.temporal <==> d.temporal == Given(true))
      && (r.value.appeal <==> d.appeal == Given(true))
      && (r.value.sycophancy <==> d.sycophancy == Given(true))
  {
    if !NoNullFlag(d) then Raise
    else
      Ok(DeepDives(d.debate.Or(false), d.crossModel.Or(false), d.counterfactual.Or(false), d.redTeam.Or(false),
                   d.consistency.Or(false), d.temporal.Or(false), d.appeal.Or(false), d.sycophancy.Or(false)))
  }

  const MaxContentLength: nat := 10000

  const DefaultJudges: seq<string> := ["walled_garden", "town_square", "viral_stage"]

  /** An analysis request as validated by the API. */
  datatype PolicyLensRequest = PolicyLensRequest(
    contentText: Option<string>,
    contentImageBase64: Option<string>,
    contextHint: Option<string>,
    selectedJudges: seq<string>,
    deepDives: DeepDives)

  /**
   * The request body before validation; every field may be omitted. The
   * three optional texts accept `null` as `None`.
   */
  datatype RawRequest = RawRequest(
    contentText: Option<string>,
    contentImageBase64: Option<string>,
    contextHint: Option<string>,
    selectedJudges: Defaulted<seq<string>>,
    deepDives: RawDeepDives)

  function NewPolicyLensRequest(d: RawRequest): (r: Res<PolicyLensRequest>)
    ensures r.Ok? <==>
      && (d.contentText.Some? ==> |d.contentText.value| <= MaxContentLength)
      && !d.selectedJudges.Null? && NoNullFlag(d.deepDives)
    ensures r.Ok? ==>
      && (r.value.contentText.Some? ==> |r.value.contentText.value| <= MaxContentLength)
      && r.value.contentText == d.contentText
      && r.value.selectedJudges == (if d.selectedJudges.Omitted? then DefaultJudges else d.selectedJudges.value)
      && Ok(r.value.deepDives) == DeepDivesOf(d.deepDives)
      && (d.deepDives == NoRawDeepDives ==> r.value.deepDives == NoDeepDives)
  {
    if d.contentText.Some? && |d.contentText.value| > MaxContentLength then Raise
    else if d.selectedJudges.Null? then Raise
    else
      var dives :- DeepDivesOf(d.deepDives);
      Ok(PolicyLensRequest(d.contentText, d.contentImageBase64, d.contextHint,
                           d.selectedJudges.Or(DefaultJudges), dives))
  }
}

=== FILE: multi_model.dfy ===
/**
 * Cross-model agreement: the same content goes to each configured model
 * family (Google, OpenAI, Anthropic, in that order), the answers that
 * came back become verdicts, and the spread of their tiers on the
 * mitigation ladder decides the agreement level and whether a human
 * should look at the case. Each model call is an input (`AnalystOutcome`).
 */
module MultiModel {
  import opened Base
  import opened Models

  datatype Family = Google | OpenAI | Anthropic

  /** The order in which the families' calls are queued. */
  const Families: seq<Family> := [Google, OpenAI, Anthropic]

  function FamilyName(f: Family): string {
    match f
    case Google => "google"
    case OpenAI => "openai"
    case Anthropic => "anthropic"
  }

  function FamilyModelId(f: Family): string {
    match f
    case Google => "gemini-3.0-flash"
    case OpenAI => "o4-mini"
    case Anthropic => "claude-sonnet-4-5"
  }

  /** Which families have a configured client. */
  datatype Clients = Clients(google: bool, openai: bool, anthropic: bool)

  predicate Configured(c: Clients, f: Family) {
    match f
    case Google => c.google
    case OpenAI => c.openai
    case Anthropic => c.anthropic
  }

  /** The families whose calls are queued, in queueing order. */
  function Queued(c: Clients): (fs: seq<Family>)
    ensures IsSubseq(fs, Families)
    ensures forall f :: f in fs <==> Configured(c, f)
    ensures |fs| == 0 <==> !c.google && !c.openai && !c.anthropic
  {
    Filter(Families, f => Configured(c, f))
  }

  /** The fields of one analyst's JSON answer. */
  datatype AnalystFields = AnalystFields(
    verdictTier: Option<string>,
    confidenceScore: Option<real>,
    reasoningSummary: Option<string>,
    keyPolicyConcern: Option<string>)

  /** What one family's call produced. */
  datatype AnalystOutcome = Analysed(fields: AnalystFields) | AnalystFailed

  /** `ModelVerdict(...)` from an answer: a missing key, an unknown tier or an out-of-range confidence raises. */
  function NewModelVerdict(f: Family, d: AnalystFields): (r: Res<ModelVerdict>)
    ensures r.Ok? <==>
      d.verdictTier.Some? && ParseTier(d.verdictTier.value).Ok?
      && d.confidenceScore.Some? && 0.0 <= d.confidenceScore.value <= 1.0
      && d.reasoningSummary.Some? && d.keyPolicyConcern.Some?
    ensures r.Ok? ==>
      && r.value.modelFamily == FamilyName(f) && r.value.modelId == FamilyModelId(f)
      && Some(TierName(r.value.verdictTier)) == d.verdictTier
  {
    if d.verdictTier.None? || d.confidenceScore.None? || d.reasoningSummary.None? || d.keyPolicyConcern.None? then
      Raise
    else
      var tier :- ParseTier(d.verdictTier.value);
      var c := d.confidenceScore.value;
      if !(0.0 <= c <= 1.0) then Raise
      else Ok(ModelVerdict(FamilyName(f), FamilyModelId(f), tier, c, d.reasoningSummary.value, d.keyPolicyConcern.value))
  }

  function FamiliesOf(vs: seq<ModelVerdict>): (names: seq<string>)
    ensures |names| == |vs| && forall i :: 0 <= i < |vs| ==> names[i] == vs[i].modelFamily
  {
    seq(|vs|, i requires 0 <= i < |vs| => vs[i].modelFamily)
  }

  function FamilyNames(fs: seq<Family>): (names: seq<string>)
    ensures |names| == |fs| && forall i :: 0 <= i < |fs| ==> names[i] == FamilyName(fs[i])
  {
    seq(|fs|, i requires 0 <= i < |fs| => FamilyName(fs[i]))
  }

  /**
   * The collection loop: failed calls are skipped; building a verdict from
   * an answer that lacks a field raises out of the whole analysis.
   */
  function CollectVerdicts(fs: seq<Family>, outcome: Family -> AnalystOutcome): (r: Res<seq<ModelVerdict>>)
    ensures r.Ok? ==> |r.value| <= |fs| && IsSubseq(FamiliesOf(r.value), FamilyNames(fs))
    decreases |fs|
  {
    if |fs| == 0 then Ok([])
    else
      var rest :- CollectVerdicts(fs[1..], outcome);
      assert FamilyNames(fs) == [FamilyName(fs[0])] + FamilyNames(fs[1..]);
      match outcome(fs[0])
      case AnalystFailed =>
        SubseqSkip(FamiliesOf(rest), FamilyNames(fs[1..]), FamilyName(fs[0]));
        Ok(rest)
      case Analysed(fields) =>
        var v :- NewModelVerdict(fs[0], fields);
        assert FamiliesOf([v] + rest) == [FamilyName(fs[0])] + FamiliesOf(rest);
        SubseqCons(FamiliesOf(rest), FamilyNames(fs[1..]), FamilyName(fs[0]));
        Ok([v] + rest)
  }

  lemma FamiliesCons(v: ModelVerdict, vs: seq<ModelVerdict>)
    ensures FamiliesOf([v] + vs) == [v.modelFamily] + FamiliesOf(vs)
  {
  }

  /** Every answered call with valid fields yields its verdict, in queue order. */
  lemma {:induction false} CollectVerdictsAllValid(fs: seq<Family>, outcome: Family -> AnalystOutcome)
    requires forall i :: 0 <= i < |fs| ==> outcome(fs[i]).Analysed? && NewModelVerdict(fs[i], outcome(fs[i]).fields).Ok?
    ensures CollectVerdicts(fs, outcome).Ok?
    ensures FamiliesOf(CollectVerdicts(fs, outcome).value) == FamilyNames(fs)
    decreases |fs|
  {
    if |fs| > 0 {
      var fs' := fs[1..];
      forall i | 0 <= i < |fs'|
        ensures outcome(fs'[i]).Analysed? && NewModelVerdict(fs'[i], outcome(fs'[i]).fields).Ok?
      {
        assert fs'[i] == fs[i + 1];
      }
      CollectVerdictsAllValid(fs', outcome);
      var v := NewModelVerdict(fs[0], outcome(fs[0]).fields).value;
      var rest := CollectVerdicts(fs', outcome).value;
      assert CollectVerdicts(fs, outcome) == Ok([v] + rest);
      FamiliesCons(v, rest);
      assert FamilyNames(fs) == [FamilyName(fs[0])] + FamilyNames(fs');
    }
  }

  /** Calls that all failed leave no verdict. */
  lemma {:induction false} CollectVerdictsAllFailed(fs: seq<Family>, outcome: Family -> AnalystOutcome)
    requires forall i :: 0 <= i < |fs| ==> outcome(fs[i]).AnalystFailed?
    ensures CollectVerdicts(fs, outcome) == Ok([])
    decreases |fs|
  {
    if |fs| > 0 {
      assert forall i :: 1 <= i < |fs| ==> fs[1..][i - 1] == fs[i];
      CollectVerdictsAllFailed(fs[1..], outcome);
    }
  }

  // ---------------------------------------------------------------------------
  // Agreement
  // ---------------------------------------------------------------------------

  /** The distinct tiers the verdicts name. */
  function TierSet(vs: seq<ModelVerdict>): set<VerdictTier> {
    set i | 0 <= i < |vs| :: vs[i].verdictTier
  }

  function Rung(v: ModelVerdict): nat {
    TierIndex(v.verdictTier)
  }

  function MaxRung(vs: seq<ModelVerdict>): (m: nat)
    requires |vs| > 0
    ensures forall i :: 0 <= i < |vs| ==> Rung(vs[i]) <= m
    ensures exists i :: 0 <= i < |vs| && Rung(vs[i]) == m
    decreases |vs|
  {
    if |vs| == 1 then Rung(vs[0])
    else
      var m := MaxRung(vs[1..]);
      assert forall i :: 1 <= i < |vs| ==> vs[i] == vs[1..][i - 1];
      if Rung(vs[0]) >= m then Rung(vs[0]) else m
  }

  function MinRung(vs: seq<ModelVerdict>): (m: nat)
    requires |vs| > 0
    ensures forall i :: 0 <= i < |vs| ==> m <= Rung(vs[i])
    ensures exists i :: 0 <= i < |vs| && Rung(vs[i]) == m
    decreases |vs|
  {
    if |vs| == 1 then Rung(vs[0])
    else
      var m := MinRung(vs[1..]);
      assert forall i :: 1 <= i < |vs| ==> vs[i] == vs[1..][i - 1];
      if Rung(vs[0]) <= m then Rung(vs[0]) else m
  }

  const InsufficientSummary: string := "Insufficient model responses for comparison"
  const SeveritySummary: string := "Models agree on general direction but differ on severity"
  const DisagreementPrefix: string := "Model disagreement: "

  /** Python `str.title()` on ASCII: a letter after a letter is lower-cased, any other letter upper-cased. */
  function Title(s: string): (r: string)
    ensures |r| == |s|
  {
    TitleFrom(s, false)
  }

  function TitleFrom(s: string, afterLetter: bool): (r: string)
    ensures |r| == |s|
    decreases |s|
  {
    if |s| == 0 then []
    else
      var c := s[0];
      var isLetter := 'a' <= c <= 'z' || 'A' <= c <= 'Z';
      [if afterLetter then LowerChar(c) else UpperChar(c)] + TitleFrom(s[1..], isLetter)
  }

  function SummaryPart(v: ModelVerdict): string {
    Title(v.modelFamily) + " (" + v.modelId + "): " + TierName(v.verdictTier)
  }

  function SummaryParts(vs: seq<ModelVerdict>): (parts: seq<string>)
    ensures |parts| == |vs| && forall i :: 0 <= i < |vs| ==> parts[i] == SummaryPart(vs[i])
  {
    seq(|vs|, i requires 0 <= i < |vs| => SummaryPart(vs[i]))
  }

  /** `_build_disagreement_summary` */
  function DisagreementSummary(vs: seq<ModelVerdict>): (s: string)
    ensures StartsWith(s, DisagreementPrefix)
  {
    DisagreementPrefix + Join(SummaryParts(vs), " vs ")
  }

  datatype Agreement = Agreement(level: AgreementLevel, escalate: bool, summary: Option<string>)

  /** The agreement rules of `run_cross_model`. */
  function Classify(vs: seq<ModelVerdict>): (r: Agreement)
    ensures |vs| < 2 ==> r == Agreement(DISAGREEMENT, true, Some(InsufficientSummary))
    ensures |vs| >= 2 && |TierSet(vs)| == 1 ==> r == Agreement(FULL, false, None)
    ensures |vs| >= 2 && |TierSet(vs)| == 2 ==> r.level == PARTIAL
    ensures |vs| >= 2 && |TierSet(vs)| >= 3 ==> r == Agreement(DISAGREEMENT, true, Some(DisagreementSummary(vs)))
  {
    if |vs| < 2 then Agreement(DISAGREEMENT, true, Some(InsufficientSummary))
    else
      var tiers := TierSet(vs);
      if |tiers| == 1 then Agreement(FULL, false, None)
      else if |tiers| == 2 then
        var spread := MaxRung(vs) - MinRung(vs);
        if spread <= 1 then Agreement(PARTIAL, false, Some(SeveritySummary))
        else Agreement(PARTIAL, true, Some(DisagreementSummary(vs)))
      else Agreement(DISAGREEMENT, true, Some(DisagreementSummary(vs)))
  }

  /** All verdicts lie within one rung of each other on the ladder. */
  predicate WithinOneRung(vs: seq<ModelVerdict>) {
    forall i, j :: 0 <= i < |vs| && 0 <= j < |vs| ==> Rung(vs[i]) - Rung(vs[j]) <= 1
  }

  lemma TierSetOne(vs: seq<ModelVerdict>)
    requires |vs| > 0 && |TierSet(vs)| == 1
    ensures forall i :: 0 <= i < |vs| ==> vs[i].verdictTier == vs[0].verdictTier
  {
    forall i | 0 <= i < |vs| ensures vs[i].verdictTier == vs[0].verdictTier {
      var s := TierSet(vs);
      assert vs[0].verdictTier in s && vs[i].verdictTier in s;
      if vs[i].verdictTier != vs[0].verdictTier {
        assert {vs[0].verdictTier, vs[i].verdictTier} <= s;
        assert |{vs[0].verdictTier, vs[i].verdictTier}| == 2;
        SubsetCard({vs[0].verdictTier, vs[i].verdictTier}, s);
      }
    }
  }

  lemma SubsetCard<T>(a: set<T>, b: set<T>)
    requires a <= b
    ensures |a| <= |b|
  {
    assert b == a + (b - a);
  }

  /** The distance between two rungs of the ladder. */
  function RungDistance(x: nat, y: nat): nat {
    if x >= y then x - y else y - x
  }

  /** When every verdict is on tier `a` or `b`, the highest rung is one of theirs. */
  lemma {:induction false} MaxRungOfTwo(vs: seq<ModelVerdict>, a: VerdictTier, b: VerdictTier)
    requires |vs| > 0
    requires forall i :: 0 <= i < |vs| ==> vs[i].verdictTier == a || vs[i].verdictTier == b
    ensures MaxRung(vs) == TierIndex(a) || MaxRung(vs) == TierIndex(b)
    decreases |vs|
  {
    if |vs| > 1 {
      assert forall i :: 1 <= i < |vs| ==> vs[1..][i - 1] == vs[i];
      MaxRungOfTwo(vs[1..], a, b);
    }
  }

  /** When every verdict is on tier `a` or `b`, the lowest rung is one of theirs. */
  lemma {:induction false} MinRungOfTwo(vs: seq<ModelVerdict>, a: VerdictTier, b: VerdictTier)
    requires |vs| > 0
    requires forall i :: 0 <= i < |vs| ==> vs[i].verdictTier == a || vs[i].verdictTier == b
    ensures MinRung(vs) == TierIndex(a) || MinRung(vs) == TierIndex(b)
    decreases |vs|
  {
    if |vs| > 1 {
      assert forall i :: 1 <= i < |vs| ==> vs[1..][i - 1] == vs[i];
      MinRungOfTwo(vs[1..], a, b);
    }
  }

  /** Verdicts all on tier `a` or `b`, both present: the spread of rungs is the distance between the two. */
  lemma SpreadOfTwo(vs: seq<ModelVerdict>, a: VerdictTier, b: VerdictTier, ia: nat, ib: nat)
    requires ia < |vs| && ib < |vs| && vs[ia].verdictTier == a && vs[ib].verdictTier == b
    requires forall i :: 0 <= i < |vs| ==> vs[i].verdictTier == a || vs[i].verdictTier == b
    ensures MaxRung(vs) - MinRung(vs) == RungDistance(TierIndex(a), TierIndex(b))
  {
    MaxRungOfTwo(vs, a, b);
    MinRungOfTwo(vs, a, b);
    assert Rung(vs[ia]) <= MaxRung(vs) && Rung(vs[ib]) <= MaxRung(vs);
    assert Rung(vs[ia]) >= MinRung(vs) && Rung(vs[ib]) >= MinRung(vs);
  }

  /** A verdict carrying a tier of the set. */
  lemma TierWitness(vs: seq<ModelVerdict>, t: VerdictTier) returns (i: nat)
    requires t in TierSet(vs)
    ensures i < |vs| && vs[i].verdictTier == t
  {
    i :| 0 <= i < |vs| && vs[i].verdictTier == t;
  }

  /** With exactly two distinct tiers, the spread of rungs is the distance between those two tiers. */
  lemma TwoTierSpread(vs: seq<ModelVerdict>, a: VerdictTier, b: VerdictTier)
    requires |vs| > 0 && TierSet(vs) == {a, b}
    ensures MaxRung(vs) - MinRung(vs) == RungDistance(TierIndex(a), TierIndex(b))
  {
    var ia := TierWitness(vs, a);
    var ib := TierWitness(vs, b);
    forall i | 0 <= i < |vs| ensures vs[i].verdictTier == a || vs[i].verdictTier == b {
      assert vs[i].verdictTier in TierSet(vs);
    }
    SpreadOfTwo(vs, a, b, ia, ib);
  }

  /** A two-element set holding `a` is `a` and one other element. */
  lemma OtherOfTwo<T>(s: set<T>, a: T) returns (b: T)
    requires |s| == 2 && a in s
    ensures s == {a, b} && a != b
  {
    assert |s - {a}| == 1;
    b :| b in s - {a};
    forall x | x in s ensures x in {a, b} {
      if x != a && x != b {
        assert {b, x} <= s - {a};
        SubsetCard({b, x}, s - {a});
      }
    }
  }

  /** A set of at least three elements holds three distinct ones. */
  lemma ThreeOf<T>(s: set<T>) returns (a: T, b: T, c: T)
    requires |s| >= 3
    ensures a in s && b in s && c in s && a != b && b != c && a != c
  {
    a :| a in s;
    assert |s - {a}| >= 2;
    b :| b in s - {a};
    assert |s - {a} - {b}| >= 1;
    c :| c in s - {a} - {b};
  }

  /** Three distinct tiers always include two more than one rung apart. */
  lemma ThreeTiersApart(vs: seq<ModelVerdict>)
    requires |TierSet(vs)| >= 3
    ensures !WithinOneRung(vs)
  {
    var a, b, c := ThreeOf(TierSet(vs));
    var ia := TierWitness(vs, a);
    var ib := TierWitness(vs, b);
    var ic := TierWitness(vs, c);
    TiersEnumerated();
    assert TierIndex(a) != TierIndex(b) && TierIndex(b) != TierIndex(c) && TierIndex(a) != TierIndex(c);
    assert Rung(vs[ia]) == TierIndex(a) && Rung(vs[ib]) == TierIndex(b) && Rung(vs[ic]) == TierIndex(c);
  }

  /**
   * Escalation is skipped exactly when at least two models answered and
   * all their tiers lie within one rung of each other: full agreement, or
   * two adjacent tiers.
   */
  lemma EscalationIff(vs: seq<ModelVerdict>)
    ensures !Classify(vs).escalate <==> |vs| >= 2 && WithinOneRung(vs)
  {
    if |vs| >= 2 {
      var s := TierSet(vs);
      assert vs[0].verdictTier in s;
      if |s| == 1 {
        TierSetOne(vs);
      } else if |s| == 2 {
        var b := OtherOfTwo(s, vs[0].verdictTier);
        TwoTierSpread(vs, vs[0].verdictTier, b);
        var ia := TierWitness(vs, vs[0].verdictTier);
        var ib := TierWitness(vs, b);
        forall i, j | 0 <= i < |vs| && 0 <= j < |vs| ensures Rung(vs[i]) <= MaxRung(vs) && MinRung(vs) <= Rung(vs[j]) { }
      } else {
        ThreeTiersApart(vs);
      }
    }
  }

  /** Two distinct tiers: partial agreement, escalated iff the tiers are more than one rung apart. */
  lemma ClassifyTwoTiers(vs: seq<ModelVerdict>, a: VerdictTier, b: VerdictTier)
    requires |vs| >= 2 && TierSet(vs) == {a, b} && a != b
    ensures Classify(vs).level == PARTIAL
    ensures Classify(vs).escalate <==> RungDistance(TierIndex(a), TierIndex(b)) > 1
    ensures !Classify(vs).escalate ==> Classify(vs).summary == Some(SeveritySummary)
    ensures Classify(vs).escalate ==> Classify(vs).summary == Some(DisagreementSummary(vs))
  {
    assert |TierSet(vs)| == 2;
    TwoTierSpread(vs, a, b);
  }

  predicate LowerWord(s: string) {
    forall i :: 0 <= i < |s| ==> 'a' <= s[i] <= 'z'
  }

  lemma {:induction false} TitleAfterLetter(s: string)
    requires LowerWord(s)
    ensures TitleFrom(s, true) == s
    decreases |s|
  {
    if |s| > 0 {
      TitleAfterLetter(s[1..]);
    }
  }

  /** A lower-case word gets its first letter capitalised and nothing else changed. */
  lemma TitleWord(s: string)
    requires |s| > 0 && LowerWord(s)
    ensures Title(s) == [UpperChar(s[0])] + s[1..]
  {
    TitleAfterLetter(s[1..]);
  }

  /** The family names as they appear in summaries. */
  lemma TitleFamilies()
    ensures Title("google") == "Google" && Title("openai") == "Openai"
  {
    TitleWord("google");
    TitleWord("openai");
  }

  /** A part reads "Family (model id): TIER", the lower-case family name capitalised. */
  lemma SummaryPartShape(v: ModelVerdict)
    requires |v.modelFamily| > 0 && LowerWord(v.modelFamily)
    ensures SummaryPart(v)
            == [UpperChar(v.modelFamily[0])] + v.modelFamily[1..] + " (" + v.modelId + "): " + TierName(v.verdictTier)
  {
    TitleWord(v.modelFamily);
  }

  /** With two verdicts the summary names both, joined by " vs ". */
  lemma DisagreementSummaryTwo(a: ModelVerdict, b: ModelVerdict)
    ensures DisagreementSummary([a, b]) == DisagreementPrefix + (SummaryPart(a) + " vs " + SummaryPart(b))
  {
    var parts := SummaryParts([a, b]);
    assert parts == [SummaryPart(a), SummaryPart(b)];
    assert parts[1..] == [SummaryPart(b)];
    assert Join(parts, " vs ") == SummaryPart(a) + " vs " + SummaryPart(b);
  }

  /** `run_cross_model`: no configured client raises before any call. */
  function RunCrossModel(clients: Clients, outcome: Family -> AnalystOutcome): (r: Res<CrossModelResult>)
    ensures Queued(clients) == [] ==> r.Raise?
    ensures r.Ok? ==>
      && |r.value.verdicts| <= |Queued(clients)|
      && IsSubseq(FamiliesOf(r.value.verdicts), FamilyNames(Queued(clients)))
      && (|r.value.verdicts| < 2 ==> r.value.agreementLevel == DISAGREEMENT && r.value.escalationRecommended)
    ensures r.Ok? <==> Queued(clients) != [] && CollectVerdicts(Queued(clients), outcome).Ok?
    ensures r.Ok? ==>
      && r.value.verdicts == CollectVerdicts(Queued(clients), outcome).value
      && r.value.agreementLevel == Classify(r.value.verdicts).level
      && r.value.escalationRecommended == Classify(r.value.verdicts).escalate
      && r.value.disagreementSummary == Classify(r.value.verdicts).summary
  {
    var fs := Queued(clients);
    if |fs| == 0 then Raise
    else
      var vs :- CollectVerdicts(fs, outcome);
      var a := Classify(vs);
      Ok(CrossModelResult(vs, a.level, a.escalate, a.summary))
  }

  /**
   * With every queued call answered with valid fields, the analysis succeeds
   * with one verdict per queued family, in queue order, and escalation is
   * skipped exactly when the tiers lie within one rung of each other.
   */
  lemma RunCrossModelAllValid(clients: Clients, outcome: Family -> AnalystOutcome)
    requires Queued(clients) != []
    requires forall i :: 0 <= i < |Queued(clients)| ==>
      outcome(Queued(clients)[i]).Analysed? && NewModelVerdict(Queued(clients)[i], outcome(Queued(clients)[i]).fields).Ok?
    ensures RunCrossModel(clients, outcome).Ok?
    ensures FamiliesOf(RunCrossModel(clients, outcome).value.verdicts) == FamilyNames(Queued(clients))
    ensures !RunCrossModel(clients, outcome).value.escalationRecommended <==>
      |Queued(clients)| >= 2 && WithinOneRung(RunCrossModel(clients, outcome).value.verdicts)
  {
    CollectVerdictsAllValid(Queued(clients), outcome);
    var vs := RunCrossModel(clients, outcome).value.verdicts;
    EscalationIff(vs);
    assert |FamiliesOf(vs)| == |vs|;
  }
}

=== FILE: records.dfy ===
/**
 * Insertion-ordered string-keyed records: a Python dict or a JavaScript
 * object with non-numeric keys, whose iteration order is the order in
 * which keys were first added. Values are integer counts here.
 */
module Records {
  import opened Base
  import opened Dedup
  import opened Sorting

  type Rec<K> = seq<(K, int)>

  function KeysOf<K>(r: Rec<K>): (ks: seq<K>)
    ensures |ks| == |r|
    ensures forall i :: 0 <= i < |r| ==> ks[i] == r[i].0
  {
    seq(|r|, i requires 0 <= i < |r| => r[i].0)
  }

  /** The sum of the values of a record. */
  function SumValues<K>(r: Rec<K>): int
    decreases |r|
  {
    if |r| == 0 then 0 else r[0].1 + SumValues(r[1..])
  }

  predicate UniqueKeys<K(==)>(r: Rec<K>) {
    forall i, j :: 0 <= i < j < |r| ==> r[i].0 != r[j].0
  }

  /** `r[k]`, or None when the key is absent. */
  function Get<K(==)>(r: Rec<K>, k: K): (v: Option<int>)
    decreases |r|
  {
    if |r| == 0 then None
    else if r[0].0 == k then Some(r[0].1)
    else Get(r[1..], k)
  }

  lemma {:induction false} GetPresent<K>(r: Rec<K>, k: K)
    ensures Get(r, k).Some? <==> k in KeysOf(r)
    decreases |r|
  {
    if |r| > 0 {
      assert KeysOf(r) == [r[0].0] + KeysOf(r[1..]);
      GetPresent(r[1..], k);
    }
  }

  /** `r[k] = v`: an existing key keeps its position, a new key goes last. */
  function Put<K(==)>(r: Rec<K>, k: K, v: int): Rec<K>
    decreases |r|
  {
    if |r| == 0 then [(k, v)]
    else if r[0].0 == k then [(k, v)] + r[1..]
    else [r[0]] + Put(r[1..], k, v)
  }

  lemma {:induction false} PutGet<K>(r: Rec<K>, k: K, v: int, k': K)
    ensures Get(Put(r, k, v), k') == if k' == k then Some(v) else Get(r, k')
    decreases |r|
  {
    if |r| > 0 && r[0].0 != k {
      PutGet(r[1..], k, v, k');
      assert Put(r, k, v)[1..] == Put(r[1..], k, v);
    } else if |r| > 0 {
      assert Put(r, k, v)[1..] == r[1..];
    }
  }

  lemma KeysOfCons<K>(x: (K, int), r: Rec<K>)
    ensures KeysOf([x] + r) == [x.0] + KeysOf(r)
  {
  }

  lemma ConsSnoc<T>(a: T, s: seq<T>, b: T)
    ensures [a] + (s + [b]) == ([a] + s) + [b]
  {
  }

  lemma {:induction false} PutKeys<K>(r: Rec<K>, k: K, v: int)
    ensures KeysOf(Put(r, k, v)) == if k in KeysOf(r) then KeysOf(r) else KeysOf(r) + [k]
    decreases |r|
  {
    if |r| > 0 {
      HeadSplit(r);
      KeysOfCons(r[0], r[1..]);
      if r[0].0 != k {
        PutKeys(r[1..], k, v);
        KeysOfCons(r[0], Put(r[1..], k, v));
        ConsSnoc(r[0].0, KeysOf(r[1..]), k);
      } else {
        KeysOfCons((k, v), r[1..]);
      }
    }
  }

  /** `r[k] = (r[k] || 0) + 1` */
  function Incr<K(==)>(r: Rec<K>, k: K): Rec<K> {
    Put(r, k, Get(r, k).GetOr(0) + 1)
  }

  /** Count occurrences of each key, in order of first appearance. */
  function Tally<K(==)>(ks: seq<K>): Rec<K>
    decreases |ks|
  {
    if |ks| == 0 then []
    else Incr(Tally(ks[..|ks| - 1]), ks[|ks| - 1])
  }

  /** `r[k] = (r[k] || 0) + 1` for each key of `ks` in turn. */
  function TallyInto<K(==)>(r: Rec<K>, ks: seq<K>): Rec<K>
    decreases |ks|
  {
    if |ks| == 0 then r
    else Incr(TallyInto(r, ks[..|ks| - 1]), ks[|ks| - 1])
  }

  /** Counting `b` into the tally of `a` is the tally of `a + b`. */
  lemma {:induction false} TallyIntoTally<K>(a: seq<K>, b: seq<K>)
    ensures TallyInto(Tally(a), b) == Tally(a + b)
    decreases |b|
  {
    if |b| == 0 {
      assert a + b == a;
    } else {
      var n := |b| - 1;
      TallyIntoTally(a, b[..n]);
      assert (a + b)[..|a + b| - 1] == a + b[..n];
    }
  }

  function Id<K>(k: K): K { k }

  lemma KeysId<K>(ks: seq<K>)
    ensures Keys(ks, Id) == set k | k in ks
  {
    forall k | k in ks ensures k in Keys(ks, Id) {
      var i :| 0 <= i < |ks| && ks[i] == k;
      assert Id(ks[i]) == k;
    }
  }

  /** The tally holds each key of the input once, with its number of occurrences. */
  lemma {:induction false} TallyGet<K>(ks: seq<K>, k: K)
    ensures Get(Tally(ks), k) == if k in ks then Some(Count(ks, k)) else None
    decreases |ks|
  {
    if |ks| > 0 {
      var init := ks[..|ks| - 1];
      var last := ks[|ks| - 1];
      var t := Tally(init);
      var g := Get(t, last).GetOr(0);
      assert Tally(ks) == Put(t, last, g + 1);
      assert ks == init + [last];
      CountAppend(init, [last], k);
      PutGet(t, last, g + 1, k);
      if k == last {
        TallyGet(init, last);
        assert Count([last], k) == 1;
      } else {
        TallyGet(init, k);
        assert Count([last], k) == 0;
        assert k in ks <==> k in init;
      }
    }
  }

  /** The keys of the tally are the distinct input keys, in order of first appearance. */
  lemma {:induction false} TallyKeys<K>(ks: seq<K>)
    ensures KeysOf(Tally(ks)) == KeepFirst(ks, Id)
    decreases |ks|
  {
    if |ks| > 0 {
      var init := ks[..|ks| - 1];
      var last := ks[|ks| - 1];
      TallyKeys(init);
      TallyGet(init, last);
      GetPresent(Tally(init), last);
      PutKeys(Tally(init), last, Get(Tally(init), last).GetOr(0) + 1);
      KeysId(init);
    }
  }

  lemma {:induction false} PutUnique<K>(r: Rec<K>, k: K, v: int)
    requires UniqueKeys(r)
    ensures UniqueKeys(Put(r, k, v))
    decreases |r|
  {
    if |r| > 0 && r[0].0 != k {
      PutUnique(r[1..], k, v);
      PutKeys(r[1..], k, v);
      var p := Put(r, k, v);
      assert p[1..] == Put(r[1..], k, v);
      assert r[0].0 !in KeysOf(r[1..]);
      forall j | 0 < j < |p| ensures p[0].0 != p[j].0 {
        assert p[j].0 == KeysOf(Put(r[1..], k, v))[j - 1];
      }
    }
  }

  lemma {:induction false} SumValuesPut<K>(r: Rec<K>, k: K, v: int)
    ensures SumValues(Put(r, k, v)) == SumValues(r) - Get(r, k).GetOr(0) + v
    decreases |r|
  {
    if |r| > 0 {
      var p := Put(r, k, v);
      if r[0].0 != k {
        SumValuesPut(r[1..], k, v);
        assert p[1..] == Put(r[1..], k, v);
      } else {
        assert p[1..] == r[1..];
      }
    }
  }

  /** The counts of a tally add up to the number of input keys. */
  lemma {:induction false} TallySum<K>(ks: seq<K>)
    ensures UniqueKeys(Tally(ks))
    ensures SumValues(Tally(ks)) == |ks|
    decreases |ks|
  {
    if |ks| > 0 {
      var init := ks[..|ks| - 1];
      TallySum(init);
      PutUnique(Tally(init), ks[|ks| - 1], Get(Tally(init), ks[|ks| - 1]).GetOr(0) + 1);
      SumValuesPut(Tally(init), ks[|ks| - 1], Get(Tally(init), ks[|ks| - 1]).GetOr(0) + 1);
    }
  }

  /** In a record with unique keys, the value stored under the key at position `j`. */
  lemma {:induction false} GetAt<K>(r: Rec<K>, j: nat)
    requires UniqueKeys(r) && j < |r|
    ensures Get(r, r[j].0) == Some(r[j].1)
    decreases j
  {
    if j > 0 {
      assert r[0].0 != r[j].0;
      GetAt(r[1..], j - 1);
    }
  }

  /** In a record with unique keys, storing under the key at position `j` overwrites that position only. */
  lemma {:induction false} PutAt<K>(r: Rec<K>, j: nat, v: int)
    requires UniqueKeys(r) && j < |r|
    ensures Put(r, r[j].0, v) == r[j := (r[j].0, v)]
    decreases j
  {
    if j > 0 {
      assert r[0].0 != r[j].0;
      PutAt(r[1..], j - 1, v);
      assert r[j := (r[j].0, v)] == [r[0]] + r[1..][j - 1 := (r[j].0, v)];
    }
  }

  /** `max(d.values()) if d else 0` */
  function MaxValue<K>(r: Rec<K>): (m: int)
    ensures forall i :: 0 <= i < |r| ==> r[i].1 <= m
    ensures |r| > 0 ==> exists i :: 0 <= i < |r| && r[i].1 == m
    ensures |r| == 0 ==> m == 0
    decreases |r|
  {
    if |r| == 0 then 0
    else if |r| == 1 then r[0].1
    else
      var m := MaxValue(r[1..]);
      assert forall i :: 1 <= i < |r| ==> r[i] == r[1..][i - 1];
      if r[0].1 >= m then r[0].1 else m
  }

  function Value<K>(e: (K, int)): int {
    e.1
  }

  /**
   * `Object.entries(r).sort((a, b) => b[1] - a[1])[0]?.[0]`: the key of
   * the entry with the highest value after a stable sort, or nothing for
   * an empty record.
   */
  function TopKey<K>(r: Rec<K>): (top: Option<K>)
    ensures top.Some? <==> |r| > 0
  {
    if |r| == 0 then None else Some(SortDesc(r, Value)[0].0)
  }

  /** The top key belongs to the first entry whose value is maximal. */
  lemma TopKeyFirstMax<K>(r: Rec<K>) returns (i: nat)
    requires |r| > 0
    ensures i < |r| && TopKey(r) == Some(r[i].0)
    ensures forall j :: 0 <= j < |r| ==> r[j].1 <= r[i].1
    ensures forall j :: 0 <= j < i ==> r[j].1 < r[i].1
  {
    SortDescHead(r, Value);
    var top := SortDesc(r, Value)[0];
    i :| 0 <= i < |r| && r[i] == top && forall j :: 0 <= j < i ==> Value(r[j]) < Value(r[i]);
    forall j | 0 <= j < |r| ensures r[j].1 <= r[i].1 {
      assert r[j] in r;
    }
  }
}

=== FILE: scan_progress.dfy ===
/**
 * The progress panel shown while an ad scan runs: which stage the elapsed
 * time falls in, the capped progress percentage, the clock format and the
 * remaining-time estimate. The one-second timer is left out; the elapsed
 * seconds are an input.
 */
module ScanProgress {
  import opened Base

  /** Seconds per stage: fetch, analyse, scam detection, policy mapping, finalise. */
  const StageDurations: seq<int> := [20, 40, 25, 10, 5]

  const TotalDuration := 100

  const ProgressCap := 95.0

  /** When stage `i` begins: the durations of the stages before it. */
  function StageStart(i: nat): int
    requires i <= |StageDurations|
  {
    Sum(StageDurations[..i])
  }

  lemma StageStartStep(i: nat)
    requires i < |StageDurations|
    ensures StageStart(i + 1) == StageStart(i) + StageDurations[i]
  {
    assert StageDurations[..i + 1] == StageDurations[..i] + [StageDurations[i]];
    SumAppend(StageDurations[..i], [StageDurations[i]]);
  }

  /** The stages fill exactly the nominal hundred seconds. */
  lemma DurationsSum()
    ensures StageStart(|StageDurations|) == TotalDuration
    ensures Sum(StageDurations) == TotalDuration
  {
    assert StageDurations[..|StageDurations|] == StageDurations;
  }

  /**
   * The stage loop: the first stage whose cumulative end lies after the
   * elapsed time. Past the last stage the current stage is kept.
   */
  method NextStage(current: nat, elapsed: nat) returns (stage: nat)
    ensures elapsed < TotalDuration ==>
              stage < |StageDurations| && StageStart(stage) <= elapsed < StageStart(stage + 1)
    ensures elapsed >= TotalDuration ==> stage == current
  {
    var cumulative := 0;
    var i := 0;
    stage := current;
    while i < |StageDurations|
      invariant 0 <= i <= |StageDurations|
      invariant cumulative == StageStart(i)
      invariant cumulative <= elapsed
      invariant stage == current
    {
      StageStartStep(i);
      cumulative := cumulative + StageDurations[i];
      if elapsed < cumulative {
        StageStartMono(i + 1, |StageDurations|);
        DurationsSum();
        stage := i;
        return;
      }
      i := i + 1;
    }
    DurationsSum();
  }

  lemma {:induction false} StageStartMono(i: nat, j: nat)
    requires i <= j <= |StageDurations|
    ensures StageStart(i) <= StageStart(j)
    ensures i < j ==> StageStart(i + 1) <= StageStart(j)
    decreases j - i
  {
    if i < j {
      StageStartStep(i);
      StageStartMono(i + 1, j);
    }
  }

  /**
   * The stage windows do not overlap and follow each other: a later time
   * never falls in an earlier stage.
   */
  lemma StagesAdvance(i: nat, j: nat, e1: int, e2: int)
    requires i < |StageDurations| && j < |StageDurations|
    requires StageStart(i) <= e1 < StageStart(i + 1)
    requires StageStart(j) <= e2 < StageStart(j + 1)
    requires e1 <= e2
    ensures i <= j
  {
    if j < i {
      StageStartMono(j, i);
    }
  }

  /** `Math.min((elapsed / total) * 100, 95)`. */
  function Progress(elapsed: nat): (p: real)
    ensures 0.0 <= p <= ProgressCap
    ensures elapsed as real <= ProgressCap ==> p == elapsed as real
    ensures elapsed as real >= ProgressCap ==> p == ProgressCap
  {
    var share := elapsed as real / TotalDuration as real * 100.0;
    assert share == elapsed as real;
    if share < ProgressCap then share else ProgressCap
  }

  /** `secs.toString().padStart(2, '0')` for seconds below a minute. */
  function Pad2(n: nat): (s: string)
    requires n < 60
    ensures |s| == 2
    ensures forall i :: 0 <= i < |s| ==> IsDigit(s[i])
  {
    if n < 10 then "0" + NatToString(n)
    else
      assert |NatToString(n / 10)| == 1;
      NatToString(n)
  }

  /** `formatTime`: `"<s>s"` under a minute, else `"m:ss"`. */
  function FormatTime(seconds: nat): (s: string)
    ensures seconds < 60 ==> s == NatToString(seconds) + "s"
    ensures seconds >= 60 ==> s == NatToString(seconds / 60) + ":" + Pad2(seconds % 60)
  {
    var mins := seconds / 60;
    var secs := seconds % 60;
    if mins > 0 then NatToString(mins) + ":" + Pad2(secs) else NatToString(secs) + "s"
  }

  /** Reads a clock string back: `"<s>s"` or `"m:ss"`. */
  function ParseTime(s: string): Option<nat> {
    if |s| >= 2 && s[|s| - 1] == 's' then ParseNat(s[..|s| - 1])
    else ParseClockParts(Split(s, ':'))
  }

  /** The two parts of `"m:ss"`: minutes, then two digits of seconds. */
  function ParseClockParts(parts: seq<string>): Option<nat> {
    if |parts| == 2 && |parts[1]| == 2 && ParseNat(parts[0]).Some? && ParseNat(parts[1]).Some? then
      Some(ParseNat(parts[0]).value * 60 + ParseNat(parts[1]).value)
    else None
  }

  lemma ParsePad2(n: nat)
    requires n < 60
    ensures ParseNat(Pad2(n)) == Some(n)
  {
    ParseNatToString(n);
    if n < 10 {
      var s := Pad2(n);
      assert s[..1] == "0";
      assert DigitsValue(s) == DigitsValue(s[..1]) * 10 + n;
    }
  }

  /** The clock string determines the number of seconds it shows. */
  lemma FormatTimeRoundTrip(seconds: nat)
    ensures ParseTime(FormatTime(seconds)) == Some(seconds)
  {
    if seconds < 60 {
      SecondsRoundTrip(seconds);
    } else {
      MinutesRoundTrip(seconds);
    }
  }

  lemma SecondsRoundTrip(seconds: nat)
    requires seconds < 60
    ensures ParseTime(NatToString(seconds) + "s") == Some(seconds)
  {
    var s := NatToString(seconds) + "s";
    assert s[..|s| - 1] == NatToString(seconds);
    ParseNatToString(seconds);
  }

  lemma MinutesRoundTrip(seconds: nat)
    requires seconds >= 60
    ensures ParseTime(NatToString(seconds / 60) + ":" + Pad2(seconds % 60)) == Some(seconds)
  {
    var mins, secs := MinutesAndSeconds(seconds);
    ClockOf(seconds, mins, secs);
  }

  lemma ClockOf(seconds: nat, mins: nat, secs: nat)
    requires secs < 60 && mins * 60 + secs == seconds
    ensures ParseTime(NatToString(mins) + ":" + Pad2(secs)) == Some(seconds)
  {
    ParseNatToString(mins);
    ParsePad2(secs);
    ClockRoundTrip(NatToString(mins), Pad2(secs), mins, secs);
  }

  lemma MinutesAndSeconds(seconds: nat) returns (mins: nat, secs: nat)
    ensures mins == seconds / 60 && secs == seconds % 60 && secs < 60
    ensures mins * 60 + secs == seconds
  {
    mins, secs := seconds / 60, seconds % 60;
  }

  /** `"m:ss"` built from the digits of m and of ss reads back as m minutes and ss seconds. */
  lemma ClockRoundTrip(m: string, p: string, mins: nat, secs: nat)
    requires forall i :: 0 <= i < |m| ==> IsDigit(m[i])
    requires forall i :: 0 <= i < |p| ==> IsDigit(p[i])
    requires |p| == 2 && ParseNat(m) == Some(mins) && ParseNat(p) == Some(secs)
    ensures ParseTime(m + ":" + p) == Some(mins * 60 + secs)
  {
    var s := m + ":" + p;
    ParseClock(m, p, mins, secs);
    ClockSplits(m, p);
    assert s[|s| - 1] == p[1] && IsDigit(p[1]);
    ParseTimeClock(s);
  }

  /** Digits, a colon, digits: the colon splits them apart again. */
  lemma ClockSplits(m: string, p: string)
    requires forall i :: 0 <= i < |m| ==> IsDigit(m[i])
    requires forall i :: 0 <= i < |p| ==> IsDigit(p[i])
    ensures Split(m + ":" + p, ':') == [m, p]
  {
    assert m + ":" + p == Join([m, p], [':']);
    assert forall c :: c in m ==> IsDigit(c);
    assert forall c :: c in p ==> IsDigit(c);
    JoinSplit([m, p], ':');
  }

  /** A clock string whose two colon-separated parts parse as numbers. */
  lemma ParseClock(a: string, b: string, m: nat, sec: nat)
    requires |b| == 2 && ParseNat(a) == Some(m) && ParseNat(b) == Some(sec)
    ensures ParseClockParts([a, b]) == Some(m * 60 + sec)
  {
  }

  /** A string not ending in "s" is read as a clock. */
  lemma ParseTimeClock(s: string)
    requires |s| > 0 && s[|s| - 1] != 's'
    ensures ParseTime(s) == ParseClockParts(Split(s, ':'))
  {
  }

  /** `Math.max(30, maxAds * 2)`: two seconds an ad, never under half a minute. */
  function EstimatedTotal(maxAds: int): (t: int)
    ensures t >= 30 && t >= 2 * maxAds
    ensures t == 30 || t == 2 * maxAds
  {
    Max(30, maxAds * 2)
  }

  /** `Math.max(0, estimatedTotal - elapsed)`. */
  function EstimatedRemaining(maxAds: int, elapsed: nat): (r: int)
    ensures r >= 0
    ensures elapsed <= EstimatedTotal(maxAds) ==> r + elapsed == EstimatedTotal(maxAds)
    ensures elapsed >= EstimatedTotal(maxAds) ==> r == 0
  {
    Max(0, EstimatedTotal(maxAds) - elapsed)
  }

  /** The remaining time never grows while the scan runs. */
  lemma RemainingShrinks(maxAds: int, e1: nat, e2: nat)
    requires e1 <= e2
    ensures EstimatedRemaining(maxAds, e2) <= EstimatedRemaining(maxAds, e1)
  {
  }
}

=== FILE: scan_view.dfy ===
/**
 * The ad-scan results as the browser sees them (the JSON the scan
 * endpoint returns), and the per-query status the batch page keeps.
 * Only the fields the pure helpers read are kept.
 */
module ScanView {
  import opened Base
  import opened Records

  datatype AdCategory = Violating | Mixed | Benign

  function CategoryName(c: AdCategory): (s: string)
    ensures |s| > 0
  {
    match c
    case Violating => "violating"
    case Mixed => "mixed"
    case Benign => "benign"
  }

  /** The scanned ad: identifier, text, advertiser and its library link. */
  datatype AdSummary = AdSummary(adId: string, text: string, advertiserName: string, adLibraryUrl: Option<string>)

  datatype Fingerprint = Fingerprint(scamType: string, riskScore: int)

  datatype Violation = Violation(policyCode: string, policyName: string)

  /**
   * One analysed ad. The optional fields are the ones the response may
   * omit; the harm score is the backend's integer in [1, 100].
   */
  datatype AdAnalysis = AdAnalysis(
    ad: AdSummary,
    category: AdCategory,
    consensusBadge: string,
    cruxNarrative: string,
    fingerprints: Option<seq<Fingerprint>>,
    harmScore: Option<int>,
    violations: Option<seq<Violation>>)

  datatype ScanStats = ScanStats(scamTypeDistribution: Rec<string>)

  datatype ScanResponse = ScanResponse(
    keyword: string,
    totalAds: int,
    violating: seq<AdAnalysis>,
    mixed: seq<AdAnalysis>,
    benign: seq<AdAnalysis>,
    scanTimestamp: string,
    stats: Option<ScanStats>)

  /** `'pending' | 'running' | 'completed' | 'error'`. */
  datatype QueryState = Pending | Running | Completed | Failed

  /** One query of a batch scan and how far it got. */
  datatype QueryStatus = QueryStatus(
    query: string,
    state: QueryState,
    result: Option<ScanResponse>,
    error: Option<string>,
    duration: Option<int>)

  predicate HasResult(qs: QueryStatus) {
    qs.result.Some?
  }

  /** `ad.harm_score || 0`: a missing (or zero) score counts as 0. */
  function HarmOrZero(a: AdAnalysis): (h: int)
    ensures a.harmScore.None? ==> h == 0
    ensures a.harmScore.Some? ==> h == a.harmScore.value
  {
    a.harmScore.GetOr(0)
  }

  /** `if (ad.harm_score)`: the score is present and not zero. */
  predicate HasHarm(a: AdAnalysis) {
    a.harmScore.Some? && a.harmScore.value != 0
  }

  /** `ad.scam_fingerprints?.map(fp => fp.type) || []`. */
  function FingerprintTypes(a: AdAnalysis): (ts: seq<string>)
    ensures a.fingerprints.None? ==> ts == []
    ensures a.fingerprints.Some? ==> |ts| == |a.fingerprints.value|
    ensures forall i :: 0 <= i < |ts| ==> ts[i] == a.fingerprints.value[i].scamType
  {
    match a.fingerprints
    case None => []
    case Some(fps) => seq(|fps|, i requires 0 <= i < |fps| => fps[i].scamType)
  }
}

=== FILE: scanner_page.dfy ===
/**
 * The single-keyword scanner page: the result filters (minimum harm and
 * selected scam types), the scam-type toggle, and the list of scam types
 * offered for filtering.
 */
module ScannerPage {
  import opened Base
  import opened Sorting
  import opened Records
  import opened ScanView

  /**
   * Whether an ad passes the filters: a positive minimum harm must be
   * reached (a missing score counts as 0), and when scam types are
   * selected the ad must carry one of them.
   */
  predicate Keeps(ad: AdAnalysis, selected: set<string>, minHarm: int) {
    (minHarm <= 0 || HarmOrZero(ad) >= minHarm)
    && (selected == {} || exists i :: 0 <= i < |FingerprintTypes(ad)| && FingerprintTypes(ad)[i] in selected)
  }

  function Passes(selected: set<string>, minHarm: int): AdAnalysis -> bool {
    (a: AdAnalysis) => Keeps(a, selected, minHarm)
  }

  /** `filterAds`: the ads that pass, in their original order. */
  function FilterAds(ads: seq<AdAnalysis>, selected: set<string>, minHarm: int): (r: seq<AdAnalysis>)
    ensures IsSubseq(r, ads)
    ensures forall a :: a in r <==> a in ads && Keeps(a, selected, minHarm)
  {
    FilterMembers(ads, Passes(selected, minHarm));
    Filter(ads, Passes(selected, minHarm))
  }

  /** Filtering an already filtered list with the same settings keeps all of it. */
  lemma FilterAdsIdempotent(ads: seq<AdAnalysis>, selected: set<string>, minHarm: int)
    ensures FilterAds(FilterAds(ads, selected, minHarm), selected, minHarm) == FilterAds(ads, selected, minHarm)
  {
    FilterAll(FilterAds(ads, selected, minHarm), Passes(selected, minHarm));
  }

  /**
   * `filteredResults`: each category list filtered; the keyword, the ad
   * total and the statistics are left as they were.
   */
  function FilteredResults(results: Option<ScanResponse>, selected: set<string>, minHarm: int): (r: Option<ScanResponse>)
    ensures r.Some? <==> results.Some?
    ensures r.Some? ==>
              var before, after := results.value, r.value;
              after.keyword == before.keyword && after.totalAds == before.totalAds && after.stats == before.stats
              && after.scanTimestamp == before.scanTimestamp
              && IsSubseq(after.violating, before.violating)
              && IsSubseq(after.mixed, before.mixed)
              && IsSubseq(after.benign, before.benign)
    ensures r.Some? ==>
              forall a :: a in r.value.violating + r.value.mixed + r.value.benign ==> Keeps(a, selected, minHarm)
    ensures r.Some? ==>
              && r.value.violating == FilterAds(results.value.violating, selected, minHarm)
              && r.value.mixed == FilterAds(results.value.mixed, selected, minHarm)
              && r.value.benign == FilterAds(results.value.benign, selected, minHarm)
  {
    match results
    case None => None
    case Some(res) =>
      Some(res.(violating := FilterAds(res.violating, selected, minHarm),
                mixed := FilterAds(res.mixed, selected, minHarm),
                benign := FilterAds(res.benign, selected, minHarm)))
  }

  /** With no minimum harm and no selected type the filter changes nothing. */
  lemma NoFilterIsIdentity(results: Option<ScanResponse>)
    ensures FilteredResults(results, {}, 0) == results
  {
    if results.Some? {
      var res := results.value;
      FilterAll(res.violating, Passes({}, 0));
      FilterAll(res.mixed, Passes({}, 0));
      FilterAll(res.benign, Passes({}, 0));
    }
  }

  /** Applying the same filters twice is the same as applying them once. */
  lemma FilteredResultsIdempotent(results: Option<ScanResponse>, selected: set<string>, minHarm: int)
    ensures FilteredResults(FilteredResults(results, selected, minHarm), selected, minHarm)
            == FilteredResults(results, selected, minHarm)
  {
    if results.Some? {
      var res := results.value;
      FilterAdsIdempotent(res.violating, selected, minHarm);
      FilterAdsIdempotent(res.mixed, selected, minHarm);
      FilterAdsIdempotent(res.benign, selected, minHarm);
    }
  }

  /** `toggleScamTypeFilter`: flip whether one type is selected. */
  function Toggle(selected: set<string>, t: string): (r: set<string>)
    ensures t in r <==> t !in selected
    ensures forall u :: u != t ==> (u in r <==> u in selected)
  {
    if t in selected then selected - {t} else selected + {t}
  }

  /** Toggling the same type twice restores the selection. */
  lemma ToggleTwice(selected: set<string>, t: string)
    ensures Toggle(Toggle(selected, t), t) == selected
  {
    var r := Toggle(Toggle(selected, t), t);
    assert forall u :: u in r <==> u in selected;
  }

  function EntryCount(e: (string, int)): int {
    e.1
  }

  /**
   * `availableScamTypes`: every entry of the result's scam-type
   * distribution, most frequent first (equal counts keep their order),
   * and nothing when there are no statistics.
   */
  function AvailableScamTypes(results: Option<ScanResponse>): (r: Rec<string>)
    ensures results.None? || results.value.stats.None? ==> r == []
    ensures results.Some? && results.value.stats.Some? ==>
              var dist := results.value.stats.value.scamTypeDistribution;
              SortedDesc(r, EntryCount) && multiset(r) == multiset(dist)
              && forall k :: WithKey(r, EntryCount, k) == WithKey(dist, EntryCount, k)
  {
    if results.None? || results.value.stats.None? then []
    else
      var dist := results.value.stats.value.scamTypeDistribution;
      SortDescCorrect(dist, EntryCount);
      SortDesc(dist, EntryCount)
  }
}

=== FILE: sorting.dfy ===
/**
 * Stable sorting by an integer key, highest key first. This is what
 * Python's `list.sort(key=..., reverse=True)` and JavaScript's
 * `arr.sort((a, b) => key(b) - key(a))` do: both sorts are stable, so
 * elements with equal keys keep their input order.
 */
module Sorting {
  import opened Base

  predicate SortedDesc<T>(xs: seq<T>, key: T -> int) {
    forall i, j :: 0 <= i < j < |xs| ==> key(xs[i]) >= key(xs[j])
  }

  /** The elements of `xs` whose key is `k`, in their order in `xs`. */
  function WithKey<T>(xs: seq<T>, key: T -> int, k: int): seq<T> {
    if |xs| == 0 then []
    else (if key(xs[0]) == k then [xs[0]] else []) + WithKey(xs[1..], key, k)
  }

  lemma WithKeyCons<T>(x: T, s: seq<T>, key: T -> int, k: int)
    ensures WithKey([x] + s, key, k) == (if key(x) == k then [x] else []) + WithKey(s, key, k)
  {
    assert ([x] + s)[0] == x && ([x] + s)[1..] == s;
  }

  lemma {:induction false} WithKeyAppend<T>(a: seq<T>, b: seq<T>, key: T -> int, k: int)
    ensures WithKey(a + b, key, k) == WithKey(a, key, k) + WithKey(b, key, k)
    decreases |a|
  {
    if |a| == 0 {
      assert a + b == b;
    } else {
      var h := if key(a[0]) == k then [a[0]] else [];
      assert a + b == [a[0]] + (a[1..] + b);
      WithKeyCons(a[0], a[1..] + b, key, k);
      WithKeyAppend(a[1..], b, key, k);
      WithKeyCons(a[0], a[1..], key, k);
      assert a == [a[0]] + a[1..];
      assert h + (WithKey(a[1..], key, k) + WithKey(b, key, k)) == (h + WithKey(a[1..], key, k)) + WithKey(b, key, k);
    }
  }

  lemma {:induction false} WithKeyAbsent<T>(xs: seq<T>, key: T -> int, k: int)
    requires forall i :: 0 <= i < |xs| ==> key(xs[i]) != k
    ensures WithKey(xs, key, k) == []
    decreases |xs|
  {
    if |xs| > 0 {
      WithKeyAbsent(xs[1..], key, k);
    }
  }

  /** Insert `x` after every element of `s` whose key is at least key(x). */
  function Insert<T>(x: T, s: seq<T>, key: T -> int): (r: seq<T>)
    ensures |r| == |s| + 1
    decreases |s|
  {
    if |s| == 0 then [x]
    else if key(s[0]) >= key(x) then [s[0]] + Insert(x, s[1..], key)
    else [x] + s
  }

  lemma {:induction false} InsertMultiset<T>(x: T, s: seq<T>, key: T -> int)
    ensures multiset(Insert(x, s, key)) == multiset(s) + multiset{x}
    decreases |s|
  {
    if |s| > 0 && key(s[0]) >= key(x) {
      InsertMultiset(x, s[1..], key);
      assert s == [s[0]] + s[1..];
    }
  }

  /** Inserting an element no higher than a bound keeps every key within it. */
  lemma {:induction false} InsertBound<T>(x: T, s: seq<T>, key: T -> int, bound: int)
    requires key(x) <= bound
    requires forall i :: 0 <= i < |s| ==> key(s[i]) <= bound
    ensures forall i :: 0 <= i < |Insert(x, s, key)| ==> key(Insert(x, s, key)[i]) <= bound
    decreases |s|
  {
    if |s| > 0 && key(s[0]) >= key(x) {
      InsertBound(x, s[1..], key, bound);
      var rest := Insert(x, s[1..], key);
      forall i | 0 < i < |Insert(x, s, key)| ensures key(Insert(x, s, key)[i]) <= bound {
        assert Insert(x, s, key)[i] == rest[i - 1];
      }
    }
  }

  lemma {:induction false} InsertSorted<T>(x: T, s: seq<T>, key: T -> int)
    requires SortedDesc(s, key)
    ensures SortedDesc(Insert(x, s, key), key)
    decreases |s|
  {
    if |s| > 0 && key(s[0]) >= key(x) {
      var rest := Insert(x, s[1..], key);
      var r := Insert(x, s, key);
      assert SortedDesc(s[1..], key) by {
        forall i, j | 0 <= i < j < |s[1..]| ensures key(s[1..][i]) >= key(s[1..][j]) {
          assert s[1..][i] == s[i + 1] && s[1..][j] == s[j + 1];
        }
      }
      InsertSorted(x, s[1..], key);
      forall i | 0 <= i < |s[1..]| ensures key(s[1..][i]) <= key(s[0]) {
        assert s[1..][i] == s[i + 1];
      }
      InsertBound(x, s[1..], key, key(s[0]));
      assert r == [s[0]] + rest;
      forall i, j | 0 <= i < j < |r| ensures key(r[i]) >= key(r[j]) {
        assert r[j] == rest[j - 1];
        if i > 0 {
          assert r[i] == rest[i - 1];
        }
      }
    } else if |s| > 0 {
      var r := Insert(x, s, key);
      assert r == [x] + s;
      forall i, j | 0 <= i < j < |r| ensures key(r[i]) >= key(r[j]) {
        assert r[j] == s[j - 1];
        if i > 0 {
          assert r[i] == s[i - 1];
        } else {
          assert key(s[0]) >= key(s[j - 1]) || j - 1 == 0;
        }
      }
    }
  }

  lemma {:induction false} InsertWithKey<T>(x: T, s: seq<T>, key: T -> int, k: int)
    requires SortedDesc(s, key)
    ensures WithKey(Insert(x, s, key), key, k) == WithKey(s, key, k) + (if key(x) == k then [x] else [])
    decreases |s|
  {
    var e := if key(x) == k then [x] else [];
    if |s| == 0 {
      assert Insert(x, s, key) == [x] + s;
      WithKeyCons(x, s, key, k);
    } else if key(s[0]) >= key(x) {
      var h := if key(s[0]) == k then [s[0]] else [];
      assert SortedDesc(s[1..], key) by {
        forall i, j | 0 <= i < j < |s[1..]| ensures key(s[1..][i]) >= key(s[1..][j]) {
          assert s[1..][i] == s[i + 1] && s[1..][j] == s[j + 1];
        }
      }
      InsertWithKey(x, s[1..], key, k);
      assert Insert(x, s, key) == [s[0]] + Insert(x, s[1..], key);
      WithKeyCons(s[0], Insert(x, s[1..], key), key, k);
      WithKeyCons(s[0], s[1..], key, k);
      assert s == [s[0]] + s[1..];
      assert h + (WithKey(s[1..], key, k) + e) == (h + WithKey(s[1..], key, k)) + e;
    } else {
      assert Insert(x, s, key) == [x] + s;
      WithKeyCons(x, s, key, k);
      if key(x) == k {
        forall i | 0 <= i < |s| ensures key(s[i]) != k {
          assert i == 0 || key(s[0]) >= key(s[i]);
        }
        WithKeyAbsent(s, key, k);
      }
    }
  }

  /** Stable sort, highest key first. */
  function SortDesc<T>(xs: seq<T>, key: T -> int): (r: seq<T>)
    ensures |r| == |xs|
    decreases |xs|
  {
    if |xs| == 0 then []
    else Insert(xs[|xs| - 1], SortDesc(xs[..|xs| - 1], key), key)
  }

  /**
   * The result is ordered by key, is a permutation of the input, and
   * keeps the input order among elements with equal keys.
   */
  lemma {:induction false} SortDescCorrect<T>(xs: seq<T>, key: T -> int)
    ensures SortedDesc(SortDesc(xs, key), key)
    ensures multiset(SortDesc(xs, key)) == multiset(xs)
    ensures forall k :: WithKey(SortDesc(xs, key), key, k) == WithKey(xs, key, k)
    decreases |xs|
  {
    if |xs| > 0 {
      var init := xs[..|xs| - 1];
      var last := xs[|xs| - 1];
      SortDescCorrect(init, key);
      InsertSorted(last, SortDesc(init, key), key);
      InsertMultiset(last, SortDesc(init, key), key);
      assert xs == init + [last];
      forall k ensures WithKey(SortDesc(xs, key), key, k) == WithKey(xs, key, k) {
        InsertWithKey(last, SortDesc(init, key), key, k);
        WithKeyAppend(init, [last], key, k);
      }
    }
  }

  lemma {:induction false} WithKeyHead<T>(xs: seq<T>, key: T -> int, i: nat)
    requires i < |xs|
    requires forall j :: 0 <= j < i ==> key(xs[j]) != key(xs[i])
    ensures |WithKey(xs, key, key(xs[i]))| > 0 && WithKey(xs, key, key(xs[i]))[0] == xs[i]
    decreases i
  {
    if i > 0 {
      WithKeyHead(xs[1..], key, i - 1);
    }
  }

  /** The first element after sorting has the largest key, and is the first such element of the input. */
  lemma SortDescHead<T>(xs: seq<T>, key: T -> int)
    requires |xs| > 0
    ensures forall y :: y in xs ==> key(SortDesc(xs, key)[0]) >= key(y)
    ensures exists i :: 0 <= i < |xs| && xs[i] == SortDesc(xs, key)[0]
                        && forall j :: 0 <= j < i ==> key(xs[j]) < key(xs[i])
  {
    var r := SortDesc(xs, key);
    SortDescCorrect(xs, key);
    forall y | y in xs ensures key(r[0]) >= key(y) {
      assert y in multiset(r);
      var m :| 0 <= m < |r| && r[m] == y;
    }
    assert r[0] in multiset(xs);
    var k := key(r[0]);
    // the first element of xs with key k
    var i :| 0 <= i < |xs| && xs[i] == r[0];
    while exists j :: 0 <= j < i && key(xs[j]) == k
      invariant 0 <= i < |xs| && key(xs[i]) == k
      decreases i
    {
      var j :| 0 <= j < i && key(xs[j]) == k;
      i := j;
    }
    WithKeyHead(xs, key, i);
    WithKeyHead(r, key, 0);
    assert xs[i] == r[0];
    forall j | 0 <= j < i ensures key(xs[j]) < key(xs[i]) {
      assert xs[j] in multiset(r);
      var m :| 0 <= m < |r| && r[m] == xs[j];
    }
  }

  /**
   * The first `n` elements after sorting are sorted, come from the input,
   * and rank at least as high as every input element left out.
   */
  lemma TopOfSorted<T>(xs: seq<T>, key: T -> int, n: nat)
    ensures var r := Take(SortDesc(xs, key), n);
            SortedDesc(r, key)
            && (forall i :: 0 <= i < |r| ==> r[i] in xs)
            && (forall e, i :: e in xs && e !in r && 0 <= i < |r| ==> key(r[i]) >= key(e))
  {
    var s := SortDesc(xs, key);
    SortDescCorrect(xs, key);
    var r := Take(s, n);
    forall i | 0 <= i < |r| ensures r[i] in xs {
      assert r[i] == s[i] && s[i] in multiset(xs);
    }
    forall e, i | e in xs && e !in r && 0 <= i < |r| ensures key(r[i]) >= key(e) {
      assert e in multiset(s);
      var j :| 0 <= j < |s| && s[j] == e;
      assert r[i] == s[i];
    }
  }
}

=== FILE: verdict_distribution.dfy ===
/**
 * The verdict distribution as the browser receives it: either a list of
 * `{tier, count}` items or a record from tier name to count. Both views
 * of a synthesis read it through the normalisation below.
 */
module VerdictDistribution {
  import opened Base
  import opened Records

  datatype Distribution =
    | Items(items: seq<(string, int)>)
    | Counts(record: Rec<string>)

  /** `items.reduce((acc, item) => { acc[item.tier] = item.count; ... }, {})`. */
  function ItemsToRecord(items: seq<(string, int)>): Rec<string>
    decreases |items|
  {
    if |items| == 0 then []
    else
      var last := items[|items| - 1];
      Put(ItemsToRecord(items[..|items| - 1]), last.0, last.1)
  }

  /** The count the last item with tier `k` carries, if any. */
  function LastCount(items: seq<(string, int)>, k: string): Option<int>
    decreases |items|
  {
    if |items| == 0 then None
    else if items[|items| - 1].0 == k then Some(items[|items| - 1].1)
    else LastCount(items[..|items| - 1], k)
  }

  /** `distributionRecord`: the list form folded into a record, a record as it is. */
  function Normalise(d: Distribution): Rec<string> {
    match d
    case Items(items) => ItemsToRecord(items)
    case Counts(r) => r
  }

  /** In the record built from a list, each tier holds the count of its last item. */
  lemma {:induction false} NormaliseItemsGet(items: seq<(string, int)>, k: string)
    ensures Get(Normalise(Items(items)), k) == LastCount(items, k)
    decreases |items|
  {
    if |items| > 0 {
      var last := items[|items| - 1];
      NormaliseItemsGet(items[..|items| - 1], k);
      PutGet(ItemsToRecord(items[..|items| - 1]), last.0, last.1, k);
    }
  }

  lemma PutAbsent(r: Rec<string>, k: string, v: int)
    requires k !in KeysOf(r)
    ensures Put(r, k, v) == r + [(k, v)]
    decreases |r|
  {
    if |r| > 0 {
      assert KeysOf(r) == [r[0].0] + KeysOf(r[1..]);
      PutAbsent(r[1..], k, v);
      assert [r[0]] + (r[1..] + [(k, v)]) == r + [(k, v)];
    }
  }

  /**
   * Listing a record with distinct tiers as items and normalising gives
   * the record back, so both wire forms show the same distribution.
   */
  lemma {:induction false} NormaliseRoundTrip(r: Rec<string>)
    requires UniqueKeys(r)
    ensures Normalise(Items(r)) == Normalise(Counts(r))
    decreases |r|
  {
    if |r| > 0 {
      var init := r[..|r| - 1];
      var last := r[|r| - 1];
      assert UniqueKeys(init);
      NormaliseRoundTrip(init);
      forall i | 0 <= i < |init| ensures KeysOf(init)[i] != last.0 {
        assert r[i].0 != r[|r| - 1].0;
      }
      PutAbsent(init, last.0, last.1);
      assert init + [last] == r;
    }
  }

  /** `Math.max(...Object.values(record), 1)`. */
  function MaxCount(r: Rec<string>): (m: int)
    ensures m >= 1
    ensures forall i :: 0 <= i < |r| ==> r[i].1 <= m
    ensures m > 1 ==> exists i :: 0 <= i < |r| && r[i].1 == m
  {
    Max(MaxValue(r), 1)
  }
}

=== FILE: verdict_summary.dfy ===
/**
 * The at-a-glance verdict strip: the count of each tier that occurs, the
 * most common tier, and the short judge names.
 */
module VerdictSummary {
  import opened Base
  import opened Dedup
  import opened Records
  import opened Models
  import opened JudgeNames

  function Tiers(vs: seq<JudgeVerdict>): (ts: seq<VerdictTier>)
    ensures |ts| == |vs|
    ensures forall i :: 0 <= i < |vs| ==> ts[i] == vs[i].verdictTier
  {
    seq(|vs|, i requires 0 <= i < |vs| => vs[i].verdictTier)
  }

  /** `tierCounts`: `acc[tier] = (acc[tier] || 0) + 1` for each verdict. */
  function TierCounts(vs: seq<JudgeVerdict>): Rec<VerdictTier> {
    Tally(Tiers(vs))
  }

  /**
   * The counts list each tier that occurs once, in order of first
   * appearance, with its number of verdicts; they add up to the number of
   * verdicts. The quick stats show exactly these entries.
   */
  lemma TierCountsMeaning(vs: seq<JudgeVerdict>)
    ensures UniqueKeys(TierCounts(vs))
    ensures KeysOf(TierCounts(vs)) == KeepFirst(Tiers(vs), Id)
    ensures forall t :: Get(TierCounts(vs), t) == if t in Tiers(vs) then Some(Count(Tiers(vs), t)) else None
    ensures SumValues(TierCounts(vs)) == |vs|
  {
    TallySum(Tiers(vs));
    TallyKeys(Tiers(vs));
    forall t ensures Get(TierCounts(vs), t) == if t in Tiers(vs) then Some(Count(Tiers(vs), t)) else None {
      TallyGet(Tiers(vs), t);
    }
  }

  lemma TallyEmpty<K>(ks: seq<K>)
    ensures |Tally(ks)| == 0 <==> |ks| == 0
  {
  }

  /** `mostCommonTier`: the tier with the highest count, none without verdicts. */
  function MostCommonTier(vs: seq<JudgeVerdict>): (top: Option<VerdictTier>)
    ensures top.None? <==> |vs| == 0
  {
    TallyEmpty(Tiers(vs));
    TopKey(TierCounts(vs))
  }

  /**
   * The most common tier has the largest number of verdicts, and among
   * tiers with that many it is the one that occurs first.
   */
  lemma MostCommonTierIsFirstMax(vs: seq<JudgeVerdict>) returns (i: nat)
    requires |vs| > 0
    ensures var ks := KeysOf(TierCounts(vs));
            i < |ks| && MostCommonTier(vs) == Some(ks[i])
            && (forall t :: Count(Tiers(vs), t) <= Count(Tiers(vs), ks[i]))
            && (forall j :: 0 <= j < i ==> Count(Tiers(vs), ks[j]) < Count(Tiers(vs), ks[i]))
  {
    var r := TierCounts(vs);
    var ts := Tiers(vs);
    TallyEmpty(ts);
    i := TopKeyFirstMax(r);
    TierCountsMeaning(vs);
    forall j | 0 <= j < |r| ensures r[j].1 == Count(ts, r[j].0) && r[j].0 in ts {
      GetAt(r, j);
      assert r[j].0 == KeysOf(r)[j];
    }
    forall t ensures Count(ts, t) <= Count(ts, r[i].0) {
      if t in ts {
        GetPresent(r, t);
        var j :| 0 <= j < |KeysOf(r)| && KeysOf(r)[j] == t;
        assert r[j].0 == t;
      }
    }
  }

  const ShortNames: map<string, string> := map[
    "meta" := "Meta",
    "youtube" := "YouTube",
    "tiktok" := "TikTok",
    "x_twitter" := "X",
    "google_search" := "Google",
    "civil_libertarian" := "Libertarian",
    "global_conservative" := "Conservative",
    "global_progressive" := "Progressive",
    "eu_regulator" := "EU Reg",
    "human_rights_lawyer" := "HR Lawyer",
    "journalist_press" := "Press",
    "child_safety_advocate" := "Child Safety",
    "counterterrorism_expert" := "CT Expert",
    "brand_safety_advertiser" := "Brand Safety",
    "academic_researcher" := "Academic",
    "global_south_advocate" := "Global South",
    "creator_economy" := "Creator",
    "platform_legal_counsel" := "Legal"
  ]

  /** `formatJudgeName` of the strip: the short names, else the title-cased id. */
  function ShortName(id: string): (name: string)
    ensures id in ShortNames ==> name == ShortNames[id]
    ensures id !in ShortNames ==> name == TitleCase(id) && |name| == |id|
  {
    UnknownNameIsTitleCase(ShortNames, id);
    FormatJudgeName(ShortNames, id)
  }
}
